=== FILE: README.md ===
# secops-toolkit decision logic in Dafny

This project models the deterministic core of the "configuration as code"
pipelines of the SecOps toolkit. Each pipeline compares a desired state
kept in a repository with the state a SecOps or SOAR API reports, and
decides what to create, update, recreate, activate or skip. The model keeps
those decisions and drops the SDK calls, the filesystem, YAML/CSV parsing
and logging. Remote APIs become function-typed parameters ("oracles") or
records of such functions. A write counter (`version`) stands for the
remote state wherever reads after a write must see its effect.

The modules follow the repository:

- SOAR workflow installer: `WorkflowInstaller` (install, skip/update/new
  decision, id copy, category handling), `SoarSteps` (step matching,
  relation rewriting, flattening, parameters, integration instances, block
  links) and `SoarCache` (the modification-time cache split into persisted
  rows and an overflow mapping).
- Data tables: `DataTables` (config checks, column parsing, schema and row
  comparison, the reconciliation loop and its summary).
- Parsers: `ParserModels`, `ParserUtils`, `ParserManager`, `ParserReport`
  (the `script/` pipeline) and `ParsersLegacy` (the single-file pipeline).
  `GhaEscape` is the error report both parser and dashboard pipelines use.
- Dashboards: `DashboardModels` (the `from_dict`/`to_dict` pairs),
  `DashboardManager` (chart comparison and planning) and `DashboardReport`.
- Response-as-code commands: `ResponseMain` (role translation, playbook and
  block collection, the excluded folder) and `LocalFolder`/`PosixPath` (the
  folder manager over an abstract path-to-bytes map).
- `Archiver` (the monthly export of the SecOps archiver), `DocCheck` (the
  README check), `Collectors` (test-spec expansion) and `DetectionMain` (the
  rule-name check of the detection pipeline).
- Shared: `Wrappers` (Option/Result), `JsonValue` (JSON values with
  Python's truthiness and `.get`), `Strs` (Python string operations),
  `Sorting` (a stable insertion sort standing for `sorted`), `Search` and
  `OrderedDicts` (dicts as insertion-ordered association lists).

Where the code has a defect (see Findings), the member that models it
takes a `Reading`: `AsWritten` is the program as the repository has it,
`Corrected` the evidently intended one. The commands built on such a
member take the reading too, and a lemma ending in `Readings` states how
the two programs differ. A row that describes one reading only says so.

Some behaviour of the code that the model keeps:

- The parser pipeline declares four operations, NONE, CREATE, UPDATE and
  ACTIVATE (pipelines/parsers-as-code/main.py:52-57). ACTIVATE is declared but never planned: planning
  only ever chooses NONE, CREATE or UPDATE.
- The installer prunes and pushes the cache after every skip and every
  save (pipelines/response-as-code/soar/git_sync_manager.py:519, pipelines/response-as-code/soar/git_sync_manager.py:662-676), not once before planning.
- The cached modification time is the one read back from the platform
  after the save (pipelines/response-as-code/soar/git_sync_manager.py:666-669), not the one of the stored workflow.
- The archiver's check reports failed exports as still in progress
  (blueprints/secops-archiver/source/main.py:172-175, see Findings).
- The README check labels a missing output description as a missing
  variable description (tools/check_documentation.py:113-118, see Findings).

## Model

| member | source | states |
|---|---|---|
| SoarCache.Init | pipelines/response-as-code/soar/cache.py:54-85 | without saved rows the cache is one empty row with largest index 0 and nothing indexed; otherwise the rows are the saved ones and the largest index is their count minus one; the overflow starts empty and the cache is well formed |
| SoarCache.IndexRows | pipelines/response-as-code/soar/cache.py:79-85 | every key of every row is indexed, pointing at a row that holds it and at no row earlier than any other row holding it, so the last row wins |
| SoarCache.LenCoversKeys | pipelines/response-as-code/soar/cache.py:88-98 | `len`, the overflow size plus the row sizes, never undercounts the keys iteration yields |
| SoarCache.Get | pipelines/response-as-code/soar/cache.py:110-115 | a key in the overflow reads from the overflow; an unindexed key outside it reads nothing; whatever is read is a key iteration yields |
| SoarCache.Set | pipelines/response-as-code/soar/cache.py:101-107 | an unindexed key is assigned in the overflow and the rows are untouched; an indexed key is assigned in its row; index, largest index and store are unchanged and the cache stays well formed |
| SoarCache.SetKeys | pipelines/response-as-code/soar/cache.py:93-107 | setting a key adds exactly that key to the keys iteration yields |
| SoarCache.Del | pipelines/response-as-code/soar/cache.py:118-124 | deletion raises KeyError exactly when the key reads nothing; otherwise the key reads nothing afterwards and the cache stays well formed |
| SoarCache.FilterItems | pipelines/response-as-code/soar/cache.py:126-133 | every row keeps exactly its entries whose key is in `keys`, with their values; the row count is kept and the overflow and index are untouched |
| SoarCache.FilterKeys | pipelines/response-as-code/soar/cache.py:93-133 | after pruning, iteration yields the row keys that are in `keys` plus every overflow key |
| SoarCache.MoveItem | pipelines/response-as-code/soar/cache.py:214-215 | the last entry of the source leaves it and is assigned in the destination; the combined key set is conserved, and the combined size drops by one only when the key was already in the destination |
| SoarCache.DumpLenAppend | pipelines/response-as-code/soar/cache.py:210-223 | appending an entry to a row lengthens its compact JSON dump by the quoted key, the colon and the value, plus one comma when the row already had an entry |
| SoarCache.FillLoop | pipelines/response-as-code/soar/cache.py:155-165 | the loop ends with the overflow empty or the row too long; what remains of the overflow is a prefix of it; keys are conserved; a row that was not too long takes at least one entry when there is one |
| SoarCache.FillRow | pipelines/response-as-code/soar/cache.py:155-162 | filling a row, including giving one entry back when it ends too long, conserves the combined keys and keeps both mappings free of duplicate keys |
| SoarCache.IndexesByLength | pipelines/response-as-code/soar/cache.py:150-153 | the fill order is a permutation of the row indexes, shortest dumped row first, rows of equal length in index order as the stable `sorted` leaves them |
| SoarCache.FillRows | pipelines/response-as-code/soar/cache.py:144-148 | filling the rows in the given order keeps the row count and conserves the keys of rows plus overflow |
| SoarCache.Fill | pipelines/response-as-code/soar/cache.py:140-148 | the fill pass keeps the row count, conserves keys and keeps each row of a well-formed cache free of duplicates |
| SoarCache.WriteRows | pipelines/response-as-code/soar/cache.py:167-169 | row `i` is stored under index `i`; other stored indexes keep their values |
| SoarCache.Push | pipelines/response-as-code/soar/cache.py:135-189 | with writes that succeed, a push leaves the overflow empty, keeps the index, stores every filled row under its index and keeps the cache well formed |
| SoarCache.PushKeys | pipelines/response-as-code/soar/cache.py:135-189 | a push never adds a key: the keys after the push plus those sent to new rows are the keys before it |
| SoarCache.PushStoresPending | pipelines/response-as-code/soar/cache.py:135-189 | a pending value whose key no row holds is written to some stored row by the push |
| SoarCache.PushedUnindexedForgets | pipelines/response-as-code/soar/cache.py:101-189 | with no key indexed, a pushed cache answers no key, because keys sent to new rows are not re-indexed |
| SoarCache.SetThenPushForgets | pipelines/response-as-code/soar/cache.py:101-189 | from a fresh cache, a value just set reads back, and after a push it reads nothing |
| WorkflowInstaller.IndexByName | pipelines/response-as-code/soar/git_sync_manager.py:689-700 | the listing by name holds only non-empty names, each mapped to a listed entry of that name; every listed name is present; a name listed once maps to that entry |
| WorkflowInstaller.Refresh | pipelines/response-as-code/soar/git_sync_manager.py:663-700 | re-reading the installed playbooks replaces only the listing, which then holds each named playbook of the platform under its name |
| WorkflowInstaller.Decide | pipelines/response-as-code/soar/git_sync_manager.py:500-541 | a workflow is installed as new exactly when its name is not listed, and skipped exactly when it is listed and its modification time is at most the cached one (default -1) |
| WorkflowInstaller.ConflictImpliesModified | pipelines/response-as-code/soar/git_sync_manager.py:532-541 | a conflict (the lesser of the platform and stored times above the cached one) implies the workflow was modified, so conflicts are only seen on the update path |
| WorkflowInstaller.UnindexedCacheNeverSkips | pipelines/response-as-code/soar/git_sync_manager.py:515-541 | while the cache holds nothing, no workflow with a non-negative modification time is skipped |
| WorkflowInstaller.CopyIds | pipelines/response-as-code/soar/git_sync_manager.py:845-860 | the copy succeeds exactly when both triggers are dicts (a missing one counts as empty); then id, identifier, original identifier, trigger id and identifier and both category fields come from the installed workflow and every other top-level key keeps its value |
| WorkflowInstaller.CopyIdsIdempotent | pipelines/response-as-code/soar/git_sync_manager.py:845-860 | copying the identifiers twice is copying them once |
| WorkflowInstaller.CreateCategory | pipelines/response-as-code/soar/git_sync_manager.py:862-901 | creating a category counts as a write whether or not it succeeds; a success gives the created category and drops the cached category listing; a failure gives a category without id and keeps the listing |
| WorkflowInstaller.DefineAsNew | pipelines/response-as-code/soar/git_sync_manager.py:862-901 | a new workflow fails only on a non-dict trigger; otherwise it gets a fresh identifier that is also its original identifier, trigger id 0 and a second fresh identifier for the trigger, other keys unchanged, and the category's id and name from the listing, a missing category being created first |
| WorkflowInstaller.Adopt | pipelines/response-as-code/soar/git_sync_manager.py:566-572 | matching the steps against the installed workflow only reads the platform and keeps the copied identifier fields as they were |
| WorkflowInstaller.AdjustIds | pipelines/response-as-code/soar/git_sync_manager.py:551-572 | without an installed identifier the workflow is unchanged; with one, the installed workflow's identifiers are copied and its steps matched |
| WorkflowInstaller.FilterAndPush | pipelines/response-as-code/soar/git_sync_manager.py:672-676 | after pruning and pushing, the overflow is empty, the index unchanged, and only listed names or keys that were pending remain |
| WorkflowInstaller.SaveModTime | pipelines/response-as-code/soar/git_sync_manager.py:662-670 | after a save the listing is read again and the cache keeps only listed names, the saved name and pending keys, with nothing left pending; a name held by no row and not indexed has its platform time written to a stored row, yet with an empty index the cache still answers -1 for it |
| WorkflowInstaller.Save | pipelines/response-as-code/soar/git_sync_manager.py:543-676 | a save records the workflow once, counts one write, reloads the listing and leaves the cache pushed with its index kept; with an empty index the cached time of the saved workflow stays -1 |
| WorkflowInstaller.SaveThenDecide | pipelines/response-as-code/soar/git_sync_manager.py:515-676 | with the empty index the installer always starts from, a workflow just saved and still listed is decided as an update, never skipped, whenever its modification time is non-negative |
| WorkflowInstaller.InstallNew | pipelines/response-as-code/soar/git_sync_manager.py:574-583 | a failed install saves nothing and keeps the cache; a successful one reloads the listing and prunes the cache to listed names and the saved one |
| WorkflowInstaller.UpdateLocal | pipelines/response-as-code/soar/git_sync_manager.py:543-549 | a failed update changes nothing; a successful one adjusted the identifiers, saved and reloaded the listing |
| WorkflowInstaller.InstallWorkflow | pipelines/response-as-code/soar/git_sync_manager.py:500-523 | one workflow saves at most one entry, under its own name and kind, and the cache is pruned after a successful install or skip |
| WorkflowInstaller.Run | pipelines/response-as-code/soar/git_sync_manager.py:264-269 | workflows are installed in order until the first failure; earlier saves are kept and each workflow adds at most one |
| WorkflowInstaller.RunSavesOfKind | pipelines/response-as-code/soar/git_sync_manager.py:253-269 | a run over workflows of one kind saves only workflows of that kind |
| WorkflowInstaller.FreshRunSavesEach | pipelines/response-as-code/soar/git_sync_manager.py:258-269 | from a fresh cache with non-negative modification times, a run without failure saves every workflow exactly once, in order |
| WorkflowInstaller.FirstUnknown | pipelines/response-as-code/soar/git_sync_manager.py:245-251 | no workflow is reported exactly when every environment of every workflow is known; a reported workflow names an unknown environment |
| WorkflowInstaller.OfKind | pipelines/response-as-code/soar/git_sync_manager.py:253-262 | the blocks (or the playbooks) are exactly the workflows of that kind, in their order |
| WorkflowInstaller.OfKindPartition | pipelines/response-as-code/soar/git_sync_manager.py:253-262 | blocks and playbooks together are as many as the workflows |
| WorkflowInstaller.Initial | pipelines/response-as-code/soar/git_sync_manager.py:254-256 | the installer starts with no writes and an empty modification-time cache |
| WorkflowInstaller.Passes | pipelines/response-as-code/soar/git_sync_manager.py:264-269 | every saved block precedes every saved playbook, at most one save per workflow, and the cache is left with nothing pending |
| WorkflowInstaller.PassesSaveEach | pipelines/response-as-code/soar/git_sync_manager.py:264-269 | with non-negative modification times and no failure, every block and then every playbook is saved once, in order |
| WorkflowInstaller.InstallWorkflows | pipelines/response-as-code/soar/git_sync_manager.py:236-269 | an unknown environment stops the run before any write; otherwise every saved block precedes every saved playbook |
| WorkflowInstaller.RunSavesEach | pipelines/response-as-code/soar/git_sync_manager.py:236-269 | with non-negative modification times and no failure, `install_workflows` saves every block and then every playbook exactly once, in order: nothing is skipped because the cache never answers |
| SoarSteps.Iterate | pipelines/response-as-code/soar/git_sync_manager.py:797-821 | iterating a value fails exactly for null, booleans and numbers; a list yields one item per element; strings and dicts yield nothing usable as a step; the result is empty exactly when the value is falsy |
| SoarSteps.StepList | pipelines/response-as-code/soar/git_sync_manager.py:797-821 | a falsy steps value has no steps; a list of dicts yields all of them |
| SoarSteps.Flatten | pipelines/response-as-code/soar/git_sync_manager.py:797-821 | flattening succeeds exactly when every container's children can be read, yields at least the input steps, and is the identity on lists without containers |
| SoarSteps.Expand | pipelines/response-as-code/soar/git_sync_manager.py:803-820 | a container yields its parallel actions and then itself; any other step yields itself alone |
| SoarSteps.FlattenAppend | pipelines/response-as-code/soar/git_sync_manager.py:797-821 | flattening distributes over concatenation, so steps keep their order |
| SoarSteps.FindMatch | pipelines/response-as-code/soar/git_sync_manager.py:608-615 | the match is the first installed step with that instanceName; none means no installed step has it; an error means a non-dict was reached first |
| SoarSteps.GetParam | pipelines/response-as-code/soar/git_sync_manager.py:834-842 | a parameter found is one of the step's, with that name; none found means no parameter has the name |
| SoarSteps.SetParam | pipelines/response-as-code/soar/git_sync_manager.py:823-832 | setting succeeds exactly when looking up does; a missing parameter leaves the step unchanged; otherwise only that parameter's value is replaced and the keys are kept |
| SoarSteps.SetParamKeepsOthers | pipelines/response-as-code/soar/git_sync_manager.py:823-842 | setting one parameter leaves what every other name finds unchanged |
| SoarSteps.Matching | pipelines/response-as-code/soar/git_sync_manager.py:773-795 | the candidate instances are exactly the configured instances of the step's integration |
| SoarSteps.FindInstances | pipelines/response-as-code/soar/git_sync_manager.py:773-795 | without an integration there are no instances; otherwise the environment's listing is read on first use and cached |
| SoarSteps.FirstInstance | pipelines/response-as-code/soar/git_sync_manager.py:744-795 | the instance picked is the first, among the matching configured instances, with the least instanceName |
| SoarSteps.PatchDebugData | pipelines/response-as-code/soar/git_sync_manager.py:627-636 | only `debugData` changes: it takes the installed step's original step identifier and, with an installed workflow, its original workflow identifier; falsy debug data is left alone |
| SoarSteps.Identify | pipelines/response-as-code/soar/git_sync_manager.py:617-645 | a matched step takes the installed identifier and original identifier and records the changed id, raising TypeError when the recorded identifier is a list or dict; an unmatched step without id, or in a new workflow, gets a fresh id; other fields are kept and the id map stays a renaming |
| SoarSteps.Adopt | pipelines/response-as-code/soar/git_sync_manager.py:617-622 | a matched step takes the installed step's identifier and original identifier, and a change between two truthy identifiers is recorded in the renaming; an unhashable step identifier raises TypeError instead |
| SoarSteps.Preserve | pipelines/response-as-code/soar/git_sync_manager.py:727-741 | a parameter value of the installed step is copied when it has one; otherwise the step is unchanged |
| SoarSteps.AssignInstance | pipelines/response-as-code/soar/git_sync_manager.py:721-771 | a matched step keeps the installed instance and fallback; a single specific environment gets its first instance and no fallback; any other environment set gets AutomaticEnvironment with the first shared instance as fallback |
| SoarSteps.LinkBlock | pipelines/response-as-code/soar/git_sync_manager.py:903-933 | a nested-workflow step named after an installed block points its NestedWorkflowIdentifier at that block; any other step is unchanged |
| SoarSteps.ProcessStep | pipelines/response-as-code/soar/git_sync_manager.py:602-651 | each processed step carries the workflow identifier, fresh ids only advance and the id map stays a renaming; an unhashable identifier stops it with the error identifying raises |
| SoarSteps.Decorate | pipelines/response-as-code/soar/git_sync_manager.py:647-651 | only action steps from Scripts and nested workflows change, and only in their parameters |
| SoarSteps.ProcessFlat | pipelines/response-as-code/soar/git_sync_manager.py:602-651 | every step of the loop is processed, in order |
| SoarSteps.ProcessTop | pipelines/response-as-code/soar/git_sync_manager.py:594-651 | a top-level step is processed after the parallel actions it contains, fresh ids only advance and the id map stays a renaming |
| SoarSteps.ProcessTops | pipelines/response-as-code/soar/git_sync_manager.py:594-651 | the top-level steps are processed in flattening order, each container after its parallel actions |
| SoarSteps.RenameEnds | pipelines/response-as-code/soar/git_sync_manager.py:654-660 | a relation keeps its keys; fromStep and toStep become their new identifier when renamed and stay otherwise; other fields are unchanged |
| SoarSteps.RewriteRelation | pipelines/response-as-code/soar/git_sync_manager.py:653-660 | a relation is rewritten exactly when both its ends are hashable, and then its ends are renamed; a list or dict end raises TypeError |
| SoarSteps.RewriteAll | pipelines/response-as-code/soar/git_sync_manager.py:653-660 | the relations are rewritten exactly when each is a dict with hashable ends, every one renamed in place; otherwise the first bad element stops the loop with its own error |
| SoarSteps.RewriteUnmapped | pipelines/response-as-code/soar/git_sync_manager.py:654-660 | a relation none of whose ends was renamed is left as it is |
| SoarSteps.RewriteChangesMappedEnds | pipelines/response-as-code/soar/git_sync_manager.py:617-660 | under a renaming an end changes exactly when it was renamed, and a non-empty end never becomes empty |
| SoarSteps.ProcessSteps | pipelines/response-as-code/soar/git_sync_manager.py:585-660 | the workflow keeps its keys; truthy steps are all processed in flattening order; falsy steps are left; relations are rewritten through the renaming; unhashable identifiers or relation ends fail it as the source raises |
| SoarSteps.RewriteSteps | pipelines/response-as-code/soar/git_sync_manager.py:594-651 | every top-level step is processed in order and the list is replaced only when it is truthy |
| SoarSteps.RewriteRelations | pipelines/response-as-code/soar/git_sync_manager.py:653-660 | without relations the workflow is unchanged; a list of relations is rewritten exactly when every element is a dict with hashable ends, each through the renaming the steps produced |
| GhaEscape.Escape | pipelines/parsers-as-code/main.py:87-88 | the escaped message contains no CR and no LF |
| GhaEscape.EscapeAsWrittenIsPerCharacter | pipelines/parsers-as-code/main.py:87-88 | the three successive replacements, `%` first, escape each character independently |
| GhaEscape.UnescapeEscape | pipelines/dashboards-as-code/script/utils.py:94-95 | escaping loses nothing: the original message can be read back |
| GhaEscape.ReportErrors | pipelines/parsers-as-code/main.py:78-93 | one error line per recorded error, in order, and exit status 1 exactly when there were errors |
| DataTables.MakeColumn | pipelines/detection-as-code/scripts/data_tables.py:56-63 | a column is built exactly when every field already has its declared JSON type, without coercion; the name, type and index are the values given |
| DataTables.ParseRemoteColumn | pipelines/detection-as-code/scripts/data_tables.py:199-221 | a parsed remote column comes from a dict naming its original column; its index is its position in the list unless `columnIndex` is given |
| DataTables.ParseRemoteColumns | pipelines/detection-as-code/scripts/data_tables.py:199-221 | the columns parse exactly when each does, one result per column in order |
| DataTables.ParseRemoteTable | pipelines/detection-as-code/scripts/data_tables.py:87-112 | a parsed table comes from a dict with `displayName` and a readable `columnInfo`, and carries its description and time to live |
| DataTables.ParseRemoteTables | pipelines/detection-as-code/scripts/data_tables.py:115-250 | the listing parses exactly when every table does, one result per table in order |
| DataTables.ByNameLastWins | pipelines/detection-as-code/scripts/data_tables.py:306-309 | the remote index holds every listed name, each mapped to the last table listed under it |
| DataTables.CheckEntry | pipelines/detection-as-code/scripts/data_tables.py:224-240 | an entry passes exactly when it is a dict with `columns` and no key outside description, columns, row_time_to_live and scopes; a missing `columns` is reported as such |
| DataTables.CheckConfig | pipelines/detection-as-code/scripts/data_tables.py:224-240 | the configuration passes exactly when every entry does, and a failure is the failure of some entry |
| DataTables.ValidateFiles | pipelines/detection-as-code/scripts/data_tables.py:165-179 | the files pass exactly when the configured names equal the CSV stems; missing files are reported before extra files |
| DataTables.ParseLocalColumns | pipelines/detection-as-code/scripts/data_tables.py:182-196 | a falsy column list gives no columns; a list gives one column per element, the index taken only from `column_index` |
| DataTables.LoadConfig | pipelines/detection-as-code/scripts/data_tables.py:121-162 | an empty document configures no table whatever files exist; a document that is not a mapping fails; otherwise table i is the parse of entry i, and the load succeeds exactly when the entries check, their names match the files and each entry parses |
| DataTables.RowsDifferIffMissing | pipelines/detection-as-code/scripts/data_tables.py:280-289 | the rows differ exactly when some row of one table is missing from the other, so order and duplicates do not matter |
| DataTables.SchemaIgnoresLayout | pipelines/detection-as-code/scripts/data_tables.py:369-375 | the schema ignores order, index, key flag and mapping path of the columns |
| DataTables.SchemaUnchangedMatches | pipelines/detection-as-code/scripts/data_tables.py:369-375 | an unchanged schema means every local column has a remote column with the same name and type, and the other way round |
| DataTables.MissingColumnChangesSchema | pipelines/detection-as-code/scripts/data_tables.py:369-375 | a (column, type) pair that one side lacks is a schema change |
| DataTables.Header | pipelines/detection-as-code/scripts/data_tables.py:333-336 | the header exists exactly when every column type is a known type; its names are the columns' names, and each name maps to the type of the last column with that name |
| DataTables.CreateCall | pipelines/detection-as-code/scripts/data_tables.py:328-348 | the create call is made exactly when the header exists, with the table's name and its CSV rows |
| DataTables.StepOutcome | pipelines/detection-as-code/scripts/data_tables.py:317-447 | a table's step fails only when its header is invalid on creation, or when its rows changed and the CSV has no rows |
| DataTables.Step | pipelines/detection-as-code/scripts/data_tables.py:317-413 | one table's step gets through exactly when it can and only appends calls: a new table its create call, a table whose schema changed the deletion of the remote table followed by its create call, any other table none |
| DataTables.StepMarks | pipelines/detection-as-code/scripts/data_tables.py:317-413 | a successful step lists the table as created when it is new or its schema changed, as recreated only in the latter case, as config-updated when only description or time to live changed, and as content-updated when the row sets differ; no other name is added |
| DataTables.ReconcileOutcome | pipelines/detection-as-code/scripts/data_tables.py:317-324 | the loop gets through exactly when every table's step does |
| DataTables.Reconcile | pipelines/detection-as-code/scripts/data_tables.py:317-325 | the loop only appends calls, at most two per table |
| DataTables.ReconcileCalls | pipelines/detection-as-code/scripts/data_tables.py:317-390 | a successful loop makes exactly the calls each table's step plans, table after table in configuration order |
| DataTables.ReconcileMarks | pipelines/detection-as-code/scripts/data_tables.py:317-325 | after a successful loop each table is summarised by its own comparison with its remote namesake, and by nothing else |
| DataTables.UpdateRemoteOutcome | pipelines/detection-as-code/scripts/data_tables.py:292-325 | the run succeeds exactly when the listing parses and every step can succeed; then the calls are exactly those each table plans against the remote table of its name, in order, and each table is summarised by its own comparison |
| DataTables.UpdateRemote | pipelines/detection-as-code/scripts/data_tables.py:292-325 | with no configured table nothing is listed or called and the result is empty; a listing that does not parse fails before any call; otherwise a success carries a summary |
| DataTables.StepDeletes | pipelines/detection-as-code/scripts/data_tables.py:378-390 | a successful step follows every deletion of a remote table immediately with the creation of the same name |
| DataTables.StepFailureCalls | pipelines/detection-as-code/scripts/data_tables.py:328-447 | a failed step makes no call, except that a failed recreation has already deleted the remote table |
| DataTables.ReconcileDeletes | pipelines/detection-as-code/scripts/data_tables.py:317-390 | after a successful loop every deletion is followed by the creation of the same table |
| DataTables.LoadedDistinct | pipelines/detection-as-code/scripts/data_tables.py:121-162 | the configured tables have distinct names |
| DataTables.SyncMarks | pipelines/detection-as-code/scripts/data_tables.py:292-325 | a successful run makes exactly the calls each configured table plans, in order, and summarises every configured table by its own comparison with the remote table of its name |
| DataTables.Sync | pipelines/detection-as-code/scripts/data_tables.py:121-325 | a configuration that fails to load makes no call and fails with its error; the result is empty exactly when the document configures no table |
| ParserModels.NewConfig | pipelines/parsers-as-code/script/models.py:20-26 | a new configuration has the given log type and directory and no parser or extension text |
| ParserModels.ParserStateRoundTrip | pipelines/parsers-as-code/script/models.py:28-31 | each parser state and its value convert into each other |
| ParserModels.ExtensionStateRoundTrip | pipelines/parsers-as-code/script/models.py:33-37 | each extension state (LIVE, VALIDATED, REJECTED) and its value convert into each other |
| ParserModels.ValidationStatusRoundTrip | pipelines/parsers-as-code/script/models.py:39-43 | each validation status (PASSED, FAILED, INCOMPLETE) and its value convert into each other |
| ParserModels.OperationRoundTrip | pipelines/parsers-as-code/script/models.py:45-49 | exactly NONE, CREATE and UPDATE are operations; any other value, RECREATE and ACTIVATE included, is rejected |
| ParserUtils.FilterLines | pipelines/parsers-as-code/script/utils.py:21-33 | no patterns, absent or empty, keeps every line |
| ParserUtils.KeepMembers | pipelines/parsers-as-code/script/utils.py:34-37 | a line survives exactly when it is an input line in which no pattern is found |
| ParserUtils.KeepAppend | pipelines/parsers-as-code/script/utils.py:34-37 | filtering distributes over concatenation, so surviving lines keep their input order |
| ParserUtils.KeepIdempotent | pipelines/parsers-as-code/script/utils.py:21-37 | filtering twice with the same patterns is filtering once |
| ParserUtils.DiffResult | pipelines/parsers-as-code/script/utils.py:76-80 | the result is none exactly when the diff has no `+`/`-` line; otherwise it holds only such lines of the diff |
| ParserUtils.CompareYaml | pipelines/parsers-as-code/script/utils.py:40-80 | a comparison that finds a difference reports only `+`/`-` lines |
| ParserUtils.CompareFallsBackToText | pipelines/parsers-as-code/script/utils.py:40-75 | when either file is not valid YAML, both are compared as raw text |
| ParserUtils.CompareSelf | pipelines/parsers-as-code/script/utils.py:40-80 | a file compared with itself shows no difference |
| ParserUtils.ForDumpShape | pipelines/parsers-as-code/script/utils.py:83-103 | the shape is kept: the same keys, the same list lengths, other scalars unchanged |
| ParserUtils.ForDumpBlanks | pipelines/parsers-as-code/script/utils.py:96-100 | every `collectedTimestamp`, at any depth, is blanked |
| ParserUtils.ForDumpKeepsBlanked | pipelines/parsers-as-code/script/utils.py:83-103 | a value already blanked is left exactly as it is |
| ParserUtils.ForDumpIdempotent | pipelines/parsers-as-code/script/utils.py:83-103 | applying the normalisation twice is applying it once |
| ParserManager.Discover | pipelines/parsers-as-code/script/parser_manager.py:52-81 | a missing root fails with a ParserError; otherwise discovery succeeds |
| ParserManager.DiscoverSorted | pipelines/parsers-as-code/script/parser_manager.py:52-81 | the configurations come in log-type order |
| ParserManager.DiscoverMembers | pipelines/parsers-as-code/script/parser_manager.py:52-81 | a configuration is discovered exactly when it is that of a listed directory holding a non-empty parser or extension text |
| ParserManager.ActiveContent | pipelines/parsers-as-code/script/parser_manager.py:83-102 | the active text is that of the first active custom parser carrying `cbn`, or of the first live extension carrying `cbnSnippet`; none otherwise |
| ParserManager.PlanOpIgnoresPadding | pipelines/parsers-as-code/script/parser_manager.py:117-133 | nothing is planned exactly when the stripped texts agree, and padding the local text with white space never changes the plan |
| ParserManager.PlanOpCases | pipelines/parsers-as-code/script/parser_manager.py:117-133 | CREATE exactly when no active text exists, NONE exactly when the stripped texts agree, and UPDATE exactly when they differ |
| ParserManager.PlanOne | pipelines/parsers-as-code/script/parser_manager.py:104-150 | operations are planned only for texts present locally; without a validation failure each present text gets the operation its active remote text implies; a failed event validation resets both operations to NONE and marks the entry; a failing remote read fails the entry |
| ParserManager.PlanOneUnchanged | pipelines/parsers-as-code/script/parser_manager.py:104-150 | nothing is planned and nothing validated exactly when every local text strips to its active remote text |
| ParserManager.Plan | pipelines/parsers-as-code/script/parser_manager.py:104-150 | planning succeeds exactly when every entry does, one entry per configuration in order, each the planned entry of its configuration |
| ParserManager.PlanDeployment | pipelines/parsers-as-code/script/parser_manager.py:52-150 | a failed discovery fails the plan with its error; otherwise the plan has one entry per discovered configuration, in order, each that configuration's planned entry |
| ParserManager.SubmittedName | pipelines/parsers-as-code/script/parser_manager.py:168-174 | a submission is read exactly when the response's `name` is a non-empty string; a missing or empty name raises a ParserError |
| ParserManager.ExecuteOne | pipelines/parsers-as-code/script/parser_manager.py:152-193 | a validation failure submits nothing; otherwise an entry is recorded exactly when something is submitted, holding for each submitted half the id and name its create call returned |
| ParserManager.Execute | pipelines/parsers-as-code/script/parser_manager.py:152-193 | execution succeeds exactly when every entry's submission does |
| ParserManager.ExecuteLogTypes | pipelines/parsers-as-code/script/parser_manager.py:152-193 | the k-th submitted log type is what submitting the k-th entry that submits yields, in plan order; its parser and extension ids are the last `/`-separated segment of the names the API returned |
| ParserManager.ExecuteInOrder | pipelines/parsers-as-code/script/parser_manager.py:152-193 | executing a plan yields one submission per entry that submits, the k-th being what submitting the k-th such entry yields |
| ParserManager.Verify | pipelines/parsers-as-code/script/parser_manager.py:195-213 | verification keeps one entry per planned log type |
| ParserManager.VerifySpec | pipelines/parsers-as-code/script/parser_manager.py:195-213 | verification changes only submitted log types, writing into each the statuses read back for its own submission |
| ParserManager.ActivateIfSame | pipelines/parsers-as-code/script/parser_manager.py:228-237 | a candidate is activated, under the id ending its name, exactly when its stripped text equals the local one |
| ParserManager.ActivateParserAsWritten | pipelines/parsers-as-code/script/parser_manager.py:221-237 | as written: at most one activation, for this log type; without a local parser nothing is activated and the call succeeds exactly when no passed custom candidate exists |
| ParserManager.ActivateParser | pipelines/parsers-as-code/script/parser_manager.py:221-237 | corrected: without a local parser nothing is activated; otherwise at most the first passed custom candidate is, for this log type, exactly when its stripped text equals the local one |
| ParserManager.ActivateExtensionAsWritten | pipelines/parsers-as-code/script/parser_manager.py:239-255 | as written: at most one activation, for this log type; without a local extension nothing is activated and the call succeeds exactly when no validated extension candidate exists |
| ParserManager.ActivateExtension | pipelines/parsers-as-code/script/parser_manager.py:239-255 | corrected: without a local extension or remote extensions nothing is activated; otherwise at most the first validated candidate is, for this log type, exactly when its stripped text equals the local one |
| ParserManager.ActivateParserAsWrittenCrashes | pipelines/parsers-as-code/script/parser_manager.py:222-229 | with only an extension locally and a passed custom parser remotely, the code as written fails where the corrected one skips |
| ParserManager.ActivateExtensionAsWrittenCrashes | pipelines/parsers-as-code/script/parser_manager.py:240-247 | with only a parser locally and a validated extension remotely, the code as written fails where the corrected one skips |
| ParserManager.ActivateHalvesReadings | pipelines/parsers-as-code/script/parser_manager.py:221-255 | the halves as written agree with the corrected ones exactly on log types where every missing local text has no candidate remotely |
| ParserManager.ActivateAll | pipelines/parsers-as-code/script/parser_manager.py:215-257 | in both readings, as written and corrected, the count returned is the number of activations |
| ParserManager.ActivateAllBound | pipelines/parsers-as-code/script/parser_manager.py:215-257 | in both readings, each configuration activates at most its parser and its extension, so there are at most two activations per configuration |
| ParserManager.ActivateAllLogTypes | pipelines/parsers-as-code/script/parser_manager.py:215-257 | in both readings, as written and corrected, activations are only for the log types of the configurations given |
| ParserManager.ActivateAllReadings | pipelines/parsers-as-code/script/parser_manager.py:215-257 | when every log type is safe, the source activates exactly what the corrected code does |
| ParserManager.ActivateAllUnsafeFirst | pipelines/parsers-as-code/script/parser_manager.py:215-257 | a first log type that is not safe makes the source fail there, whatever the corrected code does |
| ParserReport.LastForDistinct | pipelines/parsers-as-code/script/main.py:39 | with one submission per log type, the submission recorded for a log type is that one |
| ParserReport.IdForSubmitted | pipelines/parsers-as-code/script/main.py:39-84 | with one submission per log type, the id shown for a submitted text is the id submitted, and `N/A` when none was recorded |
| ParserReport.ParserIcon | pipelines/parsers-as-code/script/main.py:59-60 | the parser icon is a check exactly for PASSED and a cross exactly for FAILED |
| ParserReport.ExtensionIcon | pipelines/parsers-as-code/script/main.py:81-82 | the extension icon is a check exactly for VALIDATED and a cross exactly for REJECTED |
| ParserReport.SectionFor | pipelines/parsers-as-code/script/main.py:50-89 | a section shows the planned action; a validation failure wins; a submitted text shows the status read back, pending until then; anything else shows no change |
| ParserReport.EntryFor | pipelines/parsers-as-code/script/main.py:48-91 | an entry has a parser section exactly when a parser text exists locally, and an extension section exactly when an extension text does |
| ParserReport.Report | pipelines/parsers-as-code/script/main.py:36-106 | the title is the failure title exactly when there were errors, up to date exactly when nothing was submitted and nothing shown, and otherwise counts the submissions |
| ParserReport.ReportEntries | pipelines/parsers-as-code/script/main.py:42-46 | the comment lists exactly the plan entries that change something or failed validation, in log-type order |
| ParserReport.Raise | pipelines/parsers-as-code/script/main.py:166-173 | a ParserError ends the run as a reported failure with exit 1; any other exception is reported without errors before it escapes |
| ParserReport.VerifyAndDeploy | pipelines/parsers-as-code/script/main.py:137-173 | the run exits with failure exactly when the comment carries the failure title |
| ParserReport.VerifyAndDeployExit | pipelines/parsers-as-code/script/main.py:137-173 | the run fails exactly when planning or submitting raises a ParserError; a missing root fails with an empty report |
| ParserReport.ValidationFailuresOnlyReported | pipelines/parsers-as-code/script/main.py:146-153 | when every planned change failed its event validation, nothing is submitted, the run succeeds, and each such log type is listed with its sections marked |
| ParserReport.DeployedCount | pipelines/parsers-as-code/script/main.py:104-166 | a successful run's plan title counts the log types where something was submitted |
| ParserReport.ActivateParsers | pipelines/parsers-as-code/script/main.py:177-188 | in either reading, as written or corrected, the command fails exactly when activation raises a ParserError, succeeds exactly when it returns, and reports the calls activation made; as written, a first log type that is not safe never succeeds |
| ParsersLegacy.Discover | pipelines/parsers-as-code/main.py:215-254 | a missing root records one error and yields nothing |
| ParsersLegacy.FoundAllMembers | pipelines/parsers-as-code/main.py:215-254 | a parser configuration is yielded exactly for each listed name whose directory holds a readable `parser.conf`, empty or not |
| ParsersLegacy.DiscoverMembers | pipelines/parsers-as-code/main.py:215-254 | discovery yields, under `root/name`, exactly the readable parser configurations of the listed names |
| ParsersLegacy.FirstWithCbn | pipelines/parsers-as-code/main.py:170-212 | the candidate is the first entry satisfying the filter, and none when that entry lacks `cbn`, even if a later one would qualify; a listing that raises gives none |
| ParsersLegacy.PlanOp | pipelines/parsers-as-code/main.py:392-418 | without an active parser CREATE is planned; otherwise UPDATE when the stripped texts differ or decoding fails, which also records an error, and NONE otherwise |
| ParsersLegacy.PlanItem | pipelines/parsers-as-code/main.py:127-431 | an unreadable item only records its error; a change is validated: a failed validation plans NONE, marks the entry and records one error, and a pass records no error, except when the comparison could not read a file, which records one and still passes |
| ParsersLegacy.CheckErrors | pipelines/parsers-as-code/main.py:127-357 | a validation records at most one error: one on failure, none exactly on a clean pass |
| ParsersLegacy.PlanAll | pipelines/parsers-as-code/main.py:392-431 | the plan has one entry per item that could be read, in discovery order, and entry k is the entry planned for the k-th readable item |
| ParsersLegacy.FailuresRecorded | pipelines/parsers-as-code/main.py:420-440 | a failed validation always recorded an error, so an empty error list means no validation failed |
| ParsersLegacy.SubmitOne | pipelines/parsers-as-code/main.py:442-479 | a submission succeeds exactly when the returned name is a non-empty string, and its id is the last `/`-segment of that name |
| ParsersLegacy.SubmitAll | pipelines/parsers-as-code/main.py:442-479 | every entry is attempted: each one either records a submission or an error |
| ParsersLegacy.SubmitAllFrom | pipelines/parsers-as-code/main.py:442-479 | each recorded submission is the successful submission of one of the entries, under the id ending its returned name |
| ParsersLegacy.VerifyAll | pipelines/parsers-as-code/main.py:484-498 | verification changes nothing but validation statuses; a log type with no submission keeps its entry; a changed status is the stage read back for a submission of that log type; the errors are exactly one per submission whose stage could not be read |
| ParsersLegacy.StatusOf | pipelines/parsers-as-code/main.py:514-528 | a validation failure shows EVENT_VALIDATION_FAILED; otherwise the stage read back is shown, PENDING before it is read |
| ParsersLegacy.Report | pipelines/parsers-as-code/main.py:505-563 | the title is the failure title exactly when there were errors, up to date exactly when nothing was submitted or shown, and otherwise counts the submissions |
| ParsersLegacy.ReportLines | pipelines/parsers-as-code/main.py:514-528 | the report lists exactly the entries that change something or failed validation, in log-type order |
| ParsersLegacy.Finish | pipelines/parsers-as-code/main.py:78-93 | the run ends with the report of its recorded errors and exits with 1 exactly when there are some |
| ParsersLegacy.VerifyDeploy | pipelines/parsers-as-code/main.py:380-502 | the exit status is 1 exactly when errors were recorded and the comment title agrees; a client that cannot be built is the only error and no comment is written; planning errors or a failed validation submit nothing and report exactly the planning errors; a clean plan submits what `Deploy` submits for it |
| ParsersLegacy.NoSubmissionAfterPlanningErrors | pipelines/parsers-as-code/main.py:433-440 | nothing is submitted once planning recorded an error or a validation failed, and the run then fails |
| ParsersLegacy.SubmissionsPlanned | pipelines/parsers-as-code/main.py:442-475 | only entries planned as CREATE or UPDATE are submitted, each under the id its creation returned |
| ParsersLegacy.Deploy | pipelines/parsers-as-code/main.py:433-502 | the exit status is 1 exactly when errors were recorded and the comment title agrees; what is submitted is what submitting the CREATE and UPDATE entries yields; with nothing to submit no error is recorded, otherwise the errors are the submission errors followed by the verification errors |
| ParsersLegacy.ActivateOne | pipelines/parsers-as-code/main.py:586-615 | at most one outcome per log type: activation exactly when the release candidate's text matches the local one after stripping and its stage is PASSED |
| ParsersLegacy.ActivateAll | pipelines/parsers-as-code/main.py:566-628 | activation makes at most one activation or error per discovered item |
| ParsersLegacy.ActivateParsers | pipelines/parsers-as-code/main.py:566-628 | a client that cannot be built fails the command; otherwise its exit status reports the errors activation recorded |
| ParsersLegacy.ActivateAllAccounts | pipelines/parsers-as-code/main.py:586-628 | a run that exits with 0 activated every release candidate it found |
| DashboardModels.AccessOf | pipelines/dashboards-as-code/script/models.py:25-29 | an access value parses only to the member whose value it is |
| DashboardModels.AccessOfValue | pipelines/dashboards-as-code/script/models.py:25-29 | every access member's value parses back to that member |
| DashboardModels.TypeOf | pipelines/dashboards-as-code/script/models.py:31-38 | a type value parses only to the member whose value it is |
| DashboardModels.TypeOfValue | pipelines/dashboards-as-code/script/models.py:31-38 | every type member's value parses back to that member |
| DashboardModels.SourceOf | pipelines/dashboards-as-code/script/models.py:40-45 | a data-source value parses only to the member whose value it is |
| DashboardModels.SourceOfValue | pipelines/dashboards-as-code/script/models.py:40-45 | every data-source member's value parses back to that member |
| DashboardModels.OptionalMember | pipelines/dashboards-as-code/script/models.py:132-252 | a falsy value is no member; a truthy one must parse, and an unknown value raises |
| DashboardModels.TraverseListOf | pipelines/dashboards-as-code/script/models.py:134-195 | a list written item by item and read back with an inverse reader is the same list, in the same order |
| DashboardModels.OperatorRoundTrip | pipelines/dashboards-as-code/script/models.py:54-60 | reading back a written filter operator gives it back |
| DashboardModels.LayoutRoundTrip | pipelines/dashboards-as-code/script/models.py:71-84 | reading back a written chart layout gives it back |
| DashboardModels.ChartRoundTrip | pipelines/dashboards-as-code/script/models.py:95-107 | reading back a written chart configuration gives it back |
| DashboardModels.FilterRoundTrip | pipelines/dashboards-as-code/script/models.py:128-167 | reading back a written dashboard filter gives it back, its optional data source included |
| DashboardModels.DefinitionRoundTrip | pipelines/dashboards-as-code/script/models.py:178-195 | reading back a written definition gives it back, with its lists in order |
| DashboardModels.UserDataRoundTrip | pipelines/dashboards-as-code/script/models.py:204-213 | reading back written user data gives it back |
| DashboardModels.DashboardFromDict | pipelines/dashboards-as-code/script/models.py:236-253 | absent nested records are read from `{}`, a falsy type or access is no member, and an unknown one raises |
| DashboardModels.DashboardRoundTrip | pipelines/dashboards-as-code/script/models.py:236-269 | serialising a dashboard and parsing it back gives the same dashboard, field for field |
| DashboardManager.ChartsDifferentIff | pipelines/dashboards-as-code/script/dashboard_manager.py:165-179 | two charts differ exactly when they differ at a key that is not ignored; the comparison is symmetric and never finds a chart different from itself |
| DashboardManager.ChartMap | pipelines/dashboards-as-code/script/dashboard_manager.py:210-215 | on a chart list, the map exists exactly when every chart is a dict whose display name can key a dict; its keys are exactly the charts' display names, each mapped to the last chart of that name |
| DashboardManager.Updates | pipelines/dashboards-as-code/script/dashboard_manager.py:227-237 | the update list is empty exactly when no chart in both needs an update, holds only updates of local charts, and raises only for a remote chart without `name` |
| DashboardManager.DiffCharts | pipelines/dashboards-as-code/script/dashboard_manager.py:210-237 | the difference is computed exactly when the updates can be |
| DashboardManager.DiffChartsContents | pipelines/dashboards-as-code/script/dashboard_manager.py:219-226 | added charts are the local charts whose name is not remote, deleted charts the remote ones whose name is not local |
| DashboardManager.ChangedIff | pipelines/dashboards-as-code/script/dashboard_manager.py:219-239 | something changed exactly when the chart names differ or a chart in both differs |
| DashboardManager.PlanDashboard | pipelines/dashboards-as-code/script/dashboard_manager.py:199-249 | a dashboard whose name is not remote plans CREATE; an existing one plans UPDATE under the last `/`-segment of the remote name |
| DashboardManager.UpdateOnlyOnChartChanges | pipelines/dashboards-as-code/script/dashboard_manager.py:239-247 | an existing dashboard is planned exactly when its charts changed; its own fields never cause an update |
| DashboardManager.ComputeOperations | pipelines/dashboards-as-code/script/dashboard_manager.py:181-249 | planning succeeds exactly when every dashboard's does; every dashboard with an operation is listed with it, nothing else is, and the list follows the local order |
| DashboardManager.CreateWhenAbsent | pipelines/dashboards-as-code/script/dashboard_manager.py:201-206 | a local dashboard whose name is not remote is planned as CREATE |
| DashboardManager.AllCreateWithoutRemote | pipelines/dashboards-as-code/script/dashboard_manager.py:181-206 | with no remote dashboards every local dashboard is planned as CREATE |
| DashboardManager.LoadFile | pipelines/dashboards-as-code/script/dashboard_manager.py:130-161 | a file loads exactly when its first dashboard definition has a `dashboard` entry whose `displayName` is a string and whose chart layout can be read; the loaded dashboard is that definition's dashboard, charts and queries, named by its `displayName` |
| DashboardManager.FetchChart | pipelines/dashboards-as-code/script/dashboard_manager.py:92-105 | a reference fails exactly when its chart path is truthy and not a string; it yields the chart exactly when the API returns one for the path's last segment, and nothing otherwise |
| DashboardManager.FetchCharts | pipelines/dashboards-as-code/script/dashboard_manager.py:89-105 | the charts are fetched exactly when no reference fails, and a chart is in the list exactly when some reference yields it |
| DashboardManager.LoadLocal | pipelines/dashboards-as-code/script/dashboard_manager.py:122-163 | a missing directory gives nothing; otherwise the names are distinct and exactly those of files that load |
| DashboardManager.FetchOne | pipelines/dashboards-as-code/script/dashboard_manager.py:69-112 | a dashboard without a display name, or a curated one, is skipped; an eligible one with a list or dict name raises; any other one is collected under its string display name |
| DashboardManager.Collect | pipelines/dashboards-as-code/script/dashboard_manager.py:64-113 | the collected dashboards have distinct names, exactly the listed eligible ones |
| DashboardManager.ListRemote | pipelines/dashboards-as-code/script/dashboard_manager.py:48-120 | the remote dashboards have distinct names, and a failing listing gives none |
| DashboardManager.ApplyCalls | pipelines/dashboards-as-code/script/dashboard_manager.py:268-300 | deletions are exactly the updated dashboards and imports exactly the planned ones; every delete is immediately followed by the import of the same update |
| DashboardReport.ReportLinesSpec | pipelines/dashboards-as-code/script/utils.py:45-51 | one line per plan entry, naming its dashboard and operation, in name order |
| DashboardReport.PrComment | pipelines/dashboards-as-code/script/utils.py:55-64 | errors always give the failed title; an empty plan without errors is up to date with the fixed body; any other plan reports its number of entries |
| DashboardReport.ErrorLinesReadBack | pipelines/dashboards-as-code/script/utils.py:85-100 | each error is written escaped so that it reads back exactly, and the exit status is 1 exactly when there were errors |
| ResponseMain.Matches | pipelines/response-as-code/main.py:75-77 | one input role contributes at most as many ids as there are SOC roles |
| ResponseMain.MatchesAppend | pipelines/response-as-code/main.py:75-77 | the ids matched against two runs of SOC roles are those of the first run followed by those of the second, so ids come in SOC order |
| ResponseMain.TranslateMembers | pipelines/response-as-code/main.py:71-80 | a translated role is exactly what some SOC role whose name matches some input role contributes; names no SOC role carries are dropped |
| ResponseMain.MatchesUnique | pipelines/response-as-code/main.py:75-77 | with unique role names, a matched role is translated by exactly one SOC role |
| ResponseMain.TranslateRoundTrip | pipelines/response-as-code/main.py:71-155 | translating names to ids and back gives the input roles that some SOC role carries: with unique names and ids, sync and pull are inverse on the known roles |
| ResponseMain.TranslateTemplate | pipelines/response-as-code/main.py:71-79 | a template is translated exactly when it is a dict whose `roles` can be iterated; a missing `roles` raises KeyError; every other key keeps its value |
| ResponseMain.TemplateRoundTrip | pipelines/response-as-code/main.py:71-154 | a template whose roles are a list comes back from sync then pull with the known roles and nothing else changed |
| ResponseMain.TranslatePlaybook | pipelines/response-as-code/main.py:69-80 | a playbook is translated exactly when all its templates are; only its templates change |
| ResponseMain.AddBlock | pipelines/response-as-code/main.py:88-92 | a block is handled exactly when it is a dict whose name can key a dict; a name already collected leaves the collection as it was; a new name adds the repository's playbook of that name under the playbook's own name, and nothing when there is none |
| ResponseMain.SyncPlaybooks | pipelines/response-as-code/main.py:62-94 | the installer gets one playbook per name; without blocks, the names are exactly the repository's and each is the last translated playbook of that name; with blocks fetched faithfully, every repository name is present with that same playbook |
| ResponseMain.SyncDistinct | pipelines/response-as-code/main.py:85-94 | the playbooks handed over have distinct names, each the collection's value for its name, and cover every collected name |
| ResponseMain.SyncWithoutBlocks | pipelines/response-as-code/main.py:62-94 | without blocks, the playbooks handed over are named exactly as the repository's, each the last translated playbook of its name |
| ResponseMain.SyncWithBlocks | pipelines/response-as-code/main.py:62-94 | with blocks fetched faithfully, blocks never displace a repository playbook: each repository name is handed over with the last translated playbook of that name |
| ResponseMain.CollectNamed | pipelines/response-as-code/main.py:79-92 | the collection stays a dict whose every playbook is stored under its own name |
| ResponseMain.Collect | pipelines/response-as-code/main.py:66-92 | a successful collection translated every repository playbook |
| ResponseMain.CollectWithoutBlocks | pipelines/response-as-code/main.py:66-85 | without blocks the collection fails exactly when a translation fails, and is the dict of the translated playbooks by name |
| ResponseMain.LaterPlaybookWins | pipelines/response-as-code/main.py:85 | without blocks each name holds the last playbook given that name, and the names are exactly the playbooks' names |
| ResponseMain.AddBlocksKeeps | pipelines/response-as-code/main.py:87-92 | adding blocks never replaces a playbook already collected |
| ResponseMain.CollectedNames | pipelines/response-as-code/main.py:85-92 | every collected name is a repository playbook's or, only when blocks are included, that of a block one of them involves |
| ResponseMain.BlocksNeverDisplace | pipelines/response-as-code/main.py:85-92 | with blocks included and a repository that returns playbooks under the name asked, every repository name still holds its last playbook |
| ResponseMain.FindInstalled | pipelines/response-as-code/main.py:163-165 | the entry found is the first installed dict with that name; none found means no entry has it; a non-dict reached first raises |
| ResponseMain.PushBlock | pipelines/response-as-code/main.py:162-174 | a block missing from the installed listing is skipped; a block found installed is pushed as the playbook fetched under its identifier, and a failed fetch is an API error |
| ResponseMain.PushBlocks | pipelines/response-as-code/main.py:162-174 | every block pushed is a block of the installed listing, fetched under its identifier |
| ResponseMain.PullOne | pipelines/response-as-code/main.py:124-174 | a playbook whose category contains the excluded folder is skipped; a category `in` cannot search raises; otherwise the playbook is pushed translated back to role names, before its blocks |
| ResponseMain.PullEntries | pipelines/response-as-code/main.py:124-174 | every pushed playbook comes from an installed playbook outside the excluded folder, every such playbook is pushed, and blocks are pushed only when enabled and installed |
| ResponseMain.PullPlaybooks | pipelines/response-as-code/main.py:103-174 | pulling pushes exactly the translated installed playbooks outside the excluded folder, and installed blocks only when blocks are included |
| LocalFolder.MakeDirs | pipelines/response-as-code/soar/local_folder_manager.py:213-214 | creating a directory fails exactly when it or a directory above it is a file, and otherwise adds it and every directory above it |
| LocalFolder.ApplyWrite | pipelines/response-as-code/soar/local_folder_manager.py:212-225 | one write changes only its own location, which then holds the written bytes, and adds only directories above it |
| LocalFolder.LastWriteWins | pipelines/response-as-code/soar/local_folder_manager.py:180-236 | a file written at a location holds the bytes of the last write to that location, when nothing is in its way |
| LocalFolder.Accept | pipelines/response-as-code/soar/local_folder_manager.py:180-210 | an entry is accepted exactly when its path and content have the right types, the path is not empty and its normal form does not escape; it is written at that normal form |
| LocalFolder.AcceptedNames | pipelines/response-as-code/soar/local_folder_manager.py:199-210 | an accepted path is `.` or plain names separated by single slashes, none of them `..` |
| LocalFolder.Writes | pipelines/response-as-code/soar/local_folder_manager.py:180-236 | every write lands inside the target directory |
| LocalFolder.WritesMembers | pipelines/response-as-code/soar/local_folder_manager.py:180-236 | skipped entries write nothing and every accepted entry is written at its normal form |
| LocalFolder.WritesInOrder | pipelines/response-as-code/soar/local_folder_manager.py:180-236 | the k-th write is that of the k-th accepted entry, so the writes follow the entries' order |
| LocalFolder.Prepare | pipelines/response-as-code/soar/local_folder_manager.py:108-177 | without a base path nothing is prepared; with one and replacement, an existing file in the target's place raises |
| LocalFolder.Target | pipelines/response-as-code/soar/local_folder_manager.py:108-116 | the target is a list of plain names, and an absolute base path is the target whatever the working directory |
| LocalFolder.UpdateObjects | pipelines/response-as-code/soar/local_folder_manager.py:67-239 | with a base path and replacement, a file in the target's place raises; without a base path the update succeeds; without replacement no existing file is deleted |
| LocalFolder.UpdateKeepsOutside | pipelines/response-as-code/soar/local_folder_manager.py:67-239 | files outside the target directory are never touched |
| LocalFolder.UpdateKeepsFiles | pipelines/response-as-code/soar/local_folder_manager.py:108-177 | without a base path, or without replacement, no existing file is deleted |
| LocalFolder.UpdateReplaces | pipelines/response-as-code/soar/local_folder_manager.py:110-236 | with a base path and replacement, every file left inside the target directory was written by this call |
| LocalFolder.ReplaceWritesEach | pipelines/response-as-code/soar/local_folder_manager.py:110-236 | with a base path and replacement, every accepted entry with nothing in its way ends up in the target directory with the bytes of its last write |
| LocalFolder.KeepWritesEach | pipelines/response-as-code/soar/local_folder_manager.py:108-236 | without a base path, or without replacement, every accepted entry with nothing in its way ends up in the target directory with the bytes of its last write |
| LocalFolder.DeleteResolved | pipelines/response-as-code/soar/local_folder_manager.py:443-459 | a path that does not exist is reported deleted without change |
| LocalFolder.RemoveTree | pipelines/response-as-code/soar/local_folder_manager.py:443-459 | removing a path drops exactly the files and directories at or under it, the root directory excepted, and keeps every other file's bytes |
| LocalFolder.DeletePathAsWritten | pipelines/response-as-code/soar/local_folder_manager.py:433-441 | as written, the guard refuses `""`, `.` and the separator only when the resolved path equals the working directory, and every other call deletes the resolved path |
| LocalFolder.DeleteSlashEmptiesRoot | pipelines/response-as-code/soar/local_folder_manager.py:433-459 | with working directory `/work`, deleting `/` as written passes the guard and empties the whole filesystem, working directory included |
| LocalFolder.DeletePath | pipelines/response-as-code/soar/local_folder_manager.py:422-459 | the corrected deletion refuses `""`, `.` and the separator, and otherwise deletes the resolved path |
| LocalFolder.DeletePathRemovesExactly | pipelines/response-as-code/soar/local_folder_manager.py:443-459 | a deletion past the guard leaves exactly the files outside the deleted path, unchanged, and reports success unless it reached the root |
| LocalFolder.ListAllFiles | pipelines/response-as-code/soar/local_folder_manager.py:338-370 | a sub-path that is not a directory lists nothing, and only existing files are listed |
| LocalFolder.ListAfterReplace | pipelines/response-as-code/soar/local_folder_manager.py:338-370 | after replacing the contents of a base path, listing it shows only files this call wrote |
| PosixPath.Join | pipelines/response-as-code/soar/local_folder_manager.py:212-213 | joining an absolute path discards what comes before it |
| PosixPath.NormPathRelative | pipelines/response-as-code/soar/local_folder_manager.py:199-210 | a relative path normalises to `.` or to plain names separated by single slashes, with `..` only at the front |
| PosixPath.NotEscapingIsConfined | pipelines/response-as-code/soar/local_folder_manager.py:202-210 | a normalised path the guard lets through has no `..` component |
| PosixPath.ConfinedNames | pipelines/response-as-code/soar/local_folder_manager.py:199-225 | the names of a path the guard lets through never include `..`, and are exactly its components unless it is `.` |
| Strs.StripIsTrimmedSlice | pipelines/parsers-as-code/script/parser_manager.py:128-131 | `strip` gives the slice of the text between its leading and its trailing white space |
| Strs.StripIdempotent | pipelines/parsers-as-code/script/parser_manager.py:128-131 | stripping twice is stripping once |
| Strs.StripPadded | pipelines/parsers-as-code/script/parser_manager.py:128-131 | white space around a text does not change what `strip` keeps |
| Strs.Split | blueprints/secops-archiver/source/main.py:98-138 | splitting on one character gives pieces free of it that join back to the input |
| Strs.SplitJoin | blueprints/secops-archiver/source/main.py:98-138 | splitting undoes joining when no piece contains the separator |
| Strs.LastSegment | pipelines/parsers-as-code/script/parser_manager.py:173 | the text after the last separator contains no separator, and is the whole text when there is none |
| Strs.LastSegmentIsSuffix | pipelines/parsers-as-code/script/parser_manager.py:173 | the last piece is the longest separator-free suffix of the text |
| Strs.ReplaceAll | pipelines/detection-as-code/scripts/main.py:47 | a text without the pattern is left unchanged |
| Strs.CaseFold | pipelines/detection-as-code/scripts/main.py:56 | folding keeps the length and lower-cases each character |
| Strs.ContainsIffOccurs | pipelines/response-as-code/main.py:125 | the substring test succeeds exactly when the pattern occurs at some position |
| Sorting.SortSorted | pipelines/parsers-as-code/script/parser_manager.py:59 | sorting orders its input |
| Sorting.SortFixesSorted | tools/check_documentation.py:120-134 | a list already in order is left as it is |
| Sorting.SortedIffFixed | tools/check_documentation.py:120-134 | a list equals its sorted copy exactly when it is in order |
| Sorting.SortHeadIsFirstMinimal | pipelines/response-as-code/soar/git_sync_manager.py:788-795 | the head of a stable sort is the earliest of the least elements |
| Sorting.SortBy | pipelines/parsers-as-code/script/parser_manager.py:59 | sorting keeps the length and the elements, as a permutation |
| Sorting.SortTiesAscend | pipelines/response-as-code/soar/cache.py:150-153 | sorting distinct increasing indexes keeps those with equal keys in their original order: the sort is stable |
| Search.FirstWhereIsFirst | pipelines/response-as-code/soar/git_sync_manager.py:608-615 | the scan finds the first position satisfying the condition, and only it |
| Search.FirstWhere | pipelines/response-as-code/soar/git_sync_manager.py:608-615 | the position found holds the first element satisfying the condition; none means no element does |
| Search.FilterMembers | pipelines/parsers-as-code/script/utils.py:34-37 | an element is kept exactly when it is in the input and satisfies the condition |
| OrderedDicts.LookupPut | pipelines/response-as-code/main.py:85 | after assigning a key, it reads the value assigned and every other key reads as before |
| OrderedDicts.LookupFromPairs | pipelines/response-as-code/main.py:85 | each key of a dict built from pairs holds the last value given for it |
| OrderedDicts.ValuesOutsideMembers | pipelines/dashboards-as-code/script/dashboard_manager.py:219-226 | a value is kept exactly when its key is outside the given keys |
| Archiver.DaysInMonth | blueprints/secops-archiver/source/main.py:201 | a month has 28 to 31 days, and 29 exactly in February of a leap year |
| Archiver.AddMonths | blueprints/secops-archiver/source/main.py:198-201 | adding months moves the month index by that many and clamps the day; the result is no date exactly when the year leaves 1 to 9999 |
| Archiver.PrevDay | blueprints/secops-archiver/source/main.py:201 | the previous day is a valid date, and there is none only before 1 January of year 1 |
| Archiver.StampRoundTrip | blueprints/secops-archiver/source/main.py:69-133 | a formatted timestamp is read back as the same timestamp |
| Archiver.ParseMonth | blueprints/secops-archiver/source/main.py:120-195 | a parsed month is the first day of a valid month |
| Archiver.MonthRoundTrip | blueprints/secops-archiver/source/main.py:230-234 | the current month, formatted, is read back as the first of that month |
| Archiver.MonthWindowSpan | blueprints/secops-archiver/source/main.py:200-202 | the window runs from the first to the last day of the month, leap years included; only December 9999 has none |
| Archiver.WindowStampsSpan | blueprints/secops-archiver/source/main.py:200-206 | the strings name 00:00:00 of the first day and 23:59:59 of the last day, and `trigger_export` reads them back as such |
| Archiver.PyInt | blueprints/secops-archiver/source/main.py:86-148 | `int()` of an integer is that integer, and of null, a list or a dict raises |
| Archiver.OverLimit | blueprints/secops-archiver/source/main.py:86-102 | a response without an estimated volume is within the limit; an integer volume is over it exactly when above 99,000,000,000,000 |
| Archiver.Request | blueprints/secops-archiver/source/main.py:77-109 | a failed request, or a volume over the limit, ends the run with an export error |
| Archiver.TriggerExport | blueprints/secops-archiver/source/main.py:48-111 | timestamps that do not parse raise; no log types exports everything and returns its one export id; a list of log types returns no id |
| Archiver.LookBackAsWritten | blueprints/secops-archiver/source/main.py:43-198 | as written, a MONTHS_TO_LOOK_BACK setting is a string that the month arithmetic rejects; only the default of 11 works |
| Archiver.LookBack | blueprints/secops-archiver/source/main.py:43-198 | the corrected setting converts its string with `int()`, failing only when that fails |
| Archiver.LookBackSetting | blueprints/secops-archiver/source/main.py:43-198 | a numeric setting makes the code as written fail, where the corrected one uses that number |
| Archiver.ExportMonth | blueprints/secops-archiver/source/main.py:189-198 | the month exported is the one given when it parses; without one, the source raises for any MONTHS_TO_LOOK_BACK setting and takes 11 months before today without a setting, while the corrected code goes back the setting's number of months |
| Archiver.ExportMonthReadings | blueprints/secops-archiver/source/main.py:43-198 | the source picks the month the corrected code picks, except that without a given month any setting makes it raise |
| Archiver.TriggerExportAction | blueprints/secops-archiver/source/main.py:182-208 | in either reading, a month that cannot be chosen fails the action; otherwise the export covers that month's window |
| Archiver.TriggerReadings | blueprints/secops-archiver/source/main.py:43-208 | without a MONTHS_TO_LOOK_BACK setting the source's action is the corrected one |
| Archiver.Classify | blueprints/secops-archiver/source/main.py:140-166 | each listed export is read again; a finished export counts when it succeeded, running and failed exports set their flags, and any other stage raises |
| Archiver.CheckAllSpec | blueprints/secops-archiver/source/main.py:140-166 | after the loop, the log types left are those no successful export included, and each flag is set exactly when some export was in that state |
| Archiver.CheckAllStops | blueprints/secops-archiver/source/main.py:140-166 | the loop stops at the first export that raises, with its error |
| Archiver.CheckAll | blueprints/secops-archiver/source/main.py:140-166 | the loop gets through exactly when every export can be classified; it only removes log types from those left and never clears a flag |
| Archiver.VerdictAsWritten | blueprints/secops-archiver/source/main.py:168-179 | as written, the check succeeds exactly when no log type is left, and failed exports are reported as still in progress |
| Archiver.Verdict | blueprints/secops-archiver/source/main.py:168-179 | corrected, with a type left, running exports are reported as in progress, failed ones as failed, and otherwise the types left are reported |
| Archiver.FailedReportedInProgress | blueprints/secops-archiver/source/main.py:173-175 | with a log type left and only failed exports, the code as written reports the export as still in progress |
| Archiver.CheckListed | blueprints/secops-archiver/source/main.py:131-179 | in either reading, a successful check classified every listed export, and an export that cannot be classified fails the check with its error |
| Archiver.CheckListedReadings | blueprints/secops-archiver/source/main.py:168-179 | the source's check is the corrected one with ExportsFailed reported as StillInProgress |
| Archiver.CheckListedSpec | blueprints/secops-archiver/source/main.py:131-179 | in the corrected reading, the check succeeds exactly when every listed export can be read and every requested log type was included by a successful export, reports running exports first and failed ones next; the source succeeds exactly when the corrected check does |
| Archiver.CheckMonthlyExport | blueprints/secops-archiver/source/main.py:114-179 | in either reading, a month that is not a string crashes, one that does not parse exits with an invalid-month error, and otherwise the listed exports are checked against the requested log types |
| Archiver.CheckMonthlyReadings | blueprints/secops-archiver/source/main.py:114-179 | the source's check succeeds exactly when the corrected one does |
| Archiver.Main | blueprints/secops-archiver/source/main.py:211-240 | in either reading, a body that is not JSON exits with an invalid-payload error; otherwise the answer is "Success." or the unknown-action message |
| Archiver.MainReadings | blueprints/secops-archiver/source/main.py:211-240 | without a MONTHS_TO_LOOK_BACK setting, the source answers exactly when the corrected code does, with the same answer |
| Archiver.MainDispatch | blueprints/secops-archiver/source/main.py:223-240 | in either reading, main answers "Success." exactly when the selected action returns, and a check without a month checks the current month |
| DocCheck.FailedIff | tools/check_documentation.py:35-50 | a state is failed exactly when it is neither SKIP nor OK, and distinct states have distinct values |
| DocCheck.Label | tools/check_documentation.py:52-66 | every state has a two-character label |
| DocCheck.LabelsDistinct | tools/check_documentation.py:52-66 | distinct states have distinct labels |
| DocCheck.NamesFrom | tools/check_documentation.py:87-88 | the names kept are exactly those of the items declared in the file with that suffix |
| DocCheck.InOrderIff | tools/check_documentation.py:120-134 | a list equals its sorted copy exactly when each name is at most the next |
| DocCheck.Cascade | tools/check_documentation.py:72-155 | a README without markers gets no state; any other gets a state other than SKIP |
| DocCheck.CheckAsWritten | tools/check_documentation.py:72-155 | as written: a README gets a state exactly when it has markers, FAIL_OUTPUT_DESCRIPTION never occurs, and described variables with undescribed outputs are labelled as undescribed variables unless the README or its table of contents is stale |
| DocCheck.Check | tools/check_documentation.py:72-155 | corrected: a README gets a state exactly when it has markers, an undescribed-variable state means some variable lacks a description, and an undescribed-output state means the variables are described and some output is not |
| DocCheck.Relabel | tools/check_documentation.py:113-118 | the relabelling maps FAIL_OUTPUT_DESCRIPTION to FAIL_VARIABLE_DESCRIPTION, keeps every other state and whether a state is a failure |
| DocCheck.CheckReadings | tools/check_documentation.py:113-118 | the source's state for a README is the corrected state relabelled |
| DocCheck.SortedRules | tools/check_documentation.py:120-134 | the ordering checks hold exactly when the variable and output names are sorted |
| DocCheck.CheckOkIff | tools/check_documentation.py:90-157 | a README with markers is OK exactly when it passes every check, in the corrected reading |
| DocCheck.CheckFirstBroken | tools/check_documentation.py:90-155 | a README that fails a check gets the state of the first check it fails, in the corrected reading |
| DocCheck.OutputDescriptionMislabelled | tools/check_documentation.py:113-118 | as written, outputs without a description give FAIL_VARIABLE_DESCRIPTION, and FAIL_OUTPUT_DESCRIPTION never occurs |
| DocCheck.CheckDir | tools/check_documentation.py:69-157 | in either reading, at most one result per README |
| DocCheck.CheckDirResults | tools/check_documentation.py:72-81 | in either reading, a README gets a result exactly when its absolute location does not contain `.terraform` and it carries a marker, and the result is that reading's check of it |
| DocCheck.CheckDirReadings | tools/check_documentation.py:69-157 | the source's directory results are the corrected ones with each state relabelled |
| DocCheck.AllResultsReadings | tools/check_documentation.py:167-190 | the same holds for the results of all directories |
| DocCheck.Main | tools/check_documentation.py:167-190 | in either reading, the run exits with an error exactly when some path was collected as failed; the summary lists every result with its label when asked |
| DocCheck.FailedPathsSpec | tools/check_documentation.py:171-190 | a path is listed as failed exactly when one of its results failed |
| DocCheck.FailedPathsRelabel | tools/check_documentation.py:171-190 | relabelling the results changes no failed path |
| DocCheck.MainFailsIff | tools/check_documentation.py:167-190 | the run fails exactly when some result failed |
| DocCheck.MainReadings | tools/check_documentation.py:167-190 | the source reports the same failed paths and exit status as the corrected code, and its summary shows the corrected results relabelled |
| Collectors.Suffix | tests/collectors.py:123-124 | a suffix is empty or a dot-led proper ending of the name |
| Collectors.IsTestSpecIff | tests/collectors.py:121-124 | a file is collected exactly when its name starts with `tftest` and its suffix is `.yaml` |
| Collectors.ItemsFor | tests/collectors.py:79-87 | one item per inventory, each with a one-element inventory list |
| Collectors.TestItems | tests/collectors.py:73-87 | a test whose spec is neither null nor a mapping crashes; the variable files are the common ones, the test's own file and the spec's, in that order |
| Collectors.NullTestIsEmpty | tests/collectors.py:74 | a null test expands like an empty one |
| Collectors.DefaultInventoryItem | tests/collectors.py:77-87 | without an inventory a test has one item, named after the test, whose inventory is the YAML file named after it |
| Collectors.SeveralInventories | tests/collectors.py:79-87 | a list of several inventories gives one item per entry, each named with its index |
| Collectors.ExpandTests | tests/collectors.py:73-87 | no tests give no items, and every item carries the spec's module |
| Collectors.Collect | tests/collectors.py:39-87 | an unreadable spec, and a mapping without `module`, fail with their own messages; an empty or non-mapping top level makes `raw.pop('module')` raise an error neither handler catches; every item carries the module |
| Collectors.ExpandTestsCount | tests/collectors.py:73-87 | a spec expands only when each of its tests does, into as many items as its tests expand to together |
| Collectors.ExpandTestsAppend | tests/collectors.py:73-87 | two runs of tests expand exactly when both do, into the items of the first followed by those of the second, so items follow the tests' order |
| DetectionMain.FileRuleName | pipelines/detection-as-code/scripts/main.py:47 | the rule name a path implies contains no `/` |
| DetectionMain.FileRuleNameOfPath | pipelines/detection-as-code/scripts/main.py:46-47 | a file `dir/stem.yaral` names the rule `stem`, whatever its directories are called |
| DetectionMain.NameAtMatches | pipelines/detection-as-code/scripts/main.py:53-54 | what the scan at a position captures is a match of `rule\s+([a-zA-Z0-9_]+)\s+{` there |
| DetectionMain.MatchIsFound | pipelines/detection-as-code/scripts/main.py:53-54 | every match of the pattern at a position is what the scan there captures |
| DetectionMain.SearchFromLeftmost | pipelines/detection-as-code/scripts/main.py:53-54 | a search that finds a name finds the capture at the leftmost matching position |
| DetectionMain.RuleNameIsLeftmostMatch | pipelines/detection-as-code/scripts/main.py:53-55 | no name is found exactly when the pattern matches nowhere; a name found is the identifier of the leftmost match |
| DetectionMain.Step | pipelines/detection-as-code/scripts/main.py:53-78 | one file passes exactly when its names are coherent and its validation succeeds, once a rule name has been bound; an incoherent name exits before validation |
| DetectionMain.Loop | pipelines/detection-as-code/scripts/main.py:45-78 | once `rule_name` is bound the loop cannot raise NameError, and it stops only at one of its own files |
| DetectionMain.VerifyRulesAsWritten | pipelines/detection-as-code/scripts/main.py:41-79 | as written: a first file without a rule declaration ends the command in NameError, and any stop is at one of the files |
| DetectionMain.VerifyRules | pipelines/detection-as-code/scripts/main.py:41-79 | corrected: the command never raises NameError, and an exit with status 1 names one of the files |
| DetectionMain.VerifyRulesSpec | pipelines/detection-as-code/scripts/main.py:46-80 | the corrected command never fails on an unbound name, finishes exactly when every file is coherent and valid, and otherwise stops at the first file that is not, for the first reason |
| DetectionMain.AsWrittenDiffers | pipelines/detection-as-code/scripts/main.py:53-78 | the command as written differs from the corrected one only when the first file declares no rule name: then it dies with NameError |
| DetectionMain.NoMatchFirstCrashes | pipelines/detection-as-code/scripts/main.py:61-62 | a single rule file without a rule declaration ends the command as written in NameError instead of validating it |

## Left out

- Remote clients (the SecOps/Chronicle client, the SOAR API client, the git content manager) are oracles over a write counter; their own behaviour, retries and exceptions other than those the code catches are not modelled.
- The workflow class is not part of this model: `install_workflows` processes workflows in the order given, without the `list(set(...))` de-duplication and reordering, whose hash and equality are not visible (pipelines/response-as-code/soar/git_sync_manager.py:251-256).
- Integration, connector, job and mapping installers, the marketplace cache and README generation (pipelines/response-as-code/soar/git_sync_manager.py:120-484) are API plumbing and templating; integration versions are read as floats and compared (pipelines/response-as-code/soar/git_sync_manager.py:205,458-484), which is not modelled.
- JSON equality is structural: Python's `1 == True` (and the hashing that goes with it) is not modelled, except where dashboard keys are normalised.
- JSON numbers are integers in this model: the `Json` type has no floating-point case, so a float in a payload, a listing or a configuration is not modelled.
- A partial push before an error is not modelled: a remote call that fails ends the operation, and the writes before it are counted but not replayed.
- The cache's row store is an abstract map; its writes always succeed, as the stub in the code never raises (pipelines/response-as-code/soar/cache.py:191-199).
- YAML, CSV and JSON parsing and dumping, `difflib` and base64 decoding are oracles or typed inputs; a malformed file is an error value. Pydantic validation is modelled as a strict type check of each field.
- The parser events validation (`_validate_parser_events`) of the `script/` pipeline is an oracle that passes or raises a validation error; in the single-file pipeline it is an oracle that fails with one error, passes cleanly, or passes after recording the one error of a comparison that could not read a file (pipelines/parsers-as-code/main.py:127-141,345-346).
- Markdown rendering of the pull-request comments, GITHUB_OUTPUT appends, logging and printed summaries are left out; the report is modelled as structured content.
- `time.sleep`, `uuid4` and `date.today` are parameters: a fresh-id supply and an explicit current date.
- The tenant blueprint functions (HTTP pagination, Pub/Sub, futures), the dashboards command-line wrappers and the config modules hold no decision logic and are not part of this model.
- ResponseMain.PullOne: the code assigns the translated templates to `playbook.overview_templates`, a different attribute from the `overviewTemplates` it read (pipelines/response-as-code/main.py:155); the roles still change through the in-place mutation of each template dict, so the model treats the pull as translating the templates.
- ResponseMain.BlocksNeverDisplace: holds for a repository that returns a playbook only under the name asked for (`FaithfulFetch`), which the git content manager is assumed to do.
- `README_ADDON` metadata and the root README update of the pull command (pipelines/response-as-code/main.py:132-137,176) are left out as templating.
- Role records are assumed to carry `id` and `name`; a roles value that is a non-empty dict makes the translation an error value rather than iterating its keys.
- `get_file_objects_from_path`, `get_file_contents_from_path`, `path_exists`, `is_directory`, `is_file` and `log_listed_files` (pipelines/response-as-code/soar/local_folder_manager.py:241-336,372-420,461-488) are queries over the real filesystem; symlinks, permissions and `os.walk` order are not modelled, and listed files are returned as absolute paths rather than relative ones.
- Archiver: the `main_cli` command (blueprints/secops-archiver/source/main.py:241-284) and logging are left out; `%Y` is taken to pad years below 1000 to four digits; `int()` on strings with surrounding white space or underscores is not modelled; `strptime` is fed only the stamps the code formats, so single-digit stamp fields are not modelled; the export client is an oracle.
- DocCheck: the tfdoc generator's output is an input; the directory walk order is taken as given (the code sorts it); the diff text of a failure is not modelled.
- Collectors: an inventory given as a dict, and a name formatted from a list or dict, give the error value `Unmodelled`; the items yielded before an error are not modelled; `runtest` and `reportinfo` run terraform and are left out.
- Strs.CaseFold: folds ASCII letters only; Unicode case folding is not modelled.
- Strs.ReplaceAll: its contract states only that a text without the pattern is unchanged; the effect on rule paths is proved through `DetectionMain.FileRuleNameOfPath`.
- LocalFolder.Target: `..` and `.` are resolved lexically; the operating system resolves `..` after following the directories named before it, so a base path through a missing directory or a symbolic link can land elsewhere (pipelines/response-as-code/soar/local_folder_manager.py:108,116,148).
- LocalFolder.Prepare: prepares the lexically resolved target, with the same gap as `LocalFolder.Target` for base paths containing `..`.
- DashboardManager.LoadFile: a `displayName` that is a number, a boolean or null is a valid dict key in the source, which then plans the dashboard; the model skips the file, since its dashboards are keyed by strings (pipelines/dashboards-as-code/script/dashboard_manager.py:135,151).
- DashboardManager.FetchOne: a remote display name that is a number, a boolean or null is skipped, where the source keys the dashboard by it (pipelines/dashboards-as-code/script/dashboard_manager.py:107).
- DataTables.MakeColumn: fields are typed strictly; pydantic's lax validation also accepts a numeric string such as `"3"` for `column_index` and `"yes"`, `"true"`, `1` or `0` for `key_column` (pipelines/detection-as-code/scripts/data_tables.py:56-63), which the model rejects as invalid. String fields coerce nothing in either.
- DataTables.ParseEntry: the configured columns inherit the strict typing of `DataTables.MakeColumn` (pipelines/detection-as-code/scripts/data_tables.py:140-148,182-196).
- DataTables.ParseRemoteTable: the listed columns inherit the same strict typing, and a numeric string `ruleAssociationsCount`, which pydantic would accept, is rejected (pipelines/detection-as-code/scripts/data_tables.py:77,86-112).
- DetectionMain: the file order of `rglob` is taken as given and file reads are inputs; the regular expression is modelled only for the one pattern the command uses.

## Findings

| source | as written | input that shows it | evidently intended | confidence | as-written member | corrected member |
|---|---|---|---|---|---|---|
| pipelines/response-as-code/soar/local_folder_manager.py:433-441 | the guard refuses `""`, `.` and `/` only when the resolved path equals the working directory, but `os.path.join(wd, "/")` is `/` | `delete_path("/")` with working directory `/work` empties the whole filesystem | refuse the three spellings of the working directory | not executed | LocalFolder.DeleteSlashEmptiesRoot | LocalFolder.DeletePathRemovesExactly |
| pipelines/parsers-as-code/script/parser_manager.py:229,247 | `config.parser.strip()` and `config.parser_ext.strip()` are called on a log type with no local parser or extension | a log type with only a local extension and a passed custom parser remotely raises `AttributeError`, which no parser error handler catches | skip the half that has no local artifact, as the plan does | not executed | ParserManager.ActivateParserAsWrittenCrashes | ParserManager.ActivateParser |
| pipelines/parsers-as-code/script/parser_manager.py:247 | the extension half has the same `strip()` on a missing local extension | a log type with only a local parser and a validated extension remotely raises `AttributeError` | skip the extension half | not executed | ParserManager.ActivateExtensionAsWrittenCrashes | ParserManager.ActivateExtension |
| tools/check_documentation.py:113-118 | outputs without a description set FAIL_VARIABLE_DESCRIPTION | a README whose variables are described and whose outputs are not is labelled `DV`; FAIL_OUTPUT_DESCRIPTION never occurs | FAIL_OUTPUT_DESCRIPTION (`DO`) | not executed | DocCheck.OutputDescriptionMislabelled | DocCheck.CheckFirstBroken |
| blueprints/secops-archiver/source/main.py:43,198 | MONTHS_TO_LOOK_BACK is read from the environment as a string and passed to `relativedelta(months=...)` | setting MONTHS_TO_LOOK_BACK to `3` makes every export without a month raise | convert the setting with `int()` | not executed | Archiver.LookBackSetting | Archiver.LookBack |
| blueprints/secops-archiver/source/main.py:172-175 | the `elif failed_jobs` branch raises the same "Data Export still in progress" message as the in-progress branch | a log type left and only failed exports is reported as still in progress | report failed exports as failed | not executed | Archiver.FailedReportedInProgress | Archiver.Verdict |
| pipelines/detection-as-code/scripts/main.py:61-62 | the log call for a file with no rule declaration formats `rule_name`, which is unbound until some file matched | a first rule file without a `rule name {` declaration ends the command in NameError instead of validating it | name the file, not `rule_name`, in every message a file without a declaration reaches: the log at line 62 and the verification messages at lines 68, 70 and 77 (the one at 77 is inside the `except` handler, so a NameError raised there escapes); `VerifyRules` models that program, where no message names an unbound variable | not executed | DetectionMain.NoMatchFirstCrashes | DetectionMain.VerifyRulesSpec |

=== FILE: archiver.dfy ===
/** The SecOps archiver's monthly export (`secops-archiver/source/main.py`):
    the calendar-month window an export covers, triggering the export with
    its volume guard, the fold that decides whether a month's exports are
    complete, and the HTTP entry point's dispatch.

    The Data Export API is a `Platform` of three oracles; `None` from an
    oracle is an exception raised by the client library. The current date
    and the MONTHS_TO_LOOK_BACK environment setting are parameters. A
    `SystemExit` is `Exit(reason)`; any other exception that escapes is
    `Crash`. */
module Archiver {
  import opened Wrappers
  import opened JsonValue
  import Strs

  /** HUNDRED_TERABYTES: the largest export volume accepted, in bytes. */
  const HundredTerabytes := 99000000000000

  /** MONTHS_TO_LOOK_BACK when the environment does not set it. */
  const DefaultLookBack := 11

  // ---------------------------------------------------------------------
  // Calendar

  predicate IsLeap(y: int) {
    y % 4 == 0 && (y % 100 != 0 || y % 400 == 0)
  }

  /** The Gregorian length of month `m` of year `y`. */
  function DaysInMonth(y: int, m: int): (r: int)
    requires 1 <= m <= 12
    ensures 28 <= r <= 31
    ensures r == 29 <==> m == 2 && IsLeap(y)
  {
    if m == 2 then (if IsLeap(y) then 29 else 28)
    else if m == 4 || m == 6 || m == 9 || m == 11 then 30
    else 31
  }

  datatype Date = Date(year: int, month: int, day: int)

  /** A `datetime.date`: years 1 to 9999. */
  predicate ValidDate(d: Date) {
    1 <= d.year <= 9999 && 1 <= d.month <= 12 && 1 <= d.day <= DaysInMonth(d.year, d.month)
  }

  /** Months since January of year 0; the order in which months follow
      each other. */
  function MonthIndex(y: int, m: int): int {
    y * 12 + (m - 1)
  }

  /** `d + relativedelta(months=k)`: the month moves by `k` and the day is
      clamped to the new month's length; `None` when the year leaves the
      range a date can hold. */
  function AddMonths(d: Date, k: int): (r: Option<Date>)
    requires ValidDate(d)
    ensures r.Some? ==> ValidDate(r.value) && r.value.day <= d.day
    ensures r.Some? ==> MonthIndex(r.value.year, r.value.month) == MonthIndex(d.year, d.month) + k
    ensures r.None? <==> !(1 <= (MonthIndex(d.year, d.month) + k) / 12 <= 9999)
  {
    var total := MonthIndex(d.year, d.month) + k;
    var y := total / 12;
    var m := total % 12 + 1;
    if 1 <= y <= 9999 then
      Some(Date(y, m, if d.day <= DaysInMonth(y, m) then d.day else DaysInMonth(y, m)))
    else None
  }

  /** `d - timedelta(days=1)`; `None` before 1 January of year 1. */
  function PrevDay(d: Date): (r: Option<Date>)
    requires ValidDate(d)
    ensures r.Some? ==> ValidDate(r.value)
    ensures r.None? <==> d == Date(1, 1, 1)
  {
    if d.day > 1 then Some(Date(d.year, d.month, d.day - 1))
    else if d.month > 1 then Some(Date(d.year, d.month - 1, DaysInMonth(d.year, d.month - 1)))
    else if d.year > 1 then Some(Date(d.year - 1, 12, 31))
    else None
  }

  // ---------------------------------------------------------------------
  // Timestamps: `strftime`/`strptime` with "%Y-%m-%dT%H:%M:%SZ"

  function DigitChar(n: nat): (c: char)
    requires n < 10
    ensures '0' <= c <= '9'
  {
    ('0' as int + n) as char
  }

  predicate IsDigit(c: char) {
    '0' <= c <= '9'
  }

  predicate AllDigits(s: string) {
    forall i :: 0 <= i < |s| ==> IsDigit(s[i])
  }

  function Pow10(w: nat): (r: nat)
    ensures r >= 1
  {
    if w == 0 then 1 else 10 * Pow10(w - 1)
  }

  /** `n` in decimal, zero-padded to `width` digits (the low digits when
      `n` does not fit). */
  function Pad(n: nat, width: nat): (s: string)
    ensures |s| == width && AllDigits(s)
  {
    if width == 0 then "" else Pad(n / 10, width - 1) + [DigitChar(n % 10)]
  }

  /** The number a string of decimal digits spells. */
  function Value(s: string): (r: nat)
    requires AllDigits(s)
    ensures r < Pow10(|s|)
  {
    if |s| == 0 then 0 else Value(s[..|s| - 1]) * 10 + (s[|s| - 1] as int - '0' as int)
  }

  lemma {:induction false} ValuePad(n: nat, width: nat)
    requires n < Pow10(width)
    ensures Value(Pad(n, width)) == n
  {
    if width > 0 {
      var s := Pad(n, width);
      assert s[..|s| - 1] == Pad(n / 10, width - 1);
      assert n / 10 < Pow10(width - 1);
      ValuePad(n / 10, width - 1);
    }
  }

  datatype Stamp = Stamp(date: Date, hour: int, minute: int, second: int)

  predicate ValidStamp(st: Stamp) {
    ValidDate(st.date) && 0 <= st.hour <= 23 && 0 <= st.minute <= 59 && 0 <= st.second <= 59
  }

  /** `strftime("%Y-%m-%dT%H:%M:%SZ")`. */
  function FormatStamp(st: Stamp): (s: string)
    requires ValidStamp(st)
    ensures |s| == 20
  {
    Pad(st.date.year, 4) + "-" + Pad(st.date.month, 2) + "-" + Pad(st.date.day, 2) + "T" +
    Pad(st.hour, 2) + ":" + Pad(st.minute, 2) + ":" + Pad(st.second, 2) + "Z"
  }

  /** The fixed-width digit field `s[i..i+w]`, if it is one. */
  function Field(s: string, i: nat, w: nat): (r: Option<nat>)
    requires i + w <= |s|
    ensures r.Some? <==> AllDigits(s[i..i + w])
  {
    if AllDigits(s[i..i + w]) then Some(Value(s[i..i + w])) else None
  }

  /** `datetime.strptime(s, "%Y-%m-%dT%H:%M:%SZ")` on two-digit fields:
      every field in range and the day within its month. */
  function ParseStamp(s: string): (r: Option<Stamp>)
    ensures r.Some? ==> ValidStamp(r.value)
  {
    if |s| != 20 || s[4] != '-' || s[7] != '-' || s[10] != 'T' || s[13] != ':' || s[16] != ':' || s[19] != 'Z' then None
    else
      var y :- Field(s, 0, 4);
      var mo :- Field(s, 5, 2);
      var d :- Field(s, 8, 2);
      var h :- Field(s, 11, 2);
      var mi :- Field(s, 14, 2);
      var se :- Field(s, 17, 2);
      if 1 <= y && 1 <= mo <= 12 && 1 <= d <= DaysInMonth(y, mo) && h <= 23 && mi <= 59 && se <= 59
      then Some(Stamp(Date(y, mo, d), h, mi, se))
      else None
  }

  lemma FieldPad(s: string, i: nat, n: nat, w: nat)
    requires i + w <= |s| && s[i..i + w] == Pad(n, w) && n < Pow10(w)
    ensures Field(s, i, w) == Some(n)
  {
    ValuePad(n, w);
  }

  /** Where each field and separator of a formatted timestamp sits. */
  lemma StampLayout(st: Stamp)
    requires ValidStamp(st)
    ensures var s := FormatStamp(st);
      s[4] == '-' && s[7] == '-' && s[10] == 'T' && s[13] == ':' && s[16] == ':' && s[19] == 'Z'
      && s[0..4] == Pad(st.date.year, 4) && s[5..7] == Pad(st.date.month, 2) && s[8..10] == Pad(st.date.day, 2)
      && s[11..13] == Pad(st.hour, 2) && s[14..16] == Pad(st.minute, 2) && s[17..19] == Pad(st.second, 2)
  {
    var s := FormatStamp(st);
    assert s[0..4] == Pad(st.date.year, 4);
    assert s[5..7] == Pad(st.date.month, 2);
    assert s[8..10] == Pad(st.date.day, 2);
    assert s[11..13] == Pad(st.hour, 2);
    assert s[14..16] == Pad(st.minute, 2);
    assert s[17..19] == Pad(st.second, 2);
  }

  /** Reading back a formatted timestamp gives the same timestamp. */
  lemma StampRoundTrip(st: Stamp)
    requires ValidStamp(st)
    ensures ParseStamp(FormatStamp(st)) == Some(st)
  {
    var s := FormatStamp(st);
    StampLayout(st);
    FieldPad(s, 0, st.date.year, 4);
    FieldPad(s, 5, st.date.month, 2);
    FieldPad(s, 8, st.date.day, 2);
    FieldPad(s, 11, st.hour, 2);
    FieldPad(s, 14, st.minute, 2);
    FieldPad(s, 17, st.second, 2);
  }

  // ---------------------------------------------------------------------
  // Months: `strptime`/`strftime` with "%Y-%m"

  /** `%m` as `strptime` reads it: `1`-`9`, `01`-`09` or `10`-`12`, and
      nothing after it. */
  function MonthField(t: string): (r: Option<int>)
    ensures r.Some? ==> 1 <= r.value <= 12
  {
    if |t| == 1 && '1' <= t[0] <= '9' then Some(t[0] as int - '0' as int)
    else if |t| == 2 && t[0] == '0' && '1' <= t[1] <= '9' then Some(t[1] as int - '0' as int)
    else if |t| == 2 && t[0] == '1' && '0' <= t[1] <= '2' then Some(10 + (t[1] as int - '0' as int))
    else None
  }

  /** `datetime.strptime(s, "%Y-%m")`: four year digits (year 0 is not a
      date), a dash, and a month; the result is the first of that month. */
  function ParseMonth(s: string): (r: Option<Date>)
    ensures r.Some? ==> ValidDate(r.value) && r.value.day == 1
  {
    if |s| < 6 || s[4] != '-' then None
    else
      var y :- Field(s, 0, 4);
      var m :- MonthField(s[5..]);
      if y >= 1 then Some(Date(y, m, 1)) else None
  }

  /** `strftime("%Y-%m")`. */
  function FormatMonth(d: Date): string
    requires ValidDate(d)
  {
    Pad(d.year, 4) + "-" + Pad(d.month, 2)
  }

  /** The month the check defaults to is read back as the first of the
      current month. */
  lemma MonthRoundTrip(d: Date)
    requires ValidDate(d)
    ensures ParseMonth(FormatMonth(d)) == Some(Date(d.year, d.month, 1))
  {
    var s := FormatMonth(d);
    assert s[0..4] == Pad(d.year, 4);
    FieldPad(s, 0, d.year, 4);
    var t := s[5..];
    assert t == Pad(d.month, 2);
    ValuePad(d.month, 2);
    assert Value(t) == Value(t[..1]) * 10 + (t[1] as int - '0' as int);
    assert t[..1][..0] == [];
  }

  // ---------------------------------------------------------------------
  // The export window

  /** `start_date` and `end_date` of `trigger_export_action`: the first of
      the month, and one month later less one day. */
  function MonthWindow(d: Date): (r: Option<(Date, Date)>)
    requires ValidDate(d)
  {
    var start := Date(d.year, d.month, 1);
    var next :- AddMonths(start, 1);
    var end :- PrevDay(next);
    Some((start, end))
  }

  /** The window covers exactly the calendar month: from its first day to
      its last, leap years included. Only December of year 9999 has no
      window, because the month after it is not a date. */
  lemma MonthWindowSpan(d: Date)
    requires ValidDate(d)
    ensures d.year == 9999 && d.month == 12 <==> MonthWindow(d).None?
    ensures MonthWindow(d).Some? ==>
      MonthWindow(d).value == (Date(d.year, d.month, 1), Date(d.year, d.month, DaysInMonth(d.year, d.month)))
  {
    var start := Date(d.year, d.month, 1);
    var total := MonthIndex(d.year, d.month) + 1;
    if d.month < 12 {
      assert total == d.year * 12 + d.month;
      assert total / 12 == d.year && total % 12 == d.month;
    } else {
      assert total == (d.year + 1) * 12;
      assert total / 12 == d.year + 1 && total % 12 == 0;
    }
  }

  /** The two strings `trigger_export` receives for the month of `d`:
      `None` when the window does not exist. */
  function WindowStamps(d: Date): Option<(string, string)>
    requires ValidDate(d)
  {
    match MonthWindow(d)
    case None => None
    case Some(w) => Some((FormatStamp(Stamp(w.0, 0, 0, 0)), FormatStamp(Stamp(w.1, 23, 59, 59))))
  }

  /** The strings name 00:00:00 on the first day and 23:59:59 on the last
      day of the month, and `trigger_export` reads them back as such. */
  lemma WindowStampsSpan(d: Date)
    requires ValidDate(d)
    ensures WindowStamps(d).None? <==> d.year == 9999 && d.month == 12
    ensures WindowStamps(d).Some? ==>
      ParseStamp(WindowStamps(d).value.0) == Some(Stamp(Date(d.year, d.month, 1), 0, 0, 0)) &&
      ParseStamp(WindowStamps(d).value.1) == Some(Stamp(Date(d.year, d.month, DaysInMonth(d.year, d.month)), 23, 59, 59))
  {
    MonthWindowSpan(d);
    if WindowStamps(d).Some? {
      StampRoundTrip(Stamp(Date(d.year, d.month, 1), 0, 0, 0));
      StampRoundTrip(Stamp(Date(d.year, d.month, DaysInMonth(d.year, d.month)), 23, 59, 59));
    }
  }

  // ---------------------------------------------------------------------
  // Platform, outcomes and Python's `int()`

  datatype Reason =
    | InvalidPayload
    | InvalidMonth
    | TooLarge(exportId: string)
    | ExportError
    | Inconsistent(exportId: string)
    | StillInProgress
    | ExportsFailed
    | LogTypesLeft(left: set<string>)

  datatype Failure = Exit(reason: Reason) | Crash

  /** The Data Export calls. `create` gets the window, whether all logs are
      exported and otherwise the log types; `list` gets the creation-time
      lower bound of its filter; `get` gets an export id. */
  datatype Platform = Platform(
    create: (Stamp, Stamp, bool, seq<string>) -> Option<Json>,
    list: string -> Option<Json>,
    get: string -> Option<Json>)

  /** Python's `int(v)` on a JSON value: an integer, a boolean, or a
      string of decimal digits with an optional sign. */
  function PyInt(v: Json): (r: Option<int>)
    ensures v.JInt? ==> r == Some(v.i)
    ensures v.JNull? || v.JList? || v.JObj? ==> r.None?
  {
    match v
    case JInt(i) => Some(i)
    case JBool(b) => Some(if b then 1 else 0)
    case JStr(s) =>
      if |s| > 0 && AllDigits(s) then Some(Value(s))
      else if |s| > 1 && (s[0] == '-' || s[0] == '+') && AllDigits(s[1..]) then
        var n: int := Value(s[1..]);
        Some(if s[0] == '-' then -n else n)
      else None
    case _ => None
  }

  /** `response["name"].split("/")[-1]`. */
  function IdOf(resp: Json): Option<string> {
    if resp.JObj? && "name" in resp.fields && resp.fields["name"].JStr?
    then Some(Strs.LastSegment(resp.fields["name"].s, '/'))
    else None
  }

  /** `key in v and int(v[key]) > HUNDRED_TERABYTES`: `None` when the
      lookup or the conversion raises. */
  function OverLimit(v: Json, key: string): (r: Option<bool>)
    requires v.JObj?
    ensures key !in v.fields ==> r == Some(false)
    ensures key in v.fields && v.fields[key].JInt? ==> r == Some(v.fields[key].i > HundredTerabytes)
  {
    if key !in v.fields then Some(false)
    else
      var n :- PyInt(v.fields[key]);
      Some(n > HundredTerabytes)
  }

  // ---------------------------------------------------------------------
  // trigger_export

  /** The request `trigger_export` makes and what it does with the
      response: the export id, then the volume guard. Every failure inside
      the `try` becomes the generic export error, except the guard's own
      exit. */
  function Request(pf: Platform, start: Stamp, end: Stamp, all: bool, logTypes: seq<string>): (r: Result<string, Failure>)
    ensures r.Err? ==> r.error.Exit? && (r.error.reason == ExportError || r.error.reason.TooLarge?)
    ensures r.Ok? ==> pf.create(start, end, all, logTypes).Some? &&
                      IdOf(pf.create(start, end, all, logTypes).value) == Some(r.value)
  {
    match pf.create(start, end, all, logTypes)
    case None => Err(Exit(ExportError))
    case Some(resp) =>
      match IdOf(resp)
      case None => Err(Exit(ExportError))
      case Some(id) =>
        match OverLimit(resp, "estimatedVolume")
        case None => Err(Exit(ExportError))
        case Some(over) => if over then Err(Exit(TooLarge(id))) else Ok(id)
  }

  /** `trigger_export`: no log types (`None` or "") exports all logs and
      returns its export id; a string of log types exports those, split on
      commas, and returns no id at all. Any other value fails inside the
      `try`. A window string that does not parse raises before it. */
  function TriggerExport(startStr: string, endStr: string, logTypes: Json, pf: Platform): (r: Result<seq<string>, Failure>)
    ensures ParseStamp(startStr).None? || ParseStamp(endStr).None? <==> r == Err(Crash)
    ensures r.Ok? && (logTypes == JNull || logTypes == JStr("")) ==> |r.value| == 1
    ensures r.Ok? && !(logTypes == JNull || logTypes == JStr("")) ==> r.value == [] && logTypes.JStr?
    ensures r.Ok? ==> (ParseStamp(startStr).Some? && ParseStamp(endStr).Some? &&
      var all := logTypes == JNull || logTypes == JStr("");
      var types := if all then [] else Strs.Split(logTypes.s, ',');
      var resp := pf.create(ParseStamp(startStr).value, ParseStamp(endStr).value, all, types);
      resp.Some? && resp.value.JObj? &&
      ("estimatedVolume" in resp.value.fields ==>
        PyInt(resp.value.fields["estimatedVolume"]).Some? &&
        PyInt(resp.value.fields["estimatedVolume"]).value <= HundredTerabytes))
  {
    match (ParseStamp(startStr), ParseStamp(endStr))
    case (Some(start), Some(end)) =>
      if logTypes == JNull || logTypes == JStr("") then
        var id :- Request(pf, start, end, true, []);
        Ok([id])
      else if logTypes.JStr? then
        var _ :- Request(pf, start, end, false, Strs.Split(logTypes.s, ','));
        Ok([])
      else Err(Exit(ExportError))
    case _ => Err(Crash)
  }

  /** MONTHS_TO_LOOK_BACK as the source reads it: an environment value is a
      string, which `relativedelta(months=...)` rejects. */
  function LookBackAsWritten(setting: Option<string>): (r: Result<int, Failure>)
    ensures setting.None? ==> r == Ok(DefaultLookBack)
    ensures setting.Some? ==> r == Err(Crash)
  {
    if setting.None? then Ok(DefaultLookBack) else Err(Crash)
  }

  /** MONTHS_TO_LOOK_BACK converted with `int()` before use. */
  function LookBack(setting: Option<string>): (r: Result<int, Failure>)
    ensures setting.None? ==> r == Ok(DefaultLookBack)
    ensures setting.Some? ==> (r.Ok? <==> PyInt(JStr(setting.value)).Some?)
  {
    match setting
    case None => Ok(DefaultLookBack)
    case Some(s) => if PyInt(JStr(s)).Some? then Ok(PyInt(JStr(s)).value) else Err(Crash)
  }

  /** Setting MONTHS_TO_LOOK_BACK to a number of months makes the source
      fail, where the conversion gives that number. */
  lemma LookBackSetting(s: string)
    requires |s| > 0 && AllDigits(s)
    ensures LookBackAsWritten(Some(s)) == Err(Crash)
    ensures LookBack(Some(s)) == Ok(Value(s))
  {
  }

  /** MONTHS_TO_LOOK_BACK as `rd` reads it. */
  function LookBackIn(rd: Reading, setting: Option<string>): Result<int, Failure> {
    if rd.AsWritten? then LookBackAsWritten(setting) else LookBack(setting)
  }

  /** The month `trigger_export_action` exports: the one given, or the one
      MONTHS_TO_LOOK_BACK months before today. A given month must be a
      string; one that does not parse exits. As written, the look-back
      fails whenever MONTHS_TO_LOOK_BACK is set. */
  function ExportMonth(rd: Reading, month: Json, today: Date, setting: Option<string>): (r: Result<Date, Failure>)
    requires ValidDate(today)
    ensures r.Ok? ==> ValidDate(r.value)
    ensures month.JStr? && month.s != "" ==>
      r == (if ParseMonth(month.s).Some? then Ok(ParseMonth(month.s).value) else Err(Exit(InvalidMonth)))
    ensures !Truthy(month) && r.Ok? ==>
      LookBackIn(rd, setting).Ok? &&
      MonthIndex(r.value.year, r.value.month) == MonthIndex(today.year, today.month) - LookBackIn(rd, setting).value
    ensures rd.AsWritten? && !Truthy(month) && setting.Some? ==> r == Err(Crash)
    ensures !Truthy(month) && setting.None? ==>
      r == (if AddMonths(today, -DefaultLookBack).Some? then Ok(AddMonths(today, -DefaultLookBack).value) else Err(Crash))
  {
    if Truthy(month) then
      if month.JStr? then
        match ParseMonth(month.s)
        case Some(d) => Ok(d)
        case None => Err(Exit(InvalidMonth))
      else Err(Crash)
    else
      var k :- LookBackIn(rd, setting);
      match AddMonths(today, -k)
      case Some(d) => Ok(d)
      case None => Err(Crash)
  }

  /** The two readings pick the same month except where the source's
      look-back fails: no month given and MONTHS_TO_LOOK_BACK set. */
  lemma ExportMonthReadings(month: Json, today: Date, setting: Option<string>)
    requires ValidDate(today)
    ensures ExportMonth(AsWritten, month, today, setting) ==
      if !Truthy(month) && setting.Some? then Err(Crash) else ExportMonth(Corrected, month, today, setting)
  {
  }

  /** `trigger_export_action`: the export of the chosen month's window;
      December of year 9999 has none and raises. */
  function TriggerExportAction(rd: Reading, month: Json, logTypes: Json, today: Date, setting: Option<string>, pf: Platform): (r: Result<seq<string>, Failure>)
    requires ValidDate(today)
    ensures ExportMonth(rd, month, today, setting).Err? ==> r == Err(ExportMonth(rd, month, today, setting).error)
    ensures r.Ok? ==> (ExportMonth(rd, month, today, setting).Ok? &&
      WindowStamps(ExportMonth(rd, month, today, setting).value).Some?)
  {
    var d :- ExportMonth(rd, month, today, setting);
    match WindowStamps(d)
    case None => Err(Crash)
    case Some(w) => TriggerExport(w.0, w.1, logTypes, pf)
  }

  // ---------------------------------------------------------------------
  // check_monthly_export

  /** What one listed export contributes: the log types it finished, or
      that it is still running, or that it failed. */
  datatype Status = Succeeded(types: set<string>) | Running | Failed

  /** `[t.split("/")[-1] for t in v]` as a set: `v` iterated as Python
      does (a string by character, a dict by key); `None` when iterating or
      splitting raises. */
  function Segments(v: Json): Option<set<string>> {
    match v
    case JList(xs) =>
      if forall i :: 0 <= i < |xs| ==> xs[i].JStr?
      then Some(set i | 0 <= i < |xs| :: Strs.LastSegment(xs[i].s, '/'))
      else None
    case JStr(s) => Some(set c | c in s :: Strs.LastSegment([c], '/'))
    case JObj(m) => Some(set k | k in m :: Strs.LastSegment(k, '/'))
    case _ => None
  }

  /** `export["dataExportStatus"]["stage"]`. */
  function StageOf(e: Json): Option<Json> {
    if e.JObj? && "dataExportStatus" in e.fields && e.fields["dataExportStatus"].JObj? &&
       "stage" in e.fields["dataExportStatus"].fields
    then Some(e.fields["dataExportStatus"].fields["stage"])
    else None
  }

  /** One pass of the loop over the listed exports. The stage is read from
      the listed export `e`, but its presence is checked on the export
      fetched again by id; without it the export is inconsistent. A
      finished export over the volume limit exits. */
  function Classify(e: Json, pf: Platform): (r: Result<Status, Failure>)
    ensures r.Ok? ==> (IdOf(e).Some? && pf.get(IdOf(e).value).Some? &&
      StageOf(e).Some? && PyIn("dataExportStatus", pf.get(IdOf(e).value).value) == Some(true))
    ensures r.Ok? && r.value.Succeeded? ==> (StageOf(e) == Some(JStr("FINISHED_SUCCESS")) &&
      var data := pf.get(IdOf(e).value).value;
      data.JObj? && "includeLogTypes" in data.fields &&
      Segments(data.fields["includeLogTypes"]) == Some(r.value.types))
    ensures r.Ok? && r.value.Running? ==> StageOf(e) in {Some(JStr("IN_QUEUE")), Some(JStr("PROCESSING"))}
    ensures r.Ok? && r.value.Failed? ==> StageOf(e) == Some(JStr("FINISHED_FAILURE"))
    ensures r.Err? ==> r.error == Crash || r.error.reason.TooLarge? || r.error.reason.Inconsistent?
    ensures (IdOf(e).Some? && pf.get(IdOf(e).value).Some? &&
      PyIn("dataExportStatus", pf.get(IdOf(e).value).value) == Some(false)) ==>
      r == Err(Exit(Inconsistent(IdOf(e).value)))
  {
    match IdOf(e)
    case None => Err(Crash)
    case Some(id) =>
      match pf.get(id)
      case None => Err(Crash)
      case Some(data) =>
        match PyIn("dataExportStatus", data)
        case None => Err(Crash)
        case Some(present) =>
          if !present then Err(Exit(Inconsistent(id)))
          else
            match StageOf(e)
            case None => Err(Crash)
            case Some(stage) =>
              if stage == JStr("FINISHED_SUCCESS") then
                match OverLimit(e, "exportedVolume")
                case None => Err(Crash)
                case Some(over) =>
                  if over then Err(Exit(TooLarge(id)))
                  else if !data.JObj? || "includeLogTypes" !in data.fields then Err(Crash)
                  else
                    match Segments(data.fields["includeLogTypes"])
                    case None => Err(Crash)
                    case Some(types) => Ok(Succeeded(types))
              else if stage == JStr("IN_QUEUE") || stage == JStr("PROCESSING") then Ok(Running)
              else if stage == JStr("FINISHED_FAILURE") then Ok(Failed)
              else Err(Exit(Inconsistent(id)))
  }

  /** The loop's state: the expected log types not yet exported, and
      whether a running or a failed export was seen. */
  datatype Tally = Tally(remaining: set<string>, inProgress: bool, failed: bool)

  function Apply(t: Tally, s: Status): Tally {
    match s
    case Succeeded(types) => t.(remaining := t.remaining - types)
    case Running => t.(inProgress := true)
    case Failed => t.(failed := true)
  }

  /** The loop, stopping at the first export that raises. */
  function CheckAll(t: Tally, es: seq<Json>, pf: Platform): (r: Result<Tally, Failure>)
    ensures r.Ok? <==> AllClassified(es, pf)
    ensures r.Ok? ==> r.value.remaining <= t.remaining
    ensures r.Ok? && t.inProgress ==> r.value.inProgress
    ensures r.Ok? && t.failed ==> r.value.failed
    decreases |es|
  {
    if |es| == 0 then Ok(t)
    else
      var s :- Classify(es[0], pf);
      CheckAll(Apply(t, s), es[1..], pf)
  }

  ghost predicate AllClassified(es: seq<Json>, pf: Platform) {
    forall i :: 0 <= i < |es| ==> Classify(es[i], pf).Ok?
  }

  /** Log type `x` was exported by one of the listed exports. */
  ghost predicate ExportedBy(x: string, es: seq<Json>, pf: Platform)
    requires AllClassified(es, pf)
  {
    exists i :: 0 <= i < |es| && Classify(es[i], pf).value.Succeeded? && x in Classify(es[i], pf).value.types
  }

  ghost predicate SomeWith(es: seq<Json>, pf: Platform, running: bool)
    requires AllClassified(es, pf)
  {
    exists i :: 0 <= i < |es| &&
      (if running then Classify(es[i], pf).value.Running? else Classify(es[i], pf).value.Failed?)
  }

  /** A completed loop saw every export, and the expected log types left
      are those that no finished export included; a flag is set exactly
      when some export was running, or failed. */
  lemma {:induction false} CheckAllSpec(t: Tally, es: seq<Json>, pf: Platform)
    requires CheckAll(t, es, pf).Ok?
    ensures AllClassified(es, pf)
    ensures forall x :: x in CheckAll(t, es, pf).value.remaining <==> x in t.remaining && !ExportedBy(x, es, pf)
    ensures CheckAll(t, es, pf).value.inProgress <==> t.inProgress || SomeWith(es, pf, true)
    ensures CheckAll(t, es, pf).value.failed <==> t.failed || SomeWith(es, pf, false)
    decreases |es|
  {
    if |es| > 0 {
      var s := Classify(es[0], pf).value;
      CheckAllSpec(Apply(t, s), es[1..], pf);
      ExportedByCons(es, pf);
      SomeWithCons(es, pf);
    }
  }

  lemma ExportedByCons(es: seq<Json>, pf: Platform)
    requires |es| > 0 && AllClassified(es, pf)
    ensures AllClassified(es[1..], pf)
    ensures forall x :: ExportedBy(x, es, pf) <==>
      (Classify(es[0], pf).value.Succeeded? && x in Classify(es[0], pf).value.types) || ExportedBy(x, es[1..], pf)
  {
    var rest := es[1..];
    assert forall i :: 0 <= i < |rest| ==> rest[i] == es[i + 1];
    forall x | ExportedBy(x, rest, pf) ensures ExportedBy(x, es, pf) {
      var i :| 0 <= i < |rest| && Classify(rest[i], pf).value.Succeeded? && x in Classify(rest[i], pf).value.types;
      assert es[i + 1] == rest[i];
    }
  }

  lemma SomeWithCons(es: seq<Json>, pf: Platform)
    requires |es| > 0 && AllClassified(es, pf)
    ensures AllClassified(es[1..], pf)
    ensures forall b: bool :: SomeWith(es, pf, b) <==>
      (if b then Classify(es[0], pf).value.Running? else Classify(es[0], pf).value.Failed?) || SomeWith(es[1..], pf, b)
  {
    var rest := es[1..];
    assert forall i :: 0 <= i < |rest| ==> rest[i] == es[i + 1];
    forall b: bool | SomeWith(rest, pf, b) ensures SomeWith(es, pf, b) {
      var i :| 0 <= i < |rest| && (if b then Classify(rest[i], pf).value.Running? else Classify(rest[i], pf).value.Failed?);
      assert es[i + 1] == rest[i];
    }
  }

  /** The loop stops at the first export that raises, with its error. */
  lemma {:induction false} CheckAllStops(t: Tally, es: seq<Json>, pf: Platform)
    requires CheckAll(t, es, pf).Err?
    ensures exists i :: (0 <= i < |es| && Classify(es[i], pf) == Err(CheckAll(t, es, pf).error) &&
      AllClassified(es[..i], pf))
    decreases |es|
  {
    if Classify(es[0], pf).Ok? {
      var rest := es[1..];
      CheckAllStops(Apply(t, Classify(es[0], pf).value), rest, pf);
      var i :| 0 <= i < |rest| && Classify(rest[i], pf) == Err(CheckAll(t, es, pf).error) &&
        AllClassified(rest[..i], pf);
      assert es[i + 1] == rest[i];
      var pre := es[..i + 1];
      forall j | 0 <= j < |pre| ensures Classify(pre[j], pf).Ok? {
        if j > 0 {
          assert pre[j] == rest[..i][j - 1];
        }
      }
    } else {
      assert AllClassified(es[..0], pf);
    }
  }

  /** `data_export_response["dataExports"]` as the loop iterates it; an
      empty string or dict iterates nothing, and any other value makes the
      loop body raise. */
  function Listed(resp: Json): Option<seq<Json>> {
    if resp.JObj? && "dataExports" in resp.fields then
      match resp.fields["dataExports"]
      case JList(xs) => Some(xs)
      case JStr(s) => if s == "" then Some([]) else None
      case JObj(m) => if m == map[] then Some([]) else None
      case _ => None
    else None
  }

  /** How the check ends once every export was seen, as written: a failed
      export is reported with the "still in progress" exit. */
  function VerdictAsWritten(t: Tally): (r: Result<(), Failure>)
    ensures r.Ok? <==> t.remaining == {}
    ensures t.remaining != {} && !t.inProgress && t.failed ==> r == Err(Exit(StillInProgress))
  {
    if t.remaining == {} then Ok(())
    else if t.inProgress then Err(Exit(StillInProgress))
    else if t.failed then Err(Exit(StillInProgress))
    else Err(Exit(LogTypesLeft(t.remaining)))
  }

  /** The corrected verdict: a failed export is reported as a failure. */
  function Verdict(t: Tally): (r: Result<(), Failure>)
    ensures r.Ok? <==> t.remaining == {}
    ensures r == Err(Exit(StillInProgress)) <==> t.remaining != {} && t.inProgress
    ensures r == Err(Exit(ExportsFailed)) <==> t.remaining != {} && !t.inProgress && t.failed
    ensures r.Err? && !t.inProgress && !t.failed ==> r == Err(Exit(LogTypesLeft(t.remaining)))
  {
    if t.remaining == {} then Ok(())
    else if t.inProgress then Err(Exit(StillInProgress))
    else if t.failed then Err(Exit(ExportsFailed))
    else Err(Exit(LogTypesLeft(t.remaining)))
  }

  /** With a log type left, only failed exports and none running, the
      source reports the export as still in progress. */
  lemma FailedReportedInProgress()
    ensures VerdictAsWritten(Tally({"GCP_DNS"}, false, true)) == Err(Exit(StillInProgress))
    ensures Verdict(Tally({"GCP_DNS"}, false, true)) == Err(Exit(ExportsFailed))
  {
  }

  /** `set(log_types.split(","))`. */
  function Requested(logTypes: string): (r: set<string>)
    ensures forall x :: x in r <==> x in Strs.Split(logTypes, ',')
  {
    set t | t in Strs.Split(logTypes, ',')
  }

  /** The verdict as `rd` reads it. */
  function VerdictIn(rd: Reading, t: Tally): Result<(), Failure> {
    if rd.AsWritten? then VerdictAsWritten(t) else Verdict(t)
  }

  /** The loop and verdict of `check_monthly_export` over the listed
      exports `es`, expecting the log types `requested`. */
  function CheckListed(rd: Reading, requested: set<string>, es: seq<Json>, pf: Platform): (r: Result<(), Failure>)
    ensures r.Ok? ==> AllClassified(es, pf)
    ensures !AllClassified(es, pf) ==> r.Err? && r.error == CheckAll(Tally(requested, false, false), es, pf).error
  {
    var t :- CheckAll(Tally(requested, false, false), es, pf);
    VerdictIn(rd, t)
  }

  /** The source's check differs from the corrected one only in reporting
      failed exports as still in progress. */
  lemma CheckListedReadings(requested: set<string>, es: seq<Json>, pf: Platform)
    ensures CheckListed(AsWritten, requested, es, pf) ==
      if CheckListed(Corrected, requested, es, pf) == Err(Exit(ExportsFailed)) then Err(Exit(StillInProgress))
      else CheckListed(Corrected, requested, es, pf)
  {
    var c := CheckAll(Tally(requested, false, false), es, pf);
    if c.Ok? {
      assert CheckListed(AsWritten, requested, es, pf) == VerdictAsWritten(c.value);
      assert CheckListed(Corrected, requested, es, pf) == Verdict(c.value);
    } else {
      CheckListedStopped(requested, es, pf);
    }
  }

  /** The check succeeds exactly when every listed export can be read and
      every requested log type was included by a finished export; with a
      type left it reports running exports first, then failed ones. */
  lemma CheckListedSpec(requested: set<string>, es: seq<Json>, pf: Platform)
    ensures CheckListed(Corrected, requested, es, pf).Ok? <==>
      AllClassified(es, pf) && forall x :: x in requested ==> ExportedBy(x, es, pf)
    ensures CheckListed(Corrected, requested, es, pf) == Err(Exit(StillInProgress)) <==>
      AllClassified(es, pf) && SomeWith(es, pf, true) && exists x :: x in requested && !ExportedBy(x, es, pf)
    ensures CheckListed(Corrected, requested, es, pf) == Err(Exit(ExportsFailed)) <==>
      (AllClassified(es, pf) && !SomeWith(es, pf, true) && SomeWith(es, pf, false) &&
       exists x :: x in requested && !ExportedBy(x, es, pf))
    ensures CheckListed(AsWritten, requested, es, pf).Ok? <==> CheckListed(Corrected, requested, es, pf).Ok?
    ensures CheckListed(AsWritten, requested, es, pf) == Err(Exit(StillInProgress)) <==>
      AllClassified(es, pf) && (SomeWith(es, pf, true) || SomeWith(es, pf, false)) &&
      exists x :: x in requested && !ExportedBy(x, es, pf)
  {
    CheckListedReadings(requested, es, pf);
    if CheckAll(Tally(requested, false, false), es, pf).Ok? {
      CheckListedComplete(requested, es, pf);
    } else {
      CheckListedStopped(requested, es, pf);
    }
  }

  lemma CheckListedComplete(requested: set<string>, es: seq<Json>, pf: Platform)
    requires CheckAll(Tally(requested, false, false), es, pf).Ok?
    ensures AllClassified(es, pf)
    ensures CheckListed(Corrected, requested, es, pf).Ok? <==> forall x :: x in requested ==> ExportedBy(x, es, pf)
    ensures CheckListed(Corrected, requested, es, pf) == Err(Exit(StillInProgress)) <==>
      SomeWith(es, pf, true) && exists x :: x in requested && !ExportedBy(x, es, pf)
    ensures CheckListed(Corrected, requested, es, pf) == Err(Exit(ExportsFailed)) <==>
      (!SomeWith(es, pf, true) && SomeWith(es, pf, false) && exists x :: x in requested && !ExportedBy(x, es, pf))
  {
    var start := Tally(requested, false, false);
    CheckAllSpec(start, es, pf);
    var t := CheckAll(start, es, pf).value;
    assert CheckListed(Corrected, requested, es, pf) == Verdict(t);
    assert t.remaining != {} <==> exists x :: x in requested && !ExportedBy(x, es, pf) by {
      if t.remaining != {} {
        var x :| x in t.remaining;
      }
    }
  }

  lemma CheckListedStopped(requested: set<string>, es: seq<Json>, pf: Platform)
    requires CheckAll(Tally(requested, false, false), es, pf).Err?
    ensures !AllClassified(es, pf)
    ensures CheckListed(Corrected, requested, es, pf).Err?
    ensures CheckListed(Corrected, requested, es, pf) != Err(Exit(StillInProgress))
    ensures CheckListed(Corrected, requested, es, pf) != Err(Exit(ExportsFailed))
  {
    var start := Tally(requested, false, false);
    CheckAllStops(start, es, pf);
    var i :| 0 <= i < |es| && Classify(es[i], pf) == Err(CheckAll(start, es, pf).error) && AllClassified(es[..i], pf);
    assert CheckListed(Corrected, requested, es, pf) == Err(CheckAll(start, es, pf).error);
  }

  /** `check_monthly_export`: the month must be a string that parses; the
      exports created since 00:00:00 on the first of it are listed; the
      expected log types are the comma-separated pieces of `logTypes`. */
  function CheckMonthlyExport(rd: Reading, month: Json, logTypes: Json, pf: Platform): (r: Result<(), Failure>)
    ensures !month.JStr? ==> r == Err(Crash)
    ensures month.JStr? && ParseMonth(month.s).None? ==> r == Err(Exit(InvalidMonth))
    ensures (month.JStr? && ParseMonth(month.s).Some? && logTypes.JStr? &&
      var listing := pf.list(FormatStamp(Stamp(ParseMonth(month.s).value, 0, 0, 0)));
      listing.Some? && Listed(listing.value).Some?) ==>
      r == CheckListed(rd, Requested(logTypes.s),
                       Listed(pf.list(FormatStamp(Stamp(ParseMonth(month.s).value, 0, 0, 0))).value).value, pf)
  {
    if !month.JStr? then Err(Crash)
    else
      match ParseMonth(month.s)
      case None => Err(Exit(InvalidMonth))
      case Some(first) =>
        match pf.list(FormatStamp(Stamp(first, 0, 0, 0)))
        case None => Err(Crash)
        case Some(resp) =>
          if !logTypes.JStr? then Err(Crash)
          else
            match Listed(resp)
            case None => Err(Crash)
            case Some(es) => CheckListed(rd, Requested(logTypes.s), es, pf)
  }

  // ---------------------------------------------------------------------
  // main

  const UnknownActionMessage := "Action must be either 'TRIGGER-EXPORT', 'CHECK-MONTHLY-EXPORT'"

  /** `main`: the request body must be JSON (`None` when it is not) and a
      dict; ACTION selects the action, and an unknown one is answered with
      a message instead of an exit. The check's month defaults to today's. */
  function Main(rd: Reading, payload: Option<Json>, today: Date, setting: Option<string>, pf: Platform): (r: Result<string, Failure>)
    requires ValidDate(today)
    ensures payload.None? ==> r == Err(Exit(InvalidPayload))
    ensures r.Ok? ==> r.value in {"Success.", UnknownActionMessage}
  {
    match payload
    case None => Err(Exit(InvalidPayload))
    case Some(p) =>
      if !p.JObj? then Err(Crash)
      else
        var action := Get(p.fields, "ACTION");
        var logTypes := Get(p.fields, "LOG_TYPES");
        if action == JStr("TRIGGER-EXPORT") then
          var _ :- TriggerExportAction(rd, Get(p.fields, "EXPORT_MONTH"), logTypes, today, setting, pf);
          Ok("Success.")
        else if action == JStr("CHECK-MONTHLY-EXPORT") then
          var month := GetOr(p.fields, "EXPORT_MONTH", JStr(FormatMonth(today)));
          var _ :- CheckMonthlyExport(rd, month, logTypes, pf);
          Ok("Success.")
        else Ok(UnknownActionMessage)
  }

  /** `main` answers "Success." exactly when the selected action returns,
      and a check without a month checks the current month. */
  lemma MainDispatch(rd: Reading, p: map<string, Json>, today: Date, setting: Option<string>, pf: Platform)
    requires ValidDate(today)
    ensures var r := Main(rd, Some(JObj(p)), today, setting, pf);
      var action := Get(p, "ACTION");
      (action == JStr("TRIGGER-EXPORT") ==>
         (r.Ok? <==> TriggerExportAction(rd, Get(p, "EXPORT_MONTH"), Get(p, "LOG_TYPES"), today, setting, pf).Ok?)
         && (r.Ok? ==> r == Ok("Success."))) &&
      (action == JStr("CHECK-MONTHLY-EXPORT") ==>
         (r.Ok? <==>
          CheckMonthlyExport(rd, GetOr(p, "EXPORT_MONTH", JStr(FormatMonth(today))), Get(p, "LOG_TYPES"), pf).Ok?)
         && (r.Ok? ==> r == Ok("Success."))) &&
      (action != JStr("TRIGGER-EXPORT") && action != JStr("CHECK-MONTHLY-EXPORT") ==> r == Ok(UnknownActionMessage))
    ensures "EXPORT_MONTH" !in p ==>
      ParseMonth(FormatMonth(today)) == Some(Date(today.year, today.month, 1))
  {
    MonthRoundTrip(today);
  }

  /** With MONTHS_TO_LOOK_BACK unset, both readings export the same month. */
  lemma TriggerReadings(month: Json, logTypes: Json, today: Date, pf: Platform)
    requires ValidDate(today)
    ensures TriggerExportAction(AsWritten, month, logTypes, today, None, pf)
      == TriggerExportAction(Corrected, month, logTypes, today, None, pf)
  {
    ExportMonthReadings(month, today, None);
  }

  /** Both readings of the check succeed together. */
  lemma CheckMonthlyReadings(month: Json, logTypes: Json, pf: Platform)
    ensures CheckMonthlyExport(AsWritten, month, logTypes, pf).Ok? <==> CheckMonthlyExport(Corrected, month, logTypes, pf).Ok?
  {
    if month.JStr? && ParseMonth(month.s).Some? && logTypes.JStr? {
      var listing := pf.list(FormatStamp(Stamp(ParseMonth(month.s).value, 0, 0, 0)));
      if listing.Some? && Listed(listing.value).Some? {
        CheckListedReadings(Requested(logTypes.s), Listed(listing.value).value, pf);
      }
    }
  }

  /** With MONTHS_TO_LOOK_BACK unset, the source's `main` succeeds exactly
      when the corrected one does, and then with the same answer: the
      defects change only how a run fails. */
  lemma MainReadings(payload: Option<Json>, today: Date, pf: Platform)
    requires ValidDate(today)
    ensures Main(AsWritten, payload, today, None, pf).Ok? <==> Main(Corrected, payload, today, None, pf).Ok?
    ensures Main(AsWritten, payload, today, None, pf).Ok? ==>
      Main(AsWritten, payload, today, None, pf) == Main(Corrected, payload, today, None, pf)
  {
    if payload.Some? && payload.value.JObj? {
      var p := payload.value.fields;
      MainDispatch(AsWritten, p, today, None, pf);
      MainDispatch(Corrected, p, today, None, pf);
      TriggerReadings(Get(p, "EXPORT_MONTH"), Get(p, "LOG_TYPES"), today, pf);
      CheckMonthlyReadings(GetOr(p, "EXPORT_MONTH", JStr(FormatMonth(today))), Get(p, "LOG_TYPES"), pf);
    }
  }
}

=== FILE: check_documentation.dfy ===
/** The README freshness check (`tools/check_documentation.py`): each README
    with generated-documentation or table-of-contents markers gets a state,
    the first of a fixed series of checks that fails, and the run exits with
    an error when any README failed.

    What the documentation generator produces for a README (its variables,
    outputs, tables and table of contents) is an input: the generator is not
    part of this model. */
module DocCheck {
  import opened Wrappers
  import Strs
  import Sorting
  import Search

  /** `State`, an `IntEnum` numbered from 1 in declaration order. */
  datatype State =
    | Skip
    | Ok
    | FailStaleReadme
    | FailStaleToc
    | FailUnsortedVars
    | FailUnsortedOutputs
    | FailVariablePeriod
    | FailOutputPeriod
    | FailVariableDescription
    | FailOutputDescription
    | FailMissingTypes

  function Number(s: State): nat {
    match s
    case Skip => 1
    case Ok => 2
    case FailStaleReadme => 3
    case FailStaleToc => 4
    case FailUnsortedVars => 5
    case FailUnsortedOutputs => 6
    case FailVariablePeriod => 7
    case FailOutputPeriod => 8
    case FailVariableDescription => 9
    case FailOutputDescription => 10
    case FailMissingTypes => 11
  }

  /** `State.failed`: the value is above OK's. */
  predicate Failed(s: State) {
    Number(s) > Number(State.Ok)
  }

  /** Only SKIP and OK are not failures, and distinct states have distinct
      values. */
  lemma FailedIff(s: State, t: State)
    ensures Failed(s) <==> s != Skip && s != State.Ok
    ensures Number(s) == Number(t) <==> s == t
  {
  }

  /** `State.label`. */
  function Label(s: State): (r: string)
    ensures |r| == 2
  {
    match s
    case Skip => "  "
    case Ok => "\U{2713} "
    case FailStaleReadme => "\U{2717}R"
    case FailStaleToc => "\U{2717}T"
    case FailUnsortedVars => "SV"
    case FailUnsortedOutputs => "SO"
    case FailVariablePeriod => ".V"
    case FailOutputPeriod => ".O"
    case FailVariableDescription => "DV"
    case FailOutputDescription => "DO"
    case FailMissingTypes => "TY"
  }

  /** Each state has its own label, so a summary line tells the state. */
  lemma LabelsDistinct(s: State, t: State)
    requires s != t
    ensures Label(s) != Label(t)
  {
    assert Label(s)[0] != Label(t)[0] || Label(s)[1] != Label(t)[1];
  }

  /** A variable or output as the generator reports it; a missing
      description or type is `None`. */
  datatype Item = Item(name: string, file: string, description: Option<string>, varType: Option<string>)

  /** `not x` on an optional string. */
  predicate Blank(x: Option<string>) {
    x.None? || x.value == ""
  }

  /** The generator's view of a module: its documentation table, variables
      and outputs. */
  datatype Doc = Doc(content: string, variables: seq<Item>, outputs: seq<Item>)

  /** A README: where the walk found it (the absolute path under the base
      directory), its path relative to the base directory as reported, the
      documentation and table-of-contents parts it embeds (`None` without
      markers), and what the generator makes now. */
  datatype Readme = Readme(location: string, path: string, doc: Option<string>, toc: Option<string>, newDoc: Doc, newToc: string)

  /** `[x.name for x in items if x.file.endswith(suffix)]`. */
  function NamesFrom(items: seq<Item>, suffix: string): (r: seq<string>)
    ensures |r| <= |items|
    ensures forall n :: n in r <==> exists i :: 0 <= i < |items| && Strs.EndsWith(items[i].file, suffix) && items[i].name == n
    decreases |items|
  {
    if |items| == 0 then []
    else
      var rest := NamesFrom(items[1..], suffix);
      assert forall i :: 0 < i < |items| ==> items[i] == items[1..][i - 1];
      (if Strs.EndsWith(items[0].file, suffix) then [items[0].name] else []) + rest
  }

  predicate NoBlank(items: seq<Item>) {
    forall i :: 0 <= i < |items| ==> !Blank(items[i].description)
  }

  predicate AllTyped(items: seq<Item>) {
    forall i :: 0 <= i < |items| ==> !Blank(items[i].varType)
  }

  /** Every description ends with a period; read only once none is blank. */
  predicate AllEndWithPeriod(items: seq<Item>) {
    forall i :: 0 <= i < |items| ==> items[i].description.Some? && Strs.EndsWith(items[i].description.value, ".")
  }

  /** `names == sorted(names)`. */
  predicate InOrder(names: seq<string>) {
    names == Sorting.SortBy(names, Search.StrLe)
  }

  /** A list equals its sorted copy exactly when each name is at most the
      next in string order. */
  lemma InOrderIff(names: seq<string>)
    ensures InOrder(names) <==> Sorting.Sorted(names, Search.StrLe)
  {
    Search.StrLeTotalPreorder();
    Sorting.SortedIffFixed(names, Search.StrLe);
  }

  /** The series of checks in `_check_dir`, with the state each one's
      failure gives. The source labels the output-description check with
      `outputDescription`: FAIL_VARIABLE_DESCRIPTION as written,
      FAIL_OUTPUT_DESCRIPTION as intended. */
  function Cascade(r: Readme, outputDescription: State): (s: Option<State>)
    requires Failed(outputDescription)
    ensures s.None? <==> r.doc.None? && r.toc.None?
    ensures s.Some? ==> s.value != Skip
  {
    if r.doc.None? && r.toc.None? then None
    else
      var d := r.newDoc;
      Some(
        if r.doc.Some? && d.content != r.doc.value then FailStaleReadme
        else if r.toc.Some? && r.newToc != r.toc.value then FailStaleToc
        else if !NoBlank(d.variables) then FailVariableDescription
        else if !NoBlank(d.outputs) then outputDescription
        else if !InOrder(NamesFrom(d.variables, "variables.tf")) then FailUnsortedVars
        else if !InOrder(NamesFrom(d.outputs, "outputs.tf")) then FailUnsortedOutputs
        else if !AllEndWithPeriod(d.variables) then FailVariablePeriod
        else if !AllEndWithPeriod(d.outputs) then FailOutputPeriod
        else if !AllTyped(d.variables) then FailMissingTypes
        else State.Ok)
  }

  /** `_check_dir` on one README, as written: an undescribed output is
      reported as an undescribed variable, so FAIL_OUTPUT_DESCRIPTION
      never occurs. */
  function CheckAsWritten(r: Readme): (s: Option<State>)
    ensures s.None? <==> r.doc.None? && r.toc.None?
    ensures s != Some(FailOutputDescription)
    ensures s.Some? && NoBlank(r.newDoc.variables) && !NoBlank(r.newDoc.outputs) ==>
      s.value == FailStaleReadme || s.value == FailStaleToc || s.value == FailVariableDescription
  {
    Cascade(r, FailVariableDescription)
  }

  /** `_check_dir` on one README with the output-description check
      labelled as intended: each description state names the kind of
      item that lacks one. */
  function Check(r: Readme): (s: Option<State>)
    ensures s.None? <==> r.doc.None? && r.toc.None?
    ensures s == Some(FailVariableDescription) ==> !NoBlank(r.newDoc.variables)
    ensures s == Some(FailOutputDescription) ==> NoBlank(r.newDoc.variables) && !NoBlank(r.newDoc.outputs)
  {
    Cascade(r, FailOutputDescription)
  }

  /** The check as `rd` reads it. */
  function CheckIn(rd: Reading, r: Readme): Option<State> {
    if rd.AsWritten? then CheckAsWritten(r) else Check(r)
  }

  /** The label the source puts where the corrected check reports an
      output without a description. */
  function Relabel(s: State): (t: State)
    ensures Failed(t) <==> Failed(s)
    ensures t != FailOutputDescription
    ensures s != FailOutputDescription ==> t == s
  {
    if s == FailOutputDescription then FailVariableDescription else s
  }

  /** The source's check is the corrected one with that single relabelling. */
  lemma CheckReadings(r: Readme)
    ensures CheckAsWritten(r) == if Check(r).Some? then Some(Relabel(Check(r).value)) else None
  {
  }

  /** The checks `_check_dir` applies, by their position in its series. */
  datatype Rule =
    | FreshDoc | FreshToc | VarsDescribed | OutputsDescribed | VarsSorted
    | OutputsSorted | VarPeriods | OutputPeriods | VarsTyped

  function Position(rule: Rule): nat {
    match rule
    case FreshDoc => 0
    case FreshToc => 1
    case VarsDescribed => 2
    case OutputsDescribed => 3
    case VarsSorted => 4
    case OutputsSorted => 5
    case VarPeriods => 6
    case OutputPeriods => 7
    case VarsTyped => 8
  }

  /** What each check requires of a README. */
  ghost predicate Holds(rule: Rule, r: Readme) {
    var d := r.newDoc;
    match rule
    case FreshDoc => r.doc.Some? ==> d.content == r.doc.value
    case FreshToc => r.toc.Some? ==> r.newToc == r.toc.value
    case VarsDescribed => NoBlank(d.variables)
    case OutputsDescribed => NoBlank(d.outputs)
    case VarsSorted => InOrder(NamesFrom(d.variables, "variables.tf"))
    case OutputsSorted => InOrder(NamesFrom(d.outputs, "outputs.tf"))
    case VarPeriods => AllEndWithPeriod(d.variables)
    case OutputPeriods => AllEndWithPeriod(d.outputs)
    case VarsTyped => AllTyped(d.variables)
  }

  /** The state a failed check stands for. */
  function Fails(rule: Rule): State {
    match rule
    case FreshDoc => FailStaleReadme
    case FreshToc => FailStaleToc
    case VarsDescribed => FailVariableDescription
    case OutputsDescribed => FailOutputDescription
    case VarsSorted => FailUnsortedVars
    case OutputsSorted => FailUnsortedOutputs
    case VarPeriods => FailVariablePeriod
    case OutputPeriods => FailOutputPeriod
    case VarsTyped => FailMissingTypes
  }

  /** `rule` is the first check in the series that the README fails. */
  ghost predicate FirstBroken(r: Readme, rule: Rule) {
    !Holds(rule, r) && forall q :: Position(q) < Position(rule) ==> Holds(q, r)
  }

  /** The ordering checks hold exactly when each name is at most the next. */
  lemma SortedRules(r: Readme)
    ensures Holds(VarsSorted, r) <==> Sorting.Sorted(NamesFrom(r.newDoc.variables, "variables.tf"), Search.StrLe)
    ensures Holds(OutputsSorted, r) <==> Sorting.Sorted(NamesFrom(r.newDoc.outputs, "outputs.tf"), Search.StrLe)
  {
    InOrderIff(NamesFrom(r.newDoc.variables, "variables.tf"));
    InOrderIff(NamesFrom(r.newDoc.outputs, "outputs.tf"));
  }

  /** The README passes every check of the series. */
  ghost predicate PassesAll(r: Readme) {
    Holds(FreshDoc, r) && Holds(FreshToc, r) && Holds(VarsDescribed, r) && Holds(OutputsDescribed, r) &&
    Holds(VarsSorted, r) && Holds(OutputsSorted, r) && Holds(VarPeriods, r) && Holds(OutputPeriods, r) &&
    Holds(VarsTyped, r)
  }

  /** A README with markers is OK exactly when it passes every check. */
  lemma CheckOkIff(r: Readme)
    requires r.doc.Some? || r.toc.Some?
    ensures Check(r) == Some(State.Ok) <==> PassesAll(r)
  {
    HoldsUnfolded(r);
  }

  lemma HoldsUnfolded(r: Readme)
    ensures var d := r.newDoc;
      PassesAll(r) <==>
        (r.doc.Some? ==> d.content == r.doc.value) && (r.toc.Some? ==> r.newToc == r.toc.value) &&
        NoBlank(d.variables) && NoBlank(d.outputs) &&
        InOrder(NamesFrom(d.variables, "variables.tf")) && InOrder(NamesFrom(d.outputs, "outputs.tf")) &&
        AllEndWithPeriod(d.variables) && AllEndWithPeriod(d.outputs) && AllTyped(d.variables)
  {
    HoldsFresh(r);
    HoldsContent(r);
  }

  lemma HoldsFresh(r: Readme)
    ensures Holds(FreshDoc, r) == (r.doc.Some? ==> r.newDoc.content == r.doc.value)
    ensures Holds(FreshToc, r) == (r.toc.Some? ==> r.newToc == r.toc.value)
    ensures Holds(VarsDescribed, r) == NoBlank(r.newDoc.variables)
    ensures Holds(OutputsDescribed, r) == NoBlank(r.newDoc.outputs)
  {
  }

  lemma HoldsContent(r: Readme)
    ensures Holds(VarsSorted, r) == InOrder(NamesFrom(r.newDoc.variables, "variables.tf"))
    ensures Holds(OutputsSorted, r) == InOrder(NamesFrom(r.newDoc.outputs, "outputs.tf"))
    ensures Holds(VarPeriods, r) == AllEndWithPeriod(r.newDoc.variables)
    ensures Holds(OutputPeriods, r) == AllEndWithPeriod(r.newDoc.outputs)
    ensures Holds(VarsTyped, r) == AllTyped(r.newDoc.variables)
  {
    HoldsSorted(r);
    HoldsShape(r);
  }

  lemma HoldsShape(r: Readme)
    ensures Holds(VarPeriods, r) == AllEndWithPeriod(r.newDoc.variables)
    ensures Holds(OutputPeriods, r) == AllEndWithPeriod(r.newDoc.outputs)
    ensures Holds(VarsTyped, r) == AllTyped(r.newDoc.variables)
  {
  }

  lemma HoldsSorted(r: Readme)
    ensures Holds(VarsSorted, r) == InOrder(NamesFrom(r.newDoc.variables, "variables.tf"))
    ensures Holds(OutputsSorted, r) == InOrder(NamesFrom(r.newDoc.outputs, "outputs.tf"))
  {
  }

  /** A README that fails a check gets the failure of the first one. */
  lemma CheckFirstBroken(r: Readme, rule: Rule)
    requires r.doc.Some? || r.toc.Some?
    requires FirstBroken(r, rule)
    ensures Check(r) == Some(Fails(rule))
  {
    CheckByRules(r);
    assert Position(rule) > 0 ==> Holds(FreshDoc, r);
    assert Position(rule) > 1 ==> Holds(FreshToc, r);
    assert Position(rule) > 2 ==> Holds(VarsDescribed, r);
    assert Position(rule) > 3 ==> Holds(OutputsDescribed, r);
    assert Position(rule) > 4 ==> Holds(VarsSorted, r);
    assert Position(rule) > 5 ==> Holds(OutputsSorted, r);
    assert Position(rule) > 6 ==> Holds(VarPeriods, r);
    assert Position(rule) > 7 ==> Holds(OutputPeriods, r);
  }

  /** `Check` as the series of rules, each failing with its own state. */
  lemma CheckByRules(r: Readme)
    requires r.doc.Some? || r.toc.Some?
    ensures Check(r) == Some(
      if !Holds(FreshDoc, r) then Fails(FreshDoc)
      else if !Holds(FreshToc, r) then Fails(FreshToc)
      else if !Holds(VarsDescribed, r) then Fails(VarsDescribed)
      else if !Holds(OutputsDescribed, r) then Fails(OutputsDescribed)
      else if !Holds(VarsSorted, r) then Fails(VarsSorted)
      else if !Holds(OutputsSorted, r) then Fails(OutputsSorted)
      else if !Holds(VarPeriods, r) then Fails(VarPeriods)
      else if !Holds(OutputPeriods, r) then Fails(OutputPeriods)
      else if !Holds(VarsTyped, r) then Fails(VarsTyped)
      else State.Ok)
  {
    HoldsFresh(r);
    HoldsContent(r);
  }

  /** As written, a README whose outputs lack a description is reported as
      one whose variables lack one, and FAIL_OUTPUT_DESCRIPTION never
      occurs. */
  lemma OutputDescriptionMislabelled(r: Readme)
    requires r.doc.Some? && r.newDoc.content == r.doc.value && r.toc.None?
    requires NoBlank(r.newDoc.variables) && !NoBlank(r.newDoc.outputs)
    ensures CheckAsWritten(r) == Some(FailVariableDescription)
    ensures Check(r) == Some(FailOutputDescription)
    ensures forall r' :: CheckAsWritten(r') != Some(FailOutputDescription)
  {
  }

  /** A README whose location, as the walk yields it under the absolute
      base directory, contains `.terraform` is skipped; the repository's
      own location counts too. */
  predicate Ignored(location: string) {
    Strs.Contains(location, ".terraform")
  }

  /** `_check_dir`: a result for each README not ignored and with markers,
      in the order given (the sorted order of the directory walk). */
  function CheckDir(rd: Reading, readmes: seq<Readme>): (rs: seq<(string, State)>)
    ensures |rs| <= |readmes|
    decreases |readmes|
  {
    if |readmes| == 0 then []
    else
      var r := readmes[0];
      var here := if Ignored(r.location) then None else CheckIn(rd, r);
      (if here.Some? then [(r.path, here.value)] else []) + CheckDir(rd, readmes[1..])
  }

  /** A README gets a result exactly when it is not ignored and carries a
      marker, and the result is its check. */
  lemma {:induction false} CheckDirResults(rd: Reading, readmes: seq<Readme>, path: string, s: State)
    requires forall i, j :: 0 <= i < j < |readmes| ==> readmes[i].path != readmes[j].path
    ensures (path, s) in CheckDir(rd, readmes) <==>
      exists i :: 0 <= i < |readmes| && readmes[i].path == path && !Ignored(readmes[i].location) && CheckIn(rd, readmes[i]) == Some(s)
    decreases |readmes|
  {
    if |readmes| > 0 {
      var rest := readmes[1..];
      CheckDirResults(rd, rest, path, s);
      assert forall i :: 0 < i < |readmes| ==> readmes[i] == rest[i - 1];
      if exists i :: 0 <= i < |rest| && rest[i].path == path && !Ignored(rest[i].location) && CheckIn(rd, rest[i]) == Some(s) {
        var i :| 0 <= i < |rest| && rest[i].path == path && !Ignored(rest[i].location) && CheckIn(rd, rest[i]) == Some(s);
        assert readmes[i + 1] == rest[i];
      }
    }
  }

  /** What `main` prints and whether it exits with an error. */
  datatype Outcome = Outcome(summary: seq<(string, string)>, errors: seq<string>, exitsWithError: bool)

  function AllResults(rd: Reading, dirs: seq<seq<Readme>>): seq<(string, State)>
    decreases |dirs|
  {
    if |dirs| == 0 then [] else CheckDir(rd, dirs[0]) + AllResults(rd, dirs[1..])
  }

  function Summary(rs: seq<(string, State)>): (lines: seq<(string, string)>)
    ensures |lines| == |rs|
    ensures forall i :: 0 <= i < |rs| ==> lines[i] == (Label(rs[i].1), rs[i].0)
  {
    seq(|rs|, i requires 0 <= i < |rs| => (Label(rs[i].1), rs[i].0))
  }

  function FailedPaths(rs: seq<(string, State)>): (ps: seq<string>)
    ensures |ps| <= |rs|
    decreases |rs|
  {
    if |rs| == 0 then []
    else (if Failed(rs[0].1) then [rs[0].0] else []) + FailedPaths(rs[1..])
  }

  /** `main`: every result is summarised with its label, the failed ones
      are collected in order, and the run exits with "Errors found." when
      there is one. */
  function Main(rd: Reading, dirs: seq<seq<Readme>>, showSummary: bool): (o: Outcome)
    ensures o.exitsWithError <==> |o.errors| > 0
    ensures showSummary ==> o.summary == Summary(AllResults(rd, dirs))
    ensures !showSummary ==> o.summary == []
  {
    var rs := AllResults(rd, dirs);
    var errors := FailedPaths(rs);
    Outcome(if showSummary then Summary(rs) else [], errors, |errors| > 0)
  }

  /** A path is listed as an error exactly when one of its results failed,
      and the run fails exactly when some result failed. */
  lemma {:induction false} FailedPathsSpec(rs: seq<(string, State)>)
    ensures forall p :: p in FailedPaths(rs) <==> exists i :: 0 <= i < |rs| && rs[i].0 == p && Failed(rs[i].1)
    ensures |FailedPaths(rs)| > 0 <==> exists i :: 0 <= i < |rs| && Failed(rs[i].1)
    decreases |rs|
  {
    if |rs| > 0 {
      var rest := rs[1..];
      FailedPathsSpec(rest);
      assert forall i :: 0 < i < |rs| ==> rs[i] == rest[i - 1];
      forall i | 0 <= i < |rest| && Failed(rest[i].1)
        ensures exists j :: 0 <= j < |rs| && rs[j].0 == rest[i].0 && Failed(rs[j].1)
      {
        assert rs[i + 1] == rest[i];
      }
      if exists i :: 0 <= i < |rest| && Failed(rest[i].1) {
        var i :| 0 <= i < |rest| && Failed(rest[i].1);
        assert rs[i + 1] == rest[i];
      }
    }
  }

  lemma MainFailsIff(rd: Reading, dirs: seq<seq<Readme>>, showSummary: bool)
    ensures Main(rd, dirs, showSummary).exitsWithError <==>
      exists i :: 0 <= i < |AllResults(rd, dirs)| && Failed(AllResults(rd, dirs)[i].1)
  {
    FailedPathsSpec(AllResults(rd, dirs));
  }

  /** Results with the source's labels in place of the corrected ones. */
  function RelabelAll(rs: seq<(string, State)>): (ts: seq<(string, State)>)
    ensures |ts| == |rs|
    ensures forall i :: 0 <= i < |rs| ==> ts[i] == (rs[i].0, Relabel(rs[i].1))
  {
    seq(|rs|, i requires 0 <= i < |rs| => (rs[i].0, Relabel(rs[i].1)))
  }

  lemma RelabelAppend(a: seq<(string, State)>, b: seq<(string, State)>)
    ensures RelabelAll(a + b) == RelabelAll(a) + RelabelAll(b)
  {
  }

  lemma {:induction false} CheckDirReadings(readmes: seq<Readme>)
    ensures CheckDir(AsWritten, readmes) == RelabelAll(CheckDir(Corrected, readmes))
    decreases |readmes|
  {
    if |readmes| > 0 {
      CheckDirReadings(readmes[1..]);
      CheckReadings(readmes[0]);
      var r := readmes[0];
      var here := if Ignored(r.location) then None else Check(r);
      RelabelAppend(if here.Some? then [(r.path, here.value)] else [], CheckDir(Corrected, readmes[1..]));
    }
  }

  /** The source reports the results of the corrected check, relabelled. */
  lemma {:induction false} AllResultsReadings(dirs: seq<seq<Readme>>)
    ensures AllResults(AsWritten, dirs) == RelabelAll(AllResults(Corrected, dirs))
    decreases |dirs|
  {
    if |dirs| > 0 {
      CheckDirReadings(dirs[0]);
      AllResultsReadings(dirs[1..]);
      RelabelAppend(CheckDir(Corrected, dirs[0]), AllResults(Corrected, dirs[1..]));
    }
  }

  /** Relabelling never changes which paths failed. */
  lemma {:induction false} FailedPathsRelabel(rs: seq<(string, State)>)
    ensures FailedPaths(RelabelAll(rs)) == FailedPaths(rs)
    decreases |rs|
  {
    if |rs| > 0 {
      FailedPathsRelabel(rs[1..]);
      assert RelabelAll(rs)[1..] == RelabelAll(rs[1..]);
    }
  }

  /** The source's `main` lists the same errors and exits the same way as
      the corrected one; only the summary label of an output without a
      description differs. */
  lemma MainReadings(dirs: seq<seq<Readme>>, showSummary: bool)
    ensures Main(AsWritten, dirs, showSummary).errors == Main(Corrected, dirs, showSummary).errors
    ensures Main(AsWritten, dirs, showSummary).exitsWithError == Main(Corrected, dirs, showSummary).exitsWithError
    ensures showSummary ==> Main(AsWritten, dirs, showSummary).summary == Summary(RelabelAll(AllResults(Corrected, dirs)))
  {
    AllResultsReadings(dirs);
    FailedPathsRelabel(AllResults(Corrected, dirs));
  }
}

=== FILE: collectors.dfy ===
/** Test discovery from YAML test specs (`tests/collectors.py`): which files
    are test specs, and the test items one spec expands to: one item per
    inventory file of each test, with the variable files it is planned
    with.

    Reading and parsing the YAML file is an input: a spec file is given as
    its top-level value, with the entries of its `tests` mapping in document
    order. Running a test item is not part of this model. */
module Collectors {
  import opened Wrappers
  import opened JsonValue
  import Strs
  import Search

  datatype Error =
    | CannotRead    // the file cannot be opened or is not valid YAML
    | NoModule      // the spec has no `module` key
    | Crash         // an exception of Python's own (a `TypeError` or `AttributeError`)
    | Unmodelled    // iterating a mapping, or formatting a list or mapping into a name

  /** A spec file as `yaml.safe_load` reads it: its top-level value (`null`
      for an empty file, and not necessarily a mapping), and the entries of
      `raw.get('tests', {})` in document order: `Some([])` when the top level
      has no `tests` key, `None` when that value is not a mapping. */
  datatype SpecFile = SpecFile(top: Json, tests: Option<seq<(string, Json)>>)

  datatype TestItem = TestItem(
    name: string,
    moduleDir: Json,
    inventory: seq<Json>,
    tfVarFiles: seq<Json>,
    extraFiles: Json,
    extraDirs: Json)

  /** A file name's `Path.suffix`: from its last dot, when that dot is
      neither the first nor the last character. */
  function Suffix(name: string): (r: string)
    ensures r == "" || (Strs.EndsWith(name, r) && |r| < |name| && r[0] == '.')
  {
    if exists i :: 0 < i < |name| - 1 && name[i] == '.' && '.' !in name[i + 1..] then
      var i :| 0 < i < |name| - 1 && name[i] == '.' && '.' !in name[i + 1..];
      name[i..]
    else ""
  }

  /** `pytest_collect_file`: a YAML file whose name starts with "tftest". */
  predicate IsTestSpec(path: string) {
    var name := Strs.LastSegment(path, '/');
    Suffix(name) == ".yaml" && Strs.StartsWith(name, "tftest")
  }

  /** A file is a test spec exactly when its name starts with "tftest" and
      ends with ".yaml". */
  lemma IsTestSpecIff(path: string)
    ensures IsTestSpec(path) <==>
      var name := Strs.LastSegment(path, '/');
      Strs.StartsWith(name, "tftest") && Strs.EndsWith(name, ".yaml")
  {
    var name := Strs.LastSegment(path, '/');
    if Strs.StartsWith(name, "tftest") && Strs.EndsWith(name, ".yaml") {
      var i := |name| - 5;
      assert name[i..] == ".yaml";
      assert name[i] == '.' && '.' !in name[i + 1..];
      SuffixAt(name, i);
    }
  }

  /** The suffix starts at the last dot. */
  lemma SuffixAt(name: string, i: int)
    requires 0 < i < |name| - 1 && name[i] == '.' && '.' !in name[i + 1..]
    ensures Suffix(name) == name[i..]
  {
    forall j | 0 < j < |name| - 1 && name[j] == '.' && '.' !in name[j + 1..] ensures j == i {
      DotBefore(name, i, j);
      DotBefore(name, j, i);
    }
  }

  lemma DotBefore(name: string, a: int, b: int)
    requires 0 <= a < |name| && 0 <= b < |name| && name[b] == '.'
    ensures a < b ==> '.' in name[a + 1..]
  {
    if a < b {
      assert name[a + 1..][b - a - 1] == name[b];
    }
  }

  /** `for i in v`: a list by element, a string by character. */
  function Iterate(v: Json): (r: Result<seq<Json>, Error>)
    ensures v.JList? ==> r == Ok(v.items)
    ensures v.JStr? ==> r.Ok? && |r.value| == |v.s|
  {
    match v
    case JList(xs) => Ok(xs)
    case JStr(s) => Ok(seq(|s|, k requires 0 <= k < |s| => JStr([s[k]])))
    case JObj(_) => Err(Unmodelled)
    case _ => Err(Crash)
  }

  /** `list + v` needs `v` to be a list. */
  function ListOf(v: Json): Result<seq<Json>, Error> {
    if v.JList? then Ok(v.items) else Err(Crash)
  }

  function Decimal(n: nat): string
    decreases n
  {
    if n < 10 then [('0' as int + n) as char] else Decimal(n / 10) + [('0' as int + n % 10) as char]
  }

  /** `f'{v}'` for a scalar. */
  function Show(v: Json): Result<string, Error> {
    match v
    case JNull => Ok("None")
    case JBool(b) => Ok(if b then "True" else "False")
    case JInt(i) => Ok(if i < 0 then "-" + Decimal(-i) else Decimal(i))
    case JStr(s) => Ok(s)
    case _ => Err(Unmodelled)
  }

  /** The name of the item for inventory `i`: the test's name, followed by
      `[i]` when the inventory is a list of more than one file. */
  function ItemName(test: string, i: Json, suffixed: bool): Result<string, Error> {
    if suffixed then
      var shown :- Show(i);
      Ok(test + "[" + shown + "]")
    else Ok(test)
  }

  /** The items of one test, one per inventory in `invs`. */
  function ItemsFor(test: string, invs: seq<Json>, suffixed: bool, moduleDir: Json, tfVarFiles: seq<Json>,
                    extraFiles: Json, extraDirs: Json): (r: Result<seq<TestItem>, Error>)
    ensures r.Ok? ==> |r.value| == |invs|
    ensures r.Ok? ==> forall k :: 0 <= k < |invs| ==>
      ItemName(test, invs[k], suffixed).Ok? &&
      r.value[k] == TestItem(ItemName(test, invs[k], suffixed).value, moduleDir, [invs[k]], tfVarFiles, extraFiles, extraDirs)
    ensures !suffixed ==> r.Ok?
    ensures r.Err? ==> r.error == Unmodelled
    decreases |invs|
  {
    if |invs| == 0 then Ok([])
    else
      var name :- ItemName(test, invs[0], suffixed);
      var rest :- ItemsFor(test, invs[1..], suffixed, moduleDir, tfVarFiles, extraFiles, extraDirs);
      Ok([TestItem(name, moduleDir, [invs[0]], tfVarFiles, extraFiles, extraDirs)] + rest)
  }

  /** The default inventory of a test: the YAML file named after it. */
  function DefaultInventory(test: string): Json {
    JList([JStr(test + ".yaml")])
  }

  /** The expansion of one test of a spec. A `null` test is an empty
      mapping; the variable files are the spec's common ones, the file named
      after the test, then the test's own. */
  function TestItems(test: string, spec: Json, moduleDir: Json, common: Json): (r: Result<seq<TestItem>, Error>)
    ensures spec != JNull && !spec.JObj? ==> r == Err(Crash)
    ensures r.Err? ==> r.error == Crash || r.error == Unmodelled
    ensures r.Ok? ==> (
      var s := if spec == JNull then map[] else spec.fields;
      var inventories := GetOr(s, "inventory", DefaultInventory(test));
      Iterate(inventories).Ok? && |r.value| == |Iterate(inventories).value| &&
      common.JList? && GetOr(s, "tfvars", JList([])).JList? &&
      forall k :: 0 <= k < |r.value| ==>
        r.value[k].moduleDir == moduleDir &&
        r.value[k].inventory == [Iterate(inventories).value[k]] &&
        r.value[k].tfVarFiles == common.items + [JStr(test + ".tfvars")] + GetOr(s, "tfvars", JList([])).items &&
        r.value[k].extraFiles == Get(s, "extra_files") && r.value[k].extraDirs == Get(s, "extra_dirs") &&
        (inventories.JList? && |inventories.items| > 1 ==> Strs.StartsWith(r.value[k].name, test + "[")) &&
        (!(inventories.JList? && |inventories.items| > 1) ==> r.value[k].name == test))
  {
    if spec != JNull && !spec.JObj? then Err(Crash)
    else
      var s := if spec == JNull then map[] else spec.fields;
      var inventories := GetOr(s, "inventory", DefaultInventory(test));
      var commonFiles :- ListOf(common);
      var own :- ListOf(GetOr(s, "tfvars", JList([])));
      var tfVarFiles := commonFiles + [JStr(test + ".tfvars")] + own;
      var invs :- Iterate(inventories);
      var suffixed := inventories.JList? && |invs| > 1;
      ItemsFor(test, invs, suffixed, moduleDir, tfVarFiles, Get(s, "extra_files"), Get(s, "extra_dirs"))
  }

  /** A `null` test expands like an empty one. */
  lemma NullTestIsEmpty(test: string, moduleDir: Json, common: Json)
    ensures TestItems(test, JNull, moduleDir, common) == TestItems(test, JObj(map[]), moduleDir, common)
  {
  }

  /** Without an `inventory` key a test has exactly one item, named after
      the test, whose inventory is the YAML file named after it. */
  lemma DefaultInventoryItem(test: string, spec: map<string, Json>, moduleDir: Json, common: Json)
    requires "inventory" !in spec
    requires common.JList? && GetOr(spec, "tfvars", JList([])).JList?
    ensures TestItems(test, JObj(spec), moduleDir, common).Ok?
    ensures |TestItems(test, JObj(spec), moduleDir, common).value| == 1
    ensures TestItems(test, JObj(spec), moduleDir, common).value[0].name == test
    ensures TestItems(test, JObj(spec), moduleDir, common).value[0].inventory == [JStr(test + ".yaml")]
  {
  }

  /** A list of several inventories gives one item per file, each named
      with its file. */
  lemma SeveralInventories(test: string, spec: map<string, Json>, moduleDir: Json, common: Json)
    requires "inventory" in spec && spec["inventory"].JList? && |spec["inventory"].items| > 1
    requires forall k :: 0 <= k < |spec["inventory"].items| ==> spec["inventory"].items[k].JStr?
    requires common.JList? && GetOr(spec, "tfvars", JList([])).JList?
    ensures var r := TestItems(test, JObj(spec), moduleDir, common);
      r.Ok? && |r.value| == |spec["inventory"].items| &&
      forall k :: 0 <= k < |r.value| ==>
        r.value[k].name == test + "[" + spec["inventory"].items[k].s + "]" &&
        r.value[k].inventory == [spec["inventory"].items[k]]
  {
    var invs := spec["inventory"].items;
    var tfVarFiles := common.items + [JStr(test + ".tfvars")] + GetOr(spec, "tfvars", JList([])).items;
    ItemsForStrings(test, invs, moduleDir, tfVarFiles, Get(spec, "extra_files"), Get(spec, "extra_dirs"));
  }

  lemma {:induction false} ItemsForStrings(test: string, invs: seq<Json>, moduleDir: Json, tfVarFiles: seq<Json>,
                                           extraFiles: Json, extraDirs: Json)
    requires forall k :: 0 <= k < |invs| ==> invs[k].JStr?
    ensures ItemsFor(test, invs, true, moduleDir, tfVarFiles, extraFiles, extraDirs).Ok?
    decreases |invs|
  {
    if |invs| > 0 {
      ItemsForStrings(test, invs[1..], moduleDir, tfVarFiles, extraFiles, extraDirs);
    }
  }

  /** The tests of a spec, expanded in order. */
  function ExpandTests(tests: seq<(string, Json)>, moduleDir: Json, common: Json): (r: Result<seq<TestItem>, Error>)
    ensures |tests| == 0 ==> r == Ok([])
    ensures r.Err? ==> r.error == Crash || r.error == Unmodelled
    ensures r.Ok? ==> forall k :: 0 <= k < |r.value| ==> r.value[k].moduleDir == moduleDir
    ensures |tests| == 1 ==> r == TestItems(tests[0].0, tests[0].1, moduleDir, common)
    decreases |tests|
  {
    if |tests| == 0 then Ok([])
    else
      var here :- TestItems(tests[0].0, tests[0].1, moduleDir, common);
      var rest :- ExpandTests(tests[1..], moduleDir, common);
      assert |tests| == 1 ==> here + rest == here;
      Ok(here + rest)
  }

  /** `TestFile.collect`: a spec that cannot be read, or whose top level is a
      mapping without `module`, fails with its own message; a top level that
      is not a mapping (an empty file, a list, a scalar) has no `pop` taking a
      key, and that error escapes both handlers. `common_tfvars` defaults to
      none. */
  function Collect(doc: Option<SpecFile>): (r: Result<seq<TestItem>, Error>)
    ensures doc.None? <==> r == Err(CannotRead)
    ensures doc.Some? && !doc.value.top.JObj? ==> r == Err(Crash)
    ensures doc.Some? && doc.value.top.JObj? && "module" !in doc.value.top.fields <==> r == Err(NoModule)
    ensures r.Ok? ==> doc.Some? && doc.value.top.JObj? && "module" in doc.value.top.fields
    ensures r.Ok? ==> forall k :: 0 <= k < |r.value| ==> r.value[k].moduleDir == doc.value.top.fields["module"]
  {
    match doc
    case None => Err(CannotRead)
    case Some(d) =>
      if !d.top.JObj? then Err(Crash)
      else if "module" !in d.top.fields then Err(NoModule)
      else
        match d.tests
        case None => Err(Crash)
        case Some(tests) =>
          ExpandTests(tests, d.top.fields["module"], GetOr(d.top.fields, "common_tfvars", JList([])))
  }

  /** The items of a spec are those of its tests, in order: every test
      contributes one item per inventory. */
  lemma {:induction false} ExpandTestsCount(tests: seq<(string, Json)>, moduleDir: Json, common: Json)
    requires ExpandTests(tests, moduleDir, common).Ok?
    ensures forall j :: 0 <= j < |tests| ==> TestItems(tests[j].0, tests[j].1, moduleDir, common).Ok?
    ensures |ExpandTests(tests, moduleDir, common).value| == ItemCount(tests, moduleDir, common)
    decreases |tests|
  {
    if |tests| > 0 {
      ExpandTestsCount(tests[1..], moduleDir, common);
      assert forall j :: 0 < j < |tests| ==> tests[j] == tests[1..][j - 1];
    }
  }

  /** The items of one run of tests followed by another are the items of
      the first run followed by those of the second: each test's items
      come where the test stands. */
  lemma {:induction false} ExpandTestsAppend(a: seq<(string, Json)>, b: seq<(string, Json)>, moduleDir: Json, common: Json)
    ensures ExpandTests(a + b, moduleDir, common).Ok? <==>
      ExpandTests(a, moduleDir, common).Ok? && ExpandTests(b, moduleDir, common).Ok?
    ensures ExpandTests(a + b, moduleDir, common).Ok? ==>
      ExpandTests(a + b, moduleDir, common).value == ExpandTests(a, moduleDir, common).value + ExpandTests(b, moduleDir, common).value
    decreases |a|
  {
    if |a| == 0 {
      assert a + b == b;
    } else {
      assert (a + b)[0] == a[0] && (a + b)[1..] == a[1..] + b;
      ExpandTestsCons(a + b, moduleDir, common);
      ExpandTestsCons(a, moduleDir, common);
      ExpandTestsAppend(a[1..], b, moduleDir, common);
      var here := TestItems(a[0].0, a[0].1, moduleDir, common);
      var rest, second := ExpandTests(a[1..], moduleDir, common), ExpandTests(b, moduleDir, common);
      if here.Ok? && rest.Ok? && second.Ok? {
        Search.ConcatAssoc(here.value, rest.value, second.value);
      }
    }
  }

  /** One step of the expansion: the first test's items, then the rest's. */
  lemma ExpandTestsCons(tests: seq<(string, Json)>, moduleDir: Json, common: Json)
    requires |tests| > 0
    ensures ExpandTests(tests, moduleDir, common).Ok? <==>
      TestItems(tests[0].0, tests[0].1, moduleDir, common).Ok? && ExpandTests(tests[1..], moduleDir, common).Ok?
    ensures ExpandTests(tests, moduleDir, common).Ok? ==> (ExpandTests(tests, moduleDir, common).value ==
      TestItems(tests[0].0, tests[0].1, moduleDir, common).value + ExpandTests(tests[1..], moduleDir, common).value)
  {
  }

  /** The number of items the tests expand to, one per inventory entry. */
  ghost function ItemCount(tests: seq<(string, Json)>, moduleDir: Json, common: Json): nat
    requires forall j :: 0 <= j < |tests| ==> TestItems(tests[j].0, tests[j].1, moduleDir, common).Ok?
    decreases |tests|
  {
    if |tests| == 0 then 0
    else
      assert TestItems(tests[0].0, tests[0].1, moduleDir, common).Ok?;
      var s := if tests[0].1 == JNull then map[] else tests[0].1.fields;
      |Iterate(GetOr(s, "inventory", DefaultInventory(tests[0].0))).value| +
      ItemCount(tests[1..], moduleDir, common)
  }
}

=== FILE: dashboard_manager.dfy ===
/** The dashboards pipeline's planner (`script/dashboard_manager.py`).
    Local dashboard files and the remote listing are read into
    insertion-ordered dicts keyed by display name; charts are matched by
    display name; each local dashboard yields CREATE, UPDATE or nothing;
    applying runs an UPDATE as a delete followed by an import. The SecOps
    client is an oracle. */
module DashboardManager {
  import opened Wrappers
  import opened JsonValue
  import opened OrderedDicts
  import Strs
  import M = DashboardModels

  /** What makes planning raise. */
  datatype PlanError =
    | KeyError(key: string)
    | TypeError(value: Json)
    | AttributeError(value: Json)
    | ModelError(error: M.Error)
    | ApiError

  function FromModel<T>(r: Result<T, M.Error>): (r': Result<T, PlanError>)
    ensures r'.Ok? <==> r.Ok?
    ensures r'.Ok? ==> r'.value == r.value
  {
    match r
    case Ok(v) => Ok(v)
    case Err(e) => Err(ModelError(e))
  }

  /** `v.split(...)` needs a string. */
  function AsString(v: Json): (r: Result<string, PlanError>)
    ensures r.Ok? <==> v.JStr?
    ensures r.Ok? ==> r.value == v.s
  {
    if v.JStr? then Ok(v.s) else Err(AttributeError(v))
  }

  // ---- Chart comparison ----

  /** The fields the server sets, which a comparison ignores. */
  const IgnoredChartFields: set<string> :=
    {"name", "etag", "chartDatasource", "nativeDashboard", "createTime", "updateTime", "createUserId", "updateUserId"}

  /** `are_charts_different`: the charts differ once the ignored fields
      are dropped from both. */
  predicate ChartsDifferent(a: map<string, Json>, b: map<string, Json>) {
    a - IgnoredChartFields != b - IgnoredChartFields
  }

  /** Key `k` is in one chart only, or in both with different values. */
  ghost predicate DiffersAt(a: map<string, Json>, b: map<string, Json>, k: string) {
    (k in a) != (k in b) || (k in a && k in b && a[k] != b[k])
  }

  /** Two charts differ exactly when they differ at some key that is not
      ignored; so the comparison is symmetric and a chart never differs
      from itself. */
  lemma ChartsDifferentIff(a: map<string, Json>, b: map<string, Json>)
    ensures ChartsDifferent(a, b) <==> exists k :: k !in IgnoredChartFields && DiffersAt(a, b, k)
    ensures ChartsDifferent(a, b) == ChartsDifferent(b, a)
    ensures !ChartsDifferent(a, a)
  {
    var a', b' := a - IgnoredChartFields, b - IgnoredChartFields;
    if a' != b' {
      if a'.Keys != b'.Keys {
        if k :| k in a'.Keys && k !in b'.Keys {
          assert DiffersAt(a, b, k);
        } else {
          var k :| k in b'.Keys && k !in a'.Keys;
          assert DiffersAt(a, b, k);
        }
      } else {
        var k :| k in a' && a'[k] != b'[k];
        assert DiffersAt(a, b, k);
      }
    } else {
      forall k | k !in IgnoredChartFields ensures !DiffersAt(a, b, k) {
        assert (k in a <==> k in a') && (k in b <==> k in b');
      }
    }
  }

  // ---- Charts keyed by display name ----

  /** A dict key as Python hashes it: `True` is the key `1`, `False` the key `0`. */
  function PyKey(j: Json): Json {
    match j
    case JBool(b) => JInt(if b then 1 else 0)
    case _ => j
  }

  /** `c['displayName']` paired with the chart, which must be a dict. */
  function ChartEntry(c: Json): (r: Result<(Json, map<string, Json>), PlanError>)
    ensures r.Ok? <==> c.JObj? && "displayName" in c.fields && Hashable(c.fields["displayName"])
  {
    if !c.JObj? then Err(TypeError(c))
    else if "displayName" !in c.fields then Err(KeyError("displayName"))
    else if !Hashable(c.fields["displayName"]) then Err(TypeError(c.fields["displayName"]))
    else Ok((PyKey(c.fields["displayName"]), c.fields))
  }

  /** The key a chart is filed under: its display name as Python hashes it. */
  function ChartKey(c: Json): Json {
    if c.JObj? && "displayName" in c.fields then PyKey(c.fields["displayName"]) else JNull
  }

  /** No later chart of `charts` has the display name of chart `i`. */
  predicate LastOfItsName(charts: seq<Json>, i: nat)
    requires i < |charts|
  {
    forall j :: i < j < |charts| ==> ChartKey(charts[j]) != ChartKey(charts[i])
  }

  /** `{c['displayName']: c for c in charts}`: a later chart with the same
      display name replaces the earlier one. */
  function ChartMap(charts: Json): (r: Result<Dict<Json, map<string, Json>>, PlanError>)
    ensures r.Ok? ==> Distinct(r.value)
    ensures charts == JList([]) ==> r == Ok([])
    ensures charts.JList? ==> (r.Ok? <==> forall i :: 0 <= i < |charts.items| ==> ChartEntry(charts.items[i]).Ok?)
    ensures charts.JList? && r.Ok? ==>
      forall k :: k in KeySet(r.value) <==> exists i :: 0 <= i < |charts.items| && ChartKey(charts.items[i]) == k
    ensures charts.JList? && r.Ok? ==> forall i :: 0 <= i < |charts.items| && LastOfItsName(charts.items, i) ==>
      charts.items[i].JObj? && Lookup(r.value, ChartKey(charts.items[i])) == Some(charts.items[i].fields)
  {
    var items :- if M.Iterate(charts).Ok? then Ok(M.Iterate(charts).value) else Err(TypeError(charts));
    var entries :- M.Traverse(items, ChartEntry);
    assert forall i :: 0 <= i < |entries| ==> entries[i] == (ChartKey(items[i]), items[i].fields);
    LookupLast(entries);
    Ok(FromPairs(entries))
  }

  /** The local chart `entry` has a remote chart of its name that differs. */
  ghost predicate NeedsUpdate(entry: (Json, map<string, Json>), remote: Dict<Json, map<string, Json>>) {
    Lookup(remote, entry.0).Some? && ChartsDifferent(entry.1, Lookup(remote, entry.0).value)
  }

  /** `p` is the update payload of `entry`: the local chart under the
      remote chart's `name`. */
  ghost predicate IsUpdateOf(p: map<string, Json>, entry: (Json, map<string, Json>), remote: Dict<Json, map<string, Json>>) {
    NeedsUpdate(entry, remote) && "name" in Lookup(remote, entry.0).value
    && p == entry.1["name" := Lookup(remote, entry.0).value["name"]]
  }

  /** The update payloads, in local order; a remote chart without a `name`
      that needs an update raises. */
  function Updates(local: Dict<Json, map<string, Json>>, remote: Dict<Json, map<string, Json>>): (r: Result<seq<map<string, Json>>, PlanError>)
    ensures r.Ok? ==> (|r.value| == 0 <==> forall i :: 0 <= i < |local| ==> !NeedsUpdate(local[i], remote))
    ensures r.Ok? ==> forall j :: 0 <= j < |r.value| ==> exists i :: 0 <= i < |local| && IsUpdateOf(r.value[j], local[i], remote)
    ensures r.Err? ==> exists i :: 0 <= i < |local| && NeedsUpdate(local[i], remote) && "name" !in Lookup(remote, local[i].0).value
    decreases |local|
  {
    if |local| == 0 then Ok([])
    else
      var entry := local[0];
      var first :- match Lookup(remote, entry.0)
        case Some(rc) =>
          if !ChartsDifferent(entry.1, rc) then Ok([])
          else if "name" in rc then Ok([entry.1["name" := rc["name"]]])
          else Err(KeyError("name"))
        case None => Ok([]);
      var rest :- Updates(local[1..], remote);
      assert forall i :: 1 <= i < |local| ==> local[i] == local[1..][i - 1];
      Ok(first + rest)
  }

  datatype ChartDiff = ChartDiff(add: seq<map<string, Json>>, delete: seq<map<string, Json>>, update: seq<map<string, Json>>)

  /** Charts to add (local only), to delete (remote only) and to update
      (in both and different). */
  function DiffCharts(local: Dict<Json, map<string, Json>>, remote: Dict<Json, map<string, Json>>): (r: Result<ChartDiff, PlanError>)
    ensures r.Ok? <==> Updates(local, remote).Ok?
  {
    var update :- Updates(local, remote);
    Ok(ChartDiff(ValuesOutside(local, KeySet(remote)), ValuesOutside(remote, KeySet(local)), update))
  }

  /** Added charts are the local charts whose name is not remote, deleted
      charts the remote charts whose name is not local. */
  lemma DiffChartsContents(local: Dict<Json, map<string, Json>>, remote: Dict<Json, map<string, Json>>, c: map<string, Json>)
    requires DiffCharts(local, remote).Ok?
    ensures c in DiffCharts(local, remote).value.add <==>
      exists i :: 0 <= i < |local| && local[i].0 !in KeySet(remote) && local[i].1 == c
    ensures c in DiffCharts(local, remote).value.delete <==>
      exists i :: 0 <= i < |remote| && remote[i].0 !in KeySet(local) && remote[i].1 == c
  {
    ValuesOutsideMembers(local, KeySet(remote), c);
    ValuesOutsideMembers(remote, KeySet(local), c);
  }

  predicate Changed(d: ChartDiff) {
    |d.add| > 0 || |d.delete| > 0 || |d.update| > 0
  }

  /** Something changed exactly when the chart names differ or a chart in
      both differs. */
  lemma ChangedIff(local: Dict<Json, map<string, Json>>, remote: Dict<Json, map<string, Json>>)
    requires DiffCharts(local, remote).Ok?
    ensures Changed(DiffCharts(local, remote).value) <==>
      KeySet(local) != KeySet(remote) || exists i :: 0 <= i < |local| && NeedsUpdate(local[i], remote)
  {
    ValuesOutsideEmpty(local, KeySet(remote));
    ValuesOutsideEmpty(remote, KeySet(local));
  }

  // ---- Planning ----

  /** A local dashboard: the `dashboard` record of its file, its
      `dashboardCharts` and its `dashboardQueries`. */
  datatype LocalDashboard = LocalDashboard(dashboard: map<string, Json>, charts: Json, queries: Json)

  /** A remote dashboard: its full record and the charts that could be fetched. */
  datatype RemoteDashboard = RemoteDashboard(dashboard: M.NativeDashboard, charts: seq<Json>)

  datatype Op = Create(local: LocalDashboard) | Update(dashboardId: string, local: LocalDashboard)

  function OperationOf(op: Op): M.Operation {
    if op.Create? then M.CREATE else M.UPDATE
  }

  /** One local dashboard against the remote ones: CREATE when its name is
      not remote, UPDATE under the last `/`-segment of the remote name when
      a chart changed, nothing otherwise. */
  function PlanDashboard(name: string, local: LocalDashboard, remote: Dict<string, RemoteDashboard>): (r: Result<Option<Op>, PlanError>)
    ensures Lookup(remote, name).None? ==> r == Ok(Some(Create(local)))
    ensures Lookup(remote, name).Some? && r.Ok? && r.value.Some? ==>
      (r.value.value.Update? && r.value.value.local == local
       && Lookup(remote, name).value.dashboard.name.JStr?
       && r.value.value.dashboardId == Strs.LastSegment(Lookup(remote, name).value.dashboard.name.s, '/'))
  {
    match Lookup(remote, name)
    case None => Ok(Some(Create(local)))
    case Some(rd) =>
      var lm :- ChartMap(local.charts);
      var rm :- ChartMap(JList(rd.charts));
      var diff :- DiffCharts(lm, rm);
      if !Changed(diff) then Ok(None)
      else
        var n :- AsString(rd.dashboard.name);
        Ok(Some(Update(Strs.LastSegment(n, '/'), local)))
  }

  /** An existing dashboard is planned exactly when its charts changed:
      its own fields never cause an update. */
  lemma UpdateOnlyOnChartChanges(name: string, local: LocalDashboard, remote: Dict<string, RemoteDashboard>)
    requires Lookup(remote, name).Some?
    requires ChartMap(local.charts).Ok? && ChartMap(JList(Lookup(remote, name).value.charts)).Ok?
    requires PlanDashboard(name, local, remote).Ok?
    ensures var lm, rm := ChartMap(local.charts).value, ChartMap(JList(Lookup(remote, name).value.charts)).value;
      PlanDashboard(name, local, remote).value.Some? <==>
        (KeySet(lm) != KeySet(rm) || exists i :: 0 <= i < |lm| && NeedsUpdate(lm[i], rm))
  {
    var lm, rm := ChartMap(local.charts).value, ChartMap(JList(Lookup(remote, name).value.charts)).value;
    ChangedIff(lm, rm);
  }

  /** The plan of each local dashboard, in order. */
  function Plans(local: Dict<string, LocalDashboard>, remote: Dict<string, RemoteDashboard>): (r: seq<Result<Option<Op>, PlanError>>)
    ensures |r| == |local|
    ensures forall i :: 0 <= i < |local| ==> r[i] == PlanDashboard(local[i].0, local[i].1, remote)
  {
    seq(|local|, i requires 0 <= i < |local| => PlanDashboard(local[i].0, local[i].1, remote))
  }

  /** A local dashboard named `x` comes before one named `y`, from
      dashboard `from` on. */
  ghost predicate Before(local: Dict<string, LocalDashboard>, x: string, y: string, from: nat) {
    exists i, i' :: from <= i < i' < |local| && local[i].0 == x && local[i'].0 == y
  }

  /** The planned dashboards appear in the order of their local
      dashboards from `from` on. */
  ghost predicate InLocalOrder(local: Dict<string, LocalDashboard>, ops: Dict<string, Op>, from: nat) {
    forall a, b :: 0 <= a < b < |ops| ==> Before(local, ops[a].0, ops[b].0, from)
  }

  /** Putting dashboard `from` in front of the plan of the later ones
      keeps it in local order. */
  lemma OrderCons(local: Dict<string, LocalDashboard>, from: nat, head: Dict<string, Op>, rest: Dict<string, Op>)
    requires from < |local| && (head == [] || (|head| == 1 && head[0].0 == local[from].0))
    requires forall j :: 0 <= j < |rest| ==> exists i :: from < i < |local| && local[i].0 == rest[j].0
    requires InLocalOrder(local, rest, from + 1)
    ensures InLocalOrder(local, head + rest, from)
  {
    var r := head + rest;
    forall a, b | 0 <= a < b < |r|
      ensures Before(local, r[a].0, r[b].0, from)
    {
      if |head| == 1 && a == 0 {
        assert r[b] == rest[b - 1];
        var i' :| from < i' < |local| && local[i'].0 == rest[b - 1].0;
        assert local[from].0 == r[a].0 && local[i'].0 == r[b].0;
      } else {
        var k := |head|;
        assert r[a] == rest[a - k] && r[b] == rest[b - k];
        assert Before(local, rest[a - k].0, rest[b - k].0, from + 1);
      }
    }
  }

  /** The loop of `compute_dashboard_operations` from dashboard `from` on,
      with `plans[i]` the plan of dashboard `i`: the first plan that raises
      ends planning, and the planned entries are kept in order. */
  function PlanFrom(local: Dict<string, LocalDashboard>, plans: seq<Result<Option<Op>, PlanError>>, from: nat): (r: Result<Dict<string, Op>, PlanError>)
    requires |plans| == |local| && from <= |local|
    ensures r.Ok? <==> forall i :: from <= i < |local| ==> plans[i].Ok?
    ensures r.Ok? ==> forall i :: from <= i < |local| && plans[i].value.Some? ==> (local[i].0, plans[i].value.value) in r.value
    ensures r.Ok? ==> forall j :: 0 <= j < |r.value| ==>
      exists i :: from <= i < |local| && local[i].0 == r.value[j].0 && plans[i] == Ok(Some(r.value[j].1))
    ensures r.Ok? ==> InLocalOrder(local, r.value, from)
    decreases |local| - from
  {
    if from == |local| then Ok([])
    else
      var first :- plans[from];
      var rest :- PlanFrom(local, plans, from + 1);
      PlannedCons(local, plans, from, first, rest);
      OrderCons(local, from, if first.Some? then [(local[from].0, first.value)] else [], rest);
      Ok((if first.Some? then [(local[from].0, first.value)] else []) + rest)
  }

  /** The planning step for dashboard `from`, given the plan of the later ones. */
  lemma PlannedCons(local: Dict<string, LocalDashboard>, plans: seq<Result<Option<Op>, PlanError>>, from: nat, first: Option<Op>, rest: Dict<string, Op>)
    requires from < |local| && |plans| == |local| && plans[from] == Ok(first)
    requires forall i :: from < i < |local| && plans[i].Ok? && plans[i].value.Some? ==> (local[i].0, plans[i].value.value) in rest
    requires forall j :: 0 <= j < |rest| ==> exists i :: from < i < |local| && local[i].0 == rest[j].0 && plans[i] == Ok(Some(rest[j].1))
    ensures var r := (if first.Some? then [(local[from].0, first.value)] else []) + rest;
      (forall i :: from <= i < |local| && plans[i].Ok? && plans[i].value.Some? ==> (local[i].0, plans[i].value.value) in r) &&
      (forall j :: 0 <= j < |r| ==> exists i :: from <= i < |local| && local[i].0 == r[j].0 && plans[i] == Ok(Some(r[j].1)))
  {
    var r := (if first.Some? then [(local[from].0, first.value)] else []) + rest;
    forall j | 0 <= j < |r|
      ensures exists i :: from <= i < |local| && local[i].0 == r[j].0 && plans[i] == Ok(Some(r[j].1))
    {
      if first.Some? && j == 0 {
        assert local[from].0 == r[0].0;
      } else {
        var k := if first.Some? then j - 1 else j;
        assert r[j] == rest[k];
      }
    }
  }

  /** `compute_dashboard_operations`: the planned dashboards in local
      order; the first dashboard that raises ends planning. */
  function ComputeOperations(local: Dict<string, LocalDashboard>, remote: Dict<string, RemoteDashboard>): (r: Result<Dict<string, Op>, PlanError>)
    ensures r.Ok? <==> forall i :: 0 <= i < |local| ==> PlanDashboard(local[i].0, local[i].1, remote).Ok?
    ensures r.Ok? ==> forall i :: 0 <= i < |local| && PlanDashboard(local[i].0, local[i].1, remote).value.Some? ==>
      (local[i].0, PlanDashboard(local[i].0, local[i].1, remote).value.value) in r.value
    ensures r.Ok? ==> forall j :: 0 <= j < |r.value| ==> exists i :: (0 <= i < |local| && local[i].0 == r.value[j].0
      && PlanDashboard(local[i].0, local[i].1, remote) == Ok(Some(r.value[j].1)))
    ensures r.Ok? ==> InLocalOrder(local, r.value, 0)
  {
    PlanFrom(local, Plans(local, remote), 0)
  }

  /** A local dashboard whose name is not remote is planned as CREATE. */
  lemma CreateWhenAbsent(local: Dict<string, LocalDashboard>, remote: Dict<string, RemoteDashboard>, i: nat)
    requires i < |local| && local[i].0 !in KeySet(remote)
    requires ComputeOperations(local, remote).Ok?
    ensures (local[i].0, Create(local[i].1)) in ComputeOperations(local, remote).value
  {
  }

  /** Every dashboard planned as CREATE, in order. */
  function AllCreate(local: Dict<string, LocalDashboard>): (r: Dict<string, Op>)
    ensures |r| == |local|
    ensures forall i :: 0 <= i < |local| ==> r[i] == (local[i].0, Create(local[i].1))
    decreases |local|
  {
    if |local| == 0 then []
    else [(local[0].0, Create(local[0].1))] + AllCreate(local[1..])
  }

  /** With no remote dashboards, which is also what a failing listing
      gives, every local dashboard is planned as CREATE. */
  lemma AllCreateWithoutRemote(local: Dict<string, LocalDashboard>)
    ensures ComputeOperations(local, []) == Ok(AllCreate(local))
  {
    var plans := Plans(local, []);
    AllCreateFrom(local, plans, 0);
    assert local[0..] == local;
  }

  lemma {:induction false} AllCreateFrom(local: Dict<string, LocalDashboard>, plans: seq<Result<Option<Op>, PlanError>>, from: nat)
    requires |plans| == |local| && from <= |local|
    requires forall i :: from <= i < |local| ==> plans[i] == Ok(Some(Create(local[i].1)))
    ensures PlanFrom(local, plans, from) == Ok(AllCreate(local[from..]))
    decreases |local| - from
  {
    if from < |local| {
      AllCreateFrom(local, plans, from + 1);
      assert local[from..][1..] == local[from + 1..];
    }
  }

  // ---- Local files ----

  /** One item of the layout scan raises: `in` is unsupported, or both
      markers are present and `item["dashboardChart"]` is not a hashable
      value of a dict. */
  predicate LayoutItemRaises(item: Json) {
    match PyIn("dashboardChart", item)
    case None => true
    case Some(has) =>
      has && PyIn("chartLayout", item) == Some(true)
      && !(item.JObj? && Hashable(item.fields["dashboardChart"]))
  }

  /** The scan of `definition.charts` for chart layouts, whose result is
      never used, raises. */
  predicate LayoutScanRaises(dashboard: map<string, Json>) {
    if "definition" !in dashboard then false
    else
      var def := dashboard["definition"];
      match PyIn("charts", def)
      case None => true
      case Some(false) => false
      case Some(true) =>
        if !def.JObj? then true
        else match def.fields["charts"]
          case JList(xs) => exists i | 0 <= i < |xs| :: LayoutItemRaises(xs[i])
          case JStr(s) => exists i | 0 <= i < |s| :: LayoutItemRaises(JStr([s[i]]))
          case JObj(m) => exists k | k in m :: LayoutItemRaises(JStr(k))
          case _ => true
  }

  /** `config["dashboards"][0]`, when it is a dict. */
  function FirstDefinition(config: Json): Option<map<string, Json>> {
    if config.JObj? && "dashboards" in config.fields && config.fields["dashboards"].JList?
       && |config.fields["dashboards"].items| > 0 && config.fields["dashboards"].items[0].JObj?
    then Some(config.fields["dashboards"].items[0].fields)
    else None
  }

  /** A dashboard dict that loads: its `displayName` is a string and the
      layout scan does not raise. */
  predicate DashboardLoads(dash: Json) {
    dash.JObj? && "displayName" in dash.fields && dash.fields["displayName"].JStr? && !LayoutScanRaises(dash.fields)
  }

  /** One `*.json` file, given as its parsed content (`None` when it is not
      JSON): `config["dashboards"][0]` names the dashboard after its
      `displayName`. A file on which any step raises is skipped. */
  function LoadFile(parsed: Option<Json>): (r: Option<(string, LocalDashboard)>)
    ensures r.Some? ==> "displayName" in r.value.1.dashboard && r.value.1.dashboard["displayName"] == JStr(r.value.0)
    ensures r.Some? ==> !LayoutScanRaises(r.value.1.dashboard)
    ensures r.Some? <==> (parsed.Some? && FirstDefinition(parsed.value).Some?
      && "dashboard" in FirstDefinition(parsed.value).value
      && DashboardLoads(FirstDefinition(parsed.value).value["dashboard"]))
    ensures r.Some? ==> var def := FirstDefinition(parsed.value).value;
      r.value.1 == LocalDashboard(def["dashboard"].fields, GetOr(def, "dashboardCharts", JList([])),
                                  GetOr(def, "dashboardQueries", JList([])))
  {
    if parsed.None? then None
    else
      var config := parsed.value;
      if !(config.JObj? && "dashboards" in config.fields) then None
      else
        var ds := config.fields["dashboards"];
        if !(ds.JList? && |ds.items| > 0) then None
        else
          var def := ds.items[0];
          if !(def.JObj? && "dashboard" in def.fields) then None
          else
            var dash := def.fields["dashboard"];
            if !(dash.JObj? && "displayName" in dash.fields) || LayoutScanRaises(dash.fields) then None
            else
              match dash.fields["displayName"]
              case JStr(name) =>
                Some((name, LocalDashboard(dash.fields, GetOr(def.fields, "dashboardCharts", JList([])),
                                           GetOr(def.fields, "dashboardQueries", JList([])))))
              case _ => None
  }

  /** The files that load, in directory order. */
  function Loaded(files: seq<Option<Json>>): (r: seq<(string, LocalDashboard)>)
    ensures forall p :: p in r <==> exists i :: 0 <= i < |files| && LoadFile(files[i]) == Some(p)
    decreases |files|
  {
    if |files| == 0 then []
    else
      var rest := Loaded(files[1..]);
      assert forall i :: 1 <= i < |files| ==> files[i] == files[1..][i - 1];
      (if LoadFile(files[0]).Some? then [LoadFile(files[0]).value] else []) + rest
  }

  /** `get_local_dashboards_with_charts`: nothing when the directory is
      missing; otherwise each name that loads, holding the last file that
      named it. */
  function LoadLocal(isDir: bool, files: seq<Option<Json>>): (r: Dict<string, LocalDashboard>)
    ensures !isDir ==> r == []
    ensures Distinct(r)
    ensures isDir ==> forall name :: name in KeySet(r) <==>
      exists i :: 0 <= i < |files| && LoadFile(files[i]).Some? && LoadFile(files[i]).value.0 == name
  {
    if !isDir then []
    else
      var loaded := Loaded(files);
      forall name ensures name in KeySet(FromPairs(loaded)) <==>
        exists i :: 0 <= i < |files| && LoadFile(files[i]).Some? && LoadFile(files[i]).value.0 == name
      {
        LoadedNames(files, name);
      }
      FromPairs(loaded)
  }

  /** A name is a key of the loaded dict exactly when some file loads
      under it. */
  lemma {:induction false} LoadedNames(files: seq<Option<Json>>, name: string)
    ensures name in KeySet(FromPairs(Loaded(files))) <==>
      exists i :: 0 <= i < |files| && LoadFile(files[i]).Some? && LoadFile(files[i]).value.0 == name
  {
    var loaded := Loaded(files);
    var loads := seq(|files|, i requires 0 <= i < |files| => LoadFile(files[i]));
    forall p ensures p in loaded <==> exists i :: 0 <= i < |loads| && loads[i] == Some(p) {
      if p in loaded {
        var i :| 0 <= i < |files| && LoadFile(files[i]) == Some(p);
        assert loads[i] == Some(p);
      }
      if exists i :: 0 <= i < |loads| && loads[i] == Some(p) {
        var i :| 0 <= i < |loads| && loads[i] == Some(p);
        assert LoadFile(files[i]) == Some(p);
      }
    }
    PairNames(loads, loaded, name);
    assert (exists i :: 0 <= i < |loads| && loads[i].Some? && loads[i].value.0 == name) <==>
      exists i :: 0 <= i < |files| && LoadFile(files[i]).Some? && LoadFile(files[i]).value.0 == name;
  }

  /** The names of the kept pairs are the names of the loads that
      succeeded, whatever the loads are. */
  lemma {:induction false} PairNames<T>(loads: seq<Option<(string, T)>>, loaded: seq<(string, T)>, name: string)
    requires forall p :: p in loaded <==> exists i :: 0 <= i < |loads| && loads[i] == Some(p)
    ensures name in (set j | 0 <= j < |loaded| :: loaded[j].0) <==>
      exists i :: 0 <= i < |loads| && loads[i].Some? && loads[i].value.0 == name
  {
    if exists i :: 0 <= i < |loads| && loads[i].Some? && loads[i].value.0 == name {
      var i :| 0 <= i < |loads| && loads[i].Some? && loads[i].value.0 == name;
      var p := loads[i].value;
      assert p in loaded;
      var j :| 0 <= j < |loaded| && loaded[j] == p;
      assert name == loaded[j].0;
    }
    if name in (set j | 0 <= j < |loaded| :: loaded[j].0) {
      var j :| 0 <= j < |loaded| && loaded[j].0 == name;
      assert loaded[j] in loaded;
      var i :| 0 <= i < |loads| && loads[i] == Some(loaded[j]);
    }
  }

  // ---- Remote listing ----

  /** The client calls the listing makes; `None` is a call that raised. */
  datatype Api = Api(
    listDashboards: Option<map<string, Json>>,
    getDashboard: string -> Option<Json>,
    getChart: string -> Option<Json>)

  /** A listed dashboard the listing keeps: it has a display name and is
      not curated. */
  predicate Eligible(d: M.NativeDashboard) {
    Truthy(d.displayName) && d.dashboardType != Some(M.CURATED)
  }

  /** One chart reference: the chart when its fetch succeeds; a failing
      fetch is logged and skipped. */
  function FetchChart(api: Api, ref: M.ChartConfig): (r: Result<seq<Json>, PlanError>)
    ensures r.Ok? ==> |r.value| <= 1
    ensures r.Err? <==> Truthy(ref.dashboardChart) && !ref.dashboardChart.JStr?
    ensures forall c :: r == Ok([c]) <==>
      Truthy(ref.dashboardChart) && ref.dashboardChart.JStr? && api.getChart(Strs.LastSegment(ref.dashboardChart.s, '/')) == Some(c)
  {
    if !Truthy(ref.dashboardChart) then Ok([])
    else
      var path :- AsString(ref.dashboardChart);
      match api.getChart(Strs.LastSegment(path, '/'))
      case Some(c) => Ok([c])
      case None => Ok([])
  }

  /** The charts of a dashboard's references, in order, skipping those
      whose fetch fails. */
  function FetchCharts(api: Api, refs: seq<M.ChartConfig>): (r: Result<seq<Json>, PlanError>)
    ensures r.Ok? ==> |r.value| <= |refs|
    ensures r.Ok? <==> forall i :: 0 <= i < |refs| ==> FetchChart(api, refs[i]).Ok?
    ensures r.Ok? ==> forall c :: c in r.value <==> exists i :: 0 <= i < |refs| && FetchChart(api, refs[i]) == Ok([c])
    decreases |refs|
  {
    if |refs| == 0 then Ok([])
    else
      var first :- FetchChart(api, refs[0]);
      var rest :- FetchCharts(api, refs[1..]);
      assert forall i :: 1 <= i < |refs| ==> refs[i] == refs[1..][i - 1];
      Ok(first + rest)
  }

  /** One listed dashboard: skipped, or its full record and charts under
      its display name. A list or dict display name cannot key the result:
      storing it raises TypeError once the dashboard has been fetched. */
  function FetchOne(api: Api, d: M.NativeDashboard): (r: Result<Option<(string, RemoteDashboard)>, PlanError>)
    ensures !Eligible(d) ==> r == Ok(None)
    ensures r.Ok? && r.value.Some? ==> Eligible(d) && d.displayName == JStr(r.value.value.0)
    ensures r.Ok? && Eligible(d) && d.displayName.JStr? ==> r.value.Some?
    ensures Eligible(d) && !Hashable(d.displayName) ==> r.Err?
  {
    if !Eligible(d) then Ok(None)
    else
      var path :- AsString(d.name);
      var raw :- match api.getDashboard(Strs.LastSegment(path, '/'))
        case Some(j) => Ok(j)
        case None => Err(ApiError);
      var full :- FromModel(M.DashboardFromJson(raw));
      var charts :- FetchCharts(api, full.definition.charts);
      match d.displayName
      case JStr(s) => Ok(Some((s, RemoteDashboard(full, charts))))
      case other => if Hashable(other) then Ok(None) else Err(TypeError(other))
  }

  /** `dashboard` names an eligible listed dashboard. */
  ghost predicate ListedName(ds: seq<M.NativeDashboard>, name: string) {
    exists i :: 0 <= i < |ds| && Eligible(ds[i]) && ds[i].displayName == JStr(name)
  }

  lemma ListedNameSnoc(ds: seq<M.NativeDashboard>, name: string)
    requires |ds| > 0
    ensures ListedName(ds, name) <==>
      ListedName(ds[..|ds| - 1], name) || (Eligible(ds[|ds| - 1]) && ds[|ds| - 1].displayName == JStr(name))
  {
    var n := |ds| - 1;
    if ListedName(ds, name) {
      var i :| 0 <= i < |ds| && Eligible(ds[i]) && ds[i].displayName == JStr(name);
      if i < n {
        assert ds[..n][i] == ds[i];
      }
    }
    if ListedName(ds[..n], name) {
      var i :| 0 <= i < n && Eligible(ds[..n][i]) && ds[..n][i].displayName == JStr(name);
      assert ds[i] == ds[..n][i];
    }
  }

  /** The listing loop: dashboards in listed order, a later one with the
      same display name replacing the earlier one. */
  function Collect(api: Api, ds: seq<M.NativeDashboard>): (r: Result<Dict<string, RemoteDashboard>, PlanError>)
    ensures r.Ok? ==> Distinct(r.value)
    ensures r.Ok? ==> forall name :: name in KeySet(r.value) <==> ListedName(ds, name)
    decreases |ds|
  {
    if |ds| == 0 then Ok([])
    else
      var n := |ds| - 1;
      var acc :- Collect(api, ds[..n]);
      var one :- FetchOne(api, ds[n]);
      forall name ensures ListedName(ds, name) <==>
        ListedName(ds[..n], name) || (Eligible(ds[n]) && ds[n].displayName == JStr(name))
      {
        ListedNameSnoc(ds, name);
      }
      match one
      case None => Ok(acc)
      case Some(entry) =>
        PutDistinct(acc, entry.0, entry.1);
        Ok(Put(acc, entry.0, entry.1))
  }

  /** `list_remote_dashboards` before its catch-all: the dashboards under
      `nativeDashboards`, parsed and collected. */
  function Listing(api: Api): Result<Dict<string, RemoteDashboard>, PlanError> {
    var raw :- match api.listDashboards
      case Some(m) => Ok(m)
      case None => Err(ApiError);
    if "nativeDashboards" !in raw then Ok([])
    else
      var items :- FromModel(M.Iterate(raw["nativeDashboards"]));
      var listed :- FromModel(M.Traverse(items, M.DashboardFromJson));
      Collect(api, listed)
  }

  /** `list_remote_dashboards`: any exception yields no dashboards. */
  function ListRemote(api: Api): (r: Dict<string, RemoteDashboard>)
    ensures Distinct(r)
    ensures Listing(api).Err? ==> r == []
  {
    match Listing(api)
    case Ok(d) => d
    case Err(_) => []
  }

  // ---- Applying ----

  datatype Call = Import(dashboard: LocalDashboard) | Delete(dashboardId: string)

  function OpCalls(op: Op): seq<Call> {
    match op
    case Create(l) => [Import(l)]
    case Update(id, l) => [Delete(id), Import(l)]
  }

  /** The delete at `i` is followed by the import of the same update of
      the plan. */
  ghost predicate DeleteThenImport(calls: seq<Call>, i: nat, ops: Dict<string, Op>)
    requires i < |calls| && calls[i].Delete?
  {
    i + 1 < |calls| && calls[i + 1].Import?
    && exists j :: 0 <= j < |ops| && ops[j].1 == Update(calls[i].dashboardId, calls[i + 1].dashboard)
  }

  /** The calls of the first operation, then those of the later ones,
      keep each delete paired with its import. */
  lemma PairedCons(ops: Dict<string, Op>, rest: seq<Call>)
    requires |ops| > 0
    requires forall i :: 0 <= i < |rest| && rest[i].Delete? ==> DeleteThenImport(rest, i, ops[1..])
    ensures forall i :: 0 <= i < |OpCalls(ops[0].1) + rest| && (OpCalls(ops[0].1) + rest)[i].Delete? ==>
      DeleteThenImport(OpCalls(ops[0].1) + rest, i, ops)
  {
    var r := OpCalls(ops[0].1) + rest;
    var n := |OpCalls(ops[0].1)|;
    forall i | 0 <= i < |r| && r[i].Delete? ensures DeleteThenImport(r, i, ops) {
      if i < n {
        assert i == 0 && ops[0].1.Update?;
        assert r[1] == Import(ops[0].1.local);
      } else {
        assert r[i] == rest[i - n] && r[i + 1] == rest[i + 1 - n];
        var j :| 0 <= j < |ops[1..]| && ops[1..][j].1 == Update(rest[i - n].dashboardId, rest[i + 1 - n].dashboard);
        assert ops[j + 1] == ops[1..][j];
      }
    }
  }

  /** `apply`: the client calls, in plan order. */
  function ApplyCalls(ops: Dict<string, Op>): (r: seq<Call>)
    ensures forall id :: Delete(id) in r <==> exists j :: 0 <= j < |ops| && ops[j].1.Update? && ops[j].1.dashboardId == id
    ensures forall l :: Import(l) in r <==> exists j :: 0 <= j < |ops| && ops[j].1.local == l
    ensures forall i :: 0 <= i < |r| && r[i].Delete? ==> DeleteThenImport(r, i, ops)
    decreases |ops|
  {
    if |ops| == 0 then []
    else
      var rest := ApplyCalls(ops[1..]);
      assert forall j :: 1 <= j < |ops| ==> ops[j] == ops[1..][j - 1];
      PairedCons(ops, rest);
      OpCalls(ops[0].1) + rest
  }
}

=== FILE: dashboard_models.dfy ===
/** The dashboard records of the dashboards pipeline and their
    `from_dict`/`to_dict` serialisers (`script/models.py`). Every scalar
    field keeps whatever JSON value the input held (`None` when the key is
    absent); nested records, lists of records and the three enumerations
    are parsed, and a value Python could not parse becomes an `Error`. */
module DashboardModels {
  import opened Wrappers
  import opened JsonValue

  datatype Operation = CREATE | UPDATE

  datatype Access = DASHBOARD_ACCESS_UNSPECIFIED | DASHBOARD_PRIVATE | DASHBOARD_PUBLIC

  datatype DashboardType =
    | DASHBOARD_TYPE_UNSPECIFIED | CURATED | PRIVATE | PUBLIC | CUSTOM | MARKETPLACE

  datatype DataSource =
    | DATA_SOURCE_UNSPECIFIED | UDM | RULE_DETECTIONS | GLOBAL | INGESTION_METRICS

  /** What makes `from_dict` raise: an enumeration value that is not one
      of its members (`ValueError`), `.get` on something that is not a
      dict (`AttributeError`), iteration over something that is not
      iterable (`TypeError`). */
  datatype Error = UnknownMember(value: Json) | NotAnObject(value: Json) | NotIterable(value: Json)

  // ---- Enumerations ----

  function AccessValue(a: Access): string {
    match a
    case DASHBOARD_ACCESS_UNSPECIFIED => "DASHBOARD_ACCESS_UNSPECIFIED"
    case DASHBOARD_PRIVATE => "DASHBOARD_PRIVATE"
    case DASHBOARD_PUBLIC => "DASHBOARD_PUBLIC"
  }

  /** `DashboardAccess(v)`: the member whose value is `v`. */
  function AccessOf(v: Json): (r: Result<Access, Error>)
    ensures r.Ok? ==> v == JStr(AccessValue(r.value))
  {
    if v == JStr("DASHBOARD_ACCESS_UNSPECIFIED") then Ok(DASHBOARD_ACCESS_UNSPECIFIED)
    else if v == JStr("DASHBOARD_PRIVATE") then Ok(DASHBOARD_PRIVATE)
    else if v == JStr("DASHBOARD_PUBLIC") then Ok(DASHBOARD_PUBLIC)
    else Err(UnknownMember(v))
  }

  /** Every member's value parses back to that member. */
  lemma AccessOfValue(a: Access)
    ensures AccessOf(JStr(AccessValue(a))) == Ok(a)
  {
  }

  function TypeValue(t: DashboardType): string {
    match t
    case DASHBOARD_TYPE_UNSPECIFIED => "DASHBOARD_TYPE_UNSPECIFIED"
    case CURATED => "CURATED"
    case PRIVATE => "PRIVATE"
    case PUBLIC => "PUBLIC"
    case CUSTOM => "CUSTOM"
    case MARKETPLACE => "MARKETPLACE"
  }

  /** `DashboardType(v)`. */
  function TypeOf(v: Json): (r: Result<DashboardType, Error>)
    ensures r.Ok? ==> v == JStr(TypeValue(r.value))
  {
    if v == JStr("DASHBOARD_TYPE_UNSPECIFIED") then Ok(DASHBOARD_TYPE_UNSPECIFIED)
    else if v == JStr("CURATED") then Ok(CURATED)
    else if v == JStr("PRIVATE") then Ok(PRIVATE)
    else if v == JStr("PUBLIC") then Ok(PUBLIC)
    else if v == JStr("CUSTOM") then Ok(CUSTOM)
    else if v == JStr("MARKETPLACE") then Ok(MARKETPLACE)
    else Err(UnknownMember(v))
  }

  /** Every member's value parses back to that member. */
  lemma TypeOfValue(t: DashboardType)
    ensures TypeOf(JStr(TypeValue(t))) == Ok(t)
  {
  }

  function SourceValue(s: DataSource): string {
    match s
    case DATA_SOURCE_UNSPECIFIED => "DATA_SOURCE_UNSPECIFIED"
    case UDM => "UDM"
    case RULE_DETECTIONS => "RULE_DETECTIONS"
    case GLOBAL => "GLOBAL"
    case INGESTION_METRICS => "INGESTION_METRICS"
  }

  /** `DataSource(v)`. */
  function SourceOf(v: Json): (r: Result<DataSource, Error>)
    ensures r.Ok? ==> v == JStr(SourceValue(r.value))
  {
    if v == JStr("DATA_SOURCE_UNSPECIFIED") then Ok(DATA_SOURCE_UNSPECIFIED)
    else if v == JStr("UDM") then Ok(UDM)
    else if v == JStr("RULE_DETECTIONS") then Ok(RULE_DETECTIONS)
    else if v == JStr("GLOBAL") then Ok(GLOBAL)
    else if v == JStr("INGESTION_METRICS") then Ok(INGESTION_METRICS)
    else Err(UnknownMember(v))
  }

  /** Every member's value parses back to that member. */
  lemma SourceOfValue(s: DataSource)
    ensures SourceOf(JStr(SourceValue(s))) == Ok(s)
  {
  }

  /** An enumeration written back: its value, or `None`. */
  function EnumValue<E>(e: Option<E>, value: E -> string): Json {
    if e.Some? then JStr(value(e.value)) else JNull
  }

  /** `E(v) if v else None`: a falsy value is no member at all. */
  function OptionalMember<E>(v: Json, parse: Json -> Result<E, Error>): (r: Result<Option<E>, Error>)
    ensures !Truthy(v) ==> r == Ok(None)
    ensures Truthy(v) ==> (r.Ok? <==> parse(v).Ok?)
    ensures Truthy(v) && r.Ok? ==> r.value == Some(parse(v).value)
  {
    if !Truthy(v) then Ok(None)
    else
      var e :- parse(v);
      Ok(Some(e))
  }

  // ---- Shapes Python needs ----

  /** The receiver of `.get`: it must be a dict. */
  function AsObject(v: Json): (r: Result<map<string, Json>, Error>)
    ensures r.Ok? <==> v.JObj?
    ensures r.Ok? ==> r.value == v.fields
  {
    if v.JObj? then Ok(v.fields) else Err(NotAnObject(v))
  }

  /** What a `for item in v` yields when every item then needs `.get`:
      a list yields its items; an empty string or dict yields nothing; a
      non-empty string or dict yields strings, on which `.get` fails; any
      other value is not iterable. */
  function Iterate(v: Json): (r: Result<seq<Json>, Error>)
    ensures v.JList? ==> r == Ok(v.items)
    ensures r.Ok? ==> v.JList? || v == JStr("") || v == JObj(map[])
  {
    match v
    case JList(items) => Ok(items)
    case JStr(s) => if s == "" then Ok([]) else Err(NotAnObject(JStr([s[0]])))
    case JObj(m) => if |m| == 0 then Ok([]) else Err(NotAnObject(v))
    case _ => Err(NotIterable(v))
  }

  /** A list comprehension of `from_dict` calls: the first failure ends it. */
  function Traverse<T, E>(xs: seq<Json>, parse: Json -> Result<T, E>): (r: Result<seq<T>, E>)
    ensures r.Ok? <==> forall i :: 0 <= i < |xs| ==> parse(xs[i]).Ok?
    ensures r.Ok? ==> |r.value| == |xs| && forall i :: 0 <= i < |xs| ==> parse(xs[i]) == Ok(r.value[i])
    decreases |xs|
  {
    if |xs| == 0 then Ok([])
    else
      var x :- parse(xs[0]);
      var rest :- Traverse(xs[1..], parse);
      assert forall i :: 1 <= i < |xs| ==> xs[i] == xs[1..][i - 1];
      Ok([x] + rest)
  }

  /** `[item.to_dict() for item in xs]`. */
  function ListOf<T>(xs: seq<T>, write: T -> Json): (r: Json)
    ensures r.JList? && |r.items| == |xs|
    ensures forall i :: 0 <= i < |xs| ==> r.items[i] == write(xs[i])
  {
    JList(seq(|xs|, i requires 0 <= i < |xs| => write(xs[i])))
  }

  /** A list written with `write` and read back with a `parse` that
      inverts it is the list itself, in the same order. */
  lemma TraverseListOf<T>(xs: seq<T>, write: T -> Json, parse: Json -> Result<T, Error>)
    requires forall x :: parse(write(x)) == Ok(x)
    ensures Iterate(ListOf(xs, write)).Ok?
    ensures Traverse(Iterate(ListOf(xs, write)).value, parse) == Ok(xs)
  {
    var items := ListOf(xs, write).items;
    assert forall i :: 0 <= i < |items| ==> parse(items[i]) == Ok(xs[i]);
    var r := Traverse(items, parse);
    assert r.Ok?;
    assert |r.value| == |xs|;
    assert forall i :: 0 <= i < |xs| ==> r.value[i] == xs[i];
    assert r.value == xs;
  }

  // ---- Records ----

  datatype FilterOperatorAndValues = FilterOperatorAndValues(operator: Json, values: Json)

  function OperatorFromDict(d: map<string, Json>): (r: FilterOperatorAndValues)
    ensures "values" !in d ==> r.values == JList([])
  {
    FilterOperatorAndValues(Get(d, "operator"), GetOr(d, "values", JList([])))
  }

  function OperatorToDict(x: FilterOperatorAndValues): (r: Json)
    ensures r.JObj? && r.fields.Keys == {"operator", "values"}
  {
    JObj(map["operator" := x.operator, "values" := x.values])
  }

  /** `FilterOperatorAndValues.from_dict` on a list item. */
  function OperatorFromJson(v: Json): (r: Result<FilterOperatorAndValues, Error>)
    ensures r.Ok? <==> v.JObj?
  {
    var d :- AsObject(v);
    Ok(OperatorFromDict(d))
  }

  lemma OperatorRoundTrip(x: FilterOperatorAndValues)
    ensures OperatorFromJson(OperatorToDict(x)) == Ok(x)
  {
  }

  datatype ChartLayout = ChartLayout(spanX: Json, spanY: Json, startX: Json, startY: Json)

  function LayoutFromDict(d: map<string, Json>): ChartLayout {
    ChartLayout(Get(d, "spanX"), Get(d, "spanY"), Get(d, "startX"), Get(d, "startY"))
  }

  function LayoutToDict(x: ChartLayout): (r: Json)
    ensures r.JObj? && r.fields.Keys == {"spanX", "spanY", "startX", "startY"}
  {
    JObj(map["spanX" := x.spanX, "spanY" := x.spanY, "startX" := x.startX, "startY" := x.startY])
  }

  function LayoutFromJson(v: Json): (r: Result<ChartLayout, Error>)
    ensures r.Ok? <==> v.JObj?
  {
    var d :- AsObject(v);
    Ok(LayoutFromDict(d))
  }

  lemma LayoutRoundTrip(x: ChartLayout)
    ensures LayoutFromJson(LayoutToDict(x)) == Ok(x)
  {
  }

  datatype ChartConfig = ChartConfig(dashboardChart: Json, chartLayout: ChartLayout, filtersIds: Json)

  function ChartFromDict(d: map<string, Json>): (r: Result<ChartConfig, Error>)
    ensures r.Ok? <==> GetOr(d, "chartLayout", JObj(map[])).JObj?
    ensures "chartLayout" !in d ==> r.Ok? && r.value.chartLayout == ChartLayout(JNull, JNull, JNull, JNull)
    ensures "filtersIds" !in d && r.Ok? ==> r.value.filtersIds == JList([])
  {
    var layout :- LayoutFromJson(GetOr(d, "chartLayout", JObj(map[])));
    Ok(ChartConfig(Get(d, "dashboardChart"), layout, GetOr(d, "filtersIds", JList([]))))
  }

  function ChartToDict(x: ChartConfig): (r: Json)
    ensures r.JObj? && r.fields.Keys == {"dashboardChart", "chartLayout", "filtersIds"}
  {
    JObj(map["dashboardChart" := x.dashboardChart, "chartLayout" := LayoutToDict(x.chartLayout),
             "filtersIds" := x.filtersIds])
  }

  function ChartFromJson(v: Json): Result<ChartConfig, Error> {
    var d :- AsObject(v);
    ChartFromDict(d)
  }

  lemma ChartRoundTrip(x: ChartConfig)
    ensures ChartFromJson(ChartToDict(x)) == Ok(x)
  {
    LayoutRoundTrip(x.chartLayout);
  }

  datatype DashboardFilter = DashboardFilter(
    id: Json, dataSource: Option<DataSource>, fieldPath: Json,
    filterOperatorAndFieldValues: seq<FilterOperatorAndValues>, displayName: Json, chartIds: Json,
    isStandardTimeRangeFilter: Json, isMandatory: Json, isStandardTimeRangeFilterEnabled: Json)

  function FilterFromDict(d: map<string, Json>): (r: Result<DashboardFilter, Error>)
    ensures !Truthy(Get(d, "dataSource")) && r.Ok? ==> r.value.dataSource.None?
    ensures Truthy(Get(d, "dataSource")) && SourceOf(Get(d, "dataSource")).Err? ==> r.Err?
    ensures "filterOperatorAndFieldValues" !in d && r.Ok? ==> r.value.filterOperatorAndFieldValues == []
    ensures "chartIds" !in d && r.Ok? ==> r.value.chartIds == JList([])
  {
    var source :- OptionalMember(Get(d, "dataSource"), SourceOf);
    var items :- Iterate(GetOr(d, "filterOperatorAndFieldValues", JList([])));
    var operators :- Traverse(items, OperatorFromJson);
    Ok(DashboardFilter(Get(d, "id"), source, Get(d, "fieldPath"), operators, Get(d, "displayName"),
                       GetOr(d, "chartIds", JList([])), Get(d, "isStandardTimeRangeFilter"),
                       Get(d, "isMandatory"), Get(d, "isStandardTimeRangeFilterEnabled")))
  }

  function FilterToDict(x: DashboardFilter): (r: Json)
  {
    JObj(map[
      "id" := x.id,
      "dataSource" := EnumValue(x.dataSource, SourceValue),
      "fieldPath" := x.fieldPath,
      "filterOperatorAndFieldValues" := ListOf(x.filterOperatorAndFieldValues, OperatorToDict),
      "displayName" := x.displayName,
      "chartIds" := x.chartIds,
      "isStandardTimeRangeFilter" := x.isStandardTimeRangeFilter,
      "isMandatory" := x.isMandatory,
      "isStandardTimeRangeFilterEnabled" := x.isStandardTimeRangeFilterEnabled])
  }

  function FilterFromJson(v: Json): Result<DashboardFilter, Error> {
    var d :- AsObject(v);
    FilterFromDict(d)
  }

  /** A data source written as its value reads back as itself. */
  lemma SourceRoundTrip(s: Option<DataSource>)
    ensures OptionalMember(EnumValue(s, SourceValue), SourceOf) == Ok(s)
  {
  }

  /** Reading back the keys the filter was written under. */
  lemma FilterDictScalars(x: DashboardFilter)
    ensures var d := FilterToDict(x).fields;
      Get(d, "id") == x.id && Get(d, "fieldPath") == x.fieldPath && Get(d, "displayName") == x.displayName
      && GetOr(d, "chartIds", JList([])) == x.chartIds
  {
  }

  lemma FilterDictFlags(x: DashboardFilter)
    ensures var d := FilterToDict(x).fields;
      Get(d, "isStandardTimeRangeFilter") == x.isStandardTimeRangeFilter
      && Get(d, "isMandatory") == x.isMandatory
      && Get(d, "isStandardTimeRangeFilterEnabled") == x.isStandardTimeRangeFilterEnabled
  {
  }

  lemma FilterDictNested(x: DashboardFilter)
    ensures var d := FilterToDict(x).fields;
      Get(d, "dataSource") == EnumValue(x.dataSource, SourceValue)
      && GetOr(d, "filterOperatorAndFieldValues", JList([])) == ListOf(x.filterOperatorAndFieldValues, OperatorToDict)
  {
  }

  lemma FilterRoundTrip(x: DashboardFilter)
    ensures FilterFromJson(FilterToDict(x)) == Ok(x)
  {
    FilterDictScalars(x);
    FilterDictFlags(x);
    FilterDictNested(x);
    SourceRoundTrip(x.dataSource);
    forall y ensures OperatorFromJson(OperatorToDict(y)) == Ok(y) {
      OperatorRoundTrip(y);
    }
    TraverseListOf(x.filterOperatorAndFieldValues, OperatorToDict, OperatorFromJson);
  }

  datatype DashboardDefinition = DashboardDefinition(filters: seq<DashboardFilter>, fingerprint: Json, charts: seq<ChartConfig>)

  function DefinitionFromDict(d: map<string, Json>): (r: Result<DashboardDefinition, Error>)
    ensures "filters" !in d && r.Ok? ==> r.value.filters == []
    ensures "charts" !in d && r.Ok? ==> r.value.charts == []
  {
    var filterItems :- Iterate(GetOr(d, "filters", JList([])));
    var filters :- Traverse(filterItems, FilterFromJson);
    var chartItems :- Iterate(GetOr(d, "charts", JList([])));
    var charts :- Traverse(chartItems, ChartFromJson);
    Ok(DashboardDefinition(filters, Get(d, "fingerprint"), charts))
  }

  function DefinitionToDict(x: DashboardDefinition): (r: Json)
    ensures r.JObj? && r.fields.Keys == {"filters", "fingerprint", "charts"}
  {
    JObj(map["filters" := ListOf(x.filters, FilterToDict), "fingerprint" := x.fingerprint,
             "charts" := ListOf(x.charts, ChartToDict)])
  }

  function DefinitionFromJson(v: Json): Result<DashboardDefinition, Error> {
    var d :- AsObject(v);
    DefinitionFromDict(d)
  }

  lemma DefinitionRoundTrip(x: DashboardDefinition)
    ensures DefinitionFromJson(DefinitionToDict(x)) == Ok(x)
  {
    forall y ensures FilterFromJson(FilterToDict(y)) == Ok(y) {
      FilterRoundTrip(y);
    }
    forall y ensures ChartFromJson(ChartToDict(y)) == Ok(y) {
      ChartRoundTrip(y);
    }
    TraverseListOf(x.filters, FilterToDict, FilterFromJson);
    TraverseListOf(x.charts, ChartToDict, ChartFromJson);
  }

  datatype DashboardUserData = DashboardUserData(lastViewedTime: Json, isPinned: Json)

  function UserDataFromJson(v: Json): (r: Result<DashboardUserData, Error>)
    ensures r.Ok? <==> v.JObj?
  {
    var d :- AsObject(v);
    Ok(DashboardUserData(Get(d, "lastViewedTime"), Get(d, "isPinned")))
  }

  function UserDataToDict(x: DashboardUserData): (r: Json)
    ensures r.JObj? && r.fields.Keys == {"lastViewedTime", "isPinned"}
  {
    JObj(map["lastViewedTime" := x.lastViewedTime, "isPinned" := x.isPinned])
  }

  lemma UserDataRoundTrip(x: DashboardUserData)
    ensures UserDataFromJson(UserDataToDict(x)) == Ok(x)
  {
  }

  datatype NativeDashboard = NativeDashboard(
    name: Json, displayName: Json, description: Json, definition: DashboardDefinition,
    dashboardType: Option<DashboardType>, createTime: Json, updateTime: Json, createUserId: Json,
    updateUserId: Json, userData: DashboardUserData, etag: Json, access: Option<Access>)

  /** `NativeDashboard.from_dict`: absent nested records are read from
      `{}`, a falsy type or access is no member. */
  function DashboardFromDict(d: map<string, Json>): (r: Result<NativeDashboard, Error>)
    ensures "definition" !in d && r.Ok? ==> r.value.definition == DashboardDefinition([], JNull, [])
    ensures "dashboardUserData" !in d && r.Ok? ==> r.value.userData == DashboardUserData(JNull, JNull)
    ensures !Truthy(Get(d, "type")) && r.Ok? ==> r.value.dashboardType.None?
    ensures Truthy(Get(d, "type")) && TypeOf(Get(d, "type")).Err? ==> r.Err?
    ensures !Truthy(Get(d, "access")) && r.Ok? ==> r.value.access.None?
    ensures Truthy(Get(d, "access")) && AccessOf(Get(d, "access")).Err? ==> r.Err?
    ensures r.Ok? ==> r.value.name == Get(d, "name") && r.value.displayName == Get(d, "displayName")
  {
    var definition :- DefinitionFromJson(GetOr(d, "definition", JObj(map[])));
    var dashboardType :- OptionalMember(Get(d, "type"), TypeOf);
    var userData :- UserDataFromJson(GetOr(d, "dashboardUserData", JObj(map[])));
    var access :- OptionalMember(Get(d, "access"), AccessOf);
    Ok(NativeDashboard(Get(d, "name"), Get(d, "displayName"), Get(d, "description"), definition,
                       dashboardType, Get(d, "createTime"), Get(d, "updateTime"), Get(d, "createUserId"),
                       Get(d, "updateUserId"), userData, Get(d, "etag"), access))
  }

  /** `NativeDashboard.from_dict` on a listed item, which must be a dict. */
  function DashboardFromJson(v: Json): (r: Result<NativeDashboard, Error>)
    ensures !v.JObj? ==> r.Err?
  {
    var d :- AsObject(v);
    DashboardFromDict(d)
  }

  function DashboardToDict(x: NativeDashboard): (r: Json)
  {
    JObj(map[
      "name" := x.name,
      "displayName" := x.displayName,
      "description" := x.description,
      "definition" := DefinitionToDict(x.definition),
      "type" := EnumValue(x.dashboardType, TypeValue),
      "createTime" := x.createTime,
      "updateTime" := x.updateTime,
      "createUserId" := x.createUserId,
      "updateUserId" := x.updateUserId,
      "dashboardUserData" := UserDataToDict(x.userData),
      "etag" := x.etag,
      "access" := EnumValue(x.access, AccessValue)])
  }

  lemma TypeRoundTrip(t: Option<DashboardType>)
    ensures OptionalMember(EnumValue(t, TypeValue), TypeOf) == Ok(t)
  {
  }

  lemma AccessRoundTrip(a: Option<Access>)
    ensures OptionalMember(EnumValue(a, AccessValue), AccessOf) == Ok(a)
  {
  }

  /** Reading back the keys the dashboard was written under. */
  lemma DashboardDictScalars(x: NativeDashboard)
    ensures var d := DashboardToDict(x).fields;
      Get(d, "name") == x.name && Get(d, "displayName") == x.displayName
      && Get(d, "description") == x.description && Get(d, "etag") == x.etag
  {
  }

  lemma DashboardDictTimes(x: NativeDashboard)
    ensures var d := DashboardToDict(x).fields;
      Get(d, "createTime") == x.createTime && Get(d, "updateTime") == x.updateTime
      && Get(d, "createUserId") == x.createUserId && Get(d, "updateUserId") == x.updateUserId
  {
  }

  lemma DashboardDictNested(x: NativeDashboard)
    ensures var d := DashboardToDict(x).fields;
      GetOr(d, "definition", JObj(map[])) == DefinitionToDict(x.definition)
      && Get(d, "type") == EnumValue(x.dashboardType, TypeValue)
      && GetOr(d, "dashboardUserData", JObj(map[])) == UserDataToDict(x.userData)
      && Get(d, "access") == EnumValue(x.access, AccessValue)
  {
  }

  /** Serialising a dashboard and parsing it back gives the same
      dashboard, field for field. */
  lemma DashboardRoundTrip(x: NativeDashboard)
    ensures DashboardFromDict(DashboardToDict(x).fields) == Ok(x)
  {
    DashboardDictScalars(x);
    DashboardDictTimes(x);
    DashboardDictNested(x);
    DefinitionRoundTrip(x.definition);
    TypeRoundTrip(x.dashboardType);
    UserDataRoundTrip(x.userData);
    AccessRoundTrip(x.access);
  }
}

=== FILE: dashboard_report.dfy ===
/** The dashboards pipeline's pull-request comment and error report
    (`script/utils.py`). The comment is modelled as its content: a title,
    a summary and either one line per planned dashboard or the fixed
    "in sync" body; the markdown text and the GITHUB_OUTPUT write are not
    modelled. */
module DashboardReport {
  import opened OrderedDicts
  import Strs
  import Sorting
  import GhaEscape
  import M = DashboardModels
  import DM = DashboardManager

  datatype Title = PlanFailed | AllUpToDate | Deployment

  datatype Summary = ErrorsEncountered | NoChangesNeeded | HadChanges(count: nat)

  datatype Line = Line(dashboard: string, operation: M.Operation)

  datatype Body = Lines(lines: seq<Line>) | InSync

  datatype Comment = Comment(title: Title, summary: Summary, body: Body)

  /** `sorted(plan.items())` on a dict compares the distinct names only. */
  predicate NameLe(a: (string, DM.Op), b: (string, DM.Op)) {
    Strs.Le(a.0, b.0)
  }

  lemma NameLeTotalPreorder()
    ensures Sorting.TotalPreorder(NameLe)
  {
    forall a: (string, DM.Op), b: (string, DM.Op) ensures NameLe(a, b) || NameLe(b, a) {
      Strs.LeTotal(a.0, b.0);
    }
    forall a: (string, DM.Op), b: (string, DM.Op), c: (string, DM.Op) | NameLe(a, b) && NameLe(b, c)
      ensures NameLe(a, c)
    {
      Strs.LeTransitive(a.0, b.0, c.0);
    }
  }

  function LineOf(entry: (string, DM.Op)): Line {
    Line(entry.0, DM.OperationOf(entry.1))
  }

  function LinesOf(entries: seq<(string, DM.Op)>): (r: seq<Line>)
    ensures |r| == |entries|
    ensures forall i :: 0 <= i < |entries| ==> r[i] == LineOf(entries[i])
  {
    seq(|entries|, i requires 0 <= i < |entries| => LineOf(entries[i]))
  }

  /** One line per planned dashboard, in name order. */
  function ReportLines(plan: Dict<string, DM.Op>): seq<Line> {
    LinesOf(Sorting.SortBy(plan, NameLe))
  }

  /** There is one line per plan entry, naming its dashboard and
      operation, and the lines are in name order. */
  lemma ReportLinesSpec(plan: Dict<string, DM.Op>)
    ensures |ReportLines(plan)| == |plan|
    ensures forall l :: l in ReportLines(plan) <==> exists i :: 0 <= i < |plan| && l == LineOf(plan[i])
    ensures forall i, j :: 0 <= i < j < |plan| ==>
      Strs.Le(ReportLines(plan)[i].dashboard, ReportLines(plan)[j].dashboard)
  {
    var sorted := Sorting.SortBy(plan, NameLe);
    NameLeTotalPreorder();
    Sorting.SortSorted(plan, NameLe);
    LinesOfPermutation(plan, sorted);
    assert forall i, j :: 0 <= i < j < |sorted| ==> NameLe(sorted[i], sorted[j]);
  }

  /** The lines of a reordering of the plan are the lines of its entries. */
  lemma LinesOfPermutation(plan: Dict<string, DM.Op>, sorted: seq<(string, DM.Op)>)
    requires multiset(sorted) == multiset(plan)
    ensures forall l :: l in LinesOf(sorted) <==> exists i :: 0 <= i < |plan| && l == LineOf(plan[i])
  {
    var lines := LinesOf(sorted);
    forall l ensures l in lines <==> exists i :: 0 <= i < |plan| && l == LineOf(plan[i]) {
      if l in lines {
        var k :| 0 <= k < |sorted| && lines[k] == l;
        assert sorted[k] in multiset(sorted);
        var i :| 0 <= i < |plan| && plan[i] == sorted[k];
      }
      if i :| 0 <= i < |plan| && l == LineOf(plan[i]) {
        assert plan[i] in multiset(plan);
        var k :| 0 <= k < |sorted| && sorted[k] == plan[i];
        assert lines[k] == l;
      }
    }
  }

  /** `generate_pr_comment_output`: errors always give the failed title;
      otherwise an empty plan is up to date with the fixed body, and any
      other plan reports how many dashboards changed. */
  function PrComment(plan: Dict<string, DM.Op>, hasErrors: bool): (r: Comment)
    ensures hasErrors ==> r.title == PlanFailed && r.summary == ErrorsEncountered
    ensures !hasErrors && |plan| == 0 ==> r == Comment(AllUpToDate, NoChangesNeeded, InSync)
    ensures !hasErrors && |plan| > 0 ==> r.title == Deployment && r.summary == HadChanges(|plan|)
    ensures r.body != InSync ==> r.body == Lines(ReportLines(plan))
  {
    var lines := ReportLines(plan);
    if hasErrors then Comment(PlanFailed, ErrorsEncountered, Lines(lines))
    else if |lines| == 0 then Comment(AllUpToDate, NoChangesNeeded, InSync)
    else Comment(Deployment, HadChanges(|plan|), Lines(lines))
  }

  /** `report_pipeline_errors_and_exit` writes each error escaped so that
      it can be read back exactly, and exits with 1 exactly when there
      were errors. */
  lemma ErrorLinesReadBack(errors: seq<string>)
    ensures GhaEscape.ReportErrors(errors).exitCode == 1 <==> |errors| > 0
    ensures forall i :: 0 <= i < |errors| ==>
      GhaEscape.Unescape(GhaEscape.ReportErrors(errors).lines[i][|"::error::"|..]) == errors[i]
  {
    var r := GhaEscape.ReportErrors(errors);
    forall i | 0 <= i < |errors|
      ensures GhaEscape.Unescape(r.lines[i][|"::error::"|..]) == errors[i]
    {
      GhaEscape.EscapeAsWrittenIsPerCharacter(errors[i]);
      GhaEscape.UnescapeEscape(errors[i]);
      assert r.lines[i][|"::error::"|..] == GhaEscape.EscapeAsWritten(errors[i]);
    }
  }
}

=== FILE: data_tables.dfy ===
/** The data-table reconciler (pipelines/detection-as-code/scripts/data_tables.py):
    the local configuration (a YAML mapping from table name to its
    description, columns, time to live and scopes) and the CSV files are
    checked against each other, and each configured table is created,
    recreated (when its schema changed), or has its configuration and
    content compared with the table of the same name in Google SecOps.

    The YAML and CSV readers, and the SecOps client, are oracles: the
    configuration arrives parsed, in file order; CSV contents and remote
    rows are functions of the table name; the remote listing is a list of
    JSON objects. Creating and deleting tables always succeeds, and is
    recorded as a list of calls. */
module DataTables {
  import opened Wrappers
  import opened JsonValue
  import Strs

  type Row = seq<string>

  /** `DataTableColumn`. */
  datatype Column = Column(
    index: Option<int>,
    originalColumn: string,
    columnType: Option<string>,
    mappedColumnPath: Option<string>,
    keyColumn: Option<bool>)

  /** `DataTable`, with the fields the reconciler reads. */
  datatype Table = Table(
    name: string,
    description: Option<string>,
    columns: seq<Column>,
    rowTimeToLive: Option<string>,
    scopes: Option<seq<string>>)

  /** Why a run stops: a `KeyError`, a `pydantic.ValidationError`, a value
      of the wrong shape (`AttributeError`/`TypeError`), one of the
      `InvalidDataTableConfigError`s, or one of the two `ValueError`s. */
  datatype Failure =
    | MissingKey(key: string)
    | Invalid(model: string)
    | Malformed
    | ColumnsRequired(table: string)
    | InvalidKeys(table: string, keys: set<string>)
    | FilesNotFound(names: set<string>)
    | NotInConfig(names: set<string>)
    | UnknownColumnType(table: string)
    | NoRows(table: string)

  /** The column types of `DataTableColumnType`. */
  datatype ColumnType = CIDR | STRING | REGEX

  /** The remote calls the reconciler makes. */
  datatype Call =
    | Delete(name: string)
    | Create(name: string, description: Option<string>, header: map<string, ColumnType>, rows: seq<Row>, scopes: seq<string>)

  /** The summary `update_remote_data_tables` returns. */
  datatype Summary = Summary(created: seq<string>, recreated: seq<string>, configUpdated: seq<string>, contentUpdated: seq<string>)

  /** The files and the remote side: each CSV file's rows, each remote
      table's rows, and the prefix `projects/…/dataAccessScopes/` that the
      project, region and customer settings give a scope. */
  datatype Env = Env(csvRows: string -> seq<Row>, remoteRows: string -> seq<Row>, scopePrefix: string)

  // ---- Field validation (the pydantic models) ----

  predicate OptStr(j: Json) {
    j.JNull? || j.JStr?
  }

  function ToOptStr(j: Json): Option<string> {
    if j.JStr? then Some(j.s) else None
  }

  predicate OptStrList(j: Json) {
    j.JNull? || (j.JList? && forall k :: 0 <= k < |j.items| ==> j.items[k].JStr?)
  }

  function ToOptStrList(j: Json): Option<seq<string>>
    requires OptStrList(j)
  {
    if j.JList? then Some(seq(|j.items|, k requires 0 <= k < |j.items| && j.items[k].JStr? => j.items[k].s)) else None
  }

  /** A `DataTableColumn` built from the raw field values, each of which
      must already have its declared JSON type (strict typing: no
      coercion of strings to numbers or booleans). */
  function MakeColumn(index: Json, original: Json, columnType: Json, path: Json, key: Json): (r: Result<Column, Failure>)
    ensures r.Ok? <==> (index.JNull? || index.JInt?) && original.JStr? && OptStr(columnType) && OptStr(path) && (key.JNull? || key.JBool?)
    ensures r.Ok? ==> r.value.originalColumn == original.s && r.value.columnType == ToOptStr(columnType)
    ensures r.Ok? ==> r.value.index == (if index.JInt? then Some(index.i) else None)
  {
    if (index.JNull? || index.JInt?) && original.JStr? && OptStr(columnType) && OptStr(path) && (key.JNull? || key.JBool?) then
      Ok(Column(if index.JInt? then Some(index.i) else None, original.s, ToOptStr(columnType), ToOptStr(path),
                if key.JBool? then Some(key.b) else None))
    else Err(Invalid("DataTableColumn"))
  }

  // ---- Remote tables ----

  /** One element of `parse_data_table_columns`: the column's position is
      its index unless `columnIndex` is present. */
  function ParseRemoteColumn(c: Json, i: nat): (r: Result<Column, Failure>)
    ensures r.Ok? ==> c.JObj? && "originalColumn" in c.fields
    ensures r.Ok? ==> c.fields["originalColumn"] == JStr(r.value.originalColumn)
    ensures r.Ok? && "columnIndex" !in c.fields ==> r.value.index == Some(i)
    ensures r.Ok? && "columnIndex" in c.fields ==> r.value.index == (if c.fields["columnIndex"].JInt? then Some(c.fields["columnIndex"].i) else None)
  {
    if !c.JObj? then Err(Malformed)
    else if "originalColumn" !in c.fields then Err(MissingKey("originalColumn"))
    else MakeColumn(GetOr(c.fields, "columnIndex", JInt(i)), c.fields["originalColumn"],
                    Get(c.fields, "columnType"), Get(c.fields, "mappedColumnPath"), Get(c.fields, "keyColumn"))
  }

  /** `parse_data_table_columns`: every column parsed, the first failure
      reported. */
  function ParseRemoteColumns(cols: seq<Json>): (r: Result<seq<Column>, Failure>)
    ensures r.Ok? <==> forall i :: 0 <= i < |cols| ==> ParseRemoteColumn(cols[i], i).Ok?
    ensures r.Ok? ==> |r.value| == |cols| && forall i :: 0 <= i < |cols| ==> r.value[i] == ParseRemoteColumn(cols[i], i).value
    decreases |cols|
  {
    if |cols| == 0 then Ok([])
    else
      var n := |cols| - 1;
      var init := cols[..n];
      assert forall i :: 0 <= i < n ==> cols[i] == init[i];
      var first :- ParseRemoteColumns(init);
      var last :- ParseRemoteColumn(cols[n], n);
      Ok(first + [last])
  }

  /** Iterating `columnInfo`: a list gives its elements; an empty string or
      dict gives none; anything else fails on its first element or at once. */
  function Elements(j: Json): Result<seq<Json>, Failure> {
    match j
    case JList(xs) => Ok(xs)
    case JStr(s) => if s == "" then Ok([]) else Err(Malformed)
    case JObj(m) => if |m| == 0 then Ok([]) else Err(Malformed)
    case _ => Err(Malformed)
  }

  /** `parse_data_table`: `displayName` and `columnInfo` are required, and
      the scopes are read only when `scopeInfo` is truthy. */
  function ParseRemoteTable(d: Json): (r: Result<Table, Failure>)
    ensures r.Ok? ==> d.JObj? && Get(d.fields, "displayName") == JStr(r.value.name)
    ensures r.Ok? ==> ("columnInfo" in d.fields && Elements(d.fields["columnInfo"]).Ok?
                       && ParseRemoteColumns(Elements(d.fields["columnInfo"]).value) == Ok(r.value.columns))
    ensures r.Ok? ==> (r.value.description == ToOptStr(Get(d.fields, "description"))
                       && r.value.rowTimeToLive == ToOptStr(Get(d.fields, "rowTimeToLive")))
  {
    if !d.JObj? then Err(Malformed)
    else
      var m := d.fields;
      if "displayName" !in m then Err(MissingKey("displayName"))
      else if "columnInfo" !in m then Err(MissingKey("columnInfo"))
      else
        var elems :- Elements(m["columnInfo"]);
        var cols :- ParseRemoteColumns(elems);
        var scopes :- ScopesOf(Get(m, "scopeInfo"));
        if m["displayName"].JStr? && OptStr(Get(m, "description")) && OptStr(Get(m, "rowTimeToLive")) && OptStrList(scopes)
           && OptStr(Get(m, "name")) && OptStr(Get(m, "dataTableUuid")) && OptStr(Get(m, "createTime"))
           && OptStr(Get(m, "updateTime")) && OptStrList(Get(m, "rules"))
           && (Get(m, "ruleAssociationsCount").JNull? || Get(m, "ruleAssociationsCount").JInt?)
        then Ok(Table(m["displayName"].s, ToOptStr(Get(m, "description")), cols, ToOptStr(Get(m, "rowTimeToLive")), ToOptStrList(scopes)))
        else Err(Invalid("DataTable"))
  }

  /** `data_table["scopeInfo"]["dataAccessScopes"] if data_table.get("scopeInfo") else None`. */
  function ScopesOf(info: Json): Result<Json, Failure> {
    if !Truthy(info) then Ok(JNull)
    else if !info.JObj? then Err(Malformed)
    else if "dataAccessScopes" !in info.fields then Err(MissingKey("dataAccessScopes"))
    else Ok(info.fields["dataAccessScopes"])
  }

  /** `parse_data_tables`: the first failure is reported. */
  function ParseRemoteTables(ds: seq<Json>): (r: Result<seq<Table>, Failure>)
    ensures r.Ok? <==> forall i :: 0 <= i < |ds| ==> ParseRemoteTable(ds[i]).Ok?
    ensures r.Ok? ==> |r.value| == |ds| && forall i :: 0 <= i < |ds| ==> r.value[i] == ParseRemoteTable(ds[i]).value
    decreases |ds|
  {
    if |ds| == 0 then Ok([])
    else
      var first :- ParseRemoteTable(ds[0]);
      var rest :- ParseRemoteTables(ds[1..]);
      assert forall i :: 0 < i < |ds| ==> ds[i] == ds[1..][i - 1];
      Ok([first] + rest)
  }

  /** `{t.name: t for t in tables}`: a later table with the same name
      replaces an earlier one. */
  function ByName(ts: seq<Table>): (m: map<string, Table>)
    decreases |ts|
  {
    if |ts| == 0 then map[]
    else ByName(ts[..|ts| - 1])[ts[|ts| - 1].name := ts[|ts| - 1]]
  }

  /** The index holds every listed name, each mapped to the last table
      listed under it. */
  lemma {:induction false} ByNameLastWins(ts: seq<Table>)
    ensures forall i :: 0 <= i < |ts| ==> ts[i].name in ByName(ts)
    ensures forall k :: k in ByName(ts) ==> exists i :: (0 <= i < |ts| && ts[i].name == k && ByName(ts)[k] == ts[i]
                                                  && forall j :: i < j < |ts| ==> ts[j].name != k)
    decreases |ts|
  {
    if |ts| > 0 {
      var n := |ts| - 1;
      var init := ts[..n];
      ByNameLastWins(init);
      assert forall i :: 0 <= i < n ==> ts[i] == init[i];
      forall k | k in ByName(ts)
        ensures exists i :: (0 <= i < |ts| && ts[i].name == k && ByName(ts)[k] == ts[i]
                             && forall j :: i < j < |ts| ==> ts[j].name != k)
      {
        if k != ts[n].name {
          var i :| 0 <= i < n && init[i].name == k && ByName(init)[k] == init[i] && forall j :: i < j < n ==> init[j].name != k;
          LastBefore(ts, init, k, i);
        }
      }
    }
  }

  /** A table that was last under its name among all but the final table
      stays last when the final table has another name. */
  lemma LastBefore(ts: seq<Table>, init: seq<Table>, k: string, i: nat)
    requires |ts| > 0 && init == ts[..|ts| - 1] && i < |init| && ts[|ts| - 1].name != k
    requires init[i].name == k && k in ByName(init) && ByName(init)[k] == init[i]
    requires forall j :: i < j < |init| ==> init[j].name != k
    ensures ts[i].name == k && k in ByName(ts) && ByName(ts)[k] == ts[i]
    ensures forall j :: i < j < |ts| ==> ts[j].name != k
  {
    forall j | i < j < |ts| ensures ts[j].name != k {
      if j < |init| {
        assert ts[j] == init[j];
      }
    }
  }

  // ---- Local configuration ----

  /** The YAML document of the configuration file: a mapping, in file
      order (the loader rejects duplicate keys), or any other value. */
  datatype Document = Mapping(entries: seq<(string, Json)>) | Other(value: Json)

  /** The keys of a mapping document, which the loader keeps distinct. */
  ghost predicate DistinctEntries(entries: seq<(string, Json)>) {
    forall i, j :: 0 <= i < j < |entries| ==> entries[i].0 != entries[j].0
  }

  function AllowedKeys(): set<string> {
    {"description", "columns", "row_time_to_live", "scopes"}
  }

  /** The check of one entry in `check_data_table_config`. `in` on a list
      or a string tests membership or a substring before `.keys()` fails. */
  function CheckEntry(name: string, e: Json): (r: Result<(), Failure>)
    ensures r.Ok? <==> e.JObj? && "columns" in e.fields && e.fields.Keys <= AllowedKeys()
    ensures e.JObj? && "columns" !in e.fields ==> r == Err(ColumnsRequired(name))
    ensures e.JObj? && "columns" in e.fields && !(e.fields.Keys <= AllowedKeys()) ==>
      r == Err(InvalidKeys(name, e.fields.Keys - AllowedKeys()))
  {
    match e
    case JObj(m) =>
      if "columns" !in m then Err(ColumnsRequired(name))
      else if m.Keys - AllowedKeys() != {} then Err(InvalidKeys(name, m.Keys - AllowedKeys()))
      else Ok(())
    case JList(xs) => if JStr("columns") !in xs then Err(ColumnsRequired(name)) else Err(Malformed)
    case JStr(s) => if !Strs.Contains(s, "columns") then Err(ColumnsRequired(name)) else Err(Malformed)
    case _ => Err(Malformed)
  }

  /** `check_data_table_config`: the entries in order; the first bad one
      raises. */
  function CheckConfig(entries: seq<(string, Json)>): (r: Result<(), Failure>)
    ensures r.Ok? <==> forall i :: 0 <= i < |entries| ==> CheckEntry(entries[i].0, entries[i].1).Ok?
    ensures r.Err? ==> exists i :: (0 <= i < |entries| && CheckEntry(entries[i].0, entries[i].1) == Err(r.error)
                                    && forall j :: 0 <= j < i ==> CheckEntry(entries[j].0, entries[j].1).Ok?)
    decreases |entries|
  {
    if |entries| == 0 then Ok(())
    else
      var _ :- CheckEntry(entries[0].0, entries[0].1);
      var r := CheckConfig(entries[1..]);
      assert forall i :: 0 < i < |entries| ==> entries[i] == entries[1..][i - 1];
      if r.Err? then
        assert exists i :: 1 <= i < |entries| && CheckEntry(entries[i].0, entries[i].1) == Err(r.error)
          && forall j :: 0 <= j < i ==> CheckEntry(entries[j].0, entries[j].1).Ok? by {
          var k :| 0 <= k < |entries| - 1 && CheckEntry(entries[1..][k].0, entries[1..][k].1) == Err(r.error)
            && forall j :: 0 <= j < k ==> CheckEntry(entries[1..][j].0, entries[1..][j].1).Ok?;
          assert forall j :: 1 <= j < k + 1 ==> entries[j] == entries[1..][j - 1];
        }
        r
      else r
  }

  /** `validate_data_table_files`: every configured table has a CSV file,
      checked first, and every CSV file is configured. */
  function ValidateFiles(configured: set<string>, stems: set<string>): (r: Result<(), Failure>)
    ensures r.Ok? <==> configured == stems
    ensures !(configured <= stems) ==> r == Err(FilesNotFound(configured - stems))
    ensures configured <= stems && !(stems <= configured) ==> r == Err(NotInConfig(stems - configured))
  {
    if !(configured <= stems) then Err(FilesNotFound(configured - stems))
    else if !(stems <= configured) then Err(NotInConfig(stems - configured))
    else Ok(())
  }

  /** One element of `parse_data_table_config_entry_columns`: no position
      default here, unlike the remote columns. */
  function ParseLocalColumn(c: Json): (r: Result<Column, Failure>)
    ensures r.Ok? ==> c.JObj? && "original_column" in c.fields && c.fields["original_column"] == JStr(r.value.originalColumn)
    ensures r.Ok? ==> r.value.index == (if Get(c.fields, "column_index").JInt? then Some(Get(c.fields, "column_index").i) else None)
  {
    if !c.JObj? then Err(Malformed)
    else if "original_column" !in c.fields then Err(MissingKey("original_column"))
    else MakeColumn(Get(c.fields, "column_index"), c.fields["original_column"], Get(c.fields, "column_type"),
                    Get(c.fields, "mapped_column_path"), Get(c.fields, "key_column"))
  }

  function ParseLocalColumnList(cs: seq<Json>): (r: Result<seq<Column>, Failure>)
    ensures r.Ok? <==> forall i :: 0 <= i < |cs| ==> ParseLocalColumn(cs[i]).Ok?
    ensures r.Ok? ==> |r.value| == |cs| && forall i :: 0 <= i < |cs| ==> r.value[i] == ParseLocalColumn(cs[i]).value
    decreases |cs|
  {
    if |cs| == 0 then Ok([])
    else
      var first :- ParseLocalColumn(cs[0]);
      var rest :- ParseLocalColumnList(cs[1..]);
      assert forall i :: 0 < i < |cs| ==> cs[i] == cs[1..][i - 1];
      Ok([first] + rest)
  }

  /** `parse_data_table_config_entry_columns`: a falsy value gives no
      columns. */
  function ParseLocalColumns(cs: Json): (r: Result<seq<Column>, Failure>)
    ensures !Truthy(cs) ==> r == Ok([])
    ensures cs.JList? ==> r == ParseLocalColumnList(cs.items)
  {
    if !Truthy(cs) then Ok([])
    else if cs.JList? then ParseLocalColumnList(cs.items)
    else Err(Malformed)
  }

  /** The `DataTable` built for one checked configuration entry. */
  function ParseEntry(name: string, e: map<string, Json>): (r: Result<Table, Failure>)
    ensures r.Ok? ==> (r.value.name == name && r.value.description == ToOptStr(Get(e, "description"))
                       && r.value.rowTimeToLive == ToOptStr(Get(e, "row_time_to_live"))
                       && ParseLocalColumns(Get(e, "columns")) == Ok(r.value.columns))
  {
    var cols :- ParseLocalColumns(Get(e, "columns"));
    if OptStr(Get(e, "description")) && OptStr(Get(e, "row_time_to_live")) && OptStrList(Get(e, "scopes")) then
      Ok(Table(name, ToOptStr(Get(e, "description")), cols, ToOptStr(Get(e, "row_time_to_live")), ToOptStrList(Get(e, "scopes"))))
    else Err(Invalid("DataTable"))
  }

  function ParseEntries(entries: seq<(string, Json)>): (r: Result<seq<Table>, Failure>)
    requires forall i :: 0 <= i < |entries| ==> entries[i].1.JObj?
    ensures r.Ok? <==> forall i :: 0 <= i < |entries| ==> ParseEntry(entries[i].0, entries[i].1.fields).Ok?
    ensures r.Ok? ==> (|r.value| == |entries|
                       && forall i :: 0 <= i < |entries| ==> ParseEntry(entries[i].0, entries[i].1.fields) == Ok(r.value[i]))
    decreases |entries|
  {
    if |entries| == 0 then Ok([])
    else
      var first :- ParseEntry(entries[0].0, entries[0].1.fields);
      var rest :- ParseEntries(entries[1..]);
      assert forall i :: 0 < i < |entries| ==> entries[i] == entries[1..][i - 1];
      Ok([first] + rest)
  }

  function Names(entries: seq<(string, Json)>): set<string> {
    set i | 0 <= i < |entries| :: entries[i].0
  }

  /** `load_data_table_config`: an empty (falsy) document configures no
      table; otherwise the entries are checked, matched with the CSV files
      and parsed, in that order. */
  function LoadConfig(doc: Document, stems: set<string>): (r: Result<seq<Table>, Failure>)
    ensures doc.Mapping? && |doc.entries| == 0 ==> r == Ok([])
    ensures doc.Other? && !Truthy(doc.value) ==> r == Ok([])
    ensures doc.Other? && Truthy(doc.value) ==> r == Err(Malformed)
    ensures doc.Mapping? && |doc.entries| > 0 ==> (r.Ok? ==> (
      CheckConfig(doc.entries).Ok? && Names(doc.entries) == stems && |r.value| == |doc.entries|
      && forall i :: 0 <= i < |r.value| ==> r.value[i].name == doc.entries[i].0))
    ensures doc.Mapping? && |doc.entries| > 0 && r.Ok? ==>
      forall i :: 0 <= i < |doc.entries| ==> doc.entries[i].1.JObj? && ParseEntry(doc.entries[i].0, doc.entries[i].1.fields) == Ok(r.value[i])
    ensures doc.Mapping? && CheckConfig(doc.entries).Ok? && Names(doc.entries) == stems
      && (forall i :: 0 <= i < |doc.entries| ==> doc.entries[i].1.JObj? && ParseEntry(doc.entries[i].0, doc.entries[i].1.fields).Ok?)
      ==> r.Ok?
    ensures doc.Mapping? && CheckConfig(doc.entries).Err? ==> r == Err(CheckConfig(doc.entries).error)
    ensures doc.Mapping? && |doc.entries| > 0 && CheckConfig(doc.entries).Ok? && Names(doc.entries) != stems ==> r.Err?
  {
    match doc
    case Other(v) => if !Truthy(v) then Ok([]) else Err(Malformed)
    case Mapping(entries) =>
      if |entries| == 0 then Ok([])
      else
        var _ :- CheckConfig(entries);
        var _ :- ValidateFiles(Names(entries), stems);
        ParseEntries(entries)
  }

  // ---- Comparison ----

  /** `are_data_tables_different`: the two tables' rows compared as sets. */
  predicate RowsDiffer(a: seq<Row>, b: seq<Row>) {
    (set r | r in a) != (set r | r in b)
  }

  /** Independent of `set`: the rows differ exactly when some row of one
      table is missing from the other. */
  lemma RowsDifferIffMissing(a: seq<Row>, b: seq<Row>)
    ensures RowsDiffer(a, b) <==> (exists r :: r in a && r !in b) || (exists r :: r in b && r !in a)
  {
    var sa := set r | r in a;
    var sb := set r | r in b;
    if sa != sb {
      if x :| x in sa && x !in sb {
        assert x in a && x !in b;
      } else {
        var y :| y in sb && y !in sa;
        assert y in b && y !in a;
      }
    } else {
      assert forall r :: r in a ==> r in sa;
      assert forall r :: r in b ==> r in sb;
    }
  }

  /** The (column, type) pair of a column, the part of it a schema is. */
  function Pair(c: Column): (string, Option<string>) {
    (c.originalColumn, c.columnType)
  }

  /** The (column, type) pairs that make up a schema. */
  function Schema(cols: seq<Column>): set<(string, Option<string>)> {
    set c | c in cols :: Pair(c)
  }

  /** `_has_schema_changed`. */
  predicate SchemaChanged(local: Table, remote: Table) {
    Schema(local.columns) != Schema(remote.columns)
  }

  /** The schema ignores index, key flag and mapping path: changing those
      of every column leaves it as it was. */
  lemma SchemaIgnoresLayout(a: seq<Column>, b: seq<Column>)
    requires |a| == |b| && forall i :: 0 <= i < |a| ==> Pair(a[i]) == Pair(b[i])
    ensures Schema(a) == Schema(b)
  {
    forall p | p in Schema(a) ensures p in Schema(b) {
      var c :| c in a && p == Pair(c);
      var i :| 0 <= i < |a| && a[i] == c;
      assert b[i] in b;
    }
    forall p | p in Schema(b) ensures p in Schema(a) {
      var c :| c in b && p == Pair(c);
      var i :| 0 <= i < |b| && b[i] == c;
      assert a[i] in a;
    }
  }

  /** Some column of `cols` has name and type `p`. */
  predicate HasColumn(cols: seq<Column>, p: (string, Option<string>)) {
    exists j :: 0 <= j < |cols| && Pair(cols[j]) == p
  }

  /** An unchanged schema means every local column has a remote column
      of the same name and type, and the other way round. */
  lemma SchemaUnchangedMatches(local: Table, remote: Table)
    requires !SchemaChanged(local, remote)
    ensures forall i :: 0 <= i < |local.columns| ==> HasColumn(remote.columns, Pair(local.columns[i]))
    ensures forall j :: 0 <= j < |remote.columns| ==> HasColumn(local.columns, Pair(remote.columns[j]))
  {
    forall i | 0 <= i < |local.columns| ensures HasColumn(remote.columns, Pair(local.columns[i])) {
      assert Pair(local.columns[i]) in Schema(local.columns);
      var c :| c in remote.columns && Pair(c) == Pair(local.columns[i]);
      var j :| 0 <= j < |remote.columns| && remote.columns[j] == c;
    }
    forall j | 0 <= j < |remote.columns| ensures HasColumn(local.columns, Pair(remote.columns[j])) {
      assert Pair(remote.columns[j]) in Schema(remote.columns);
      var c :| c in local.columns && Pair(c) == Pair(remote.columns[j]);
      var i :| 0 <= i < |local.columns| && local.columns[i] == c;
    }
  }

  /** A column whose (column, type) pair the other side lacks is a schema
      change. */
  lemma MissingColumnChangesSchema(local: Table, remote: Table, i: nat)
    requires i < |local.columns|
    requires !HasColumn(remote.columns, Pair(local.columns[i]))
    ensures SchemaChanged(local, remote)
  {
    assert Pair(local.columns[i]) in Schema(local.columns);
  }

  /** `_check_and_update_config`: only the description and the time to
      live are compared. */
  predicate ConfigChanged(local: Table, remote: Table) {
    local.description != remote.description || local.rowTimeToLive != remote.rowTimeToLive
  }

  // ---- Creating ----

  function ToColumnType(t: Option<string>): Option<ColumnType> {
    if t == Some("CIDR") then Some(CIDR)
    else if t == Some("STRING") then Some(STRING)
    else if t == Some("REGEX") then Some(REGEX)
    else None
  }

  /** `{col.original_column: DataTableColumnType(col.column_type) for col in columns}`:
      a later column with the same name wins; a type that is not a member
      of the enumeration (`None` included) raises. */
  function Header(cols: seq<Column>): (r: Option<map<string, ColumnType>>)
    ensures r.Some? <==> forall i :: 0 <= i < |cols| ==> ToColumnType(cols[i].columnType).Some?
    ensures r.Some? ==> r.value.Keys == set i | 0 <= i < |cols| :: cols[i].originalColumn
    ensures r.Some? ==> forall i :: 0 <= i < |cols| && LastNamed(cols, i) ==>
      cols[i].originalColumn in r.value && ToColumnType(cols[i].columnType) == Some(r.value[cols[i].originalColumn])
    decreases |cols|
  {
    if |cols| == 0 then Some(map[])
    else
      var n := |cols| - 1;
      var h := Header(cols[..n]);
      var t := ToColumnType(cols[n].columnType);
      if h.None? || t.None? then
        assert forall i :: 0 <= i < n ==> cols[i] == cols[..n][i];
        None
      else
        HeaderExtends(cols, h.value, t.value);
        Some(h.value[cols[n].originalColumn := t.value])
  }

  /** Assigning the last column's type to a header of the other columns
      gives the header of all of them. */
  lemma HeaderExtends(cols: seq<Column>, h: map<string, ColumnType>, t: ColumnType)
    requires |cols| > 0 && ToColumnType(cols[|cols| - 1].columnType) == Some(t)
    requires var p := cols[..|cols| - 1];
      (forall i :: 0 <= i < |p| ==> ToColumnType(p[i].columnType).Some?)
      && h.Keys == (set i | 0 <= i < |p| :: p[i].originalColumn)
      && forall i :: 0 <= i < |p| && LastNamed(p, i) ==>
           p[i].originalColumn in h && ToColumnType(p[i].columnType) == Some(h[p[i].originalColumn])
    ensures var h2 := h[cols[|cols| - 1].originalColumn := t];
      (forall i :: 0 <= i < |cols| ==> ToColumnType(cols[i].columnType).Some?)
      && h2.Keys == (set i | 0 <= i < |cols| :: cols[i].originalColumn)
      && forall i :: 0 <= i < |cols| && LastNamed(cols, i) ==>
           cols[i].originalColumn in h2 && ToColumnType(cols[i].columnType) == Some(h2[cols[i].originalColumn])
  {
    var n := |cols| - 1;
    var p := cols[..n];
    assert forall i :: 0 <= i < n ==> cols[i] == p[i];
    HeaderKeysExtend(cols);
    var h2 := h[cols[n].originalColumn := t];
    forall i | 0 <= i < |cols| && LastNamed(cols, i)
      ensures cols[i].originalColumn in h2 && ToColumnType(cols[i].columnType) == Some(h2[cols[i].originalColumn])
    {
      if i < n {
        LastNamedPrefix(cols, i);
        assert cols[i].originalColumn != cols[n].originalColumn;
      }
    }
  }

  lemma HeaderKeysExtend(cols: seq<Column>)
    requires |cols| > 0
    ensures var n := |cols| - 1;
      (set i | 0 <= i < |cols| :: cols[i].originalColumn) == (set i | 0 <= i < n :: cols[..n][i].originalColumn) + {cols[n].originalColumn}
  {
    var n := |cols| - 1;
    assert forall i :: 0 <= i < n ==> cols[i] == cols[..n][i];
  }

  lemma LastNamedPrefix(cols: seq<Column>, i: nat)
    requires i < |cols| - 1 && LastNamed(cols, i)
    ensures LastNamed(cols[..|cols| - 1], i)
  {
    var p := cols[..|cols| - 1];
    forall j | i < j < |p| ensures p[j].originalColumn != p[i].originalColumn {
      assert p[j] == cols[j];
    }
  }

  /** No column after the `i`th has its name. */
  predicate LastNamed(cols: seq<Column>, i: nat)
    requires i < |cols|
  {
    forall j :: i < j < |cols| ==> cols[j].originalColumn != cols[i].originalColumn
  }

  /** The `create_data_table` call of `_create_new_data_table`. */
  function CreateCall(env: Env, name: string, local: Table): (r: Result<Call, Failure>)
    ensures r.Ok? <==> Header(local.columns).Some?
    ensures r.Ok? ==> (r.value.Create? && r.value.name == name && r.value.rows == env.csvRows(name)
                       && r.value.header == Header(local.columns).value
                       && |r.value.scopes| == |local.scopes.GetOr([])|
                       && forall k :: 0 <= k < |r.value.scopes| ==> r.value.scopes[k] == env.scopePrefix + local.scopes.GetOr([])[k])
  {
    var rows := env.csvRows(name);
    var h := Header(local.columns);
    if h.None? then Err(UnknownColumnType(name))
    else
      var ss := local.scopes.GetOr([]);
      Ok(Create(name, local.description, h.value, rows, seq(|ss|, k requires 0 <= k < |ss| => env.scopePrefix + ss[k])))
  }

  // ---- Reconciling ----

  /** Where the loop over the configured tables has got to: the calls made
      and the summary so far, and the failure that stopped it. */
  datatype Progress = Progress(calls: seq<Call>, summary: Summary, failure: Option<Failure>)

  /** The loop body of `update_remote_data_tables` for one table. */
  function Step(env: Env, local: Table, remote: Option<Table>, calls: seq<Call>, s: Summary): (r: Progress)
    ensures calls <= r.calls
    ensures r.failure.None? <==> StepSucceeds(env, local, remote)
    ensures remote.Some? && !SchemaChanged(local, remote.value) ==> r.calls == calls
    ensures r.failure.None? && remote.None? ==> r.calls == calls + [CreateCall(env, local.name, local).value]
    ensures r.failure.None? && remote.Some? && SchemaChanged(local, remote.value) ==>
      r.calls == calls + [Delete(remote.value.name), CreateCall(env, local.name, local).value]
    ensures |r.calls| <= |calls| + (if remote.Some? then 2 else 1)
  {
    var name := local.name;
    if remote.None? then
      match CreateCall(env, name, local)
      case Err(f) => Progress(calls, s, Some(f))
      case Ok(c) => Progress(calls + [c], s.(created := s.created + [name]), None)
    else if SchemaChanged(local, remote.value) then
      var calls1 := calls + [Delete(remote.value.name)];
      match CreateCall(env, name, local)
      case Err(f) => Progress(calls1, s, Some(f))
      case Ok(c) => Progress(calls1 + [c], s.(created := s.created + [name], recreated := s.recreated + [name]), None)
    else
      var s1 := if ConfigChanged(local, remote.value) then s.(configUpdated := s.configUpdated + [name]) else s;
      var remoteRows := env.remoteRows(name);
      var localRows := env.csvRows(name);
      if RowsDiffer(remoteRows, localRows) then
        if |localRows| == 0 then Progress(calls, s1, Some(NoRows(name)))
        else Progress(calls, s1.(contentUpdated := s1.contentUpdated + [name]), None)
      else Progress(calls, s1, None)
  }

  /** Whether the step for a table gets through, stated apart from the
      step: a table to create needs known column types, and new content
      needs at least one row. */
  predicate StepSucceeds(env: Env, local: Table, remote: Option<Table>) {
    if remote.None? || SchemaChanged(local, remote.value) then Header(local.columns).Some?
    else !(RowsDiffer(env.remoteRows(local.name), env.csvRows(local.name)) && |env.csvRows(local.name)| == 0)
  }

  /** The four summary entries a successful step adds for its table. */
  ghost predicate Marked(env: Env, local: Table, remote: Option<Table>, s: Summary) {
    var n := local.name;
    (n in s.created <==> remote.None? || SchemaChanged(local, remote.value))
    && (n in s.recreated <==> remote.Some? && SchemaChanged(local, remote.value))
    && (n in s.configUpdated <==> remote.Some? && !SchemaChanged(local, remote.value) && ConfigChanged(local, remote.value))
    && (n in s.contentUpdated <==> (remote.Some? && !SchemaChanged(local, remote.value)
                                   && RowsDiffer(env.remoteRows(n), env.csvRows(n))))
  }

  /** No entry of the summary mentions `n` yet. */
  predicate Unmentioned(s: Summary, n: string) {
    n !in s.created && n !in s.recreated && n !in s.configUpdated && n !in s.contentUpdated
  }

  function NameList(ts: seq<Table>): (r: seq<string>)
    ensures |r| == |ts| && forall i :: 0 <= i < |ts| ==> r[i] == ts[i].name
  {
    seq(|ts|, i requires 0 <= i < |ts| => ts[i].name)
  }

  /** `y` extends `x` by names from `names` only. */
  ghost predicate ListGrows(x: seq<string>, y: seq<string>, names: seq<string>) {
    x <= y && forall n :: n in y ==> n in x || n in names
  }

  ghost predicate Grows(a: Summary, b: Summary, names: seq<string>) {
    ListGrows(a.created, b.created, names) && ListGrows(a.recreated, b.recreated, names)
    && ListGrows(a.configUpdated, b.configUpdated, names) && ListGrows(a.contentUpdated, b.contentUpdated, names)
  }

  /** A step gets through exactly when `StepSucceeds` says it does. */
  lemma StepOutcome(env: Env, local: Table, remote: Option<Table>, calls: seq<Call>, s: Summary)
    ensures Step(env, local, remote, calls, s).failure.None? <==> StepSucceeds(env, local, remote)
  {
  }

  /** What a successful step adds: exactly its own table's entries, each
      list growing by at most the table's name. */
  lemma StepMarks(env: Env, local: Table, remote: Option<Table>, calls: seq<Call>, s: Summary)
    requires Unmentioned(s, local.name)
    requires Step(env, local, remote, calls, s).failure.None?
    ensures Marked(env, local, remote, Step(env, local, remote, calls, s).summary)
    ensures Grows(s, Step(env, local, remote, calls, s).summary, [local.name])
  {
  }

  function Lookup(remotes: map<string, Table>, name: string): Option<Table> {
    if name in remotes then Some(remotes[name]) else None
  }

  ghost predicate DistinctNames(ts: seq<Table>) {
    forall i, j :: 0 <= i < j < |ts| ==> ts[i].name != ts[j].name
  }

  /** The loop of `update_remote_data_tables` over the tables still to do. */
  function Reconcile(env: Env, locals: seq<Table>, remotes: map<string, Table>, p: Progress): (r: Progress)
    requires p.failure.None?
    ensures p.calls <= r.calls
    ensures |r.calls| <= |p.calls| + 2 * |locals|
    decreases |locals|
  {
    if |locals| == 0 then p
    else
      var q := Step(env, locals[0], Lookup(remotes, locals[0].name), p.calls, p.summary);
      if q.failure.Some? then q else Reconcile(env, locals[1..], remotes, q)
  }

  /** The calls a successful step makes for `local`: the creation of a new
      table, the deletion and creation of one whose schema changed, and
      none otherwise. */
  function Planned(env: Env, local: Table, remote: Option<Table>): seq<Call> {
    var create := CreateCall(env, local.name, local);
    var c := if create.Ok? then [create.value] else [];
    if remote.None? then c
    else if SchemaChanged(local, remote.value) then [Delete(remote.value.name)] + c
    else []
  }

  /** The calls of successful steps for each table in turn. */
  function PlannedAll(env: Env, locals: seq<Table>, remotes: map<string, Table>): seq<Call>
    decreases |locals|
  {
    if |locals| == 0 then []
    else Planned(env, locals[0], Lookup(remotes, locals[0].name)) + PlannedAll(env, locals[1..], remotes)
  }

  /** A successful step makes exactly its planned calls. */
  lemma StepPlanned(env: Env, local: Table, remote: Option<Table>, calls: seq<Call>, s: Summary)
    requires Step(env, local, remote, calls, s).failure.None?
    ensures Step(env, local, remote, calls, s).calls == calls + Planned(env, local, remote)
  {
  }

  /** A successful loop makes exactly the planned calls of its tables, in
      their order. */
  lemma {:induction false} ReconcileCalls(env: Env, locals: seq<Table>, remotes: map<string, Table>, p: Progress)
    requires p.failure.None?
    requires Reconcile(env, locals, remotes, p).failure.None?
    ensures Reconcile(env, locals, remotes, p).calls == p.calls + PlannedAll(env, locals, remotes)
    decreases |locals|
  {
    if |locals| > 0 {
      var t := locals[0];
      ReconcileCons(env, locals, remotes, p);
      var q := Step(env, t, Lookup(remotes, t.name), p.calls, p.summary);
      assert q.failure.None?;
      StepPlanned(env, t, Lookup(remotes, t.name), p.calls, p.summary);
      ReconcileCalls(env, locals[1..], remotes, q);
    }
  }

  /** The loop gets through exactly when every table's step does. */
  lemma ReconcileOutcome(env: Env, locals: seq<Table>, remotes: map<string, Table>, p: Progress)
    requires p.failure.None?
    ensures Reconcile(env, locals, remotes, p).failure.None?
      <==> forall i :: 0 <= i < |locals| ==> StepSucceeds(env, locals[i], Lookup(remotes, locals[i].name))
  {
    if forall i :: 0 <= i < |locals| ==> StepSucceeds(env, locals[i], Lookup(remotes, locals[i].name)) {
      ReconcileGetsThrough(env, locals, remotes, p);
    } else {
      var i :| 0 <= i < |locals| && !StepSucceeds(env, locals[i], Lookup(remotes, locals[i].name));
      ReconcileStops(env, locals, remotes, p, i);
    }
  }

  /** A loop whose every step gets through gets through. */
  lemma {:induction false} ReconcileGetsThrough(env: Env, locals: seq<Table>, remotes: map<string, Table>, p: Progress)
    requires p.failure.None?
    requires forall i :: 0 <= i < |locals| ==> StepSucceeds(env, locals[i], Lookup(remotes, locals[i].name))
    ensures Reconcile(env, locals, remotes, p).failure.None?
    decreases |locals|
  {
    if |locals| > 0 {
      ReconcileCons(env, locals, remotes, p);
      var q := Step(env, locals[0], Lookup(remotes, locals[0].name), p.calls, p.summary);
      assert forall i :: 1 <= i < |locals| ==> locals[1..][i - 1] == locals[i];
      ReconcileGetsThrough(env, locals[1..], remotes, q);
    }
  }

  /** A step that fails stops the loop with a failure. */
  lemma {:induction false} ReconcileStops(env: Env, locals: seq<Table>, remotes: map<string, Table>, p: Progress, i: nat)
    requires p.failure.None?
    requires i < |locals| && !StepSucceeds(env, locals[i], Lookup(remotes, locals[i].name))
    ensures Reconcile(env, locals, remotes, p).failure.Some?
    decreases |locals|
  {
    ReconcileCons(env, locals, remotes, p);
    if i > 0 && StepSucceeds(env, locals[0], Lookup(remotes, locals[0].name)) {
      var q := Step(env, locals[0], Lookup(remotes, locals[0].name), p.calls, p.summary);
      assert locals[1..][i - 1] == locals[i];
      ReconcileStops(env, locals[1..], remotes, q, i - 1);
    }
  }

  /** One round of the loop, stated through the step's outcome: a step
      that fails stops the loop, one that gets through hands on to the
      rest of the tables. */
  lemma ReconcileCons(env: Env, locals: seq<Table>, remotes: map<string, Table>, p: Progress)
    requires p.failure.None? && |locals| > 0
    ensures var q := Step(env, locals[0], Lookup(remotes, locals[0].name), p.calls, p.summary);
      (q.failure.None? <==> StepSucceeds(env, locals[0], Lookup(remotes, locals[0].name)))
      && Reconcile(env, locals, remotes, p) == (if q.failure.Some? then q else Reconcile(env, locals[1..], remotes, q))
  {
  }

  /** After a successful loop each table is summarised by its own
      comparison with its remote namesake, and by nothing else. */
  lemma {:induction false} ReconcileMarks(env: Env, locals: seq<Table>, remotes: map<string, Table>, p: Progress)
    requires p.failure.None? && DistinctNames(locals)
    requires forall i :: 0 <= i < |locals| ==> Unmentioned(p.summary, locals[i].name)
    requires Reconcile(env, locals, remotes, p).failure.None?
    ensures forall i :: 0 <= i < |locals| ==> Marked(env, locals[i], Lookup(remotes, locals[i].name), Reconcile(env, locals, remotes, p).summary)
    ensures Grows(p.summary, Reconcile(env, locals, remotes, p).summary, NameList(locals))
    decreases |locals|
  {
    if |locals| > 0 {
      var t := locals[0];
      var q := Step(env, t, Lookup(remotes, t.name), p.calls, p.summary);
      StepMarks(env, t, Lookup(remotes, t.name), p.calls, p.summary);
      var rest := locals[1..];
      assert locals == [t] + rest;
      RestDistinct(t, rest, locals);
      assert forall i :: 0 <= i < |rest| ==> rest[i] == locals[i + 1];
      RestUnmentioned(rest, p.summary, q.summary, t.name);
      ReconcileMarks(env, rest, remotes, q);
      var r := Reconcile(env, rest, remotes, q);
      assert r == Reconcile(env, locals, remotes, p);
      MarksCombine(env, t, rest, locals, remotes, p.summary, q.summary, r.summary);
    }
  }

  /** The first table's entries and the later tables' entries together
      summarise the whole list. */
  lemma MarksCombine(env: Env, t: Table, rest: seq<Table>, locals: seq<Table>, remotes: map<string, Table>, p: Summary, q: Summary, r: Summary)
    requires locals == [t] + rest && t.name !in NameList(rest)
    requires Marked(env, t, Lookup(remotes, t.name), q) && Grows(p, q, [t.name])
    requires forall i :: 0 <= i < |rest| ==> Marked(env, rest[i], Lookup(remotes, rest[i].name), r)
    requires Grows(q, r, NameList(rest))
    ensures forall i :: 0 <= i < |locals| ==> Marked(env, locals[i], Lookup(remotes, locals[i].name), r)
    ensures Grows(p, r, NameList(locals))
  {
    MarkedKept(env, t, Lookup(remotes, t.name), q, r, NameList(rest));
    NamesCons(t, rest, locals);
    GrowsChain(p, q, r, t.name, NameList(rest), NameList(locals));
    MarkedCons(env, t, rest, locals, remotes, r);
  }

  /** The names of `[t] + rest` are `t`'s and those of `rest`. */
  lemma NamesCons(t: Table, rest: seq<Table>, locals: seq<Table>)
    requires locals == [t] + rest
    ensures t.name in NameList(locals)
    ensures forall m :: m in NameList(rest) ==> m in NameList(locals)
  {
    assert NameList(locals)[0] == t.name;
    forall m | m in NameList(rest) ensures m in NameList(locals) {
      var k :| 0 <= k < |rest| && NameList(rest)[k] == m;
      assert NameList(locals)[k + 1] == m;
    }
  }

  /** Every table of `[t] + rest` is summarised when `t` and each of `rest` are. */
  lemma MarkedCons(env: Env, t: Table, rest: seq<Table>, locals: seq<Table>, remotes: map<string, Table>, r: Summary)
    requires locals == [t] + rest
    requires Marked(env, t, Lookup(remotes, t.name), r)
    requires forall i :: 0 <= i < |rest| ==> Marked(env, rest[i], Lookup(remotes, rest[i].name), r)
    ensures forall i :: 0 <= i < |locals| ==> Marked(env, locals[i], Lookup(remotes, locals[i].name), r)
  {
    forall i | 0 <= i < |locals|
      ensures Marked(env, locals[i], Lookup(remotes, locals[i].name), r)
    {
      if i > 0 {
        assert locals[i] == rest[i - 1];
      }
    }
  }

  /** The tables after the first are distinct, and named differently from it. */
  lemma RestDistinct(t: Table, rest: seq<Table>, locals: seq<Table>)
    requires locals == [t] + rest && DistinctNames(locals)
    ensures DistinctNames(rest)
    ensures forall i :: 0 <= i < |rest| ==> rest[i].name != t.name
    ensures t.name !in NameList(rest)
  {
    assert forall i :: 0 <= i < |rest| ==> rest[i] == locals[i + 1];
    assert locals[0] == t;
  }

  /** A step for another table leaves the later tables unmentioned. */
  lemma RestUnmentioned(rest: seq<Table>, p: Summary, q: Summary, m: string)
    requires Grows(p, q, [m])
    requires forall i :: 0 <= i < |rest| ==> Unmentioned(p, rest[i].name) && rest[i].name != m
    ensures forall i :: 0 <= i < |rest| ==> Unmentioned(q, rest[i].name)
  {
    forall i | 0 <= i < |rest| ensures Unmentioned(q, rest[i].name) {
      StillUnmentioned(p, q, m, rest[i].name);
    }
  }

  lemma StillUnmentioned(p: Summary, q: Summary, m: string, n: string)
    requires Grows(p, q, [m]) && Unmentioned(p, n) && n != m
    ensures Unmentioned(q, n)
  {
  }

  lemma GrowsChain(p: Summary, q: Summary, r: Summary, n: string, later: seq<string>, all: seq<string>)
    requires Grows(p, q, [n]) && Grows(q, r, later)
    requires n in all && forall m :: m in later ==> m in all
    ensures Grows(p, r, all)
  {
  }

  /** Later steps, about other tables, leave a table's entries as they are. */
  lemma MarkedKept(env: Env, t: Table, remote: Option<Table>, q: Summary, r: Summary, later: seq<string>)
    requires Marked(env, t, remote, q)
    requires t.name !in later
    requires Grows(q, r, later)
    ensures Marked(env, t, remote, r)
  {
  }


  /** `update_remote_data_tables`: with no configured table nothing is
      listed or changed (`None` stands for the empty result `{}`);
      otherwise the remote tables are listed and each configured table is
      reconciled in order, the first failure stopping the run. */
  function UpdateRemote(env: Env, locals: seq<Table>, listing: seq<Json>): (r: (seq<Call>, Result<Option<Summary>, Failure>))
    ensures |locals| == 0 ==> r == ([], Ok(None))
    ensures |locals| > 0 && ParseRemoteTables(listing).Err? ==> r == ([], Err(ParseRemoteTables(listing).error))
    ensures |locals| > 0 && r.1.Ok? ==> r.1.value.Some?
  {
    if |locals| == 0 then ([], Ok(None))
    else
      match ParseRemoteTables(listing)
      case Err(f) => ([], Err(f))
      case Ok(remote) =>
        var q := Reconcile(env, locals, ByName(remote), Progress([], Summary([], [], [], []), None));
        (q.calls, if q.failure.Some? then Err(q.failure.value) else Ok(Some(q.summary)))
  }

  /** The run's outcome: it succeeds exactly when the listing parses and
      every table's step can succeed, and then each configured table is
      summarised by its comparison with the remote table of its name. */
  lemma UpdateRemoteOutcome(env: Env, locals: seq<Table>, listing: seq<Json>)
    requires DistinctNames(locals)
    ensures var r := UpdateRemote(env, locals, listing);
      |locals| == 0 ==> r == ([], Ok(None))
    ensures var r := UpdateRemote(env, locals, listing);
      |locals| > 0 ==> (r.1.Ok? <==> (ParseRemoteTables(listing).Ok?
                                     && forall i :: 0 <= i < |locals| ==> StepSucceeds(env, locals[i], Lookup(ByName(ParseRemoteTables(listing).value), locals[i].name))))
    ensures var r := UpdateRemote(env, locals, listing);
      |locals| > 0 && r.1.Ok? ==> (r.1.value.Some?
                                   && DeletesRecreated(r.0)
                                   && r.0 == PlannedAll(env, locals, ByName(ParseRemoteTables(listing).value))
                                   && forall i :: 0 <= i < |locals| ==> Marked(env, locals[i], Lookup(ByName(ParseRemoteTables(listing).value), locals[i].name), r.1.value.value))
  {
    if |locals| > 0 && ParseRemoteTables(listing).Ok? {
      var start := Progress([], Summary([], [], [], []), None);
      var remotes := ByName(ParseRemoteTables(listing).value);
      ReconcileOutcome(env, locals, remotes, start);
      if Reconcile(env, locals, remotes, start).failure.None? {
        ReconcileMarks(env, locals, remotes, start);
        ByNameLastWins(ParseRemoteTables(listing).value);
        ReconcileDeletes(env, locals, remotes, start);
        ReconcileCalls(env, locals, remotes, start);
      }
    }
  }

  /** Every `Delete` is immediately followed by the `Create` of the same
      configured table, and so no table is deleted without being created
      again (`_recreate_data_table`). */
  ghost predicate DeletesRecreated(calls: seq<Call>) {
    forall i :: 0 <= i < |calls| && calls[i].Delete? ==> i + 1 < |calls| && calls[i + 1].Create? && calls[i + 1].name == calls[i].name
  }

  /** A successful step keeps every `Delete` paired with its `Create`. */
  lemma StepDeletes(env: Env, local: Table, remote: Option<Table>, calls: seq<Call>, s: Summary)
    requires DeletesRecreated(calls)
    requires remote.Some? ==> remote.value.name == local.name
    requires Step(env, local, remote, calls, s).failure.None?
    ensures DeletesRecreated(Step(env, local, remote, calls, s).calls)
  {
    var r := Step(env, local, remote, calls, s);
    forall i | 0 <= i < |r.calls| && r.calls[i].Delete?
      ensures i + 1 < |r.calls| && r.calls[i + 1].Create? && r.calls[i + 1].name == r.calls[i].name
    {
      if i >= |calls| {
        assert remote.Some? && SchemaChanged(local, remote.value);
        assert r.calls == calls + [Delete(remote.value.name), CreateCall(env, local.name, local).value];
      }
    }
  }

  /** A failed step makes no call, except that a failed recreation has
      already deleted the remote table. */
  lemma StepFailureCalls(env: Env, local: Table, remote: Option<Table>, calls: seq<Call>, s: Summary)
    requires Step(env, local, remote, calls, s).failure.Some?
    ensures var r := Step(env, local, remote, calls, s);
      if remote.Some? && SchemaChanged(local, remote.value) then r.calls == calls + [Delete(remote.value.name)] else r.calls == calls
  {
  }

  /** After a successful loop every `Delete` is followed by the matching
      `Create`. */
  lemma {:induction false} ReconcileDeletes(env: Env, locals: seq<Table>, remotes: map<string, Table>, p: Progress)
    requires p.failure.None? && DeletesRecreated(p.calls)
    requires forall k :: k in remotes ==> remotes[k].name == k
    requires Reconcile(env, locals, remotes, p).failure.None?
    ensures DeletesRecreated(Reconcile(env, locals, remotes, p).calls)
    decreases |locals|
  {
    if |locals| > 0 {
      StepDeletes(env, locals[0], Lookup(remotes, locals[0].name), p.calls, p.summary);
      ReconcileDeletes(env, locals[1..], remotes, Step(env, locals[0], Lookup(remotes, locals[0].name), p.calls, p.summary));
    }
  }

  /** The whole of `update_remote_data_tables`: the configuration is
      loaded, and then reconciled with the listing. */
  function Sync(env: Env, doc: Document, stems: set<string>, listing: seq<Json>): (r: (seq<Call>, Result<Option<Summary>, Failure>))
    ensures LoadConfig(doc, stems).Err? ==> r == ([], Err(LoadConfig(doc, stems).error))
    ensures r.1.Ok? && r.1.value.None? <==> LoadConfig(doc, stems) == Ok([])
  {
    match LoadConfig(doc, stems)
    case Err(f) => ([], Err(f))
    case Ok(locals) => UpdateRemote(env, locals, listing)
  }

  /** The configured tables have distinct names, because the loader keeps
      a mapping's keys distinct. */
  lemma LoadedDistinct(doc: Document, stems: set<string>)
    requires doc.Mapping? ==> DistinctEntries(doc.entries)
    requires LoadConfig(doc, stems).Ok?
    ensures DistinctNames(LoadConfig(doc, stems).value)
  {
  }

  /** A successful run summarises every configured table by its own
      comparison with the remote table of its name. */
  lemma SyncMarks(env: Env, doc: Document, stems: set<string>, listing: seq<Json>)
    requires doc.Mapping? ==> DistinctEntries(doc.entries)
    requires Sync(env, doc, stems, listing).1.Ok?
    ensures var locals := LoadConfig(doc, stems).value;
      var s := Sync(env, doc, stems, listing);
      |locals| > 0 ==> (s.1.value.Some? && DeletesRecreated(s.0)
                        && s.0 == PlannedAll(env, locals, ByName(ParseRemoteTables(listing).value))
                        && forall i :: 0 <= i < |locals| ==> Marked(env, locals[i], Lookup(ByName(ParseRemoteTables(listing).value), locals[i].name), s.1.value.value))
  {
    LoadedDistinct(doc, stems);
    UpdateRemoteOutcome(env, LoadConfig(doc, stems).value, listing);
  }
}

=== FILE: detection_main.dfy ===
/** The `verify_rules` command of the detection-as-code pipeline: every
    `.yaral` rule file must declare a rule whose name matches the file name
    (ignoring case), and every rule must pass the platform's validation. The
    first file that fails ends the run with exit status 1. */
module DetectionMain {
  import opened Wrappers
  import Strs

  /** The extension of a rule file. */
  const Extension: string := ".yaral"

  /** `path.replace(".yaral", "").split("/")[-1]`: the rule name a file's
      path implies. */
  function FileRuleName(path: string): (r: string)
    ensures '/' !in r
  {
    Strs.LastSegment(Strs.ReplaceAll(path, Extension, ""), '/')
  }

  /** Removing the extension never reaches across a `/`: the pattern has
      none, so no occurrence straddles one. */
  lemma {:induction false} ReplaceAcrossSlash(a: string, b: string)
    ensures Strs.ReplaceAll(a + "/" + b, Extension, "")
         == Strs.ReplaceAll(a, Extension, "") + "/" + Strs.ReplaceAll(b, Extension, "")
    decreases |a|
  {
    var s := a + "/" + b;
    if |a| == 0 {
      assert s == "/" + b;
      assert !Strs.StartsWith(s, Extension) by { assert s[0] == '/'; }
      assert s[1..] == b;
    } else if Strs.StartsWith(s, Extension) {
      NoSlashInExtension(a, b);
      assert a[..|Extension|] == s[..|Extension|];
      assert s[|Extension|..] == a[|Extension|..] + "/" + b;
      ReplaceAcrossSlash(a[|Extension|..], b);
    } else {
      assert !Strs.StartsWith(a, Extension) by {
        if |Extension| <= |a| {
          assert a[..|Extension|] == s[..|Extension|];
        }
      }
      assert s[1..] == a[1..] + "/" + b;
      ReplaceAcrossSlash(a[1..], b);
    }
  }

  /** The extension cannot start before a `/` it would have to contain. */
  lemma NoSlashInExtension(a: string, b: string)
    ensures |a| < |Extension| ==> !Strs.StartsWith(a + "/" + b, Extension)
  {
    var s := a + "/" + b;
    if |a| < |Extension| && |Extension| <= |s| {
      assert s[..|Extension|][|a|] == '/';
      assert s[..|Extension|] != Extension;
    }
  }

  /** A stem without a dot keeps all of itself when the extension is
      removed from `stem + ".yaral"`. */
  lemma {:induction false} ReplaceStem(stem: string)
    requires '.' !in stem
    ensures Strs.ReplaceAll(stem + Extension, Extension, "") == stem
    decreases |stem|
  {
    var s := stem + Extension;
    if |stem| == 0 {
      assert s == Extension;
      assert s[|Extension|..] == "";
    } else {
      assert s[0] == stem[0] && s[0] != '.';
      assert !Strs.StartsWith(s, Extension);
      assert s[1..] == stem[1..] + Extension;
      assert '.' !in stem[1..] by {
        assert forall c :: c in stem[1..] ==> c in stem;
      }
      ReplaceStem(stem[1..]);
      assert [stem[0]] + stem[1..] == stem;
    }
  }

  /** The last `/`-piece of `a + "/" + b` is `b` when `b` has no `/`. */
  lemma {:induction false} LastSegmentAfterSlash(a: string, b: string)
    requires '/' !in b
    ensures Strs.LastSegment(a + "/" + b, '/') == b
    decreases |a|
  {
    var s := a + "/" + b;
    if |a| == 0 {
      assert s[0] == '/' && s[1..] == b;
      Strs.LastSegmentSkipsFirst(s, '/');
    } else {
      assert s[1..] == a[1..] + "/" + b;
      assert s[1..][|a| - 1] == '/';
      Strs.LastSegmentSkipsFirst(s, '/');
      LastSegmentAfterSlash(a[1..], b);
    }
  }

  /** A file `dir/stem.yaral` names the rule `stem`, whatever the
      directories above it are called. */
  lemma FileRuleNameOfPath(dir: string, stem: string)
    requires '/' !in stem && '.' !in stem
    ensures FileRuleName(dir + "/" + stem + Extension) == stem
  {
    assert dir + "/" + stem + Extension == dir + "/" + (stem + Extension);
    ReplaceAcrossSlash(dir, stem + Extension);
    ReplaceStem(stem);
    LastSegmentAfterSlash(Strs.ReplaceAll(dir, Extension, ""), stem);
  }

  /** The character class `[a-zA-Z0-9_]`. */
  predicate IdentChar(c: char) {
    'a' <= c <= 'z' || 'A' <= c <= 'Z' || '0' <= c <= '9' || c == '_'
  }

  /** The length of the run of white space starting at `i`. */
  function SpaceRun(s: string, i: nat): (n: nat)
    requires i <= |s|
    ensures i + n <= |s|
    decreases |s| - i
  {
    if i < |s| && Strs.IsSpace(s[i]) then 1 + SpaceRun(s, i + 1) else 0
  }

  /** The run is all white space and cannot be extended. */
  lemma {:induction false} SpaceRunMaximal(s: string, i: nat)
    requires i <= |s|
    ensures AllSpace(s, i, i + SpaceRun(s, i))
    ensures i + SpaceRun(s, i) == |s| || !Strs.IsSpace(s[i + SpaceRun(s, i)])
    decreases |s| - i
  {
    if i < |s| && Strs.IsSpace(s[i]) {
      SpaceRunMaximal(s, i + 1);
    }
  }

  /** The length of the run of identifier characters starting at `i`. */
  function IdentRun(s: string, i: nat): (n: nat)
    requires i <= |s|
    ensures i + n <= |s|
    decreases |s| - i
  {
    if i < |s| && IdentChar(s[i]) then 1 + IdentRun(s, i + 1) else 0
  }

  /** The run is all identifier characters and cannot be extended. */
  lemma {:induction false} IdentRunMaximal(s: string, i: nat)
    requires i <= |s|
    ensures forall k :: i <= k < i + IdentRun(s, i) ==> IdentChar(s[k])
    ensures i + IdentRun(s, i) == |s| || !IdentChar(s[i + IdentRun(s, i)])
    decreases |s| - i
  {
    if i < |s| && IdentChar(s[i]) {
      IdentRunMaximal(s, i + 1);
    }
  }

  /** The name `rule\s+([a-zA-Z0-9_]+)\s+{` captures when the match starts
      at `p`. White space, identifier characters and `{` are disjoint
      classes, so each run is as long as it can be and backtracking finds
      nothing else. */
  function NameAt(s: string, p: nat): Option<string>
    requires p <= |s|
  {
    if p + 4 > |s| || s[p..p + 4] != "rule" then None
    else
      var a := p + 4 + SpaceRun(s, p + 4);
      var b := a + IdentRun(s, a);
      var c := b + SpaceRun(s, b);
      if a == p + 4 || b == a || c == b || c == |s| || s[c] != '{' then None
      else Some(s[a..b])
  }

  ghost predicate AllSpace(s: string, i: int, j: int)
    requires 0 <= i <= j <= |s|
  {
    forall k :: i <= k < j ==> Strs.IsSpace(s[k])
  }

  /** The pattern, read declaratively: at `p` stand `rule`, `w1 >= 1`
      white-space characters, the non-empty identifier `name`, `w2 >= 1`
      white-space characters and `{`. */
  ghost predicate MatchesAt(s: string, p: nat, name: string, w1: nat, w2: nat) {
    var a := p + 4 + w1;
    var b := a + |name|;
    var c := b + w2;
    c < |s| && s[p..p + 4] == "rule" && w1 >= 1 && AllSpace(s, p + 4, a)
    && |name| >= 1 && s[a..b] == name && (forall k :: 0 <= k < |name| ==> IdentChar(name[k]))
    && w2 >= 1 && AllSpace(s, b, c) && s[c] == '{'
  }

  /** The scan at one position finds exactly the matches of the pattern
      there: what it captures is a match ... */
  lemma NameAtMatches(s: string, p: nat) returns (w1: nat, w2: nat)
    requires p <= |s| && NameAt(s, p).Some?
    ensures MatchesAt(s, p, NameAt(s, p).value, w1, w2)
  {
    w1 := SpaceRun(s, p + 4);
    var a := p + 4 + w1;
    var b := a + IdentRun(s, a);
    w2 := SpaceRun(s, b);
    SpaceRunMaximal(s, p + 4);
    IdentRunMaximal(s, a);
    SpaceRunMaximal(s, b);
    var c := b + w2;
    assert NameAt(s, p) == Some(s[a..b]);
    assert s[p..p + 4] == "rule" && p + 4 < a < b < c < |s| && s[c] == '{';
    IdentSlice(s, a, s[a..b]);
    MatchesAtIntro(s, p, s[a..b], w1, w2);
  }

  lemma MatchesAtIntro(s: string, p: nat, name: string, w1: nat, w2: nat)
    requires p + 4 + w1 + |name| + w2 < |s| && s[p..p + 4] == "rule" && w1 >= 1 && |name| >= 1 && w2 >= 1
    requires AllSpace(s, p + 4, p + 4 + w1) && s[p + 4 + w1..p + 4 + w1 + |name|] == name
    requires forall k :: 0 <= k < |name| ==> IdentChar(name[k])
    requires AllSpace(s, p + 4 + w1 + |name|, p + 4 + w1 + |name| + w2)
    requires s[p + 4 + w1 + |name| + w2] == '{'
    ensures MatchesAt(s, p, name, w1, w2)
  {
  }

  /** ... and every match is what it captures. */
  lemma MatchIsFound(s: string, p: nat, name: string, w1: nat, w2: nat)
    requires MatchesAt(s, p, name, w1, w2)
    ensures NameAt(s, p) == Some(name)
  {
    var a := p + 4 + w1;
    var b := a + |name|;
    var c := b + w2;
    IdentSlice(s, a, name);
    ClassesDisjoint(s[a]);
    SpaceRunIs(s, p + 4, w1);
    ClassesDisjoint(s[b]);
    IdentRunIs(s, a, |name|);
    ClassesDisjoint(s[c]);
    SpaceRunIs(s, b, w2);
    NameAtIs(s, p, a, b, c);
  }

  lemma NameAtIs(s: string, p: nat, a: nat, b: nat, c: nat)
    requires p + 4 < a < b < c < |s| && s[p..p + 4] == "rule" && s[c] == '{'
    requires a == p + 4 + SpaceRun(s, p + 4) && b == a + IdentRun(s, a) && c == b + SpaceRun(s, b)
    ensures NameAt(s, p) == Some(s[a..b])
  {
  }

  /** White space, identifier characters and `{` are disjoint classes. */
  lemma ClassesDisjoint(c: char)
    ensures IdentChar(c) ==> !Strs.IsSpace(c)
    ensures Strs.IsSpace(c) ==> !IdentChar(c)
    ensures c == '{' ==> !Strs.IsSpace(c)
  {
  }

  /** A slice of `s` is all identifier characters exactly when the
      positions it covers are. */
  lemma IdentSlice(s: string, a: nat, name: string)
    requires a + |name| <= |s| && s[a..a + |name|] == name
    ensures (forall k :: 0 <= k < |name| ==> IdentChar(name[k]))
        <==> (forall k :: a <= k < a + |name| ==> IdentChar(s[k]))
  {
    assert forall k :: a <= k < a + |name| ==> s[k] == name[k - a];
  }

  lemma {:induction false} SpaceRunIs(s: string, i: nat, n: nat)
    requires i + n < |s| && AllSpace(s, i, i + n) && !Strs.IsSpace(s[i + n])
    ensures SpaceRun(s, i) == n
    decreases n
  {
    if n > 0 {
      SpaceRunIs(s, i + 1, n - 1);
    }
  }

  lemma {:induction false} IdentRunIs(s: string, i: nat, n: nat)
    requires i + n < |s| && (forall k :: i <= k < i + n ==> IdentChar(s[k])) && !IdentChar(s[i + n])
    ensures IdentRun(s, i) == n
    decreases n
  {
    if n > 0 {
      IdentRunIs(s, i + 1, n - 1);
    }
  }

  /** `re.search` from position `p`: the leftmost match wins. */
  function SearchFrom(s: string, p: nat): Option<string>
    requires p <= |s|
    decreases |s| - p
  {
    if NameAt(s, p).Some? then NameAt(s, p)
    else if p == |s| then None
    else SearchFrom(s, p + 1)
  }

  /** The rule name a file's text declares, if any. */
  function RuleName(text: string): Option<string> {
    SearchFrom(text, 0)
  }

  /** The search finds nothing exactly when the pattern matches at no
      position from `p` on ... */
  lemma {:induction false} SearchFromNone(s: string, p: nat)
    requires p <= |s|
    ensures SearchFrom(s, p).None? <==> forall q :: p <= q <= |s| ==> NameAt(s, q).None?
    decreases |s| - p
  {
    if NameAt(s, p).None? && p < |s| {
      SearchFromNone(s, p + 1);
    }
  }

  /** ... and otherwise finds the capture of the leftmost such position. */
  lemma {:induction false} SearchFromLeftmost(s: string, p: nat) returns (q: nat)
    requires p <= |s| && SearchFrom(s, p).Some?
    ensures p <= q <= |s| && SearchFrom(s, p) == NameAt(s, q)
    ensures forall q' :: p <= q' < q ==> NameAt(s, q').None?
    decreases |s| - p
  {
    if NameAt(s, p).Some? {
      q := p;
    } else {
      q := SearchFromLeftmost(s, p + 1);
    }
  }

  /** The declared name is the identifier of the leftmost occurrence of
      the pattern. */
  lemma RuleNameIsLeftmostMatch(text: string)
    ensures RuleName(text).None? <==> forall q, name, w1, w2 :: !MatchesAt(text, q, name, w1, w2)
    ensures RuleName(text).Some? ==>
      exists q: nat, w1, w2 :: MatchesAt(text, q, RuleName(text).value, w1, w2)
        && forall q': nat, name, v1, v2 :: q' < q ==> !MatchesAt(text, q', name, v1, v2)
  {
    SearchFromNone(text, 0);
    forall q: nat, name, w1, w2 | MatchesAt(text, q, name, w1, w2)
      ensures NameAt(text, q).Some?
    {
      MatchIsFound(text, q, name, w1, w2);
    }
    if RuleName(text).Some? {
      var q := SearchFromLeftmost(text, 0);
      var w1, w2 := NameAtMatches(text, q);
    }
  }

  /** A rule file: its path and its text. */
  datatype RuleFile = RuleFile(path: string, text: string)

  /** What the platform's `validate_rule` does with a rule text: succeed,
      report failure, or raise. */
  datatype Validation = Valid | Invalid | Raised

  /** Why the command stopped with exit status 1. */
  datatype Reason = Incoherent | FailedValidation

  /** How the command ends: after the last file, with exit status 1 at a
      file, or with the uncaught `NameError` of a log message naming a
      variable that was never assigned. */
  datatype Outcome = Finished | ExitOne(path: string, reason: Reason) | NameError(path: string)

  /** The file's declared rule name, when there is one, equals its file
      name ignoring case. */
  predicate Coherent(f: RuleFile) {
    var m := RuleName(f.text);
    m.None? || Strs.CaseFold(m.value) == Strs.CaseFold(FileRuleName(f.path))
  }

  /** A file gets past both checks. */
  predicate Passes(f: RuleFile, validate: string -> Validation) {
    Coherent(f) && validate(f.text) == Valid
  }

  /** One file of the loop; `None` goes on to the next file. `bound` says
      whether the log message's `rule_name` has been assigned by some
      earlier match; a file without a match logs it. */
  function Step(f: RuleFile, validate: string -> Validation, bound: bool): (r: Option<Outcome>)
    ensures r.None? <==> Passes(f, validate) && (bound || RuleName(f.text).Some?)
    ensures r == Some(ExitOne(f.path, Incoherent)) <==> !Coherent(f)
  {
    var m := RuleName(f.text);
    if m.Some? && Strs.CaseFold(m.value) != Strs.CaseFold(FileRuleName(f.path)) then
      Some(ExitOne(f.path, Incoherent))
    else if m.None? && !bound then Some(NameError(f.path))
    else if validate(f.text) != Valid then Some(ExitOne(f.path, FailedValidation))
    else None
  }

  /** The loop from some file on: once `rule_name` is bound it cannot
      raise `NameError`, and it stops only at one of its own files. */
  function Loop(files: seq<RuleFile>, validate: string -> Validation, bound: bool): (r: Outcome)
    ensures bound ==> !r.NameError?
    ensures !r.Finished? ==> exists i :: 0 <= i < |files| && files[i].path == r.path
    decreases |files|
  {
    if |files| == 0 then Finished
    else
      match Step(files[0], validate, bound)
      case Some(o) => o
      case None => Loop(files[1..], validate, bound || RuleName(files[0].text).Some?)
  }

  /** `verify_rules` as written: the first file without a `rule NAME {`
      reaches a log message naming `rule_name` before anything assigned it. */
  function VerifyRulesAsWritten(files: seq<RuleFile>, validate: string -> Validation): (r: Outcome)
    ensures |files| > 0 && RuleName(files[0].text).None? ==> r == NameError(files[0].path)
    ensures !r.Finished? ==> exists i :: 0 <= i < |files| && files[i].path == r.path
  {
    Loop(files, validate, false)
  }

  /** `verify_rules` with every message that can follow a missing
      declaration (the log at main.py:62 and the verification messages at
      lines 68, 70 and 77) naming the file instead of `rule_name`: a file
      without a declared name is only logged, then validated. */
  function VerifyRules(files: seq<RuleFile>, validate: string -> Validation): (r: Outcome)
    ensures !r.NameError?
    ensures r.ExitOne? ==> exists i :: 0 <= i < |files| && files[i].path == r.path
  {
    Loop(files, validate, true)
  }

  /** The corrected command finishes exactly when every file is coherent
      and valid, and otherwise stops at the first file that is not, for
      the first reason that file fails. */
  lemma {:induction false} VerifyRulesSpec(files: seq<RuleFile>, validate: string -> Validation)
    ensures !VerifyRules(files, validate).NameError?
    ensures VerifyRules(files, validate) == Finished
      <==> forall i :: 0 <= i < |files| ==> Passes(files[i], validate)
    ensures VerifyRules(files, validate).ExitOne? ==>
      exists i :: 0 <= i < |files| && files[i].path == VerifyRules(files, validate).path
        && (forall j :: 0 <= j < i ==> Passes(files[j], validate))
        && !Passes(files[i], validate)
        && (VerifyRules(files, validate).reason == Incoherent <==> !Coherent(files[i]))
    decreases |files|
  {
    if |files| > 0 {
      var r := VerifyRules(files, validate);
      if Passes(files[0], validate) {
        assert VerifyRules(files, validate) == VerifyRules(files[1..], validate);
        VerifyRulesSpec(files[1..], validate);
        assert forall i :: 1 <= i < |files| ==> files[i] == files[1..][i - 1];
        if r.ExitOne? {
          var i :| 0 <= i < |files[1..]| && files[1..][i].path == r.path
            && (forall j :: 0 <= j < i ==> Passes(files[1..][j], validate))
            && !Passes(files[1..][i], validate)
            && (r.reason == Incoherent <==> !Coherent(files[1..][i]));
          assert files[i + 1] == files[1..][i];
          assert forall j :: 0 <= j < i + 1 ==> Passes(files[j], validate);
        }
      } else {
        assert r.ExitOne? && r.path == files[0].path;
      }
    }
  }

  /** The command as written differs from the corrected one in a single
      case: when the first file declares no rule name it dies with
      `NameError`. Once a name has been assigned, a later file without one
      logs that stale name and carries on as the corrected command does. */
  lemma AsWrittenDiffers(files: seq<RuleFile>, validate: string -> Validation)
    ensures VerifyRulesAsWritten(files, validate)
      == if |files| > 0 && RuleName(files[0].text).None? then NameError(files[0].path)
         else VerifyRules(files, validate)
  {
    if |files| > 0 && RuleName(files[0].text).Some? {
      assert Step(files[0], validate, false) == Step(files[0], validate, true);
    }
  }

  /** A single rule file with no rule declaration at all ends the command
      as written in `NameError` instead of validating it. */
  lemma NoMatchFirstCrashes()
    ensures VerifyRulesAsWritten([RuleFile("../rules/a.yaral", "")], _ => Valid)
      == NameError("../rules/a.yaral")
    ensures VerifyRules([RuleFile("../rules/a.yaral", "")], _ => Valid) == Finished
  {
    assert NameAt("", 0).None?;
    assert RuleName("").None?;
  }
}

=== FILE: gha_escape.dfy ===
/** The error report shared by the parser pipeline (pipelines/parsers-as-code/main.py)
    and the dashboard pipeline (pipelines/dashboards-as-code/script/utils.py):
    every recorded error becomes one GitHub Actions `::error::` line, and the
    process exit status says whether any error was recorded. */
module GhaEscape {
  import Strs

  /** `s.replace(c, rep)` for a one-character pattern, one character at a time. */
  function ReplaceChar(s: string, c: char, rep: string): (r: string)
    ensures c !in s ==> r == s
  {
    if |s| == 0 then s
    else (if s[0] == c then rep else [s[0]]) + ReplaceChar(s[1..], c, rep)
  }

  lemma {:induction false} ReplaceAllOneChar(s: string, c: char, rep: string)
    ensures Strs.ReplaceAll(s, [c], rep) == ReplaceChar(s, c, rep)
    decreases |s|
  {
    if |s| > 0 {
      ReplaceAllOneChar(s[1..], c, rep);
      assert Strs.StartsWith(s, [c]) <==> s[0] == c;
      assert s[|[c]|..] == s[1..];
    }
  }

  lemma {:induction false} ReplaceCharAppend(a: string, b: string, c: char, rep: string)
    ensures ReplaceChar(a + b, c, rep) == ReplaceChar(a, c, rep) + ReplaceChar(b, c, rep)
    decreases |a|
  {
    if |a| > 0 {
      ReplaceCharAppend(a[1..], b, c, rep);
      assert (a + b)[0] == a[0];
      assert (a + b)[1..] == a[1..] + b;
    } else {
      assert a + b == b;
    }
  }

  /** The escape of one character. */
  function EscapeChar(c: char): string {
    if c == '%' then "%25" else if c == '\r' then "%0D" else if c == '\n' then "%0A" else [c]
  }

  /** The escaped message, one character at a time. */
  function Escape(s: string): (r: string)
    ensures '\r' !in r && '\n' !in r
  {
    if |s| == 0 then "" else EscapeChar(s[0]) + Escape(s[1..])
  }

  /** The message as the pipelines escape it: three `str.replace` passes,
      '%' first, then CR, then LF. */
  function EscapeAsWritten(s: string): string {
    Strs.ReplaceAll(Strs.ReplaceAll(Strs.ReplaceAll(s, "%", "%25"), "\r", "%0D"), "\n", "%0A")
  }

  /** Because '%' is replaced first, the three passes escape each character
      independently: no '%' introduced by a later pass is escaped again. */
  lemma EscapeAsWrittenIsPerCharacter(s: string)
    ensures EscapeAsWritten(s) == Escape(s)
  {
    ReplaceAllOneChar(s, '%', "%25");
    var p1 := ReplaceChar(s, '%', "%25");
    ReplaceAllOneChar(p1, '\r', "%0D");
    var p2 := ReplaceChar(p1, '\r', "%0D");
    ReplaceAllOneChar(p2, '\n', "%0A");
    assert "%" == ['%'] && "\r" == ['\r'] && "\n" == ['\n'];
    ThreePasses(s);
  }

  lemma {:induction false} ThreePasses(s: string)
    ensures ReplaceChar(ReplaceChar(ReplaceChar(s, '%', "%25"), '\r', "%0D"), '\n', "%0A") == Escape(s)
    decreases |s|
  {
    if |s| > 0 {
      var h := if s[0] == '%' then "%25" else [s[0]];
      var t := ReplaceChar(s[1..], '%', "%25");
      assert ReplaceChar(s, '%', "%25") == h + t;
      ReplaceCharAppend(h, t, '\r', "%0D");
      var h2 := ReplaceChar(h, '\r', "%0D");
      ReplaceCharAppend(h2, ReplaceChar(t, '\r', "%0D"), '\n', "%0A");
      ThreePasses(s[1..]);
      HeadPasses(s[0]);
    }
  }

  /** The three passes on the first pass's output for one character give
      that character's escape. */
  lemma HeadPasses(c: char)
    ensures ReplaceChar(ReplaceChar(if c == '%' then "%25" else [c], '\r', "%0D"), '\n', "%0A") == EscapeChar(c)
  {
    if c == '%' {
      assert ReplaceChar("%25", '\r', "%0D") == "%25" by { assert '\r' !in "%25"; }
      assert '\n' !in "%25";
    } else if c == '\r' {
      assert ReplaceChar([c], '\r', "%0D") == "%0D" + ReplaceChar([c][1..], '\r', "%0D");
      assert [c][1..] == [];
      assert '\n' !in "%0D";
    } else if c == '\n' {
      assert ReplaceChar([c], '\n', "%0A") == "%0A" + ReplaceChar([c][1..], '\n', "%0A");
      assert [c][1..] == [];
    } else {
      assert ReplaceChar([c], '\r', "%0D") == [c] + ReplaceChar([c][1..], '\r', "%0D");
      assert ReplaceChar([c], '\n', "%0A") == [c] + ReplaceChar([c][1..], '\n', "%0A");
      assert [c][1..] == [];
    }
  }

  /** Reads an escaped message back. */
  function Unescape(s: string): string
    decreases |s|
  {
    if |s| >= 3 && s[..3] == "%25" then "%" + Unescape(s[3..])
    else if |s| >= 3 && s[..3] == "%0D" then "\r" + Unescape(s[3..])
    else if |s| >= 3 && s[..3] == "%0A" then "\n" + Unescape(s[3..])
    else if |s| == 0 then ""
    else [s[0]] + Unescape(s[1..])
  }

  lemma UnescapeOne(c: char, rest: string)
    ensures Unescape(EscapeChar(c) + rest) == [c] + Unescape(rest)
  {
    var e := EscapeChar(c) + rest;
    if c == '%' || c == '\r' || c == '\n' {
      assert e[..3] == EscapeChar(c);
      assert e[3..] == rest;
    } else {
      assert e[0] == c && e[1..] == rest;
      assert |e| < 3 || e[..3][0] == c;
    }
  }

  /** Escaping loses nothing: every '%' in the output starts an escape, so
      the original message can be read back. */
  lemma {:induction false} UnescapeEscape(s: string)
    ensures Unescape(Escape(s)) == s
    decreases |s|
  {
    if |s| > 0 {
      UnescapeEscape(s[1..]);
      UnescapeOne(s[0], Escape(s[1..]));
      assert s == [s[0]] + s[1..];
    }
  }

  datatype Report = Report(lines: seq<string>, exitCode: int)

  /** `report_pipeline_errors_and_exit`: one `::error::` line per recorded
      error, in order, and exit status 1 exactly when there were errors. */
  function ReportErrors(errors: seq<string>): (r: Report)
    ensures |r.lines| == |errors|
    ensures forall i :: 0 <= i < |errors| ==>
      r.lines[i] == "::error::" + EscapeAsWritten(errors[i])
      && '\r' !in r.lines[i] && '\n' !in r.lines[i]
    ensures r.exitCode == (if |errors| > 0 then 1 else 0)
  {
    var lines := seq(|errors|, i requires 0 <= i < |errors| => "::error::" + EscapeAsWritten(errors[i]));
    assert forall i :: 0 <= i < |errors| ==> '\r' !in lines[i] && '\n' !in lines[i] by {
      forall i | 0 <= i < |errors| ensures '\r' !in lines[i] && '\n' !in lines[i] {
        EscapeAsWrittenIsPerCharacter(errors[i]);
      }
    }
    Report(lines, if |errors| > 0 then 1 else 0)
  }
}

=== FILE: json.dfy ===
/** JSON-like values as the pipelines see them after `json.load`/`yaml.safe_load`,
    with Python's truthiness and `dict.get`. */
module JsonValue {
  import opened Wrappers
  import Strs

  datatype Json =
    | JNull
    | JBool(b: bool)
    | JInt(i: int)
    | JStr(s: string)
    | JList(items: seq<Json>)
    | JObj(fields: map<string, Json>)

  /** Python's `bool(v)`: `None`, `False`, `0`, `""`, `[]` and `{}` are false. */
  predicate Truthy(j: Json) {
    match j
    case JNull => false
    case JBool(b) => b
    case JInt(i) => i != 0
    case JStr(s) => s != ""
    case JList(xs) => |xs| > 0
    case JObj(m) => |m| > 0
  }

  /** `d.get(k)`: `None` when the key is absent. */
  function Get(d: map<string, Json>, k: string): (r: Json)
    ensures k !in d ==> r == JNull
    ensures k in d ==> r == d[k]
  {
    if k in d then d[k] else JNull
  }

  /** `d.get(k, default)`. */
  function GetOr(d: map<string, Json>, k: string, default: Json): (r: Json)
    ensures k !in d ==> r == default
    ensures k in d ==> r == d[k]
  {
    if k in d then d[k] else default
  }

  /** Lists and dicts cannot be dict keys or set members: hashing them
      raises TypeError. */
  predicate Hashable(j: Json) {
    !j.JList? && !j.JObj?
  }

  /** Python's `v == n` for an integer `n`: `False == 0` and `True == 1`. */
  predicate EqInt(j: Json, n: int) {
    j == JInt(n) || (n == 0 && j == JBool(false)) || (n == 1 && j == JBool(true))
  }

  /** `v == s` for a string literal `s`. */
  predicate EqStr(j: Json, s: string) {
    j == JStr(s)
  }

  /** Python's `k in v` for a string `k`: a key of a dict, an element of a
      list, a substring of a string; `None` when `in` raises. */
  function PyIn(k: string, v: Json): (r: Option<bool>)
    ensures r.None? <==> !(v.JObj? || v.JList? || v.JStr?)
    ensures v.JObj? ==> r == Some(k in v.fields)
    ensures v.JList? ==> r == Some(JStr(k) in v.items)
  {
    match v
    case JObj(m) => Some(k in m)
    case JList(xs) => Some(JStr(k) in xs)
    case JStr(s) => Some(Strs.Contains(s, k))
    case _ => None
  }
}

=== FILE: local_folder.dfy ===
/** The SOAR content's local folder (pipelines/response-as-code/soar/local_folder_manager.py):
    writing a list of files under a base path, optionally replacing what
    was there, deleting a path, and listing the files under a path.

    The filesystem is a map from absolute paths, as lists of names, to file
    contents, plus the set of directories. Symbolic links, permissions and
    the order `os.walk` visits files in are not part of this model. */
module LocalFolder {
  import opened Wrappers
  import Strs
  import P = PosixPath
  import OrderedDicts
  import Search

  type Path = seq<string>

  type Bytes = seq<bv8>

  datatype Fs = Fs(files: map<Path, Bytes>, dirs: set<Path>)

  /** `q` is `p` or a directory above it. */
  predicate IsPrefix(q: Path, p: Path) {
    |q| <= |p| && p[..|q|] == q
  }

  /** `p` lies strictly inside the directory `t`. */
  predicate StrictlyUnder(t: Path, p: Path) {
    |t| < |p| && p[..|t|] == t
  }

  /** The root is a directory, nothing is both a file and a directory, and
      every directory above a file or a directory exists. */
  ghost predicate WellFormed(fs: Fs) {
    [] in fs.dirs &&
    (forall p :: p in fs.files ==> p !in fs.dirs) &&
    (forall p, k :: p in fs.files && 0 <= k < |p| ==> p[..k] in fs.dirs) &&
    (forall d, k :: d in fs.dirs && 0 <= k < |d| ==> d[..k] in fs.dirs)
  }

  /** `p` and every directory above it. */
  function PrefixesOf(p: Path): (r: set<Path>)
    ensures forall q :: q in r <==> IsPrefix(q, p)
  {
    var r := set k | 0 <= k <= |p| :: p[..k];
    assert forall q :: IsPrefix(q, p) ==> q == p[..|q|];
    r
  }

  /** Some directory on the way to `d`, or `d` itself, is a file. */
  predicate Blocked(fs: Fs, d: Path) {
    exists k :: 0 <= k <= |d| && d[..k] in fs.files
  }

  /** `os.makedirs(d, exist_ok=True)`: fails when `d` or a directory above
      it is a file, and otherwise creates whatever is missing. */
  function MakeDirs(fs: Fs, d: Path): (r: Option<Fs>)
    ensures r.None? <==> Blocked(fs, d)
    ensures r.Some? ==> r.value == Fs(fs.files, fs.dirs + PrefixesOf(d))
  {
    if Blocked(fs, d) then None else Some(Fs(fs.files, fs.dirs + PrefixesOf(d)))
  }

  lemma MakeDirsWellFormed(fs: Fs, d: Path)
    requires WellFormed(fs) && MakeDirs(fs, d).Some?
    ensures WellFormed(MakeDirs(fs, d).value)
  {
    var r := MakeDirs(fs, d).value;
    forall p | p in r.files ensures p !in r.dirs {
      assert !(|p| <= |d| && d[..|p|] == p);
    }
    forall e, k | e in r.dirs && 0 <= k < |e| ensures e[..k] in r.dirs {
      assert IsPrefix(e, d) ==> e[..k] == d[..k];
    }
  }

  // ---------------------------------------------------------------------
  // Writing one file
  // ---------------------------------------------------------------------

  /** One file to write: the directory made for it (`dirname` of the full
      path), the full path, and the bytes. */
  datatype Write = Write(parent: Path, loc: Path, content: Bytes)

  /** A file one level below its parent, or the directory itself when the
      relative path normalised to `.`. */
  predicate Shaped(w: Write) {
    w.loc == w.parent || (|w.loc| == |w.parent| + 1 && w.loc[..|w.parent|] == w.parent)
  }

  /** The body of the writing loop's `try`: make the parent directory, then
      open the file for writing. Either step failing is logged and the
      entry skipped; directories already made stay. */
  function ApplyWrite(fs: Fs, w: Write): (r: Fs)
    ensures fs.files.Keys <= r.files.Keys && fs.dirs <= r.dirs
    ensures forall p :: p in r.files && p != w.loc ==> p in fs.files && r.files[p] == fs.files[p]
    ensures w.loc in r.files && (w.loc !in fs.files || r.files[w.loc] != fs.files[w.loc]) ==> r.files[w.loc] == w.content
    ensures forall d :: d in r.dirs && d !in fs.dirs ==> IsPrefix(d, w.parent)
    ensures !Blocked(fs, w.parent) && w.loc !in fs.dirs && !IsPrefix(w.loc, w.parent) ==>
      w.loc in r.files && r.files[w.loc] == w.content
  {
    match MakeDirs(fs, w.parent)
    case None => fs
    case Some(made) =>
      if w.loc in made.dirs then made
      else Fs(made.files[w.loc := w.content], made.dirs)
  }

  lemma ApplyWriteWellFormed(fs: Fs, w: Write)
    requires WellFormed(fs) && Shaped(w)
    ensures WellFormed(ApplyWrite(fs, w))
  {
    if MakeDirs(fs, w.parent).Some? {
      MakeDirsWellFormed(fs, w.parent);
      var made := MakeDirs(fs, w.parent).value;
      if w.loc !in made.dirs {
        var r := ApplyWrite(fs, w);
        assert w.loc != w.parent;
        forall k | 0 <= k < |w.loc| ensures w.loc[..k] in r.dirs {
          assert w.loc[..k] == w.parent[..k];
        }
      }
    }
  }

  /** The writing loop over the accepted entries, in order. */
  function ApplyWrites(fs: Fs, ws: seq<Write>): (r: Fs)
    ensures fs.files.Keys <= r.files.Keys && fs.dirs <= r.dirs
    ensures forall p :: p in r.files && (p !in fs.files || r.files[p] != fs.files[p]) ==>
      exists j :: 0 <= j < |ws| && ws[j].loc == p && ws[j].content == r.files[p]
    ensures forall d :: d in r.dirs && d !in fs.dirs ==> exists j :: 0 <= j < |ws| && IsPrefix(d, ws[j].parent)
    decreases |ws|
  {
    if |ws| == 0 then fs
    else
      var n := |ws| - 1;
      var before := ApplyWrites(fs, ws[..n]);
      var r := ApplyWrite(before, ws[n]);
      assert forall j :: 0 <= j < n ==> ws[..n][j] == ws[j];
      r
  }

  lemma {:induction false} ApplyWritesWellFormed(fs: Fs, ws: seq<Write>)
    requires WellFormed(fs) && forall j :: 0 <= j < |ws| ==> Shaped(ws[j])
    ensures WellFormed(ApplyWrites(fs, ws))
    decreases |ws|
  {
    if |ws| > 0 {
      var n := |ws| - 1;
      ApplyWritesWellFormed(fs, ws[..n]);
      ApplyWriteWellFormed(ApplyWrites(fs, ws[..n]), ws[n]);
    }
  }

  /** The write `w` could keep a file at `l` from being written or kept:
      it makes `l` a directory, or writes a file above `l`. */
  predicate Interferes(w: Write, l: Path) {
    IsPrefix(l, w.parent) || StrictlyUnder(w.loc, l)
  }

  /** Where each write puts what: the pairs a later write overrides. */
  function LocPairs(ws: seq<Write>): (r: seq<(Path, Bytes)>)
    ensures |r| == |ws|
    ensures forall j :: 0 <= j < |ws| ==> r[j] == (ws[j].loc, ws[j].content)
  {
    seq(|ws|, j requires 0 <= j < |ws| => (ws[j].loc, ws[j].content))
  }

  /** A file written at `l` holds the bytes of the last write to `l`, as
      long as nothing in the folder or among the writes is in its way: no
      file above it, no directory at it. */
  lemma {:induction false} LastWriteWins(fs: Fs, ws: seq<Write>, l: Path)
    requires |l| > 0 && l !in fs.dirs && !Blocked(fs, l[..|l| - 1])
    requires forall j :: 0 <= j < |ws| ==> !Interferes(ws[j], l)
    requires forall j :: 0 <= j < |ws| && ws[j].loc == l ==> ws[j].parent == l[..|l| - 1]
    requires exists j :: 0 <= j < |ws| && ws[j].loc == l
    ensures l in ApplyWrites(fs, ws).files
    ensures Some(ApplyWrites(fs, ws).files[l]) == OrderedDicts.LastValue(LocPairs(ws), l)
    decreases |ws|
  {
    var n := |ws| - 1;
    var before := ApplyWrites(fs, ws[..n]);
    assert LocPairs(ws)[..n] == LocPairs(ws[..n]);
    if ws[n].loc != l {
      var j :| 0 <= j < |ws| && ws[j].loc == l;
      assert ws[..n][j].loc == l;
      LastWriteWins(fs, ws[..n], l);
      assert ApplyWrites(fs, ws) == ApplyWrite(before, ws[n]);
      assert ApplyWrites(fs, ws).files[l] == before.files[l];
      assert LocPairs(ws)[n].0 != l;
      assert OrderedDicts.LastValue(LocPairs(ws), l) == OrderedDicts.LastValue(LocPairs(ws[..n]), l);
    } else {
      LastWriteLands(fs, ws, l);
    }
  }

  /** The step of `LastWriteWins` where the last write is the one to `l`:
      the folder the earlier writes leave still lets it land. */
  lemma LastWriteLands(fs: Fs, ws: seq<Write>, l: Path)
    requires |l| > 0 && l !in fs.dirs && !Blocked(fs, l[..|l| - 1])
    requires forall j :: 0 <= j < |ws| ==> !Interferes(ws[j], l)
    requires |ws| > 0 && ws[|ws| - 1].loc == l && ws[|ws| - 1].parent == l[..|l| - 1]
    ensures l in ApplyWrites(fs, ws).files
    ensures Some(ApplyWrites(fs, ws).files[l]) == OrderedDicts.LastValue(LocPairs(ws), l)
  {
    var n := |ws| - 1;
    var before := ApplyWrites(fs, ws[..n]);
    var parent := l[..|l| - 1];
    assert forall j :: 0 <= j < n ==> ws[..n][j] == ws[j];
    assert !Blocked(before, parent) by {
      forall k | 0 <= k <= |parent| ensures parent[..k] !in before.files {
        assert parent[..k] !in fs.files;
        assert l[..k] == parent[..k];
        forall j | 0 <= j < n ensures ws[..n][j].loc != parent[..k] {
          assert !Interferes(ws[j], l);
        }
      }
    }
    assert l !in before.dirs by {
      forall j | 0 <= j < n ensures !IsPrefix(l, ws[..n][j].parent) {
        assert !Interferes(ws[j], l);
      }
    }
    assert ApplyWrites(fs, ws) == ApplyWrite(before, ws[n]);
    assert OrderedDicts.LastValue(LocPairs(ws), l) == Some(ws[n].content);
  }

  // ---------------------------------------------------------------------
  // update_objects
  // ---------------------------------------------------------------------

  /** A `File` object as the loop sees it: each attribute is missing, a
      string, bytes, or something else. */
  datatype Attr = Missing | Str(s: string) | Data(b: Bytes) | Other

  datatype FileObj = FileObj(path: Attr, content: Attr)

  /** The checks of the writing loop: an entry missing an attribute, with
      the wrong types, with an empty path, or whose normalised path escapes
      is skipped; otherwise its normalised path and bytes are written. */
  function Accept(f: FileObj): (r: Option<(string, Bytes)>)
    ensures r.Some? <==> f.path.Str? && f.content.Data? && f.path.s != "" && !P.Escapes(P.NormPath(f.path.s))
    ensures r.Some? ==> r.value == (P.NormPath(f.path.s), f.content.b)
  {
    if f.path.Missing? || f.content.Missing? then None
    else if !f.path.Str? || !f.content.Data? then None
    else if f.path.s == "" then None
    else
      var n := P.NormPath(f.path.s);
      if P.Escapes(n) then None else Some((n, f.content.b))
  }

  /** An accepted path is `.`, which names the target directory itself,
      or plain names separated by single slashes, none of them `..`: the
      file lands inside the target directory. */
  lemma AcceptedNames(f: FileObj)
    requires Accept(f).Some?
    ensures var n := Accept(f).value.0;
      (forall c :: c in P.Names(n) ==> c != "..") &&
      (n == "." || P.Names(n) == Strs.Split(n, '/')) &&
      (n == "." ==> P.Names(n) == [])
  {
    P.ConfinedNames(f.path.s);
  }

  /** The write for an accepted path under the target directory. */
  function WriteOf(target: Path, n: string, content: Bytes): (w: Write)
    ensures Shaped(w) && IsPrefix(target, w.loc)
    ensures w.loc == target + P.Names(n)
  {
    var names := P.Names(n);
    if |names| == 0 then Write(target, target, content)
    else Write(target + names[..|names| - 1], target + names, content)
  }

  /** The writes of the accepted entries, in order. */
  function Writes(target: Path, files: seq<FileObj>): (r: seq<Write>)
    ensures forall j :: 0 <= j < |r| ==> Shaped(r[j]) && IsPrefix(target, r[j].loc)
    decreases |files|
  {
    if |files| == 0 then []
    else
      var rest := Writes(target, files[1..]);
      match Accept(files[0])
      case None => rest
      case Some((n, b)) => [WriteOf(target, n, b)] + rest
  }

  /** Skipped entries write nothing and every accepted entry is written,
      in order. */
  lemma {:induction false} WritesMembers(target: Path, files: seq<FileObj>, w: Write)
    ensures w in Writes(target, files) <==>
      exists i :: 0 <= i < |files| && Accept(files[i]).Some? && w == WriteOf(target, Accept(files[i]).value.0, Accept(files[i]).value.1)
    decreases |files|
  {
    if |files| > 0 {
      WritesMembers(target, files[1..], w);
      assert forall i :: 1 <= i < |files| ==> files[i] == files[1..][i - 1];
    }
  }

  /** An entry the writing loop accepts. */
  predicate Accepted(f: FileObj) {
    Accept(f).Some?
  }

  /** The write an accepted entry makes. */
  function WriteFor(target: Path, f: FileObj): Write
    requires Accepted(f)
  {
    WriteOf(target, Accept(f).value.0, Accept(f).value.1)
  }

  /** One step of the writing loop. */
  lemma WritesCons(target: Path, files: seq<FileObj>)
    requires |files| > 0
    ensures Writes(target, files) ==
      (if Accepted(files[0]) then [WriteFor(target, files[0])] else []) + Writes(target, files[1..])
  {
  }

  /** The `k`-th write is that of the `k`-th accepted entry: the writes
      follow the entries' order. */
  lemma {:induction false} WritesInOrder(target: Path, files: seq<FileObj>)
    ensures |Writes(target, files)| == |Search.Filter(files, Accepted)|
    ensures forall k :: 0 <= k < |Writes(target, files)| ==>
      Writes(target, files)[k] == WriteFor(target, Search.Filter(files, Accepted)[k])
    decreases |files|
  {
    if |files| > 0 {
      WritesInOrder(target, files[1..]);
      WritesCons(target, files);
      var ws, rest := Writes(target, files), Writes(target, files[1..]);
      var fs, kept := Search.Filter(files, Accepted), Search.Filter(files[1..], Accepted);
      assert fs == (if Accepted(files[0]) then [files[0]] else []) + kept;
      if Accepted(files[0]) {
        forall k | 0 < k < |ws|
          ensures ws[k] == WriteFor(target, fs[k])
        {
          assert ws[k] == rest[k - 1] && fs[k] == kept[k - 1];
        }
      }
    }
  }

  /** The directory the files are written under: `os.path.join(self.wd,
      base_path)`, with `.` and `..` resolved lexically. Without symbolic
      links this is where the operating system lands whenever every
      directory named before a `..` exists. */
  function Target(wd: string, base: string): (r: Path)
    ensures forall i :: 0 <= i < |r| ==> P.Plain(r[i]) && '/' !in r[i]
    ensures P.IsAbs(base) ==> r == P.Names(P.NormPath(base))
  {
    P.Names(P.NormPath(P.Join(wd, base)))
  }

  /** The files strictly inside `t` are removed, and so are its
      subdirectories. */
  function Clear(fs: Fs, t: Path): (r: Fs)
    ensures forall p :: p in r.files <==> p in fs.files && !StrictlyUnder(t, p)
    ensures forall p :: p in r.files ==> r.files[p] == fs.files[p]
    ensures forall d :: d in r.dirs <==> d in fs.dirs && !StrictlyUnder(t, d)
  {
    Fs(map p | p in fs.files && !StrictlyUnder(t, p) :: fs.files[p], set d | d in fs.dirs && !StrictlyUnder(t, d))
  }

  /** What is inside `t` above `p` has `p` inside `t` too. */
  lemma StrictlyUnderPrefix(t: Path, p: Path, k: nat)
    requires k <= |p|
    ensures StrictlyUnder(t, p[..k]) ==> StrictlyUnder(t, p)
  {
    assert StrictlyUnder(t, p[..k]) ==> p[..|t|] == p[..k][..|t|];
  }

  lemma ClearWellFormed(fs: Fs, t: Path)
    requires WellFormed(fs)
    ensures WellFormed(Clear(fs, t))
  {
    var r := Clear(fs, t);
    forall p, k | p in r.files && 0 <= k < |p| ensures p[..k] in r.dirs {
      StrictlyUnderPrefix(t, p, k);
    }
    forall d, k | d in r.dirs && 0 <= k < |d| ensures d[..k] in r.dirs {
      StrictlyUnderPrefix(t, d, k);
    }
  }

  /** Why `update_objects` raises. */
  datatype Error = NotADirectory | CannotMakeDirectory

  /** The preparation of the target directory: with a base path and
      replacement, an existing directory is emptied (an existing file
      raises) and then made; with a base path only, it is made; with no
      base path nothing happens. */
  function Prepare(fs: Fs, target: Path, base: string, replace: bool): (r: Result<Fs, Error>)
    ensures base == "" ==> r == Ok(fs)
    ensures base != "" && replace && target in fs.files ==> r == Err(NotADirectory)
  {
    if base == "" then Ok(fs)
    else if replace && target in fs.files then Err(NotADirectory)
    else
      var start := if replace && target in fs.dirs then Clear(fs, target) else fs;
      match MakeDirs(start, target)
      case None => Err(CannotMakeDirectory)
      case Some(made) => Ok(made)
  }

  /** `update_objects(files, base_path, replace_content_in_base_path)`. */
  function UpdateObjects(wd: string, fs: Fs, files: seq<FileObj>, base: string, replace: bool): (r: Result<Fs, Error>)
    ensures base != "" && replace && Target(wd, base) in fs.files ==> r == Err(NotADirectory)
    ensures base == "" ==> r.Ok?
    ensures r.Ok? && (base == "" || !replace) ==> fs.files.Keys <= r.value.files.Keys
  {
    var target := Target(wd, base);
    var prepared :- Prepare(fs, target, base, replace);
    Ok(ApplyWrites(prepared, Writes(target, files)))
  }

  /** Files outside the target directory are never touched. */
  lemma UpdateKeepsOutside(wd: string, fs: Fs, files: seq<FileObj>, base: string, replace: bool, p: Path)
    requires UpdateObjects(wd, fs, files, base, replace).Ok?
    requires p in fs.files && !IsPrefix(Target(wd, base), p)
    ensures p in UpdateObjects(wd, fs, files, base, replace).value.files
    ensures UpdateObjects(wd, fs, files, base, replace).value.files[p] == fs.files[p]
  {
    var target := Target(wd, base);
    var ws := Writes(target, files);
    var prepared := Prepare(fs, target, base, replace).value;
    assert p in prepared.files && prepared.files[p] == fs.files[p];
    assert forall j :: 0 <= j < |ws| ==> ws[j].loc != p;
  }

  /** Without a base path, or without replacement, no existing file is
      deleted. */
  lemma UpdateKeepsFiles(wd: string, fs: Fs, files: seq<FileObj>, base: string, replace: bool)
    requires UpdateObjects(wd, fs, files, base, replace).Ok?
    requires base == "" || !replace
    ensures fs.files.Keys <= UpdateObjects(wd, fs, files, base, replace).value.files.Keys
  {
  }

  /** With a base path and replacement, every file left inside the target
      directory was written by this call. */
  lemma UpdateReplaces(wd: string, fs: Fs, files: seq<FileObj>, base: string, p: Path)
    requires WellFormed(fs)
    requires UpdateObjects(wd, fs, files, base, true).Ok? && base != ""
    requires p in UpdateObjects(wd, fs, files, base, true).value.files && StrictlyUnder(Target(wd, base), p)
    ensures exists j :: 0 <= j < |Writes(Target(wd, base), files)| && Writes(Target(wd, base), files)[j].loc == p
  {
    var target := Target(wd, base);
    var prepared := Prepare(fs, target, base, true).value;
    assert target !in fs.dirs ==> p[..|target|] !in fs.dirs;
    assert p !in prepared.files;
  }

  /** Replacement leaves a well-formed folder whose target is an empty
      directory reachable through directories only. */
  lemma PreparedForReplace(fs: Fs, target: Path, base: string)
    requires WellFormed(fs) && base != "" && Prepare(fs, target, base, true).Ok?
    ensures var prepared := Prepare(fs, target, base, true).value;
      WellFormed(prepared) && target in prepared.dirs && !Blocked(prepared, target) &&
      forall p :: StrictlyUnder(target, p) ==> p !in prepared.files && p !in prepared.dirs
  {
    var start := if target in fs.dirs then Clear(fs, target) else fs;
    ClearWellFormed(fs, target);
    MakeDirsWellFormed(start, target);
    assert forall p :: StrictlyUnder(target, p) && (p in fs.files || p in fs.dirs) ==> p[..|target|] in fs.dirs;
    assert IsPrefix(target, target);
  }

  /** Below an empty directory reachable through directories only, nothing
      blocks a file one level down. */
  lemma UnblockedBelow(fs: Fs, target: Path, l: Path)
    requires !Blocked(fs, target)
    requires forall p :: StrictlyUnder(target, p) ==> p !in fs.files
    requires StrictlyUnder(target, l)
    ensures !Blocked(fs, l[..|l| - 1])
  {
    var parent := l[..|l| - 1];
    forall k | 0 <= k <= |parent| ensures parent[..k] !in fs.files {
      assert k <= |target| ==> parent[..k] == target[..k];
      assert k > |target| ==> StrictlyUnder(target, parent[..k]);
    }
  }

  /** With a base path and replacement, every accepted entry whose path no
      other accepted entry gets in the way of ends up in the target
      directory with the bytes of the last entry written there. */
  lemma ReplaceWritesEach(wd: string, fs: Fs, files: seq<FileObj>, base: string, l: Path)
    requires WellFormed(fs)
    requires UpdateObjects(wd, fs, files, base, true).Ok? && base != ""
    requires StrictlyUnder(Target(wd, base), l)
    requires forall j :: 0 <= j < |Writes(Target(wd, base), files)| ==> !Interferes(Writes(Target(wd, base), files)[j], l)
    requires exists j :: 0 <= j < |Writes(Target(wd, base), files)| && Writes(Target(wd, base), files)[j].loc == l
    ensures l in UpdateObjects(wd, fs, files, base, true).value.files
    ensures Some(UpdateObjects(wd, fs, files, base, true).value.files[l]) ==
      OrderedDicts.LastValue(LocPairs(Writes(Target(wd, base), files)), l)
  {
    var target := Target(wd, base);
    var ws := Writes(target, files);
    var prepared := Prepare(fs, target, base, true).value;
    PreparedForReplace(fs, target, base);
    UnblockedBelow(prepared, target, l);
    WriteParents(ws, l);
    LastWriteWins(prepared, ws, l);
  }

  /** Without a base path, or without replacement, every accepted entry
      with nothing in its way, in the folder or among the other entries,
      ends up in the target directory with the bytes of the last entry
      written there. */
  lemma KeepWritesEach(wd: string, fs: Fs, files: seq<FileObj>, base: string, replace: bool, l: Path)
    requires UpdateObjects(wd, fs, files, base, replace).Ok? && (base == "" || !replace)
    requires StrictlyUnder(Target(wd, base), l) && l !in fs.dirs && !Blocked(fs, l[..|l| - 1])
    requires forall j :: 0 <= j < |Writes(Target(wd, base), files)| ==> !Interferes(Writes(Target(wd, base), files)[j], l)
    requires exists j :: 0 <= j < |Writes(Target(wd, base), files)| && Writes(Target(wd, base), files)[j].loc == l
    ensures l in UpdateObjects(wd, fs, files, base, replace).value.files
    ensures Some(UpdateObjects(wd, fs, files, base, replace).value.files[l]) ==
      OrderedDicts.LastValue(LocPairs(Writes(Target(wd, base), files)), l)
  {
    var target := Target(wd, base);
    var ws := Writes(target, files);
    var prepared := Prepare(fs, target, base, replace).value;
    PrepareKeeps(fs, target, base, replace);
    assert l !in PrefixesOf(target);
    assert l !in prepared.dirs;
    assert !Blocked(prepared, l[..|l| - 1]);
    WriteParents(ws, l);
    LastWriteWins(prepared, ws, l);
  }

  /** Without replacement nothing is removed: preparing keeps the files
      and at most adds the directories on the way to the target. */
  lemma PrepareKeeps(fs: Fs, target: Path, base: string, replace: bool)
    requires Prepare(fs, target, base, replace).Ok? && (base == "" || !replace)
    ensures Prepare(fs, target, base, replace).value.files == fs.files
    ensures Prepare(fs, target, base, replace).value.dirs <= fs.dirs + PrefixesOf(target)
  {
    if base != "" {
      var made := MakeDirs(fs, target);
      assert made.Some? && Prepare(fs, target, base, replace).value == made.value;
    }
  }

  /** A write that lands at `l` without making `l` a directory has `l`'s
      parent as its own. */
  lemma WriteParents(ws: seq<Write>, l: Path)
    requires |l| > 0
    requires forall j :: 0 <= j < |ws| ==> Shaped(ws[j]) && !Interferes(ws[j], l)
    ensures forall j :: 0 <= j < |ws| && ws[j].loc == l ==> ws[j].parent == l[..|l| - 1]
  {
    forall j | 0 <= j < |ws| && ws[j].loc == l ensures ws[j].parent == l[..|l| - 1] {
      assert !IsPrefix(l, ws[j].parent);
    }
  }

  // ---------------------------------------------------------------------
  // delete_path and list_all_files
  // ---------------------------------------------------------------------

  /** The working directory as the string `os.path.abspath` gave. */
  function WdString(wd: Path): string
    requires forall i :: 0 <= i < |wd| ==> wd[i] != ""
  {
    if |wd| == 0 then "/" else "/" + Strs.Join(wd, '/')
  }

  /** `p` and everything inside it removed (`os.unlink` or `shutil.rmtree`);
      the root directory itself cannot be removed. */
  function RemoveTree(fs: Fs, p: Path): (r: Fs)
    ensures forall q :: q in r.files <==> q in fs.files && !IsPrefix(p, q)
    ensures forall q :: q in r.files ==> r.files[q] == fs.files[q]
    ensures forall d :: d in r.dirs <==> d in fs.dirs && (!IsPrefix(p, d) || d == [])
  {
    Fs(map q | q in fs.files && !IsPrefix(p, q) :: fs.files[q], set d | d in fs.dirs && (!IsPrefix(p, d) || d == []))
  }

  /** What `delete_path` removes once past its guard: nothing when the path
      does not exist (reported as success); the root only loses its
      contents, and `rmtree` then fails on the root itself. */
  function DeleteResolved(fs: Fs, full: Path): (r: (Fs, bool))
    ensures full !in fs.files && full !in fs.dirs ==> r == (fs, true)
  {
    if full !in fs.files && full !in fs.dirs then (fs, true)
    else (RemoveTree(fs, full), full != [])
  }

  /** `delete_path` as written: the guard compares the resolved path with
      the working directory, so `"/"`, which `os.path.join` turns into the
      filesystem root, passes the guard whenever the working directory is
      not the root. */
  function DeletePathAsWritten(wd: Path, fs: Fs, path: string): (r: (Fs, bool))
    requires forall i :: 0 <= i < |wd| ==> wd[i] != ""
    ensures (path == "" || path == "." || path == "/") && P.NormPath(P.Join(WdString(wd), path)) == WdString(wd) ==> r == (fs, false)
    ensures !((path == "" || path == "." || path == "/") && P.NormPath(P.Join(WdString(wd), path)) == WdString(wd)) ==>
      r == DeleteResolved(fs, P.Names(P.NormPath(P.Join(WdString(wd), path))))
  {
    var full := P.NormPath(P.Join(WdString(wd), path));
    if full == WdString(wd) && (path == "" || path == "." || path == "/") then (fs, false)
    else DeleteResolved(fs, P.Names(full))
  }

  /** With the working directory `/work`, `delete_path("/")` goes on to
      empty the whole filesystem, including the working directory. */
  lemma DeleteSlashEmptiesRoot()
    ensures var fs := Fs(map[["work", "a"] := [1 as bv8]], {[], ["work"]});
      var r := DeletePathAsWritten(["work"], fs, "/");
      r.0.files == map[] && ["work"] !in r.0.dirs
  {
    var fs := Fs(map[["work", "a"] := [1 as bv8]], {[], ["work"]});
    assert P.Join("/work", "/") == "/";
    assert Strs.Split("/", '/') == ["", ""];
    assert P.NormPath("/") == "/";
    assert P.NormPath("/") != WdString(["work"]);
    assert P.Names("/") == [];
    var r := DeletePathAsWritten(["work"], fs, "/");
    assert r == DeleteResolved(fs, []);
    assert IsPrefix([], ["work", "a"]);
  }

  /** `delete_path` refusing the three spellings of the working directory
      it names, `""`, `"."` and the separator, and otherwise deleting the
      resolved path. */
  function DeletePath(wd: Path, fs: Fs, path: string): (r: (Fs, bool))
    requires forall i :: 0 <= i < |wd| ==> wd[i] != ""
    ensures path == "" || path == "." || path == "/" ==> r == (fs, false)
    ensures !(path == "" || path == "." || path == "/") ==>
      r == DeleteResolved(fs, P.Names(P.NormPath(P.Join(WdString(wd), path))))
  {
    if path == "" || path == "." || path == "/" then (fs, false)
    else DeleteResolved(fs, P.Names(P.NormPath(P.Join(WdString(wd), path))))
  }

  /** A deletion past the guard leaves exactly the files outside the
      deleted path, unchanged, and reports success unless it reached the
      root. */
  lemma DeletePathRemovesExactly(wd: Path, fs: Fs, path: string, q: Path)
    requires WellFormed(fs)
    requires forall i :: 0 <= i < |wd| ==> wd[i] != ""
    requires !(path == "" || path == "." || path == "/")
    ensures var full := P.Names(P.NormPath(P.Join(WdString(wd), path)));
      var r := DeletePath(wd, fs, path);
      (q in r.0.files <==> q in fs.files && !IsPrefix(full, q)) &&
      (q in r.0.files ==> r.0.files[q] == fs.files[q]) &&
      (r.1 <==> full != [] || (full !in fs.files && full !in fs.dirs))
  {
    var full := P.Names(P.NormPath(P.Join(WdString(wd), path)));
    assert q in fs.files && IsPrefix(full, q) && q != full ==> q[..|full|] in fs.dirs;
  }

  /** `list_all_files(sub_path)`: the files inside the resolved directory,
      or none when it is not a directory. */
  function ListAllFiles(wd: string, fs: Fs, sub: string): (r: set<Path>)
    ensures Target(wd, sub) !in fs.dirs ==> r == {}
    ensures r <= fs.files.Keys
  {
    var root := Target(wd, sub);
    if root !in fs.dirs then {} else set p | p in fs.files && IsPrefix(root, p)
  }

  /** After replacing the contents of a base path, listing it shows only
      files this call wrote. */
  lemma ListAfterReplace(wd: string, fs: Fs, files: seq<FileObj>, base: string, p: Path)
    requires UpdateObjects(wd, fs, files, base, true).Ok? && base != ""
    requires p in ListAllFiles(wd, UpdateObjects(wd, fs, files, base, true).value, base)
    requires WellFormed(fs)
    ensures exists j :: 0 <= j < |Writes(Target(wd, base), files)| && Writes(Target(wd, base), files)[j].loc == p
  {
    var target := Target(wd, base);
    var r := UpdateObjects(wd, fs, files, base, true).value;
    var prepared := Prepare(fs, target, base, true).value;
    PreparedForReplace(fs, target, base);
    ApplyWritesWellFormed(prepared, Writes(target, files));
    ListedIsInside(r, target, p);
    UpdateReplaces(wd, fs, files, base, p);
  }

  /** A file of a well-formed folder listed under a directory lies strictly
      inside it: it cannot be the directory itself. */
  lemma ListedIsInside(r: Fs, target: Path, p: Path)
    requires WellFormed(r) && target in r.dirs && p in r.files && IsPrefix(target, p)
    ensures StrictlyUnder(target, p)
  {
    assert p != target;
  }
}

=== FILE: ordered_dict.dfy ===
/** Python's insertion-ordered `dict` as a sequence of key/value pairs:
    assigning to a present key replaces its value where it stands,
    assigning to a new key appends it. Keys are compared with `==`, so a
    caller whose keys alias under Python's equality normalises them first. */
module OrderedDicts {
  import opened Wrappers

  type Dict<K, V> = seq<(K, V)>

  function KeySet<K, V>(d: Dict<K, V>): set<K> {
    set i | 0 <= i < |d| :: d[i].0
  }

  ghost predicate Distinct<K, V>(d: Dict<K, V>) {
    forall i, j :: 0 <= i < j < |d| ==> d[i].0 != d[j].0
  }

  lemma KeySetCons<K, V>(x: (K, V), rest: Dict<K, V>)
    ensures KeySet([x] + rest) == {x.0} + KeySet(rest)
  {
    var d := [x] + rest;
    forall k | k in KeySet(d) ensures k in {x.0} + KeySet(rest) {
      var i :| 0 <= i < |d| && d[i].0 == k;
      if i > 0 {
        assert d[i] == rest[i - 1];
      }
    }
    forall k | k in KeySet(rest) ensures k in KeySet(d) {
      var i :| 0 <= i < |rest| && rest[i].0 == k;
      assert d[i + 1] == rest[i];
    }
    assert d[0] == x;
  }

  /** `d.get(k)`. */
  function Lookup<K(==), V>(d: Dict<K, V>, k: K): (r: Option<V>)
    ensures r.None? <==> k !in KeySet(d)
    decreases |d|
  {
    if |d| == 0 then None
    else if d[0].0 == k then Some(d[0].1)
    else
      assert forall i :: 1 <= i < |d| ==> d[i] == d[1..][i - 1];
      Lookup(d[1..], k)
  }

  /** `d[k] = v`. */
  function Put<K(==), V>(d: Dict<K, V>, k: K, v: V): (r: Dict<K, V>)
    ensures KeySet(r) == KeySet(d) + {k}
    ensures |r| == if k in KeySet(d) then |d| else |d| + 1
    decreases |d|
  {
    if |d| == 0 then
      KeySetCons((k, v), d);
      assert [(k, v)] + d == [(k, v)];
      [(k, v)]
    else if d[0].0 == k then
      KeySetCons(d[0], d[1..]);
      KeySetCons((k, v), d[1..]);
      assert d == [d[0]] + d[1..];
      [(k, v)] + d[1..]
    else
      var rest := Put(d[1..], k, v);
      KeySetCons(d[0], d[1..]);
      KeySetCons(d[0], rest);
      assert d == [d[0]] + d[1..];
      [d[0]] + rest
  }

  /** After `d[k] = v`, `k` reads `v` and every other key reads as before. */
  lemma {:induction false} LookupPut<K, V>(d: Dict<K, V>, k: K, v: V, k': K)
    ensures Lookup(Put(d, k, v), k') == if k' == k then Some(v) else Lookup(d, k')
    decreases |d|
  {
    if |d| > 0 && d[0].0 != k {
      LookupPut(d[1..], k, v, k');
    }
  }

  /** Assignment adds no pair but the one assigned. */
  lemma {:induction false} PutMembers<K, V>(d: Dict<K, V>, k: K, v: V)
    ensures forall x :: x in Put(d, k, v) ==> x in d || x == (k, v)
    decreases |d|
  {
    if |d| > 0 {
      assert forall x :: x in d[1..] ==> x in d;
      if d[0].0 != k {
        PutMembers(d[1..], k, v);
      }
    }
  }

  /** With distinct keys, each key reads the value stored beside it. */
  lemma {:induction false} LookupAt<K, V>(d: Dict<K, V>, i: nat)
    requires Distinct(d) && i < |d|
    ensures Lookup(d, d[i].0) == Some(d[i].1)
    decreases |d|
  {
    if i > 0 {
      assert forall j :: 1 <= j < |d| ==> d[j] == d[1..][j - 1];
      LookupAt(d[1..], i - 1);
    }
  }

  /** Assignment keeps the keys distinct. */
  lemma {:induction false} PutDistinct<K, V>(d: Dict<K, V>, k: K, v: V)
    requires Distinct(d)
    ensures Distinct(Put(d, k, v))
    decreases |d|
  {
    if |d| > 0 {
      assert forall i :: 1 <= i < |d| ==> d[i] == d[1..][i - 1];
      if d[0].0 != k {
        PutDistinct(d[1..], k, v);
        var rest := Put(d[1..], k, v);
        assert d[0].0 !in KeySet(d[1..]);
        assert d[0].0 !in KeySet(rest);
        var r := [d[0]] + rest;
        forall i, j | 0 <= i < j < |r| ensures r[i].0 != r[j].0 {
          if i == 0 {
            assert r[j] == rest[j - 1];
          } else {
            assert r[i] == rest[i - 1] && r[j] == rest[j - 1];
          }
        }
      }
    }
  }

  /** `{key(x): x for x in xs}` once the keys are computed: pairs are
      assigned in order. */
  function FromPairs<K(==), V>(xs: seq<(K, V)>): (r: Dict<K, V>)
    ensures Distinct(r)
    ensures KeySet(r) == set i | 0 <= i < |xs| :: xs[i].0
    decreases |xs|
  {
    if |xs| == 0 then []
    else
      var n := |xs| - 1;
      var prefix := FromPairs(xs[..n]);
      PutDistinct(prefix, xs[n].0, xs[n].1);
      assert (set i | 0 <= i < |xs| :: xs[i].0) == (set i | 0 <= i < n :: xs[..n][i].0) + {xs[n].0} by {
        assert forall i :: 0 <= i < n ==> xs[..n][i] == xs[i];
      }
      Put(prefix, xs[n].0, xs[n].1)
  }

  /** The value of the last pair with key `k`, the one a dict
      comprehension keeps. */
  function LastValue<K(==), V>(xs: seq<(K, V)>, k: K): Option<V>
    decreases |xs|
  {
    if |xs| == 0 then None
    else if xs[|xs| - 1].0 == k then Some(xs[|xs| - 1].1)
    else LastValue(xs[..|xs| - 1], k)
  }

  /** Each key of the comprehension holds the last value given for it. */
  lemma {:induction false} LookupFromPairs<K, V>(xs: seq<(K, V)>, k: K)
    ensures Lookup(FromPairs(xs), k) == LastValue(xs, k)
    decreases |xs|
  {
    if |xs| > 0 {
      var n := |xs| - 1;
      LookupFromPairs(xs[..n], k);
      LookupPut(FromPairs(xs[..n]), xs[n].0, xs[n].1, k);
    }
  }

  /** A pair that no later pair overrides is the last value of its key. */
  lemma {:induction false} LastValueAt<K, V>(xs: seq<(K, V)>, i: nat)
    requires i < |xs| && forall j :: i < j < |xs| ==> xs[j].0 != xs[i].0
    ensures LastValue(xs, xs[i].0) == Some(xs[i].1)
    decreases |xs|
  {
    var n := |xs| - 1;
    if i < n {
      assert forall j :: 0 <= j < n ==> xs[..n][j] == xs[j];
      LastValueAt(xs[..n], i);
    }
  }

  /** In `{k: v for k, v in xs}` every key holds the value of its last
      pair. */
  lemma LookupLast<K, V>(xs: seq<(K, V)>)
    ensures forall i :: 0 <= i < |xs| && (forall j :: i < j < |xs| ==> xs[j].0 != xs[i].0) ==>
      Lookup(FromPairs(xs), xs[i].0) == Some(xs[i].1)
  {
    forall i | 0 <= i < |xs| && (forall j :: i < j < |xs| ==> xs[j].0 != xs[i].0)
      ensures Lookup(FromPairs(xs), xs[i].0) == Some(xs[i].1)
    {
      LookupFromPairs(xs, xs[i].0);
      LastValueAt(xs, i);
    }
  }

  /** `[v for k, v in d.items() if k not in keys]`. */
  function ValuesOutside<K(==), V>(d: Dict<K, V>, keys: set<K>): (r: seq<V>)
    ensures |r| <= |d|
    decreases |d|
  {
    if |d| == 0 then []
    else (if d[0].0 !in keys then [d[0].1] else []) + ValuesOutside(d[1..], keys)
  }

  /** A value is kept exactly when it is the value of an entry whose key is
      outside `keys`. */
  lemma {:induction false} ValuesOutsideMembers<K, V>(d: Dict<K, V>, keys: set<K>, v: V)
    ensures v in ValuesOutside(d, keys) <==> exists i :: 0 <= i < |d| && d[i].0 !in keys && d[i].1 == v
    decreases |d|
  {
    if |d| > 0 {
      ValuesOutsideMembers(d[1..], keys, v);
      if v in ValuesOutside(d[1..], keys) {
        var i :| 0 <= i < |d[1..]| && d[1..][i].0 !in keys && d[1..][i].1 == v;
        assert d[i + 1] == d[1..][i];
      }
      if exists i :: 0 <= i < |d| && d[i].0 !in keys && d[i].1 == v {
        var i :| 0 <= i < |d| && d[i].0 !in keys && d[i].1 == v;
        if i > 0 {
          assert d[1..][i - 1] == d[i];
        }
      }
    }
  }

  /** Nothing is kept exactly when every key is in `keys`. */
  lemma {:induction false} ValuesOutsideEmpty<K, V>(d: Dict<K, V>, keys: set<K>)
    ensures ValuesOutside(d, keys) == [] <==> KeySet(d) <= keys
    decreases |d|
  {
    if |d| > 0 {
      ValuesOutsideEmpty(d[1..], keys);
      KeySetCons(d[0], d[1..]);
      assert d == [d[0]] + d[1..];
    }
  }
}

=== FILE: parser_manager.dfy ===
/** The parser deployment planner (pipelines/parsers-as-code/script/parser_manager.py):
    discovering the log-type directories, planning a create, update or
    nothing for each parser and parser extension, submitting, reading
    back validation, and activating the candidates that passed.

    The SecOps client, the directory listing, base64 decoding and the local
    event validation are parameters (`Env`, `Root`). Their answers are
    functions of their arguments; the remote writes (create, activate) are
    returned as data. */
module ParserManager {
  import opened Wrappers
  import opened JsonValue
  import opened ParserModels
  import Strs
  import Sorting
  import Search

  // ---- Discovery ----

  /** What `os.path.isdir`/`isfile` and reading the two configuration
      files find under the root for one name of `os.listdir`. */
  datatype Entry = NotADir | Dir(parserConf: Option<string>, extConf: Option<string>)

  /** The parsers root, when it is a directory: its names and entries. */
  datatype Root = Root(names: seq<string>, entry: string -> Entry)

  /** Python's truthiness of `str | None`. */
  predicate Text(o: Option<string>) {
    o.Some? && o.value != ""
  }

  /** The `LogTypeConfig` a name yields; a name that is not a directory
      yields one without texts. */
  function ConfigAt(rootDir: string, root: Root, name: string): (c: LogTypeConfig)
    ensures c.logType == name
  {
    match root.entry(name)
    case NotADir => NewConfig(name, rootDir + "/" + name)
    case Dir(p, e) => NewConfig(name, rootDir + "/" + name).(parser := p, parserExt := e)
  }

  /** `if config.parser or config.parser_ext`. */
  predicate HasContent(c: LogTypeConfig) {
    Text(c.parser) || Text(c.parserExt)
  }

  predicate ByLogType(a: LogTypeConfig, b: LogTypeConfig) {
    Search.StrLe(a.logType, b.logType)
  }

  /** The configurations of every listed name, in log-type order. */
  function Candidates(rootDir: string, root: Root): (r: seq<LogTypeConfig>)
    ensures |r| == |root.names|
  {
    var sorted := Sorting.SortBy(root.names, Search.StrLe);
    seq(|sorted|, i requires 0 <= i < |sorted| => ConfigAt(rootDir, root, sorted[i]))
  }

  /** `discover_local_configs`: the names in sorted order, kept when they
      are directories holding a non-empty parser or extension text. */
  function Discover(rootDir: string, root: Option<Root>): (r: Result<seq<LogTypeConfig>, Raised>)
    ensures r.Err? <==> root.None?
    ensures r.Err? ==> CaughtAsParserError(r.error)
  {
    if root.None? then Err(ParserErr(Base, "root parsers folder does not exist"))
    else Ok(Search.Filter(Candidates(rootDir, root.value), HasContent))
  }

  /** `c` is the configuration of a listed name. */
  ghost predicate Listed(rootDir: string, root: Root, c: LogTypeConfig) {
    exists n :: n in root.names && c == ConfigAt(rootDir, root, n)
  }

  lemma CandidatesSorted(rootDir: string, root: Root)
    ensures Sorting.Sorted(Candidates(rootDir, root), ByLogType)
  {
    Search.StrLeTotalPreorder();
    Sorting.SortSorted(root.names, Search.StrLe);
  }

  lemma CandidatesListed(rootDir: string, root: Root, c: LogTypeConfig)
    ensures c in Candidates(rootDir, root) <==> Listed(rootDir, root, c)
  {
    var sorted := Sorting.SortBy(root.names, Search.StrLe);
    var all := Candidates(rootDir, root);
    if c in all {
      var i :| 0 <= i < |all| && all[i] == c;
      assert sorted[i] in multiset(root.names);
    }
    if Listed(rootDir, root, c) {
      var n :| n in root.names && c == ConfigAt(rootDir, root, n);
      assert n in multiset(sorted);
      var i :| 0 <= i < |sorted| && sorted[i] == n;
      assert all[i] == c;
    }
  }

  /** The configurations come in log-type order. */
  lemma DiscoverSorted(rootDir: string, root: Root)
    ensures Discover(rootDir, Some(root)).Ok?
    ensures Sorting.Sorted(Discover(rootDir, Some(root)).value, ByLogType)
  {
    CandidatesSorted(rootDir, root);
    Search.FilterSorted(Candidates(rootDir, root), HasContent, ByLogType);
  }

  /** A configuration is discovered exactly when it is that of a listed
      name whose directory holds a parser or an extension text. */
  lemma DiscoverMembers(rootDir: string, root: Root, c: LogTypeConfig)
    ensures Discover(rootDir, Some(root)).Ok?
    ensures c in Discover(rootDir, Some(root)).value <==> Listed(rootDir, root, c) && HasContent(c)
  {
    CandidatesListed(rootDir, root, c);
    Search.FilterMembers(Candidates(rootDir, root), HasContent, c);
  }

  // ---- The remote side ----

  /** The SecOps client and the local event check: `list_parsers`, the
      `parserExtensions` of `list_parser_extensions` (`None` when the key
      is absent), base64 decoding (`None` when it raises), `create_parser`,
      `create_parser_extension`, `get_parser`, `get_parser_extension`,
      and `_validate_parser_events` (`Some` of what it raises). */
  datatype Env = Env(
    parsers: string -> seq<map<string, Json>>,
    extensions: string -> Option<seq<map<string, Json>>>,
    decode: Json -> Option<string>,
    createParser: (string, Option<string>) -> map<string, Json>,
    createExtension: (string, Option<string>) -> map<string, Json>,
    getParser: (string, string) -> map<string, Json>,
    getExtension: (string, string) -> map<string, Json>,
    validate: LogTypeConfig -> Option<Raised>)

  const ParserTypeCustom := "CUSTOM"

  /** A decoding failure is not a `ParserError`. */
  function Decode(env: Env, j: Json): (r: Result<string, Raised>)
    ensures r.Ok? <==> env.decode(j).Some?
    ensures r.Ok? ==> r.value == env.decode(j).value
    ensures r.Err? ==> !CaughtAsParserError(r.error)
  {
    if env.decode(j).Some? then Ok(env.decode(j).value) else Err(Foreign("base64 decoding failed"))
  }

  predicate IsActiveParser(p: map<string, Json>) {
    Get(p, "type") == JStr(ParserTypeCustom) && Get(p, "state") == JStr(ParserStateValue(ACTIVE)) && "cbn" in p
  }

  predicate IsLiveExtension(e: map<string, Json>) {
    Get(e, "state") == JStr(ExtensionStateValue(LIVE)) && "cbnSnippet" in e
  }

  /** `_get_active_content`: the decoded text of the first active custom
      parser carrying `cbn`, or of the first live extension carrying
      `cbnSnippet`; a decoding failure propagates. */
  function ActiveContent(env: Env, logType: string, isExtension: bool): (r: Result<Option<string>, Raised>)
    ensures !isExtension ==> var ps := env.parsers(logType);
      ((forall j :: 0 <= j < |ps| ==> !IsActiveParser(ps[j])) ==> r == Ok(None))
      && (forall i :: Search.IsFirst(ps, IsActiveParser, i) ==>
            (r.Ok? <==> env.decode(ps[i]["cbn"]).Some?) && (r.Ok? ==> r.value == env.decode(ps[i]["cbn"])))
    ensures isExtension && env.extensions(logType).None? ==> r == Ok(None)
    ensures isExtension && env.extensions(logType).Some? ==> var es := env.extensions(logType).value;
      ((forall j :: 0 <= j < |es| ==> !IsLiveExtension(es[j])) ==> r == Ok(None))
      && (forall i :: Search.IsFirst(es, IsLiveExtension, i) ==>
            (r.Ok? <==> env.decode(es[i]["cbnSnippet"]).Some?) && (r.Ok? ==> r.value == env.decode(es[i]["cbnSnippet"])))
  {
    if isExtension then
      match env.extensions(logType)
      case None => Ok(None)
      case Some(es) =>
        match Search.FirstWhere(es, IsLiveExtension)
        case None => Ok(None)
        case Some(i) =>
          Search.FirstWhereIsFirst(es, IsLiveExtension);
          var t :- Decode(env, es[i]["cbnSnippet"]); Ok(Some(t))
    else
      var ps := env.parsers(logType);
      match Search.FirstWhere(ps, IsActiveParser)
      case None => Ok(None)
      case Some(i) =>
        Search.FirstWhereIsFirst(ps, IsActiveParser);
        var t :- Decode(env, ps[i]["cbn"]); Ok(Some(t))
  }

  // ---- Planning ----

  /** The operation for a local text against the active remote text. */
  function PlanOp(local: string, active: Option<string>): Operation {
    if !Text(active) then CREATE
    else if Strs.Strip(active.value) != Strs.Strip(local) then UPDATE
    else NONE
  }

  /** The three operations: CREATE exactly when no active text exists
      (missing or empty), NONE exactly when the stripped texts agree, and
      UPDATE exactly when they differ. */
  lemma PlanOpCases(local: string, active: Option<string>)
    ensures PlanOp(local, active) == CREATE <==> !Text(active)
    ensures PlanOp(local, active) == NONE <==> Text(active) && Strs.Strip(active.value) == Strs.Strip(local)
    ensures PlanOp(local, active) == UPDATE <==> Text(active) && Strs.Strip(active.value) != Strs.Strip(local)
  {
  }

  /** Only the text between the leading and trailing whitespace matters:
      an update is planned exactly when the stripped texts differ, and a
      text padded with whitespace plans what the text itself plans. */
  lemma PlanOpIgnoresPadding(local: string, active: string, pad1: string, pad2: string)
    requires active != "" && Strs.AllSpace(pad1) && Strs.AllSpace(pad2)
    ensures PlanOp(local, Some(active)) == NONE <==> Strs.Strip(local) == Strs.Strip(active)
    ensures PlanOp(local, Some(active)) == PlanOp(pad1 + local + pad2, Some(active))
  {
    Strs.StripPadded(local, pad1, pad2);
  }

  /** The plan entry for one log type. */
  datatype Details = Details(
    config: LogTypeConfig,
    parserOp: Operation,
    extOp: Operation,
    validationFailed: bool,
    parserStatus: Option<Json>,
    extStatus: Option<Json>)

  function OpFor(env: Env, c: LogTypeConfig, isExtension: bool): Result<Operation, Raised> {
    var local := if isExtension then c.parserExt else c.parser;
    if !Text(local) then Ok(NONE)
    else
      var active :- ActiveContent(env, c.logType, isExtension);
      Ok(PlanOp(local.value, active))
  }

  /** One entry of `plan_deployment`: operations are planned only for the
      texts present locally; validation runs only when some operation is
      planned, and a `ValidationError` resets both to `NONE` and marks the
      entry, while anything else it raises propagates. */
  function PlanOne(env: Env, c: LogTypeConfig): (r: Result<Details, Raised>)
    ensures r.Ok? ==> r.value.config == c && r.value.parserStatus.None? && r.value.extStatus.None?
    ensures r.Ok? && r.value.parserOp != NONE ==> Text(c.parser)
    ensures r.Ok? && r.value.extOp != NONE ==> Text(c.parserExt)
    ensures r.Ok? && r.value.validationFailed ==>
      (r.value.parserOp == NONE && r.value.extOp == NONE
       && env.validate(c).Some? && env.validate(c).value.ParserErr? && env.validate(c).value.kind == Validation)
    ensures r.Ok? && (r.value.parserOp != NONE || r.value.extOp != NONE) ==> env.validate(c).None?
    ensures r.Ok? && !r.value.validationFailed && Text(c.parser) ==>
      ActiveContent(env, c.logType, false).Ok? &&
      r.value.parserOp == PlanOp(c.parser.value, ActiveContent(env, c.logType, false).value)
    ensures r.Ok? && !r.value.validationFailed && Text(c.parserExt) ==>
      ActiveContent(env, c.logType, true).Ok? &&
      r.value.extOp == PlanOp(c.parserExt.value, ActiveContent(env, c.logType, true).value)
    ensures Text(c.parser) && ActiveContent(env, c.logType, false).Err? ==> r.Err?
    ensures Text(c.parserExt) && ActiveContent(env, c.logType, true).Err? ==> r.Err?
    ensures r.Ok? ==> (r.value.validationFailed <==>
      (OpFor(env, c, false) != Ok(NONE) || OpFor(env, c, true) != Ok(NONE))
      && env.validate(c).Some? && env.validate(c).value.ParserErr? && env.validate(c).value.kind == Validation)
  {
    var pOp :- OpFor(env, c, false);
    var eOp :- OpFor(env, c, true);
    if pOp == NONE && eOp == NONE then Ok(Details(c, NONE, NONE, false, None, None))
    else
      match env.validate(c)
      case None => Ok(Details(c, pOp, eOp, false, None, None))
      case Some(e) =>
        if e.ParserErr? && e.kind == Validation then Ok(Details(c, NONE, NONE, true, None, None))
        else Err(e)
  }

  /** A local text is unchanged when the active remote text strips to
      the same text; a text missing locally is never changed. */
  predicate Unchanged(env: Env, logType: string, local: Option<string>, isExtension: bool) {
    !Text(local) ||
    (ActiveContent(env, logType, isExtension).Ok? && Text(ActiveContent(env, logType, isExtension).value)
     && Strs.Strip(ActiveContent(env, logType, isExtension).value.value) == Strs.Strip(local.value))
  }

  /** When neither text changed nothing is planned and the events are not
      validated, whatever validation would say; otherwise some operation
      is planned or the entry fails or is marked. */
  lemma PlanOneUnchanged(env: Env, c: LogTypeConfig)
    ensures Unchanged(env, c.logType, c.parser, false) && Unchanged(env, c.logType, c.parserExt, true) <==>
      PlanOne(env, c) == Ok(Details(c, NONE, NONE, false, None, None))
  {
    if Text(c.parser) && ActiveContent(env, c.logType, false).Ok? {
      PlanOpCases(c.parser.value, ActiveContent(env, c.logType, false).value);
    }
    if Text(c.parserExt) && ActiveContent(env, c.logType, true).Ok? {
      PlanOpCases(c.parserExt.value, ActiveContent(env, c.logType, true).value);
    }
  }

  /** `plan_deployment` after discovery: the entries in order, the first
      error stopping it. */
  function Plan(env: Env, configs: seq<LogTypeConfig>): (r: Result<seq<Details>, Raised>)
    ensures r.Ok? <==> forall i :: 0 <= i < |configs| ==> PlanOne(env, configs[i]).Ok?
    ensures r.Ok? ==> |r.value| == |configs| && forall i :: 0 <= i < |configs| ==> PlanOne(env, configs[i]) == Ok(r.value[i])
    decreases |configs|
  {
    if |configs| == 0 then Ok([])
    else
      var d :- PlanOne(env, configs[0]);
      var rest :- Plan(env, configs[1..]);
      assert forall i :: 0 < i < |configs| ==> configs[i] == configs[1..][i - 1];
      Ok([d] + rest)
  }

  /** `plan_deployment`: discovery, then one entry per discovered
      configuration, in discovery order. */
  function PlanDeployment(env: Env, rootDir: string, root: Option<Root>): (r: Result<seq<Details>, Raised>)
    ensures Discover(rootDir, root).Err? ==> r == Err(Discover(rootDir, root).error)
    ensures r.Ok? ==> Discover(rootDir, root).Ok? && |r.value| == |Discover(rootDir, root).value|
    ensures r.Ok? ==> forall i :: 0 <= i < |r.value| ==>
      r.value[i].config == Discover(rootDir, root).value[i] && PlanOne(env, r.value[i].config) == Ok(r.value[i])
  {
    var configs :- Discover(rootDir, root);
    Plan(env, configs)
  }

  // ---- Submission ----

  /** What `execute_deployment` records for a log type: the id and full
      name of each artifact submitted. */
  datatype Info = Info(logType: string, parser: Option<(string, string)>, ext: Option<(string, string)>)

  /** The `name` of a create response: missing or empty raises a
      `ParserError`; a value that is not a string fails at `split`. */
  function SubmittedName(meta: map<string, Json>): (r: Result<string, Raised>)
    ensures r.Ok? <==> Get(meta, "name").JStr? && Get(meta, "name").s != ""
    ensures r.Ok? ==> Get(meta, "name") == JStr(r.value)
    ensures !Truthy(Get(meta, "name")) ==> r.Err? && CaughtAsParserError(r.error)
  {
    var n := Get(meta, "name");
    if !Truthy(n) then Err(ParserErr(Base, "create API did not return a name"))
    else if n.JStr? then Ok(n.s)
    else Err(Foreign("name is not a string"))
  }

  /** The id and name of a submission. */
  function Submitted(meta: map<string, Json>): (r: Result<(string, string), Raised>)
    ensures r.Ok? ==> Get(meta, "name") == JStr(r.value.1) && r.value.0 == Strs.LastSegment(r.value.1, '/')
  {
    var n :- SubmittedName(meta);
    Ok((Strs.LastSegment(n, '/'), n))
  }

  /** One entry of `execute_deployment`. */
  function ExecuteOne(env: Env, d: Details): (r: Result<Option<Info>, Raised>)
    ensures d.validationFailed ==> r == Ok(None)
    ensures r.Ok? ==> (r.value.Some? <==> !d.validationFailed && (Submits(d.parserOp) || Submits(d.extOp)))
    ensures r.Ok? && r.value.Some? ==>
      (r.value.value.logType == d.config.logType
       && (r.value.value.parser.Some? <==> Submits(d.parserOp))
       && (r.value.value.ext.Some? <==> Submits(d.extOp))
       && (Submits(d.parserOp) ==> Submitted(env.createParser(d.config.logType, d.config.parser)) == Ok(r.value.value.parser.value))
       && (Submits(d.extOp) ==> Submitted(env.createExtension(d.config.logType, d.config.parserExt)) == Ok(r.value.value.ext.value)))
  {
    if d.validationFailed then Ok(None)
    else
      var p :- if Submits(d.parserOp) then var s :- Submitted(env.createParser(d.config.logType, d.config.parser)); Ok(Some(s)) else Ok(None);
      var e :- if Submits(d.extOp) then var s :- Submitted(env.createExtension(d.config.logType, d.config.parserExt)); Ok(Some(s)) else Ok(None);
      if p.Some? || e.Some? then Ok(Some(Info(d.config.logType, p, e))) else Ok(None)
  }

  /** `execute_deployment`: an entry for exactly the log types where
      something was submitted, in plan order. */
  function Execute(env: Env, plan: seq<Details>): (r: Result<seq<Info>, Raised>)
    ensures r.Ok? <==> forall i :: 0 <= i < |plan| ==> ExecuteOne(env, plan[i]).Ok?
    decreases |plan|
  {
    if |plan| == 0 then Ok([])
    else
      var first :- ExecuteOne(env, plan[0]);
      var rest :- Execute(env, plan[1..]);
      assert forall i :: 0 < i < |plan| ==> plan[i] == plan[1..][i - 1];
      Ok((if first.Some? then [first.value] else []) + rest)
  }

  /** A plan entry that submits something. */
  predicate WillSubmit(d: Details) {
    !d.validationFailed && (Submits(d.parserOp) || Submits(d.extOp))
  }

  /** The submitted log types are those of the entries that submit, in
      plan order. */
  lemma {:induction false} ExecuteLogTypes(env: Env, plan: seq<Details>)
    requires Execute(env, plan).Ok?
    ensures |Execute(env, plan).value| == |Search.Filter(plan, WillSubmit)|
    ensures forall k :: 0 <= k < |Execute(env, plan).value| ==>
      Execute(env, plan).value[k].logType == Search.Filter(plan, WillSubmit)[k].config.logType
    ensures forall k :: 0 <= k < |Execute(env, plan).value| ==>
      ExecuteOne(env, Search.Filter(plan, WillSubmit)[k]) == Ok(Some(Execute(env, plan).value[k]))
    ensures forall k :: 0 <= k < |Execute(env, plan).value| && Execute(env, plan).value[k].parser.Some? ==>
      Execute(env, plan).value[k].parser.value.0 == Strs.LastSegment(Execute(env, plan).value[k].parser.value.1, '/')
    ensures forall k :: 0 <= k < |Execute(env, plan).value| && Execute(env, plan).value[k].ext.Some? ==>
      Execute(env, plan).value[k].ext.value.0 == Strs.LastSegment(Execute(env, plan).value[k].ext.value.1, '/')
  {
    ExecuteInOrder(env, plan);
  }

  /** The `k`-th submission is what executing the `k`-th entry that
      submits yields. */
  lemma {:induction false} ExecuteInOrder(env: Env, plan: seq<Details>)
    requires Execute(env, plan).Ok?
    ensures |Execute(env, plan).value| == |Search.Filter(plan, WillSubmit)|
    ensures forall k :: 0 <= k < |Execute(env, plan).value| ==>
      ExecuteOne(env, Search.Filter(plan, WillSubmit)[k]) == Ok(Some(Execute(env, plan).value[k]))
    decreases |plan|
  {
    if |plan| > 0 {
      assert forall i :: 0 < i < |plan| ==> plan[i] == plan[1..][i - 1];
      ExecuteInOrder(env, plan[1..]);
    }
  }

  // ---- Verification ----

  /** Records one submission's validation status in the plan. */
  function Record(env: Env, plan: seq<Details>, info: Info): (r: seq<Details>)
    ensures |r| == |plan|
    ensures forall i :: 0 <= i < |plan| && plan[i].config.logType != info.logType ==> r[i] == plan[i]
    ensures forall i :: 0 <= i < |plan| && plan[i].config.logType == info.logType ==> StatusesFrom(env, plan[i], info, r[i])
  {
    seq(|plan|, i requires 0 <= i < |plan| =>
      if plan[i].config.logType != info.logType then plan[i]
      else plan[i].(
        parserStatus := if info.parser.Some? then Some(GetOr(env.getParser(info.logType, info.parser.value.0), "validationStage", JStr("UNKNOWN"))) else plan[i].parserStatus,
        extStatus := if info.ext.Some? then Some(GetOr(env.getExtension(info.logType, info.ext.value.0), "state", JStr("UNKNOWN"))) else plan[i].extStatus))
  }

  /** The entry `after` is `before` with the statuses read back for what
      `info` submitted: the parser's `validationStage` and the extension's
      `state`, each defaulting to "UNKNOWN". */
  ghost predicate StatusesFrom(env: Env, before: Details, info: Info, after: Details) {
    after.config == before.config && after.parserOp == before.parserOp && after.extOp == before.extOp
    && after.validationFailed == before.validationFailed
    && after.parserStatus == (if info.parser.Some? then Some(GetOr(env.getParser(info.logType, info.parser.value.0), "validationStage", JStr("UNKNOWN"))) else before.parserStatus)
    && after.extStatus == (if info.ext.Some? then Some(GetOr(env.getExtension(info.logType, info.ext.value.0), "state", JStr("UNKNOWN"))) else before.extStatus)
  }

  /** `verify_submissions`. */
  function Verify(env: Env, submitted: seq<Info>, plan: seq<Details>): (r: seq<Details>)
    ensures |r| == |plan|
    decreases |submitted|
  {
    if |submitted| == 0 then plan else Verify(env, submitted[1..], Record(env, plan, submitted[0]))
  }

  /** Verification touches only the submitted log types, and writes into
      each the statuses read back for its own submission. */
  lemma {:induction false} VerifySpec(env: Env, submitted: seq<Info>, plan: seq<Details>)
    requires forall a, b :: 0 <= a < b < |submitted| ==> submitted[a].logType != submitted[b].logType
    ensures forall i :: (0 <= i < |plan| && (forall k :: 0 <= k < |submitted| ==> submitted[k].logType != plan[i].config.logType)
      ==> Verify(env, submitted, plan)[i] == plan[i])
    ensures forall i, k :: (0 <= i < |plan| && 0 <= k < |submitted| && submitted[k].logType == plan[i].config.logType
      ==> StatusesFrom(env, plan[i], submitted[k], Verify(env, submitted, plan)[i]))
    decreases |submitted|
  {
    if |submitted| > 0 {
      var rest := submitted[1..];
      var p1 := Record(env, plan, submitted[0]);
      assert forall k :: 0 < k < |submitted| ==> submitted[k] == rest[k - 1];
      VerifySpec(env, rest, p1);
      forall i, k | 0 <= i < |plan| && 0 <= k < |submitted| && submitted[k].logType == plan[i].config.logType
        ensures StatusesFrom(env, plan[i], submitted[k], Verify(env, submitted, plan)[i])
      {
        if k == 0 {
          assert forall k2 :: 0 <= k2 < |rest| ==> rest[k2].logType != p1[i].config.logType;
        } else {
          assert rest[k - 1] == submitted[k];
        }
      }
    }
  }

  // ---- Activation ----

  predicate IsParserCandidate(p: map<string, Json>) {
    Get(p, "type") == JStr(ParserTypeCustom) && Get(p, "state") != JStr(ParserStateValue(ACTIVE))
    && Get(p, "validationStage") == JStr(ValidationStatusValue(PASSED))
  }

  predicate IsExtensionCandidate(e: map<string, Json>) {
    Get(e, "state") == JStr(ExtensionStateValue(VALIDATED))
  }

  /** An `activate_parser` or `activate_parser_extension` call. */
  datatype Activation = Activation(logType: string, id: string, extension: bool)

  /** `m[key]` for a key that must hold a string. */
  function StrField(m: map<string, Json>, key: string): (r: Result<string, Raised>)
    ensures r.Ok? <==> key in m && m[key].JStr?
    ensures r.Ok? ==> m[key] == JStr(r.value)
  {
    if key !in m then Err(Foreign("KeyError"))
    else if m[key].JStr? then Ok(m[key].s)
    else Err(Foreign("not a string"))
  }

  /** The decision for one release candidate whose text is `content`:
      activated, under the id that ends its `name`, exactly when its
      stripped text equals the stripped local one. */
  function ActivateIfSame(logType: string, candidate: map<string, Json>, content: string, local: string, extension: bool): (r: Result<seq<Activation>, Raised>)
    ensures Strs.Strip(content) != Strs.Strip(local) ==> r == Ok([])
    ensures Strs.Strip(content) == Strs.Strip(local) ==> (r.Ok? <==> "name" in candidate && candidate["name"].JStr?)
    ensures Strs.Strip(content) == Strs.Strip(local) && r.Ok? ==>
      ("name" in candidate && candidate["name"].JStr?
       && r.value == [Activation(logType, Strs.LastSegment(candidate["name"].s, '/'), extension)])
  {
    if Strs.Strip(content) == Strs.Strip(local) then
      var name :- StrField(candidate, "name");
      Ok([Activation(logType, Strs.LastSegment(name, '/'), extension)])
    else Ok([])
  }

  /** Every activation is for the given log type and kind. */
  predicate AllFor(acts: seq<Activation>, logType: string, extension: bool) {
    forall k :: 0 <= k < |acts| ==> acts[k].logType == logType && acts[k].extension == extension
  }

  /** The parser half of `activate_all_passed` for one log type, as
      written: the first passed custom candidate is compared with
      `config.parser.strip()`, which raises `AttributeError` when the log
      type has no local parser. */
  function ActivateParserAsWritten(env: Env, c: LogTypeConfig): (r: Result<seq<Activation>, Raised>)
    ensures r.Ok? ==> |r.value| <= 1 && AllFor(r.value, c.logType, false)
    ensures c.parser.None? ==> (r == Ok([]) <==> forall j :: 0 <= j < |env.parsers(c.logType)| ==> !IsParserCandidate(env.parsers(c.logType)[j]))
  {
    Search.FirstWhereIsFirst(env.parsers(c.logType), IsParserCandidate);
    var ps := env.parsers(c.logType);
    match Search.FirstWhere(ps, IsParserCandidate)
    case None => Ok([])
    case Some(i) =>
      if "cbn" !in ps[i] then Err(Foreign("KeyError"))
      else
        var content :- Decode(env, ps[i]["cbn"]);
        if c.parser.None? then Err(Foreign("AttributeError: None has no strip"))
        else ActivateIfSame(c.logType, ps[i], content, c.parser.value, false)
  }

  /** The parser half with the missing local parser skipped, as the plan
      does. Only the first passed custom candidate is considered: when its
      text differs, nothing is activated even if a later candidate matches. */
  function ActivateParser(env: Env, c: LogTypeConfig): (r: Result<seq<Activation>, Raised>)
    ensures c.parser.None? ==> r == Ok([])
    ensures r.Ok? ==> |r.value| <= 1 && AllFor(r.value, c.logType, false)
    ensures var ps := env.parsers(c.logType);
      (forall j :: 0 <= j < |ps| ==> !IsParserCandidate(ps[j])) ==> r == Ok([])
    ensures var ps := env.parsers(c.logType);
      forall i :: Search.IsFirst(ps, IsParserCandidate, i) && c.parser.Some? ==>
        if "cbn" !in ps[i] || env.decode(ps[i]["cbn"]).None? then r.Err?
        else r == ActivateIfSame(c.logType, ps[i], env.decode(ps[i]["cbn"]).value, c.parser.value, false)
  {
    Search.FirstWhereIsFirst(env.parsers(c.logType), IsParserCandidate);
    if c.parser.None? then Ok([]) else ActivateParserAsWritten(env, c)
  }

  /** The extension half, as written: `config.parser_ext.strip()` raises
      when the log type has no local extension. */
  function ActivateExtensionAsWritten(env: Env, c: LogTypeConfig): (r: Result<seq<Activation>, Raised>)
    ensures r.Ok? ==> |r.value| <= 1 && AllFor(r.value, c.logType, true)
    ensures c.parserExt.None? && env.extensions(c.logType).Some? ==>
      (r == Ok([]) <==> forall j :: 0 <= j < |env.extensions(c.logType).value| ==> !IsExtensionCandidate(env.extensions(c.logType).value[j]))
  {
    match env.extensions(c.logType)
    case None => Ok([])
    case Some(es) =>
      Search.FirstWhereIsFirst(es, IsExtensionCandidate);
      match Search.FirstWhere(es, IsExtensionCandidate)
      case None => Ok([])
      case Some(i) =>
        if "cbnSnippet" !in es[i] then Err(Foreign("KeyError"))
        else
          var content :- Decode(env, es[i]["cbnSnippet"]);
          if c.parserExt.None? then Err(Foreign("AttributeError: None has no strip"))
          else ActivateIfSame(c.logType, es[i], content, c.parserExt.value, true)
  }

  /** The extension half with the missing local extension skipped. */
  function ActivateExtension(env: Env, c: LogTypeConfig): (r: Result<seq<Activation>, Raised>)
    ensures c.parserExt.None? || env.extensions(c.logType).None? ==> r == Ok([])
    ensures r.Ok? ==> |r.value| <= 1 && AllFor(r.value, c.logType, true)
    ensures env.extensions(c.logType).Some? ==> var es := env.extensions(c.logType).value;
      (forall j :: 0 <= j < |es| ==> !IsExtensionCandidate(es[j])) ==> r == Ok([])
    ensures env.extensions(c.logType).Some? ==> var es := env.extensions(c.logType).value;
      forall i :: Search.IsFirst(es, IsExtensionCandidate, i) && c.parserExt.Some? ==>
        if "cbnSnippet" !in es[i] || env.decode(es[i]["cbnSnippet"]).None? then r.Err?
        else r == ActivateIfSame(c.logType, es[i], env.decode(es[i]["cbnSnippet"]).value, c.parserExt.value, true)
  {
    if c.parserExt.None? then Ok([])
    else if env.extensions(c.logType).None? then Ok([])
    else
      Search.FirstWhereIsFirst(env.extensions(c.logType).value, IsExtensionCandidate);
      if c.parserExt.None? then Ok([]) else ActivateExtensionAsWritten(env, c)
  }

  /** A log type with only an extension locally, and a passed custom
      parser remotely: the code as written fails instead of skipping the
      parser. */
  lemma ActivateParserAsWrittenCrashes()
    ensures var env := CrashEnv();
      var c := LogTypeConfig("lt", "parsers/lt", None, Some("ext"));
      ActivateParserAsWritten(env, c).Err? && !CaughtAsParserError(ActivateParserAsWritten(env, c).error)
      && ActivateParser(env, c) == Ok([])
  {
    var env := CrashEnv();
    var ps := env.parsers("lt");
    assert IsParserCandidate(ps[0]);
    assert Search.FirstWhere(ps, IsParserCandidate) == Some(0);
  }

  /** The symmetric case for extensions. */
  lemma ActivateExtensionAsWrittenCrashes()
    ensures var env := CrashEnv();
      var c := LogTypeConfig("lt", "parsers/lt", Some("parser"), None);
      ActivateExtensionAsWritten(env, c).Err? && !CaughtAsParserError(ActivateExtensionAsWritten(env, c).error)
      && ActivateExtension(env, c) == Ok([])
  {
    var env := CrashEnv();
    var es := env.extensions("lt").value;
    assert IsExtensionCandidate(es[0]);
    assert Search.FirstWhere(es, IsExtensionCandidate) == Some(0);
  }

  /** A remote side with one passed parser and one validated extension
      for every log type. */
  function CrashEnv(): Env {
    var cand := map["type" := JStr("CUSTOM"), "state" := JStr("INACTIVE"), "validationStage" := JStr("PASSED"),
                    "cbn" := JStr("eA=="), "name" := JStr("parsers/p1")];
    var ext := map["state" := JStr("VALIDATED"), "cbnSnippet" := JStr("eA=="), "name" := JStr("extensions/e1")];
    Env(_ => [cand], _ => Some([ext]), _ => Some("x"), (_, _) => map[], (_, _) => map[],
        (_, _) => map[], (_, _) => map[], _ => None)
  }

  /** The parser half as `rd` reads it. */
  function ActivateParserIn(rd: Reading, env: Env, c: LogTypeConfig): (r: Result<seq<Activation>, Raised>)
    ensures r.Ok? ==> |r.value| <= 1 && AllFor(r.value, c.logType, false)
  {
    if rd.AsWritten? then ActivateParserAsWritten(env, c) else ActivateParser(env, c)
  }

  /** The extension half as `rd` reads it. */
  function ActivateExtensionIn(rd: Reading, env: Env, c: LogTypeConfig): (r: Result<seq<Activation>, Raised>)
    ensures r.Ok? ==> |r.value| <= 1 && AllFor(r.value, c.logType, true)
  {
    if rd.AsWritten? then ActivateExtensionAsWritten(env, c) else ActivateExtension(env, c)
  }

  /** A log type both halves of the source handle as the corrected code
      does: every missing local text has no passed remote candidate. */
  predicate SafeToActivate(env: Env, c: LogTypeConfig) {
    (c.parser.None? ==> forall j :: 0 <= j < |env.parsers(c.logType)| ==> !IsParserCandidate(env.parsers(c.logType)[j]))
    && (c.parserExt.None? && env.extensions(c.logType).Some? ==>
          forall j :: 0 <= j < |env.extensions(c.logType).value| ==> !IsExtensionCandidate(env.extensions(c.logType).value[j]))
  }

  /** The source's halves agree with the corrected ones exactly on the
      log types that are safe to activate. */
  lemma ActivateHalvesReadings(env: Env, c: LogTypeConfig)
    ensures ActivateParserAsWritten(env, c) == ActivateParser(env, c) && ActivateExtensionAsWritten(env, c) == ActivateExtension(env, c)
      <==> SafeToActivate(env, c)
  {
  }

  /** `activate_all_passed` over the discovered configurations: the calls
      made, and the count, which is their number. */
  function ActivateAll(rd: Reading, env: Env, configs: seq<LogTypeConfig>): (r: (seq<Activation>, Result<nat, Raised>))
    ensures r.1.Ok? ==> r.1.value == |r.0|
    decreases |configs|
  {
    if |configs| == 0 then ([], Ok(0))
    else
      var c := configs[0];
      match ActivateParserIn(rd, env, c)
      case Err(e) => ([], Err(e))
      case Ok(p) =>
        match ActivateExtensionIn(rd, env, c)
        case Err(e) => (p, Err(e))
        case Ok(x) =>
          var rest := ActivateAll(rd, env, configs[1..]);
          (p + x + rest.0, if rest.1.Ok? then Ok(|p| + |x| + rest.1.value) else rest.1)
  }

  /** Each configuration activates at most its parser and its extension. */
  lemma {:induction false} ActivateAllBound(rd: Reading, env: Env, configs: seq<LogTypeConfig>)
    ensures |ActivateAll(rd, env, configs).0| <= 2 * |configs|
    decreases |configs|
  {
    if |configs| > 0 {
      ActivateAllBound(rd, env, configs[1..]);
    }
  }

  ghost function LogTypes(configs: seq<LogTypeConfig>): set<string> {
    set c | c in configs :: c.logType
  }

  /** Every activation is for one of the given log types. */
  predicate AllIn(acts: seq<Activation>, names: set<string>) {
    forall k :: 0 <= k < |acts| ==> acts[k].logType in names
  }

  lemma ConcatIn(p: seq<Activation>, x: seq<Activation>, rest: seq<Activation>, logType: string, names: set<string>)
    requires AllFor(p, logType, false) && AllFor(x, logType, true) && logType in names && AllIn(rest, names)
    ensures AllIn(p + x + rest, names)
  {
    var r := p + x + rest;
    forall k | 0 <= k < |r| ensures r[k].logType in names {
      if k < |p| {
        assert r[k] == p[k];
      } else if k < |p| + |x| {
        assert r[k] == x[k - |p|];
      } else {
        assert r[k] == rest[k - |p| - |x|];
      }
    }
  }

  /** Activations are only for the log types of the configurations given. */
  lemma {:induction false} ActivateAllLogTypes(rd: Reading, env: Env, configs: seq<LogTypeConfig>)
    ensures AllIn(ActivateAll(rd, env, configs).0, LogTypes(configs))
    decreases |configs|
  {
    if |configs| > 0 {
      var names := LogTypes(configs);
      ActivateAllLogTypes(rd, env, configs[1..]);
      assert configs[0].logType in names;
      assert LogTypes(configs[1..]) <= names by {
        assert forall c :: c in configs[1..] ==> c in configs;
      }
      var rest := ActivateAll(rd, env, configs[1..]).0;
      var p := ActivateParserIn(rd, env, configs[0]);
      var x := ActivateExtensionIn(rd, env, configs[0]);
      if p.Ok? && x.Ok? {
        ConcatIn(p.value, x.value, rest, configs[0].logType, names);
      }
    }
  }

  /** On log types that are all safe to activate, the source activates
      what the corrected code does. */
  lemma {:induction false} ActivateAllReadings(env: Env, configs: seq<LogTypeConfig>)
    requires forall k :: 0 <= k < |configs| ==> SafeToActivate(env, configs[k])
    ensures ActivateAll(AsWritten, env, configs) == ActivateAll(Corrected, env, configs)
    decreases |configs|
  {
    if |configs| > 0 {
      ActivateHalvesReadings(env, configs[0]);
      ActivateAllReadings(env, configs[1..]);
    }
  }

  /** A first log type that is not safe makes the source stop at it with
      a failure, where the corrected code goes on. */
  lemma ActivateAllUnsafeFirst(env: Env, configs: seq<LogTypeConfig>)
    ensures |configs| > 0 && !SafeToActivate(env, configs[0]) ==> ActivateAll(AsWritten, env, configs).1.Err?
  {
  }

  function ActivateAllPassed(rd: Reading, env: Env, rootDir: string, root: Option<Root>): (seq<Activation>, Result<nat, Raised>) {
    match Discover(rootDir, root)
    case Err(e) => ([], Err(e))
    case Ok(configs) => ActivateAll(rd, env, configs)
  }
}

=== FILE: parser_models.dfy ===
/** The records and enumerations of the parser pipeline
    (pipelines/parsers-as-code/script/models.py). Each enumeration carries
    its wire value and the lookup `Enum(value)` that inverts it. */
module ParserModels {
  import opened Wrappers

  /** A log type's directory and the parser and extension texts found in
      it; both texts default to `None`. */
  datatype LogTypeConfig = LogTypeConfig(logType: string, dirPath: string, parser: Option<string>, parserExt: Option<string>)

  /** `LogTypeConfig(log_type=…, dir_path=…)`. */
  function NewConfig(logType: string, dirPath: string): (c: LogTypeConfig)
    ensures c.logType == logType && c.dirPath == dirPath
    ensures c.parser.None? && c.parserExt.None?
  {
    LogTypeConfig(logType, dirPath, None, None)
  }

  datatype ParserState = ACTIVE | INACTIVE

  function ParserStateValue(s: ParserState): string {
    match s
    case ACTIVE => "ACTIVE"
    case INACTIVE => "INACTIVE"
  }

  function ParseParserState(v: string): Option<ParserState> {
    if v == "ACTIVE" then Some(ACTIVE) else if v == "INACTIVE" then Some(INACTIVE) else None
  }

  lemma ParserStateRoundTrip(s: ParserState, v: string)
    ensures ParseParserState(ParserStateValue(s)) == Some(s)
    ensures ParseParserState(v) == Some(s) ==> ParserStateValue(s) == v
  {
  }

  datatype ExtensionState = LIVE | VALIDATED | REJECTED

  function ExtensionStateValue(s: ExtensionState): string {
    match s
    case LIVE => "LIVE"
    case VALIDATED => "VALIDATED"
    case REJECTED => "REJECTED"
  }

  function ParseExtensionState(v: string): Option<ExtensionState> {
    if v == "LIVE" then Some(LIVE)
    else if v == "VALIDATED" then Some(VALIDATED)
    else if v == "REJECTED" then Some(REJECTED)
    else None
  }

  lemma ExtensionStateRoundTrip(s: ExtensionState, v: string)
    ensures ParseExtensionState(ExtensionStateValue(s)) == Some(s)
    ensures ParseExtensionState(v) == Some(s) ==> ExtensionStateValue(s) == v
  {
  }

  datatype ValidationStatus = PASSED | FAILED | INCOMPLETE

  function ValidationStatusValue(s: ValidationStatus): string {
    match s
    case PASSED => "PASSED"
    case FAILED => "FAILED"
    case INCOMPLETE => "INCOMPLETE"
  }

  function ParseValidationStatus(v: string): Option<ValidationStatus> {
    if v == "PASSED" then Some(PASSED)
    else if v == "FAILED" then Some(FAILED)
    else if v == "INCOMPLETE" then Some(INCOMPLETE)
    else None
  }

  lemma ValidationStatusRoundTrip(s: ValidationStatus, v: string)
    ensures ParseValidationStatus(ValidationStatusValue(s)) == Some(s)
    ensures ParseValidationStatus(v) == Some(s) ==> ValidationStatusValue(s) == v
  {
  }

  /** The planned action: there is no recreate and no activate operation. */
  datatype Operation = NONE | CREATE | UPDATE

  function OperationValue(o: Operation): string {
    match o
    case NONE => "NONE"
    case CREATE => "CREATE"
    case UPDATE => "UPDATE"
  }

  function ParseOperation(v: string): Option<Operation> {
    if v == "NONE" then Some(NONE)
    else if v == "CREATE" then Some(CREATE)
    else if v == "UPDATE" then Some(UPDATE)
    else None
  }

  /** The three operations are all there is: every other value, such as
      "RECREATE" or "ACTIVATE", is rejected. */
  lemma OperationRoundTrip(o: Operation, v: string)
    ensures ParseOperation(OperationValue(o)) == Some(o)
    ensures ParseOperation(v).Some? <==> v in {"NONE", "CREATE", "UPDATE"}
    ensures ParseOperation(v) == Some(o) ==> OperationValue(o) == v
  {
  }

  /** A planned submission. */
  predicate Submits(o: Operation) {
    o == CREATE || o == UPDATE
  }

  /** The exception hierarchy: every application error is a `ParserError`,
      and anything else raised is not. */
  datatype ParserErrorKind = Base | Initialization | Validation | Api

  datatype Raised = ParserErr(kind: ParserErrorKind, message: string) | Foreign(message: string)

  /** `except ParserError` catches exactly the application errors,
      whatever their subclass. */
  predicate CaughtAsParserError(e: Raised) {
    e.ParserErr?
  }
}

=== FILE: parser_report.dfy ===
/** The parser pipeline's commands and its pull-request comment
    (pipelines/parsers-as-code/script/main.py): `verify-deploy-parsers`
    plans, submits and reads back validation, then reports; `activate-parsers`
    activates what passed. The comment is modelled as its structured
    content: which log types appear, with which action, status, icon and
    id, under which title. */
module ParserReport {
  import opened Wrappers
  import opened JsonValue
  import opened ParserModels
  import Sorting
  import Search
  import PM = ParserManager

  datatype Icon = Check | Cross | Hourglass

  /** The "Validation Status" and "Details" of one section. */
  datatype Status =
    | EventValidationFailed
    | SubmittedWith(status: Json, icon: Icon, id: string)
    | NoChange

  /** The parser or extension part of a log type's entry. */
  datatype Section = Section(action: Operation, status: Status)

  datatype Entry = Entry(logType: string, parser: Option<Section>, ext: Option<Section>)

  datatype Title = DeploymentFailed | AllUpToDate | DeploymentPlan(submittedCount: nat)

  datatype Comment = Comment(title: Title, entries: seq<Entry>)

  /** A plan entry the comment lists: something is planned, or its
      events failed validation. */
  predicate Shown(d: PM.Details) {
    d.parserOp != NONE || d.extOp != NONE || d.validationFailed
  }

  predicate ByLogType(a: PM.Details, b: PM.Details) {
    Search.StrLe(a.config.logType, b.config.logType)
  }

  /** The info recorded last for a log type, as the dictionary built from
      the submissions keeps it. */
  function LastFor(infos: seq<PM.Info>, logType: string): (r: Option<PM.Info>)
    ensures r.None? <==> forall k :: 0 <= k < |infos| ==> infos[k].logType != logType
    ensures r.Some? ==> r.value in infos && r.value.logType == logType
    decreases |infos|
  {
    if |infos| == 0 then None
    else if infos[|infos| - 1].logType == logType then Some(infos[|infos| - 1])
    else LastFor(infos[..|infos| - 1], logType)
  }

  /** With one info per log type, it is that info. */
  lemma {:induction false} LastForDistinct(infos: seq<PM.Info>, k: nat)
    requires k < |infos|
    requires forall a, b :: 0 <= a < b < |infos| ==> infos[a].logType != infos[b].logType
    ensures LastFor(infos, infos[k].logType) == Some(infos[k])
    decreases |infos|
  {
    if k < |infos| - 1 {
      var init := infos[..|infos| - 1];
      assert init[k] == infos[k];
      LastForDistinct(init, k);
    }
  }

  const NotAvailable := "N/A"

  /** The id shown for a submission: `N/A` when none is recorded. */
  function IdFor(infos: seq<PM.Info>, logType: string, extension: bool): (r: string)
    ensures (forall k :: 0 <= k < |infos| ==> infos[k].logType != logType) ==> r == NotAvailable
  {
    match LastFor(infos, logType)
    case None => NotAvailable
    case Some(info) =>
      if !extension && info.parser.Some? then info.parser.value.0
      else if extension && info.ext.Some? then info.ext.value.0
      else NotAvailable
  }

  /** With one info per log type, the id shown is the one submitted. */
  lemma IdForSubmitted(infos: seq<PM.Info>, k: nat, extension: bool)
    requires k < |infos|
    requires forall a, b :: 0 <= a < b < |infos| ==> infos[a].logType != infos[b].logType
    ensures !extension && infos[k].parser.Some? ==> IdFor(infos, infos[k].logType, false) == infos[k].parser.value.0
    ensures extension && infos[k].ext.Some? ==> IdFor(infos, infos[k].logType, true) == infos[k].ext.value.0
  {
    LastForDistinct(infos, k);
  }

  /** The icon of a parser's validation stage. */
  function ParserIcon(status: Json): (r: Icon)
    ensures r == Check <==> status == JStr(ValidationStatusValue(PASSED))
    ensures r == Cross <==> status == JStr(ValidationStatusValue(FAILED))
  {
    if status == JStr(ValidationStatusValue(PASSED)) then Check
    else if status == JStr(ValidationStatusValue(FAILED)) then Cross
    else Hourglass
  }

  /** The icon of an extension's state. */
  function ExtensionIcon(status: Json): (r: Icon)
    ensures r == Check <==> status == JStr(ExtensionStateValue(VALIDATED))
    ensures r == Cross <==> status == JStr(ExtensionStateValue(REJECTED))
  {
    if status == JStr(ExtensionStateValue(VALIDATED)) then Check
    else if status == JStr(ExtensionStateValue(REJECTED)) then Cross
    else Hourglass
  }

  const Pending := JStr("PENDING")

  /** One section: a validation failure wins, a submission shows its status
      (pending until read back), anything else shows no change. */
  function SectionFor(d: PM.Details, infos: seq<PM.Info>, extension: bool): (r: Section)
    ensures r.action == (if extension then d.extOp else d.parserOp)
    ensures r.status == EventValidationFailed <==> d.validationFailed
    ensures r.status.SubmittedWith? <==> !d.validationFailed && Submits(r.action)
    ensures r.status.SubmittedWith? ==>
      (r.status.status == (if extension then d.extStatus else d.parserStatus).GetOr(Pending)
       && r.status.id == IdFor(infos, d.config.logType, extension))
    ensures r.status.SubmittedWith? && !extension ==> r.status.icon == ParserIcon(r.status.status)
    ensures r.status.SubmittedWith? && extension ==> r.status.icon == ExtensionIcon(r.status.status)
  {
    var action := if extension then d.extOp else d.parserOp;
    if d.validationFailed then Section(action, EventValidationFailed)
    else if Submits(action) then
      var status := (if extension then d.extStatus else d.parserStatus).GetOr(Pending);
      var icon := if extension then ExtensionIcon(status) else ParserIcon(status);
      Section(action, SubmittedWith(status, icon, IdFor(infos, d.config.logType, extension)))
    else Section(action, NoChange)
  }

  /** A log type's entry: a section for each text present locally. */
  function EntryFor(d: PM.Details, infos: seq<PM.Info>): (r: Entry)
    ensures r.logType == d.config.logType
    ensures r.parser.Some? <==> PM.Text(d.config.parser)
    ensures r.ext.Some? <==> PM.Text(d.config.parserExt)
    ensures r.parser.Some? ==> r.parser.value == SectionFor(d, infos, false)
    ensures r.ext.Some? ==> r.ext.value == SectionFor(d, infos, true)
  {
    Entry(d.config.logType,
          if PM.Text(d.config.parser) then Some(SectionFor(d, infos, false)) else None,
          if PM.Text(d.config.parserExt) then Some(SectionFor(d, infos, true)) else None)
  }

  function EntriesOf(shown: seq<PM.Details>, infos: seq<PM.Info>): (r: seq<Entry>)
    ensures |r| == |shown|
    ensures forall k :: 0 <= k < |r| ==> r[k] == EntryFor(shown[k], infos)
  {
    seq(|shown|, k requires 0 <= k < |shown| => EntryFor(shown[k], infos))
  }

  /** The plan entries listed, in log-type order. */
  function ShownInOrder(plan: seq<PM.Details>): seq<PM.Details> {
    Search.Filter(Sorting.SortBy(plan, ByLogType), Shown)
  }

  /** `generate_pr_comment_output`. */
  function Report(plan: seq<PM.Details>, infos: seq<PM.Info>, hasErrors: bool): (r: Comment)
    ensures r.title == DeploymentFailed <==> hasErrors
    ensures r.title == AllUpToDate <==> !hasErrors && |infos| == 0 && |r.entries| == 0
    ensures r.title.DeploymentPlan? ==> r.title.submittedCount == |infos|
    ensures |r.entries| <= |plan|
  {
    var entries := EntriesOf(ShownInOrder(plan), infos);
    var title :=
      if hasErrors then DeploymentFailed
      else if |infos| == 0 && |entries| == 0 then AllUpToDate
      else DeploymentPlan(|infos|);
    Comment(title, entries)
  }

  /** The comment lists exactly the plan entries that are shown, in
      log-type order, each with the sections the contracts of `EntryFor`
      describe. */
  lemma ReportEntries(plan: seq<PM.Details>, infos: seq<PM.Info>, hasErrors: bool, d: PM.Details)
    ensures d in ShownInOrder(plan) <==> d in plan && Shown(d)
    ensures Sorting.Sorted(ShownInOrder(plan), ByLogType)
    ensures Report(plan, infos, hasErrors).entries == EntriesOf(ShownInOrder(plan), infos)
  {
    var sorted := Sorting.SortBy(plan, ByLogType);
    Search.FilterMembers(sorted, Shown, d);
    assert d in sorted <==> d in plan by {
      assert d in sorted <==> d in multiset(sorted);
    }
    assert Sorting.TotalPreorder(ByLogType) by {
      Search.StrLeTotalPreorder();
    }
    Sorting.SortSorted(plan, ByLogType);
    Search.FilterSorted(sorted, Shown, ByLogType);
  }

  /** How a command ends: success, `sys.exit(1)`, or an exception that is
      not a `ParserError` escaping. */
  datatype Exit = Success | Failure | Uncaught(message: string)

  /** A run of `verify-deploy-parsers`: the comment written and the end. */
  datatype Run = Run(comment: Comment, exit: Exit)

  /** Some operation is planned. */
  predicate OpsToRun(plan: seq<PM.Details>) {
    exists k :: 0 <= k < |plan| && (plan[k].parserOp != NONE || plan[k].extOp != NONE)
  }

  /** An exception ends the run: a `ParserError` is reported as a failure,
      anything else is reported without errors before it escapes. */
  function Raise(plan: seq<PM.Details>, infos: seq<PM.Info>, e: Raised): (r: Run)
    ensures r.exit == Failure <==> CaughtAsParserError(e)
    ensures r.comment.title == DeploymentFailed <==> CaughtAsParserError(e)
  {
    if CaughtAsParserError(e) then Run(Report(plan, infos, true), Failure)
    else Run(Report(plan, infos, false), Uncaught(e.message))
  }

  /** `verify_and_deploy`: a planning error reports an empty plan; no
      planned operation reports the plan as it is; otherwise the plan is
      submitted and read back, and an error while submitting reports the
      plan with nothing submitted. */
  function VerifyAndDeploy(env: PM.Env, rootDir: string, root: Option<PM.Root>): (r: Run)
    ensures r.exit == Failure <==> r.comment.title == DeploymentFailed
  {
    match PM.PlanDeployment(env, rootDir, root)
    case Err(e) => Raise([], [], e)
    case Ok(plan) =>
      if !OpsToRun(plan) then Run(Report(plan, [], false), Success)
      else
        match PM.Execute(env, plan)
        case Err(e) => Raise(plan, [], e)
        case Ok(infos) => Run(Report(PM.Verify(env, infos, plan), infos, false), Success)
  }

  /** The run fails exactly when planning or submitting raises a
      `ParserError`; a local event validation failure is reported in the
      comment but does not fail the run. */
  lemma VerifyAndDeployExit(env: PM.Env, rootDir: string, root: Option<PM.Root>)
    ensures var r := VerifyAndDeploy(env, rootDir, root);
      var planned := PM.PlanDeployment(env, rootDir, root);
      (r.exit == Failure <==>
        (planned.Err? && CaughtAsParserError(planned.error))
        || (planned.Ok? && OpsToRun(planned.value) && PM.Execute(env, planned.value).Err?
            && CaughtAsParserError(PM.Execute(env, planned.value).error)))
    ensures root.None? ==> VerifyAndDeploy(env, rootDir, root) == Run(Comment(DeploymentFailed, []), Failure)
  {
  }

  /** When every change planned failed its event validation, nothing is
      submitted, the run succeeds, and each such log type is listed with
      its sections marked as failed validation. */
  lemma ValidationFailuresOnlyReported(env: PM.Env, rootDir: string, root: Option<PM.Root>)
    requires PM.PlanDeployment(env, rootDir, root).Ok?
    requires !OpsToRun(PM.PlanDeployment(env, rootDir, root).value)
    ensures var r := VerifyAndDeploy(env, rootDir, root);
      var plan := PM.PlanDeployment(env, rootDir, root).value;
      r.exit == Success && r.comment.entries == EntriesOf(ShownInOrder(plan), [])
      && (forall d :: d in ShownInOrder(plan) ==> d.validationFailed)
  {
    var plan := PM.PlanDeployment(env, rootDir, root).value;
    forall d | d in ShownInOrder(plan) ensures d.validationFailed {
      ReportEntries(plan, [], false, d);
      var k :| 0 <= k < |plan| && plan[k] == d;
    }
  }

  /** A successful run's plan title counts the log types where something
      was submitted, which are the plan entries that submit. */
  lemma DeployedCount(env: PM.Env, rootDir: string, root: Option<PM.Root>)
    requires PM.PlanDeployment(env, rootDir, root).Ok?
    requires OpsToRun(PM.PlanDeployment(env, rootDir, root).value)
    requires PM.Execute(env, PM.PlanDeployment(env, rootDir, root).value).Ok?
    ensures var plan := PM.PlanDeployment(env, rootDir, root).value;
      VerifyAndDeploy(env, rootDir, root).comment.title == DeploymentPlan(|Search.Filter(plan, PM.WillSubmit)|)
  {
    var plan := PM.PlanDeployment(env, rootDir, root).value;
    var infos := PM.Execute(env, plan).value;
    PM.ExecuteLogTypes(env, plan);
    var c := Report(PM.Verify(env, infos, plan), infos, false);
    assert VerifyAndDeploy(env, rootDir, root) == Run(c, Success);
    if |infos| == 0 {
      assert OpsToRun(plan);
      var k :| 0 <= k < |plan| && (plan[k].parserOp != NONE || plan[k].extOp != NONE);
      assert |c.entries| > 0 by {
        var v := PM.Verify(env, infos, plan);
        assert v == plan;
        ReportEntries(plan, infos, false, plan[k]);
        assert plan[k] in ShownInOrder(plan);
      }
    }
  }

  /** `activate-parsers`: a `ParserError` fails the command; any other
      exception escapes it. As written, a first log type that lacks a
      local text for a passed remote candidate never lets it succeed. */
  function ActivateParsers(rd: Reading, env: PM.Env, rootDir: string, root: Option<PM.Root>): (r: (seq<PM.Activation>, Exit))
    ensures r.1 == Failure <==> PM.ActivateAllPassed(rd, env, rootDir, root).1.Err? && CaughtAsParserError(PM.ActivateAllPassed(rd, env, rootDir, root).1.error)
    ensures r.1 == Success <==> PM.ActivateAllPassed(rd, env, rootDir, root).1.Ok?
    ensures r.0 == PM.ActivateAllPassed(rd, env, rootDir, root).0
    ensures (rd.AsWritten? && PM.Discover(rootDir, root).Ok? && |PM.Discover(rootDir, root).value| > 0 &&
             !PM.SafeToActivate(env, PM.Discover(rootDir, root).value[0])) ==> r.1 != Success
  {
    if PM.Discover(rootDir, root).Ok? then PM.ActivateAllUnsafeFirst(env, PM.Discover(rootDir, root).value); Activated(rd, env, rootDir, root)
    else Activated(rd, env, rootDir, root)
  }

  function Activated(rd: Reading, env: PM.Env, rootDir: string, root: Option<PM.Root>): (seq<PM.Activation>, Exit) {
    var (acts, count) := PM.ActivateAllPassed(rd, env, rootDir, root);
    match count
    case Ok(_) => (acts, Success)
    case Err(e) => (acts, if CaughtAsParserError(e) then Failure else Uncaught(e.message))
  }
}

=== FILE: parser_utils.dfy ===
/** Text and event helpers of the parser pipeline
    (pipelines/parsers-as-code/script/utils.py; the single-file
    pipelines/parsers-as-code/main.py has identical copies). The regular
    expression engine is a parameter `matches(pattern, line)` standing for
    `re.search(pattern, line)`; YAML load/dump, `splitlines` and
    `difflib.Differ` are parameters of `CompareYaml`. */
module ParserUtils {
  import opened Wrappers
  import opened JsonValue

  /** Some pattern is found in the line. */
  predicate AnyMatch(line: string, patterns: seq<string>, matches: (string, string) -> bool) {
    exists p :: p in patterns && matches(p, line)
  }

  /** The lines no pattern is found in, in their order. */
  function Keep(lines: seq<string>, patterns: seq<string>, matches: (string, string) -> bool): (r: seq<string>)
    decreases |lines|
  {
    if |lines| == 0 then []
    else (if AnyMatch(lines[0], patterns, matches) then [] else [lines[0]]) + Keep(lines[1..], patterns, matches)
  }

  /** `filter_lines`: no patterns (`None` or empty) keeps every line. */
  function FilterLines(lines: seq<string>, patterns: Option<seq<string>>, matches: (string, string) -> bool): (r: seq<string>)
    ensures patterns.None? || |patterns.value| == 0 ==> r == lines
  {
    if patterns.None? || |patterns.value| == 0 then lines else Keep(lines, patterns.value, matches)
  }

  /** A line survives exactly when it is an input line no pattern is
      found in. */
  lemma {:induction false} KeepMembers(lines: seq<string>, patterns: seq<string>, matches: (string, string) -> bool, l: string)
    ensures l in Keep(lines, patterns, matches) <==> l in lines && !AnyMatch(l, patterns, matches)
    decreases |lines|
  {
    if |lines| > 0 {
      KeepMembers(lines[1..], patterns, matches, l);
      assert lines == [lines[0]] + lines[1..];
    }
  }

  /** Filtering is line by line: it distributes over concatenation, which
      is what keeps the surviving lines in their input order. */
  lemma {:induction false} KeepAppend(a: seq<string>, b: seq<string>, patterns: seq<string>, matches: (string, string) -> bool)
    ensures Keep(a + b, patterns, matches) == Keep(a, patterns, matches) + Keep(b, patterns, matches)
    decreases |a|
  {
    if |a| > 0 {
      assert (a + b)[1..] == a[1..] + b;
      KeepAppend(a[1..], b, patterns, matches);
    } else {
      assert a + b == b;
    }
  }

  /** Filtering twice with the same patterns is filtering once. */
  lemma {:induction false} KeepIdempotent(lines: seq<string>, patterns: seq<string>, matches: (string, string) -> bool)
    ensures Keep(Keep(lines, patterns, matches), patterns, matches) == Keep(lines, patterns, matches)
    decreases |lines|
  {
    if |lines| > 0 {
      var head := if AnyMatch(lines[0], patterns, matches) then [] else [lines[0]];
      KeepIdempotent(lines[1..], patterns, matches);
      KeepAppend(head, Keep(lines[1..], patterns, matches), patterns, matches);
      if |head| == 1 {
        assert Keep(head, patterns, matches) == head by {
          assert head[1..] == [];
        }
      }
    }
  }

  predicate IsChange(line: string) {
    |line| > 0 && (line[0] == '+' || line[0] == '-')
  }

  /** The `+`/`-` lines of a diff, in order. */
  function Changes(diff: seq<string>): (r: seq<string>)
    ensures forall k :: 0 <= k < |r| ==> IsChange(r[k]) && r[k] in diff
    ensures forall l :: l in diff && IsChange(l) ==> l in r
    decreases |diff|
  {
    if |diff| == 0 then []
    else (if IsChange(diff[0]) then [diff[0]] else []) + Changes(diff[1..])
  }

  /** The end of `compare_yaml_files`: the changed lines, or `None` when
      there are none. */
  function DiffResult(diff: seq<string>): (r: Option<seq<string>>)
    ensures r.None? <==> forall l :: l in diff ==> !IsChange(l)
    ensures r.Some? ==> |r.value| > 0 && forall k :: 0 <= k < |r.value| ==> IsChange(r.value[k]) && r.value[k] in diff
  {
    var c := Changes(diff);
    if |c| == 0 then None else assert c[0] in diff && IsChange(c[0]); Some(c)
  }

  /** The library calls `compare_yaml_files` makes: `normalize` is the
      YAML load and sorted dump (`None` on a YAML error), `lines` is
      `splitlines`, and `differ` is `difflib.Differ().compare`. */
  datatype TextLib = TextLib(
    normalize: string -> Option<string>,
    lines: string -> seq<string>,
    differ: (seq<string>, seq<string>) -> seq<string>,
    matches: (string, string) -> bool)

  /** `compare_yaml_files` on the two files' contents: when either fails
      to parse, both are compared as plain text. */
  function CompareYaml(lib: TextLib, content1: string, content2: string, patterns: Option<seq<string>>): (r: Option<seq<string>>)
    ensures r.Some? ==> |r.value| > 0 && forall k :: 0 <= k < |r.value| ==> IsChange(r.value[k])
  {
    var n1 := lib.normalize(content1);
    var n2 := lib.normalize(content2);
    var p1 := if n1.Some? && n2.Some? then n1.value else content1;
    var p2 := if n1.Some? && n2.Some? then n2.value else content2;
    DiffResult(lib.differ(FilterLines(lib.lines(p1), patterns, lib.matches), FilterLines(lib.lines(p2), patterns, lib.matches)))
  }

  /** When either file is not valid YAML, both are compared as the raw
      text, neither as its normalized dump. */
  lemma CompareFallsBackToText(lib: TextLib, content1: string, content2: string, patterns: Option<seq<string>>)
    requires lib.normalize(content1).None? || lib.normalize(content2).None?
    ensures CompareYaml(lib, content1, content2, patterns)
      == DiffResult(lib.differ(FilterLines(lib.lines(content1), patterns, lib.matches), FilterLines(lib.lines(content2), patterns, lib.matches)))
  {
  }

  /** A file compared with itself shows no difference, given a differ
      that reports no change between equal line lists. */
  lemma CompareSelf(lib: TextLib, content: string, patterns: Option<seq<string>>)
    requires forall a :: forall l :: l in lib.differ(a, a) ==> !IsChange(l)
    ensures CompareYaml(lib, content, content, patterns).None?
  {
    var t := if lib.normalize(content).Some? then lib.normalize(content).value else content;
    var f := FilterLines(lib.lines(t), patterns, lib.matches);
    assert forall l :: l in lib.differ(f, f) ==> !IsChange(l);
  }

  const CollectedTimestamp := "collectedTimestamp"

  /** `process_data_for_dump`. */
  function ForDump(j: Json): Json {
    match j
    case JObj(m) => JObj(map k | k in m :: if k == CollectedTimestamp then JStr("") else ForDump(m[k]))
    case JList(xs) => JList(seq(|xs|, i requires 0 <= i < |xs| => ForDump(xs[i])))
    case _ => j
  }

  /** Every `collectedTimestamp` value, at any depth, is the empty string. */
  ghost predicate Blanked(j: Json) {
    match j
    case JObj(m) => forall k :: k in m ==> if k == CollectedTimestamp then m[k] == JStr("") else Blanked(m[k])
    case JList(xs) => forall i :: 0 <= i < |xs| ==> Blanked(xs[i])
    case _ => true
  }

  /** The shape is kept: the same keys, the same list lengths, the other
      scalars unchanged. */
  lemma ForDumpShape(j: Json)
    ensures j.JObj? ==> ForDump(j).JObj? && ForDump(j).fields.Keys == j.fields.Keys
    ensures j.JList? ==> ForDump(j).JList? && |ForDump(j).items| == |j.items|
    ensures !j.JObj? && !j.JList? ==> ForDump(j) == j
  {
  }

  /** The result has every `collectedTimestamp` blanked. */
  lemma {:induction false} ForDumpBlanks(j: Json)
    ensures Blanked(ForDump(j))
  {
    match j
    case JObj(m) =>
      var r := ForDump(j).fields;
      forall k | k in r ensures if k == CollectedTimestamp then r[k] == JStr("") else Blanked(r[k]) {
        if k != CollectedTimestamp {
          ForDumpBlanks(m[k]);
        }
      }
    case JList(xs) =>
      forall i | 0 <= i < |xs| ensures Blanked(ForDump(j).items[i]) {
        ForDumpBlanks(xs[i]);
      }
    case _ =>
  }

  /** A value already blanked is left exactly as it is. */
  lemma {:induction false} ForDumpKeepsBlanked(j: Json)
    requires Blanked(j)
    ensures ForDump(j) == j
  {
    match j
    case JObj(m) =>
      forall k | k in m && k != CollectedTimestamp ensures ForDump(m[k]) == m[k] {
        ForDumpKeepsBlanked(m[k]);
      }
      assert ForDump(j).fields == m;
    case JList(xs) =>
      forall i | 0 <= i < |xs| ensures ForDump(xs[i]) == xs[i] {
        ForDumpKeepsBlanked(xs[i]);
      }
      assert ForDump(j).items == xs;
    case _ =>
  }

  /** Applying it twice is applying it once. */
  lemma ForDumpIdempotent(j: Json)
    ensures ForDump(ForDump(j)) == ForDump(j)
  {
    ForDumpBlanks(j);
    ForDumpKeepsBlanked(ForDump(j));
  }
}

=== FILE: parsers_legacy.dfy ===
/** The single-file parser pipeline (pipelines/parsers-as-code/main.py):
    one `parser.conf` per log-type directory, planned against the active
    custom parser, validated, submitted, read back and later activated.
    Unlike the newer pipeline it records every failure in a global error
    list and keeps going; the exit status is decided by that list at the
    end.

    The Chronicle client is a record of functions (`Client`); a call that
    raises is `None` (or `Some` of the error it records). The local event
    check `_validate_parser_events` is the oracle `validate`, whose outcome
    has the shapes the check's paths give it: a failure records exactly one
    error; a pass records none, except when the event files written for the
    comparison cannot be read back, where the comparison records one error
    and reports no difference, so the check still passes. */
module ParsersLegacy {
  import opened Wrappers
  import opened JsonValue
  import Strs
  import Sorting
  import Search
  import GhaEscape
  import PR = ParserReport

  /** The operations of this pipeline; `ACTIVATE` is declared but never
      planned. */
  datatype Operation = NONE | CREATE | UPDATE | ACTIVATE

  predicate Submits(o: Operation) {
    o == CREATE || o == UPDATE
  }

  // ---- Discovery ----

  /** What a listed name is: not a directory, a directory without
      `parser.conf`, or one with it, read or failing to read. */
  datatype Conf = NotADir | NoParserConf | ParserConf(content: Result<string, string>)

  datatype Root = Root(names: seq<string>, entry: string -> Conf)

  /** What `_discover_parser_configs` yields, and the errors it records
      between yields. */
  datatype Found = Found(logType: string, content: string, dirPath: string) | ReadFailed(message: string)

  function FoundAt(rootDir: string, root: Root, name: string): (r: seq<Found>)
    ensures |r| <= 1
  {
    match root.entry(name)
    case ParserConf(Ok(c)) => [Found(name, c, rootDir + "/" + name)]
    case ParserConf(Err(m)) => [ReadFailed("Error reading parser config in '" + rootDir + "/" + name + "': " + m)]
    case _ => []
  }

  function FoundAll(rootDir: string, root: Root, names: seq<string>): (r: seq<Found>)
    ensures |r| <= |names|
    decreases |names|
  {
    if |names| == 0 then [] else FoundAt(rootDir, root, names[0]) + FoundAll(rootDir, root, names[1..])
  }

  /** `_discover_parser_configs`: a missing root records one error and
      yields nothing; otherwise the names are visited in sorted order. */
  function Discover(rootDir: string, root: Option<Root>): (r: seq<Found>)
    ensures root.None? ==> |r| == 1 && r[0].ReadFailed?
  {
    if root.None? then [ReadFailed("Root parsers folder '" + rootDir + "' does not exist.")]
    else FoundAll(rootDir, root.value, Sorting.SortBy(root.value.names, Search.StrLe))
  }

  /** A parser configuration is yielded exactly for each listed name whose
      directory holds a readable `parser.conf`, empty or not. */
  lemma {:induction false} FoundAllMembers(rootDir: string, root: Root, names: seq<string>, lt: string, c: string, dir: string)
    ensures Found(lt, c, dir) in FoundAll(rootDir, root, names) <==>
      (lt in names && root.entry(lt) == ParserConf(Ok(c)) && dir == rootDir + "/" + lt)
    decreases |names|
  {
    if |names| > 0 {
      FoundAllMembers(rootDir, root, names[1..], lt, c, dir);
      assert names == [names[0]] + names[1..];
    }
  }

  lemma DiscoverMembers(rootDir: string, root: Root, lt: string, c: string)
    ensures Found(lt, c, rootDir + "/" + lt) in Discover(rootDir, Some(root)) <==>
      (lt in root.names && root.entry(lt) == ParserConf(Ok(c)))
  {
    var sorted := Sorting.SortBy(root.names, Search.StrLe);
    FoundAllMembers(rootDir, root, sorted, lt, c, rootDir + "/" + lt);
    assert lt in sorted <==> lt in multiset(sorted);
  }

  // ---- The client ----

  /** `list_parsers`, base64 decoding, the event check, `create_parser`,
      `get_parser` and `activate_parser`. */
  datatype Client = Client(
    listParsers: string -> Option<seq<map<string, Json>>>,
    decode: Json -> Option<string>,
    validate: (string, string, string) -> Check,
    createParser: (string, string) -> Option<map<string, Json>>,
    getParser: (string, string) -> Option<map<string, Json>>,
    activate: (string, string) -> Option<string>)

  /** What `_validate_parser_events` returns, with the error it recorded. */
  datatype Check = Passed | PassedWithError(message: string) | Failed(message: string)

  /** The errors a check recorded. */
  function CheckErrors(c: Check): (r: seq<string>)
    ensures |r| <= 1 && (c.Failed? ==> |r| == 1) && (c == Passed <==> r == [])
  {
    match c
    case Passed => []
    case PassedWithError(m) => [m]
    case Failed(m) => [m]
  }

  const ParserTypeCustom := "CUSTOM"

  predicate IsActiveCustom(p: map<string, Json>) {
    Get(p, "type") == JStr(ParserTypeCustom) && Get(p, "state") == JStr("ACTIVE")
  }

  predicate IsReleaseCandidate(p: map<string, Json>) {
    Get(p, "type") == JStr(ParserTypeCustom) && Get(p, "state") != JStr("ACTIVE")
    && (Get(p, "validationStage") == JStr("PASSED") || Get(p, "validationStage") == JStr("FAILED"))
  }

  /** The first entry satisfying `p`, unless it lacks `cbn`: then there is
      none, even when a later entry would qualify. A listing that raises
      gives none too. */
  function FirstWithCbn(listed: Option<seq<map<string, Json>>>, p: map<string, Json> -> bool): (r: Option<map<string, Json>>)
    ensures listed.None? ==> r.None?
    ensures listed.Some? && (forall j :: 0 <= j < |listed.value| ==> !p(listed.value[j])) ==> r.None?
    ensures listed.Some? ==> forall i :: Search.IsFirst(listed.value, p, i) ==>
      r == (if "cbn" in listed.value[i] then Some(listed.value[i]) else None)
    ensures r.Some? ==> "cbn" in r.value && p(r.value)
  {
    if listed.None? then None
    else
      var ps := listed.value;
      Search.FirstWhereIsFirst(ps, p);
      match Search.FirstWhere(ps, p)
      case None => None
      case Some(i) => if "cbn" in ps[i] then Some(ps[i]) else None
  }

  /** `_get_active_parser_from_chronicle`. */
  function ActiveParser(client: Client, logType: string): Option<map<string, Json>> {
    FirstWithCbn(client.listParsers(logType), IsActiveCustom)
  }

  /** `_get_release_parser_from_chronicle`. */
  function ReleaseParser(client: Client, logType: string): Option<map<string, Json>> {
    FirstWithCbn(client.listParsers(logType), IsReleaseCandidate)
  }

  /** An error line of the run, tagged with its log type; the fixed texts
      follow. */
  function Tagged(logType: string, detail: string): string {
    "[" + logType + "] " + detail
  }

  const CompareFailed := "Error comparing with active parser. Assuming UPDATE."
  const SubmitFailed := "Error submitting parser."
  const NoNameReturned := "Error submitting parser: create_parser API call did not return a parser name."
  const NameNotString := "Error submitting parser: name is not a string."
  const StatusUnverified := "Could not verify validation status for parser "
  const UndecodableCbn := "Error during activation: cbn cannot be decoded"
  const ContentMismatch := "Mismatch! Repo content differs from release candidate. Activation aborted for safety."
  const NoParserName := "Error during activation: no parser name"
  const CannotActivate := "Cannot activate parser "
  const ValidationFailed := ". Validation FAILED."

  // ---- Planning ----

  /** A log type's plan entry. */
  datatype Details = Details(logType: string, operation: Operation, content: string, validationFailed: bool, validationStatus: Option<Json>)

  /** The operation for a log type and the errors it records: CREATE
      without an active parser, UPDATE when the texts differ after
      stripping or when the active text cannot be decoded (recording an
      error), NONE otherwise. */
  function PlanOp(client: Client, logType: string, content: string): (r: (Operation, seq<string>))
    ensures ActiveParser(client, logType).None? ==> r == (CREATE, [])
    ensures ActiveParser(client, logType).Some? ==> var active := ActiveParser(client, logType).value;
      (if client.decode(active["cbn"]).None? then r.0 == UPDATE && |r.1| == 1
       else (r.1 == [] && r.0 != CREATE
             && (r.0 == NONE <==> Strs.Strip(client.decode(active["cbn"]).value) == Strs.Strip(content))))
  {
    match ActiveParser(client, logType)
    case None => (CREATE, [])
    case Some(active) =>
      match client.decode(active["cbn"])
      case None => (UPDATE, [Tagged(logType, CompareFailed)])
      case Some(t) => (if Strs.Strip(t) != Strs.Strip(content) then UPDATE else NONE, [])
  }

  /** One discovered item: its plan entry, if any, and the errors
      recorded. A change is validated; a failed validation plans NONE and
      marks the entry. A validation that passed after recording an error
      keeps the planned change, and the error alone stops the run. */
  function PlanItem(client: Client, item: Found): (r: (Option<Details>, seq<string>))
    ensures item.ReadFailed? ==> r == (None, [item.message])
    ensures item.Found? ==>
      (r.0.Some? && r.0.value.logType == item.logType && r.0.value.content == item.content
       && r.0.value.validationStatus.None?)
    ensures item.Found? ==> var (op, errs) := PlanOp(client, item.logType, item.content);
      var check := client.validate(item.logType, item.content, item.dirPath);
      (r.0.value.validationFailed <==> op != NONE && check.Failed?)
      && r.0.value.operation == (if r.0.value.validationFailed then NONE else op)
      && r.1 == errs + (if op != NONE then CheckErrors(check) else [])
    ensures r.0.Some? && r.0.value.validationFailed ==> |r.1| > 0
    ensures r.0.Some? ==> r.0.value.operation != ACTIVATE
  {
    match item
    case ReadFailed(m) => (None, [m])
    case Found(lt, content, dir) =>
      var (op, errs) := PlanOp(client, lt, content);
      var check := if op != NONE then client.validate(lt, content, dir) else Passed;
      var valid := !check.Failed?;
      (Some(Details(lt, if valid then op else NONE, content, !valid, None)),
       errs + CheckErrors(check))
  }

  /** An item whose parser file could be read. */
  predicate Readable(item: Found) {
    item.Found?
  }

  /** The planning loop: the entries in discovery order and every error
      recorded, in order. */
  function PlanAll(client: Client, items: seq<Found>): (r: (seq<Details>, seq<string>))
    ensures |r.0| == |Search.Filter(items, Readable)|
    ensures forall k :: 0 <= k < |r.0| ==> PlanItem(client, Search.Filter(items, Readable)[k]).0 == Some(r.0[k])
    decreases |items|
  {
    if |items| == 0 then ([], [])
    else
      var (d, e) := PlanItem(client, items[0]);
      var (ds, es) := PlanAll(client, items[1..]);
      assert Search.Filter(items, Readable) == (if Readable(items[0]) then [items[0]] else []) + Search.Filter(items[1..], Readable);
      ((if d.Some? then [d.value] else []) + ds, e + es)
  }

  /** Every entry whose validation failed recorded an error, so an error
      list that is empty means no validation failed. */
  lemma {:induction false} FailuresRecorded(client: Client, items: seq<Found>)
    ensures (exists k :: 0 <= k < |PlanAll(client, items).0| && PlanAll(client, items).0[k].validationFailed)
      ==> |PlanAll(client, items).1| > 0
    decreases |items|
  {
    if |items| > 0 {
      FailuresRecorded(client, items[1..]);
      FailuresStep(client, items);
    }
  }

  /** The inductive step of `FailuresRecorded`, from the items after the
      first to all of them. */
  lemma FailuresStep(client: Client, items: seq<Found>)
    requires |items| > 0
    requires (exists k :: 0 <= k < |PlanAll(client, items[1..]).0| && PlanAll(client, items[1..]).0[k].validationFailed)
      ==> |PlanAll(client, items[1..]).1| > 0
    ensures (exists k :: 0 <= k < |PlanAll(client, items).0| && PlanAll(client, items).0[k].validationFailed)
      ==> |PlanAll(client, items).1| > 0
  {
    var first := PlanItem(client, items[0]);
    var rest := PlanAll(client, items[1..]);
    PlanAllCons(client, items);
    FailuresCons(first.0, rest.0, first.1, rest.1);
  }

  /** One step of the planning loop. */
  lemma PlanAllCons(client: Client, items: seq<Found>)
    requires |items| > 0
    ensures var first, rest := PlanItem(client, items[0]), PlanAll(client, items[1..]);
      PlanAll(client, items) == ((if first.0.Some? then [first.0.value] else []) + rest.0, first.1 + rest.1)
  {
  }

  /** One step of `FailuresRecorded`: an entry that failed validation
      recorded an error with it, and the rest recorded one for theirs. */
  lemma FailuresCons(d: Option<Details>, ds: seq<Details>, e: seq<string>, es: seq<string>)
    requires d.Some? && d.value.validationFailed ==> |e| > 0
    requires (exists k :: 0 <= k < |ds| && ds[k].validationFailed) ==> |es| > 0
    ensures var all := (if d.Some? then [d.value] else []) + ds;
      (exists k :: 0 <= k < |all| && all[k].validationFailed) ==> |e + es| > 0
  {
    var all := (if d.Some? then [d.value] else []) + ds;
    if exists k :: 0 <= k < |all| && all[k].validationFailed {
      var k :| 0 <= k < |all| && all[k].validationFailed;
      if d.Some? && k == 0 {
        assert d.value.validationFailed;
      } else {
        var j := if d.Some? then k - 1 else k;
        assert ds[j].validationFailed;
      }
    }
  }

  // ---- Submission and verification ----

  /** What is recorded for a submitted parser. */
  datatype Info = Info(logType: string, id: string, name: string)

  /** One submission: the returned name must be a non-empty string; any
      failure records an error instead. */
  function SubmitOne(client: Client, d: Details): (r: Result<Info, string>)
    ensures r.Ok? <==>
      (client.createParser(d.logType, d.content).Some?
       && Get(client.createParser(d.logType, d.content).value, "name").JStr?
       && Get(client.createParser(d.logType, d.content).value, "name").s != "")
    ensures r.Ok? ==>
      (r.value.logType == d.logType
       && JStr(r.value.name) == Get(client.createParser(d.logType, d.content).value, "name")
       && r.value.id == Strs.LastSegment(r.value.name, '/'))
  {
    match client.createParser(d.logType, d.content)
    case None => Err(Tagged(d.logType, SubmitFailed))
    case Some(meta) =>
      var name := Get(meta, "name");
      if !Truthy(name) then Err(Tagged(d.logType, NoNameReturned))
      else if !name.JStr? then Err(Tagged(d.logType, NameNotString))
      else Ok(Info(d.logType, Strs.LastSegment(name.s, '/'), name.s))
  }

  /** Phase 2: every entry is attempted; a failure records an error and
      the loop continues. */
  function SubmitAll(client: Client, ds: seq<Details>): (r: (seq<Info>, seq<string>))
    ensures |r.0| + |r.1| == |ds|
    decreases |ds|
  {
    if |ds| == 0 then ([], [])
    else
      var (infos, errs) := SubmitAll(client, ds[1..]);
      match SubmitOne(client, ds[0])
      case Ok(info) => ([info] + infos, errs)
      case Err(e) => (infos, [e] + errs)
  }

  /** Each info is the successful submission of one of the entries. */
  ghost predicate SubmittedFrom(client: Client, infos: seq<Info>, ds: seq<Details>) {
    forall k :: 0 <= k < |infos| ==> SubmittedBy(client, infos[k], ds)
  }

  /** The info is the successful submission of one of the entries. */
  ghost predicate SubmittedBy(client: Client, info: Info, ds: seq<Details>) {
    exists j :: 0 <= j < |ds| && SubmitOne(client, ds[j]) == Ok(info)
  }

  /** A submission found among the entries is still found after one more. */
  lemma SubmittedByCons(client: Client, info: Info, d: Details, ds: seq<Details>)
    requires SubmittedBy(client, info, ds)
    ensures SubmittedBy(client, info, [d] + ds)
  {
    var j :| 0 <= j < |ds| && SubmitOne(client, ds[j]) == Ok(info);
    assert ([d] + ds)[j + 1] == ds[j];
  }

  lemma SubmittedFromCons(client: Client, d: Details, infos: seq<Info>, ds: seq<Details>, first: Option<Info>)
    requires SubmittedFrom(client, infos, ds)
    requires first.Some? ==> SubmitOne(client, d) == Ok(first.value)
    ensures SubmittedFrom(client, (if first.Some? then [first.value] else []) + infos, [d] + ds)
  {
    var all := (if first.Some? then [first.value] else []) + infos;
    forall k | 0 <= k < |all| ensures SubmittedBy(client, all[k], [d] + ds) {
      if first.Some? && k == 0 {
        assert ([d] + ds)[0] == d && all[k] == first.value;
        assert SubmitOne(client, ([d] + ds)[0]) == Ok(all[k]);
      } else {
        var k' := if first.Some? then k - 1 else k;
        assert all[k] == infos[k'];
        SubmittedByCons(client, infos[k'], d, ds);
      }
    }
  }

  /** Each recorded submission is the successful submission of one of
      the entries, under the id that ends its returned name. */
  lemma {:induction false} SubmitAllFrom(client: Client, ds: seq<Details>)
    ensures SubmittedFrom(client, SubmitAll(client, ds).0, ds)
    decreases |ds|
  {
    if |ds| > 0 {
      SubmitAllFrom(client, ds[1..]);
      var r := SubmitOne(client, ds[0]);
      SubmittedFromCons(client, ds[0], SubmitAll(client, ds[1..]).0, ds[1..], if r.Ok? then Some(r.value) else None);
      assert [ds[0]] + ds[1..] == ds;
    }
  }

  /** Records a status read back into the entries of its log type. */
  function SetStatus(plan: seq<Details>, logType: string, status: Json): (r: seq<Details>)
    ensures |r| == |plan|
    ensures forall i :: 0 <= i < |plan| ==>
      r[i] == (if plan[i].logType == logType then plan[i].(validationStatus := Some(status)) else plan[i])
  {
    seq(|plan|, i requires 0 <= i < |plan| =>
      if plan[i].logType == logType then plan[i].(validationStatus := Some(status)) else plan[i])
  }

  /** Phase 3: the `validationStage` of each submission; a failing read or
      a missing stage records an error and leaves the entry as it was. */
  function VerifyAll(client: Client, infos: seq<Info>, plan: seq<Details>): (r: (seq<Details>, seq<string>))
    ensures |r.0| == |plan|
    ensures |r.1| <= |infos|
    ensures forall i :: 0 <= i < |plan| ==> r.0[i] == plan[i].(validationStatus := r.0[i].validationStatus)
    ensures forall i :: 0 <= i < |plan| && (forall k :: 0 <= k < |infos| ==> infos[k].logType != plan[i].logType) ==> r.0[i] == plan[i]
    ensures forall i :: 0 <= i < |plan| && r.0[i].validationStatus != plan[i].validationStatus ==>
      StageReadFor(client, infos, plan[i].logType, r.0[i].validationStatus)
    ensures forall e :: e in r.1 <==> exists k :: 0 <= k < |infos| && ReadStage(client, infos[k]).None? && e == Tagged(infos[k].logType, StatusUnverified + infos[k].id)
    decreases |infos|
  {
    if |infos| == 0 then (plan, [])
    else
      var info := infos[0];
      var read := client.getParser(info.logType, info.id);
      if read.Some? && "validationStage" in read.value then
        VerifyAll(client, infos[1..], SetStatus(plan, info.logType, read.value["validationStage"]))
      else
        var (p, errs) := VerifyAll(client, infos[1..], plan);
        (p, [Tagged(info.logType, StatusUnverified + info.id)] + errs)
  }

  /** The `validationStage` read back for a submission, if the read
      succeeds and carries one. */
  function ReadStage(client: Client, info: Info): Option<Json> {
    var read := client.getParser(info.logType, info.id);
    if read.Some? && "validationStage" in read.value then Some(read.value["validationStage"]) else None
  }

  /** Some submission of the log type read back the stage `stage`. */
  ghost predicate StageReadFor(client: Client, infos: seq<Info>, logType: string, stage: Option<Json>) {
    exists k :: 0 <= k < |infos| && infos[k].logType == logType && stage.Some? && ReadStage(client, infos[k]) == stage
  }

  // ---- The comment ----

  /** What a report line says was done. */
  datatype Action = SubmittedAs(id: string) | NotSubmittedValidation | NotSubmittedOther

  datatype Line = Line(logType: string, status: Json, icon: PR.Icon, action: Action)

  datatype Comment = Comment(title: PR.Title, lines: seq<Line>)

  const EventValidationFailed := JStr("EVENT_VALIDATION_FAILED")

  /** The status shown: the stage read back, `PENDING` before that, and
      `EVENT_VALIDATION_FAILED` whenever the events failed validation. */
  function StatusOf(d: Details): (r: Json)
    ensures d.validationFailed ==> r == EventValidationFailed
    ensures !d.validationFailed ==> r == d.validationStatus.GetOr(JStr("PENDING"))
  {
    if d.validationFailed then EventValidationFailed else d.validationStatus.GetOr(JStr("PENDING"))
  }

  function IconOf(status: Json): (r: PR.Icon)
    ensures r == PR.Check <==> status == JStr("PASSED")
    ensures r == PR.Cross <==> status == JStr("FAILED") || status == EventValidationFailed
  {
    if status == JStr("PASSED") then PR.Check
    else if status == JStr("FAILED") || status == EventValidationFailed then PR.Cross
    else PR.Hourglass
  }

  /** The last submission recorded for a log type. */
  function LastInfo(infos: seq<Info>, logType: string): (r: Option<Info>)
    ensures r.None? <==> forall k :: 0 <= k < |infos| ==> infos[k].logType != logType
    ensures r.Some? ==> r.value in infos && r.value.logType == logType
    decreases |infos|
  {
    if |infos| == 0 then None
    else if infos[|infos| - 1].logType == logType then Some(infos[|infos| - 1])
    else LastInfo(infos[..|infos| - 1], logType)
  }

  function ActionOf(d: Details, infos: seq<Info>): (r: Action)
    ensures r.SubmittedAs? <==> exists k :: 0 <= k < |infos| && infos[k].logType == d.logType
    ensures r == NotSubmittedValidation <==> (forall k :: 0 <= k < |infos| ==> infos[k].logType != d.logType) && d.validationFailed
  {
    match LastInfo(infos, d.logType)
    case Some(info) => SubmittedAs(info.id)
    case None => if d.validationFailed then NotSubmittedValidation else NotSubmittedOther
  }

  predicate Shown(d: Details) {
    d.operation != NONE || d.validationFailed
  }

  predicate ByLogType(a: Details, b: Details) {
    Search.StrLe(a.logType, b.logType)
  }

  function LineOf(d: Details, infos: seq<Info>): (r: Line)
    ensures r.logType == d.logType && r.status == StatusOf(d) && r.icon == IconOf(StatusOf(d)) && r.action == ActionOf(d, infos)
  {
    Line(d.logType, StatusOf(d), IconOf(StatusOf(d)), ActionOf(d, infos))
  }

  /** `generate_pr_comment_output`: a line per shown entry in log-type
      order, and the title. */
  function Report(plan: seq<Details>, infos: seq<Info>, hasErrors: bool): (r: Comment)
    ensures r.title == PR.DeploymentFailed <==> hasErrors
    ensures r.title == PR.AllUpToDate <==> !hasErrors && |infos| == 0 && |r.lines| == 0
    ensures r.title.DeploymentPlan? ==> r.title.submittedCount == |infos|
  {
    var shown := Search.Filter(Sorting.SortBy(plan, ByLogType), Shown);
    var lines := seq(|shown|, k requires 0 <= k < |shown| => LineOf(shown[k], infos));
    var title :=
      if hasErrors then PR.DeploymentFailed
      else if |infos| == 0 && |lines| == 0 then PR.AllUpToDate
      else PR.DeploymentPlan(|infos|);
    Comment(title, lines)
  }

  /** The report lists exactly the shown entries, in log-type order. */
  lemma ReportLines(plan: seq<Details>, infos: seq<Info>, hasErrors: bool, d: Details)
    ensures var shown := Search.Filter(Sorting.SortBy(plan, ByLogType), Shown);
      (d in shown <==> d in plan && Shown(d)) && Sorting.Sorted(shown, ByLogType)
      && Report(plan, infos, hasErrors).lines == seq(|shown|, k requires 0 <= k < |shown| => LineOf(shown[k], infos))
  {
    var sorted := Sorting.SortBy(plan, ByLogType);
    ShownMembers(plan, d);
    assert Sorting.TotalPreorder(ByLogType) by {
      Search.StrLeTotalPreorder();
    }
    Sorting.SortSorted(plan, ByLogType);
    Search.FilterSorted(sorted, Shown, ByLogType);
  }

  /** The report shows an entry exactly when it is planned and shown. */
  lemma ShownMembers(plan: seq<Details>, d: Details)
    ensures d in Search.Filter(Sorting.SortBy(plan, ByLogType), Shown) <==> d in plan && Shown(d)
  {
    var sorted := Sorting.SortBy(plan, ByLogType);
    Search.FilterMembers(sorted, Shown, d);
    assert d in sorted <==> d in multiset(sorted);
  }

  // ---- The commands ----

  /** A command's end: the comment written, if any, the submissions made,
      the errors recorded and their report with the exit status. */
  datatype Run = Run(comment: Option<Comment>, submitted: seq<Info>, errors: seq<string>, report: GhaEscape.Report)

  /** The run ends with the report of the errors it recorded. */
  function Finish(comment: Option<Comment>, submitted: seq<Info>, errors: seq<string>): (r: Run)
    ensures r.report == GhaEscape.ReportErrors(errors) && r.errors == errors
    ensures r.report.exitCode == 1 <==> |errors| > 0
  {
    Run(comment, submitted, errors, GhaEscape.ReportErrors(errors))
  }

  predicate AnyFailed(plan: seq<Details>) {
    exists k :: 0 <= k < |plan| && plan[k].validationFailed
  }

  predicate Submitting(d: Details) {
    Submits(d.operation)
  }

  function ToSubmit(plan: seq<Details>): seq<Details> {
    Search.Filter(plan, Submitting)
  }

  /** Phases 2 and 3 after a clean plan. */
  function Deploy(c: Client, plan: seq<Details>): (r: Run)
    ensures r.report.exitCode == 1 <==> |r.errors| > 0
    ensures r.comment.Some? && (r.comment.value.title == PR.DeploymentFailed <==> |r.errors| > 0)
    ensures |ToSubmit(plan)| == 0 ==> r.submitted == [] && r.errors == []
    ensures r.submitted == SubmitAll(c, ToSubmit(plan)).0
    ensures |ToSubmit(plan)| > 0 ==>
      r.errors == SubmitAll(c, ToSubmit(plan)).1 + VerifyAll(c, SubmitAll(c, ToSubmit(plan)).0, plan).1
  {
    var toSubmit := ToSubmit(plan);
    if |toSubmit| == 0 then Finish(Some(Report([], [], false)), [], [])
    else
      var (infos, errs2) := SubmitAll(c, toSubmit);
      var (plan2, errs3) := VerifyAll(c, infos, plan);
      Finish(Some(Report(plan2, infos, |errs2 + errs3| > 0)), infos, errs2 + errs3)
  }

  /** `verify-deploy-parsers`: a client that cannot be built, or any error
      or validation failure while planning, stops before submission. */
  function VerifyDeploy(client: Result<Client, string>, rootDir: string, root: Option<Root>): (r: Run)
    ensures r.report.exitCode == 1 <==> |r.errors| > 0
    ensures r.comment.Some? ==> (r.comment.value.title == PR.DeploymentFailed <==> |r.errors| > 0)
    ensures client.Err? ==> r.submitted == [] && r.errors == [client.error] && r.comment.None?
    ensures client.Ok? ==> var (plan, errs) := PlanAll(client.value, Discover(rootDir, root));
      (|errs| > 0 || AnyFailed(plan) ==> r.submitted == [] && r.errors == errs)
      && (|errs| == 0 && !AnyFailed(plan) ==> r.submitted == SubmitAll(client.value, ToSubmit(plan)).0)
  {
    match client
    case Err(m) => Finish(None, [], [m])
    case Ok(c) =>
      var (plan, errs) := PlanAll(c, Discover(rootDir, root));
      FailuresRecorded(c, Discover(rootDir, root));
      if AnyFailed(plan) || |errs| > 0 then Finish(Some(Report(plan, [], true)), [], errs)
      else Deploy(c, plan)
  }

  /** Nothing is submitted once planning recorded an error or a validation
      failed: the comment then reports failure and the run exits with 1. */
  lemma NoSubmissionAfterPlanningErrors(c: Client, rootDir: string, root: Option<Root>)
    requires var (plan, errs) := PlanAll(c, Discover(rootDir, root)); |errs| > 0 || AnyFailed(plan)
    ensures var r := VerifyDeploy(Ok(c), rootDir, root);
      r.submitted == [] && r.report.exitCode == 1
      && r.comment.Some? && r.comment.value.title == PR.DeploymentFailed
  {
    FailuresRecorded(c, Discover(rootDir, root));
  }

  /** The info is the successful submission of an entry planned as
      CREATE or UPDATE. */
  ghost predicate PlannedSubmission(c: Client, info: Info, plan: seq<Details>) {
    exists j :: 0 <= j < |plan| && Submits(plan[j].operation) && SubmitOne(c, plan[j]) == Ok(info)
  }

  /** Only entries planned as CREATE or UPDATE are submitted, each under
      the id its creation returned. */
  lemma SubmissionsPlanned(c: Client, plan: seq<Details>)
    ensures forall k :: 0 <= k < |SubmitAll(c, ToSubmit(plan)).0| ==>
      PlannedSubmission(c, SubmitAll(c, ToSubmit(plan)).0[k], plan)
  {
    var toSubmit := ToSubmit(plan);
    var infos := SubmitAll(c, toSubmit).0;
    SubmitAllFrom(c, toSubmit);
    forall k | 0 <= k < |infos| ensures PlannedSubmission(c, infos[k], plan) {
      assert SubmittedBy(c, infos[k], toSubmit);
      var j :| 0 <= j < |toSubmit| && SubmitOne(c, toSubmit[j]) == Ok(infos[k]);
      Search.FilterMembers(plan, Submitting, toSubmit[j]);
      var j' :| 0 <= j' < |plan| && plan[j'] == toSubmit[j];
      assert Submitting(plan[j']);
      assert SubmitOne(c, plan[j']) == Ok(infos[k]);
    }
  }

  /** The release candidate exists, its decoded text matches the local
      one after stripping, it has a name, its stage is PASSED and the
      activation call succeeds. */
  predicate Activates(client: Client, logType: string, content: string) {
    ReleaseParser(client, logType).Some? && CandidateActivates(client, logType, content, ReleaseParser(client, logType).value)
  }

  /** The release candidate `p` is activated: its decoded text matches the
      local one after stripping, it is named, it PASSED validation and the
      activation call succeeds. */
  predicate CandidateActivates(client: Client, logType: string, content: string, p: map<string, Json>)
    requires "cbn" in p
  {
    client.decode(p["cbn"]).Some? && Strs.Strip(client.decode(p["cbn"]).value) == Strs.Strip(content)
    && Get(p, "name").JStr? && Get(p, "validationStage") == JStr("PASSED")
    && client.activate(logType, Strs.LastSegment(Get(p, "name").s, '/')).None?
  }

  /** `activate-parsers` for one log type: the release candidate is
      activated only when its decoded text matches the local one after
      stripping and its stage is PASSED; every other outcome except "no
      candidate" records an error. */
  function ActivateOne(client: Client, logType: string, content: string): (r: (seq<string>, seq<string>))
    ensures ReleaseParser(client, logType).None? ==> r == ([], [])
    ensures |r.0| + |r.1| <= 1
    ensures |r.0| == 1 <==> Activates(client, logType, content)
    ensures |r.0| == 1 ==> r.0 == [logType]
    ensures ReleaseParser(client, logType).Some? && |r.0| == 0 ==> |r.1| == 1
  {
    match ReleaseParser(client, logType)
    case None => ([], [])
    case Some(p) => ActivateCandidate(client, logType, content, p)
  }

  /** The activation of one release candidate: either the log type is
      activated or exactly one error is recorded. */
  function ActivateCandidate(client: Client, logType: string, content: string, p: map<string, Json>): (r: (seq<string>, seq<string>))
    requires "cbn" in p
    ensures |r.0| + |r.1| == 1
    ensures |r.0| == 1 <==> CandidateActivates(client, logType, content, p)
    ensures |r.0| == 1 ==> r.0 == [logType]
  {
    match client.decode(p["cbn"])
    case None => ([], [Tagged(logType, UndecodableCbn)])
    case Some(t) =>
      if Strs.Strip(t) != Strs.Strip(content) then ([], [Tagged(logType, ContentMismatch)])
      else if !Get(p, "name").JStr? then ([], [Tagged(logType, NoParserName)])
      else
        var id := Strs.LastSegment(Get(p, "name").s, '/');
        if Get(p, "validationStage") == JStr("PASSED") then
          match client.activate(logType, id)
          case None => ([logType], [])
          case Some(e) => ([], [e])
        else if Get(p, "validationStage") == JStr("FAILED") then
          ([], [Tagged(logType, CannotActivate + id + ValidationFailed)])
        else ([], [Tagged(logType, CannotActivate + id + ".")])
  }

  /** The activation loop over what discovery yields. */
  function ActivateAll(client: Client, items: seq<Found>): (r: (seq<string>, seq<string>))
    ensures |r.0| + |r.1| <= |items|
    decreases |items|
  {
    if |items| == 0 then ([], [])
    else
      var (a, e) := match items[0]
        case ReadFailed(m) => ([], [m])
        case Found(lt, content, _) => ActivateOne(client, lt, content);
      var (as_, es) := ActivateAll(client, items[1..]);
      (a + as_, e + es)
  }

  /** `activate-parsers`: the log types activated and the error report. */
  function ActivateParsers(client: Result<Client, string>, rootDir: string, root: Option<Root>): (r: (seq<string>, GhaEscape.Report))
    ensures client.Err? ==> r.0 == [] && r.1.exitCode == 1
    ensures client.Ok? ==> r.1 == GhaEscape.ReportErrors(ActivateAll(client.value, Discover(rootDir, root)).1)
  {
    match client
    case Err(m) => ([], GhaEscape.ReportErrors([m]))
    case Ok(c) =>
      var (acts, errs) := ActivateAll(c, Discover(rootDir, root));
      (acts, GhaEscape.ReportErrors(errs))
  }

  /** Every log type with a release candidate that is not activated
      records an error, so a run that exits with 0 activated every
      candidate it found. */
  lemma {:induction false} ActivateAllAccounts(client: Client, items: seq<Found>)
    ensures |ActivateAll(client, items).1| == 0 ==>
      forall k :: 0 <= k < |items| && items[k].Found? && ReleaseParser(client, items[k].logType).Some? ==>
        items[k].logType in ActivateAll(client, items).0
    decreases |items|
  {
    if |items| > 0 {
      ActivateAllAccounts(client, items[1..]);
      var (a, e) := match items[0]
        case ReadFailed(m) => ([], [m])
        case Found(lt, content, _) => ActivateOne(client, lt, content);
      var (as_, es) := ActivateAll(client, items[1..]);
      assert ActivateAll(client, items) == (a + as_, e + es);
      if |e + es| == 0 {
        forall k | 0 <= k < |items| && items[k].Found? && ReleaseParser(client, items[k].logType).Some?
          ensures items[k].logType in a + as_
        {
          if k == 0 {
            assert a == [items[0].logType];
          } else {
            assert items[k] == items[1..][k - 1];
          }
        }
      }
    }
  }
}

=== FILE: posix_path.dfy ===
/** POSIX path strings as `os.path` handles them: `join`, `normpath`, and
    the check the folder manager applies to a file's relative path before
    writing it. */
module PosixPath {
  import Strs

  predicate IsAbs(p: string) {
    Strs.StartsWith(p, "/")
  }

  /** `os.path.join(a, b)`: an absolute `b` replaces `a`. */
  function Join(a: string, b: string): (r: string)
    ensures IsAbs(b) ==> r == b
  {
    if IsAbs(b) then b
    else if a == [] || Strs.EndsWith(a, "/") then a + b
    else a + "/" + b
  }

  /** A component `normpath` keeps as a name. */
  predicate Plain(c: string) {
    c != "" && c != "."
  }

  /** One component of the `normpath` loop: empty and `.` components are
      dropped, `..` cancels the previous name, and a `..` that cannot cancel
      anything is kept in a relative path and dropped at the root. */
  function NormStep(acc: seq<string>, c: string, rooted: bool): seq<string> {
    if !Plain(c) then acc
    else if c != ".." || (!rooted && |acc| == 0) || (|acc| > 0 && acc[|acc| - 1] == "..") then acc + [c]
    else if |acc| > 0 then acc[..|acc| - 1]
    else acc
  }

  function NormComps(cs: seq<string>, rooted: bool, acc: seq<string>): seq<string>
    decreases |cs|
  {
    if |cs| == 0 then acc else NormComps(cs[1..], rooted, NormStep(acc, cs[0], rooted))
  }

  /** `os.path.normpath`: exactly two leading slashes are kept, one or
      three and more become one, and an empty result is `.`. */
  function NormPath(p: string): string {
    if p == "" then "."
    else
      var lead := if Strs.StartsWith(p, "//") && !Strs.StartsWith(p, "///") then "//"
                  else if IsAbs(p) then "/" else "";
      var comps := NormComps(Strs.Split(p, '/'), lead != "", []);
      var r := lead + (if |comps| == 0 then "" else Strs.Join(comps, '/'));
      if r == "" then "." else r
  }

  /** Components of a normalised path: names only, no separators, and a
      `..` only in a leading run of `..`s (none at all under the root). */
  ghost predicate Normal(cs: seq<string>, rooted: bool) {
    (forall i :: 0 <= i < |cs| ==> Plain(cs[i]) && '/' !in cs[i]) &&
    (forall i, j :: 0 <= i < j < |cs| && cs[j] == ".." ==> cs[i] == "..") &&
    (rooted ==> forall i :: 0 <= i < |cs| ==> cs[i] != "..")
  }

  lemma NormStepNormal(acc: seq<string>, c: string, rooted: bool)
    requires Normal(acc, rooted) && '/' !in c
    ensures Normal(NormStep(acc, c, rooted), rooted)
  {
    var r := NormStep(acc, c, rooted);
    if Plain(c) && r == acc + [c] {
      assert forall i :: 0 <= i < |acc| ==> r[i] == acc[i];
    }
  }

  lemma {:induction false} NormCompsNormal(cs: seq<string>, rooted: bool, acc: seq<string>)
    requires Normal(acc, rooted)
    requires forall i :: 0 <= i < |cs| ==> '/' !in cs[i]
    ensures Normal(NormComps(cs, rooted, acc), rooted)
    decreases |cs|
  {
    if |cs| > 0 {
      NormStepNormal(acc, cs[0], rooted);
      NormCompsNormal(cs[1..], rooted, NormStep(acc, cs[0], rooted));
    }
  }

  /** A relative path normalises to `.` or to plain names separated by
      single slashes, with `..` only at the front. */
  lemma NormPathRelative(p: string)
    requires !IsAbs(p)
    ensures NormPath(p) == "." || Normal(Strs.Split(NormPath(p), '/'), false)
  {
    if p != "" {
      assert !Strs.StartsWith(p, "//");
      var comps := NormComps(Strs.Split(p, '/'), false, []);
      NormCompsNormal(Strs.Split(p, '/'), false, []);
      if |comps| > 0 {
        Strs.SplitJoin(comps, '/');
        assert NormPath(p) == Strs.Join(comps, '/');
      }
    }
  }

  /** The guard on a file's normalised relative path: absolute, starting
      with `..`, or containing `/..` is refused. The last clause of the
      source's guard, `../` at index 0, is subsumed by the second. */
  predicate Escapes(n: string) {
    IsAbs(n) || Strs.StartsWith(n, "..") || Strs.Contains(n, "/..") ||
    (Strs.Contains(n, "../") && Strs.StartsWith(n, "../"))
  }

  lemma JoinStartsWithFirst(parts: seq<string>)
    requires |parts| >= 1
    ensures Strs.StartsWith(Strs.Join(parts, '/'), parts[0])
  {
  }

  /** Every later piece of a join is preceded by the separator somewhere. */
  lemma {:induction false} JoinOccurs(parts: seq<string>, i: nat) returns (k: nat)
    requires 0 < i < |parts|
    ensures Strs.OccursAt(Strs.Join(parts, '/'), ['/'] + parts[i], k)
    decreases i
  {
    var s := Strs.Join(parts, '/');
    var tail := Strs.Join(parts[1..], '/');
    assert s == parts[0] + ['/'] + tail;
    if i == 1 {
      JoinStartsWithFirst(parts[1..]);
      k := |parts[0]|;
      assert s[k..k + 1 + |parts[1]|] == ['/'] + tail[..|parts[1]|];
    } else {
      var k' := JoinOccurs(parts[1..], i - 1);
      k := |parts[0]| + 1 + k';
      assert s[k..k + 1 + |parts[i]|] == tail[k'..k' + 1 + |parts[i]|];
    }
  }

  /** A path the guard lets through has no `..` component: joined to the
      target directory it cannot leave it. */
  lemma NotEscapingIsConfined(n: string)
    requires !Escapes(n)
    ensures forall i :: 0 <= i < |Strs.Split(n, '/')| ==> Strs.Split(n, '/')[i] != ".."
  {
    var parts := Strs.Split(n, '/');
    forall i | 0 <= i < |parts| ensures parts[i] != ".." {
      if i == 0 {
        JoinStartsWithFirst(parts);
      } else if parts[i] == ".." {
        var k := JoinOccurs(parts, i);
        assert ['/'] + parts[i] == "/..";
        Strs.ContainsIffOccurs(n, "/..");
        assert false;
      }
    }
  }

  /** The names a normalised path walks through: its components other than
      empty ones and `.`. */
  function Names(n: string): (r: seq<string>)
    ensures forall i :: 0 <= i < |r| ==> Plain(r[i]) && '/' !in r[i]
  {
    PlainOnly(Strs.Split(n, '/'))
  }

  function PlainOnly(cs: seq<string>): (r: seq<string>)
    requires forall i :: 0 <= i < |cs| ==> '/' !in cs[i]
    ensures forall i :: 0 <= i < |r| ==> Plain(r[i]) && '/' !in r[i]
    ensures forall c :: c in r ==> c in cs
    ensures (forall i :: 0 <= i < |cs| ==> Plain(cs[i])) ==> r == cs
    decreases |cs|
  {
    if |cs| == 0 then []
    else (if Plain(cs[0]) then [cs[0]] else []) + PlainOnly(cs[1..])
  }

  /** The names of a path the guard lets through never include `..`, and
      are exactly its components unless it is `.`. */
  lemma ConfinedNames(p: string)
    requires p != "" && !Escapes(NormPath(p))
    ensures forall c :: c in Names(NormPath(p)) ==> c != ".."
    ensures NormPath(p) == "." || Names(NormPath(p)) == Strs.Split(NormPath(p), '/')
    ensures NormPath(p) == "." ==> Names(NormPath(p)) == []
  {
    var n := NormPath(p);
    NotEscapingIsConfined(n);
    NormPathRelative(p);
    if n == "." {
      assert Strs.Split(n, '/') == ["."];
    }
  }
}

=== FILE: response_main.dfy ===
/** The response-as-code command line (pipelines/response-as-code/main.py).
    `sync-playbooks` rewrites the roles of every repository playbook's
    overview templates from SOC role names to SOC role ids, collects the
    playbooks by name (with the blocks they involve when blocks are
    included) and hands them to the installer. `pull-playbooks` rewrites
    ids back to names for every installed playbook outside the excluded
    folder and pushes it, with the installed blocks it involves.

    The repository and the platform are oracles. The `Workflow` class is
    not part of this model: a playbook is reduced to its name, its
    overview templates and its involved blocks. */
module ResponseMain {
  import opened Wrappers
  import opened JsonValue
  import opened OrderedDicts
  import Strs
  import Search

  /** What makes a command raise. `UnorderedRoles` is a `roles` value that is
      a non-empty dict, whose key order the model does not keep. */
  datatype Error = KeyError(key: string) | TypeError | AttributeError | ApiError | UnorderedRoles

  /** An entry of `get_soc_roles()`. */
  datatype SocRole = SocRole(id: Json, name: Json)

  datatype Playbook = Playbook(name: string, templates: seq<Json>, blocks: seq<Json>)

  /** Sync turns role names into ids; pull turns ids into names. */
  datatype Direction = NamesToIds | IdsToNames

  function Flip(d: Direction): Direction {
    if d.NamesToIds? then IdsToNames else NamesToIds
  }

  /** What a template's role is compared with. */
  function Key(r: SocRole, d: Direction): Json {
    if d.NamesToIds? then r.name else r.id
  }

  /** What replaces a template's role. */
  function Out(r: SocRole, d: Direction): Json {
    if d.NamesToIds? then r.id else r.name
  }

  // ---------------------------------------------------------------------
  // Role translation
  // ---------------------------------------------------------------------

  /** The inner loop over the SOC roles: what every role matching `x`
      contributes, in SOC order. */
  function Matches(x: Json, roles: seq<SocRole>, d: Direction): (r: seq<Json>)
    ensures |r| <= |roles|
    decreases |roles|
  {
    if |roles| == 0 then []
    else (if Key(roles[0], d) == x then [Out(roles[0], d)] else []) + Matches(x, roles[1..], d)
  }

  /** The outer loop over a template's roles. */
  function Translate(xs: seq<Json>, roles: seq<SocRole>, d: Direction): seq<Json>
    decreases |xs|
  {
    if |xs| == 0 then [] else Matches(xs[0], roles, d) + Translate(xs[1..], roles, d)
  }

  /** The matches over two runs of SOC roles are those of the first run
      followed by those of the second: contributions come in SOC order. */
  lemma {:induction false} MatchesAppend(x: Json, a: seq<SocRole>, b: seq<SocRole>, d: Direction)
    ensures Matches(x, a + b, d) == Matches(x, a, d) + Matches(x, b, d)
    decreases |a|
  {
    if |a| > 0 {
      assert (a + b)[0] == a[0] && (a + b)[1..] == a[1..] + b;
      MatchesAppend(x, a[1..], b, d);
      var here := if Key(a[0], d) == x then [Out(a[0], d)] else [];
      Search.ConcatAssoc(here, Matches(x, a[1..], d), Matches(x, b, d));
    } else {
      assert a + b == b;
    }
  }

  /** Some SOC role matching `x` contributes `y`. */
  ghost predicate Yields(x: Json, roles: seq<SocRole>, d: Direction, y: Json) {
    exists j :: 0 <= j < |roles| && Key(roles[j], d) == x && Out(roles[j], d) == y
  }

  lemma {:induction false} MatchesMembers(x: Json, roles: seq<SocRole>, d: Direction, y: Json)
    ensures y in Matches(x, roles, d) <==> Yields(x, roles, d, y)
    decreases |roles|
  {
    if |roles| > 0 {
      MatchesMembers(x, roles[1..], d, y);
      if Yields(x, roles[1..], d, y) {
        var j :| 0 <= j < |roles[1..]| && Key(roles[1..][j], d) == x && Out(roles[1..][j], d) == y;
        assert roles[j + 1] == roles[1..][j];
      }
      if Yields(x, roles, d, y) {
        var j :| 0 <= j < |roles| && Key(roles[j], d) == x && Out(roles[j], d) == y;
        if j > 0 {
          assert roles[1..][j - 1] == roles[j];
        }
      }
    }
  }

  /** A translated role is what some SOC role matching some input role
      contributes, and every such contribution is kept: names no SOC role
      carries are dropped. */
  lemma {:induction false} TranslateMembers(xs: seq<Json>, roles: seq<SocRole>, d: Direction, y: Json)
    ensures y in Translate(xs, roles, d) <==> exists i :: 0 <= i < |xs| && Yields(xs[i], roles, d, y)
    decreases |xs|
  {
    if |xs| > 0 {
      TranslateMembers(xs[1..], roles, d, y);
      MatchesMembers(xs[0], roles, d, y);
      if exists i :: 0 <= i < |xs[1..]| && Yields(xs[1..][i], roles, d, y) {
        var i :| 0 <= i < |xs[1..]| && Yields(xs[1..][i], roles, d, y);
        assert xs[i + 1] == xs[1..][i];
      }
      if exists i :: 0 <= i < |xs| && Yields(xs[i], roles, d, y) {
        var i :| 0 <= i < |xs| && Yields(xs[i], roles, d, y);
        if i > 0 {
          assert xs[1..][i - 1] == xs[i];
        }
      }
    }
  }

  /** No two SOC roles share a name or an id. */
  predicate UniqueRoles(roles: seq<SocRole>) {
    forall i, j :: 0 <= i < j < |roles| ==> roles[i].name != roles[j].name && roles[i].id != roles[j].id
  }

  /** Some SOC role matches `x`. */
  ghost predicate Known(x: Json, roles: seq<SocRole>, d: Direction) {
    exists j :: 0 <= j < |roles| && Key(roles[j], d) == x
  }

  /** The input roles some SOC role matches, in order. */
  ghost function KnownOnly(xs: seq<Json>, roles: seq<SocRole>, d: Direction): seq<Json>
    decreases |xs|
  {
    if |xs| == 0 then [] else (if Known(xs[0], roles, d) then [xs[0]] else []) + KnownOnly(xs[1..], roles, d)
  }

  lemma {:induction false} MatchesNone(x: Json, roles: seq<SocRole>, d: Direction)
    requires !Known(x, roles, d)
    ensures Matches(x, roles, d) == []
    decreases |roles|
  {
    if |roles| > 0 {
      assert Key(roles[0], d) != x;
      assert forall j :: 0 <= j < |roles[1..]| ==> roles[1..][j] == roles[j + 1];
      MatchesNone(x, roles[1..], d);
    }
  }

  /** With unique roles, a matched role is matched by exactly one SOC role. */
  lemma {:induction false} MatchesUnique(x: Json, roles: seq<SocRole>, d: Direction, j: nat)
    requires UniqueRoles(roles)
    requires j < |roles| && Key(roles[j], d) == x
    ensures Matches(x, roles, d) == [Out(roles[j], d)]
    decreases |roles|
  {
    assert forall i :: 0 <= i < |roles[1..]| ==> roles[1..][i] == roles[i + 1];
    if j == 0 {
      MatchesNone(x, roles[1..], d);
    } else {
      assert Key(roles[0], d) != x;
      MatchesUnique(x, roles[1..], d, j - 1);
    }
  }

  lemma {:induction false} TranslateAppend(a: seq<Json>, b: seq<Json>, roles: seq<SocRole>, d: Direction)
    ensures Translate(a + b, roles, d) == Translate(a, roles, d) + Translate(b, roles, d)
    decreases |a|
  {
    if |a| == 0 {
      assert a + b == b;
    } else {
      assert (a + b)[0] == a[0];
      assert (a + b)[1..] == a[1..] + b;
      TranslateAppend(a[1..], b, roles, d);
      var m := Matches(a[0], roles, d);
      assert Translate(a + b, roles, d) == m + (Translate(a[1..], roles, d) + Translate(b, roles, d));
    }
  }

  /** Translating one way and back gives the input roles that some SOC role
      matches: with unique names and ids, sync and pull are inverse on the
      roles the platform knows. */
  lemma {:induction false} TranslateRoundTrip(xs: seq<Json>, roles: seq<SocRole>, d: Direction)
    requires UniqueRoles(roles)
    ensures Translate(Translate(xs, roles, d), roles, Flip(d)) == KnownOnly(xs, roles, d)
    decreases |xs|
  {
    if |xs| > 0 {
      var m := Matches(xs[0], roles, d);
      TranslateAppend(m, Translate(xs[1..], roles, d), roles, Flip(d));
      TranslateRoundTrip(xs[1..], roles, d);
      if Known(xs[0], roles, d) {
        var j :| 0 <= j < |roles| && Key(roles[j], d) == xs[0];
        MatchesUnique(xs[0], roles, d, j);
        MatchesUnique(Out(roles[j], d), roles, Flip(d), j);
        assert Translate(m, roles, Flip(d)) == [xs[0]];
      } else {
        MatchesNone(xs[0], roles, d);
      }
    }
  }

  // ---------------------------------------------------------------------
  // Overview templates
  // ---------------------------------------------------------------------

  /** `for role in overview_template['roles']`: a list gives its items, a
      string its characters, an empty dict nothing. */
  function RoleItems(v: Json): (r: Result<seq<Json>, Error>)
    ensures v.JList? ==> r == Ok(v.items)
    ensures r.Ok? ==> v.JList? || v.JStr? || v == JObj(map[])
    ensures v.JStr? ==> r.Ok? && |r.value| == |v.s| && forall i :: 0 <= i < |v.s| ==> r.value[i] == JStr([v.s[i]])
  {
    match v
    case JList(xs) => Ok(xs)
    case JStr(s) => Ok(seq(|s|, i requires 0 <= i < |s| => JStr([s[i]])))
    case JObj(m) => if |m| == 0 then Ok([]) else Err(UnorderedRoles)
    case _ => Err(TypeError)
  }

  /** One overview template with its `roles` replaced; every other key is
      left as it was. A template that is not a dict, or has no `roles`,
      raises. */
  function TranslateTemplate(t: Json, roles: seq<SocRole>, d: Direction): (r: Result<Json, Error>)
    ensures r.Ok? <==> t.JObj? && "roles" in t.fields && RoleItems(t.fields["roles"]).Ok?
    ensures t.JObj? && "roles" !in t.fields ==> r == Err(KeyError("roles"))
    ensures r.Ok? ==> r.value.JObj? && r.value.fields.Keys == t.fields.Keys
    ensures r.Ok? ==> forall k :: k in t.fields && k != "roles" ==> r.value.fields[k] == t.fields[k]
    ensures r.Ok? ==> r.value.fields["roles"] == JList(Translate(RoleItems(t.fields["roles"]).value, roles, d))
  {
    if !t.JObj? then Err(TypeError)
    else if "roles" !in t.fields then Err(KeyError("roles"))
    else
      var items :- RoleItems(t.fields["roles"]);
      Ok(JObj(t.fields["roles" := JList(Translate(items, roles, d))]))
  }

  /** A template whose roles are a list comes back from sync then pull with
      the roles the platform knows, and nothing else changed. */
  lemma TemplateRoundTrip(t: Json, roles: seq<SocRole>, d: Direction)
    requires UniqueRoles(roles)
    requires t.JObj? && "roles" in t.fields && t.fields["roles"].JList?
    ensures TranslateTemplate(t, roles, d).Ok?
    ensures TranslateTemplate(TranslateTemplate(t, roles, d).value, roles, Flip(d))
      == Ok(JObj(t.fields["roles" := JList(KnownOnly(t.fields["roles"].items, roles, d))]))
  {
    var items := t.fields["roles"].items;
    TranslateRoundTrip(items, roles, d);
    var t' := TranslateTemplate(t, roles, d).value;
    assert t'.fields == t.fields["roles" := JList(Translate(items, roles, d))];
    var back := JList(KnownOnly(items, roles, d));
    assert t'.fields["roles" := back] == t.fields["roles" := back];
  }

  /** The loop over a playbook's templates: the first failing template
      raises. */
  function TranslateTemplates(ts: seq<Json>, roles: seq<SocRole>, d: Direction): (r: Result<seq<Json>, Error>)
    ensures r.Ok? <==> forall i :: 0 <= i < |ts| ==> TranslateTemplate(ts[i], roles, d).Ok?
    ensures r.Ok? ==> |r.value| == |ts|
    ensures r.Ok? ==> forall i :: 0 <= i < |ts| ==> Ok(r.value[i]) == TranslateTemplate(ts[i], roles, d)
    decreases |ts|
  {
    if |ts| == 0 then Ok([])
    else
      var t :- TranslateTemplate(ts[0], roles, d);
      var rest :- TranslateTemplates(ts[1..], roles, d);
      Ok([t] + rest)
  }

  /** A playbook with its templates translated; its name and blocks are kept. */
  function TranslatePlaybook(p: Playbook, roles: seq<SocRole>, d: Direction): (r: Result<Playbook, Error>)
    ensures r.Ok? <==> TranslateTemplates(p.templates, roles, d).Ok?
    ensures r.Ok? ==> r.value == p.(templates := TranslateTemplates(p.templates, roles, d).value)
  {
    var ts :- TranslateTemplates(p.templates, roles, d);
    Ok(p.(templates := ts))
  }

  // ---------------------------------------------------------------------
  // sync-playbooks
  // ---------------------------------------------------------------------

  /** The name an involved block is looked up by. */
  function BlockName(b: Json): Json {
    if b.JObj? then Get(b.fields, "name") else JNull
  }

  /** The block is a dict whose name can be looked up and is not collected
      yet. */
  predicate NewBlock(d: Dict<string, Playbook>, block: Json) {
    block.JObj? && !BlockName(block).JList? && !BlockName(block).JObj?
    && !(BlockName(block).JStr? && BlockName(block).s in KeySet(d))
  }

  /** One involved block: a block whose name is already collected is
      skipped; otherwise the repository's playbook of that name, if any, is
      collected under its own name. A name that is a list or a dict cannot
      be looked up in a dict and raises. */
  function AddBlock(d: Dict<string, Playbook>, block: Json, fetch: Json -> Option<Playbook>): (r: Result<Dict<string, Playbook>, Error>)
    ensures r.Ok? <==> block.JObj? && !BlockName(block).JList? && !BlockName(block).JObj?
    ensures r.Ok? && BlockName(block).JStr? && BlockName(block).s in KeySet(d) ==> r.value == d
    ensures NewBlock(d, block) && fetch(BlockName(block)).None? ==> r == Ok(d)
    ensures NewBlock(d, block) && fetch(BlockName(block)).Some? ==>
      r == Ok(Put(d, fetch(BlockName(block)).value.name, fetch(BlockName(block)).value))
  {
    if !block.JObj? then Err(AttributeError)
    else
      var n := Get(block.fields, "name");
      if n.JList? || n.JObj? then Err(TypeError)
      else if n.JStr? && n.s in KeySet(d) then Ok(d)
      else
        match fetch(n)
        case None => Ok(d)
        case Some(b) => Ok(Put(d, b.name, b))
  }

  /** Every playbook is stored under its own name. */
  ghost predicate NamedByKey(d: Dict<string, Playbook>) {
    forall i :: 0 <= i < |d| ==> d[i].0 == d[i].1.name
  }

  /** Storing a playbook under its name keeps the names distinct and each
      playbook under its own name. */
  lemma PutNamed(d: Dict<string, Playbook>, p: Playbook)
    requires Distinct(d) && NamedByKey(d)
    ensures Distinct(Put(d, p.name, p)) && NamedByKey(Put(d, p.name, p))
  {
    PutDistinct(d, p.name, p);
    PutMembers(d, p.name, p);
    var r := Put(d, p.name, p);
    forall i | 0 <= i < |r| ensures r[i].0 == r[i].1.name {
      assert r[i] in r;
    }
  }

  /** Adding one block keeps each playbook under its own name. */
  lemma AddBlockNamed(d: Dict<string, Playbook>, block: Json, fetch: Json -> Option<Playbook>)
    ensures Distinct(d) && NamedByKey(d) && AddBlock(d, block, fetch).Ok? ==>
      Distinct(AddBlock(d, block, fetch).value) && NamedByKey(AddBlock(d, block, fetch).value)
  {
    if Distinct(d) && NamedByKey(d) && NewBlock(d, block) && fetch(BlockName(block)).Some? {
      PutNamed(d, fetch(BlockName(block)).value);
    }
  }

  /** The involved blocks, one after the other. */
  function AddBlocks(d: Dict<string, Playbook>, bs: seq<Json>, fetch: Json -> Option<Playbook>): (r: Result<Dict<string, Playbook>, Error>)
    ensures Distinct(d) && NamedByKey(d) && r.Ok? ==> Distinct(r.value) && NamedByKey(r.value)
    decreases |bs|
  {
    if |bs| == 0 then Ok(d)
    else
      var d' :- AddBlock(d, bs[0], fetch);
      AddBlockNamed(d, bs[0], fetch);
      AddBlocks(d', bs[1..], fetch)
  }

  /** The collection loop of `sync_playbooks`: each repository playbook is
      translated and stored under its name, then (when blocks are
      included) its involved blocks are added. */
  function Collect(ps: seq<Playbook>, roles: seq<SocRole>, includeBlocks: bool, fetch: Json -> Option<Playbook>): (r: Result<Dict<string, Playbook>, Error>)
    ensures r.Ok? ==> forall i :: 0 <= i < |ps| ==> TranslatePlaybook(ps[i], roles, NamesToIds).Ok?
    decreases |ps|
  {
    if |ps| == 0 then Ok([])
    else
      var n := |ps| - 1;
      var d :- Collect(ps[..n], roles, includeBlocks, fetch);
      assert forall i :: 0 <= i < n ==> ps[..n][i] == ps[i];
      var p :- TranslatePlaybook(ps[n], roles, NamesToIds);
      var d' := Put(d, p.name, p);
      if includeBlocks then AddBlocks(d', p.blocks, fetch) else Ok(d')
  }

  /** `sync_playbooks`: the collected playbooks, in collection order, are
      what the installer is given. */
  function SyncPlaybooks(ps: seq<Playbook>, roles: seq<SocRole>, includeBlocks: bool, fetch: Json -> Option<Playbook>): (r: Result<seq<Playbook>, Error>)
    ensures r.Ok? <==> Collect(ps, roles, includeBlocks, fetch).Ok?
    ensures r.Ok? ==> |r.value| == |Collect(ps, roles, includeBlocks, fetch).value|
    ensures r.Ok? ==> forall i, j :: 0 <= i < j < |r.value| ==> r.value[i].name != r.value[j].name
    ensures r.Ok? && !includeBlocks ==> (TranslateAll(ps, roles).Ok?
      && (forall k :: (exists i :: 0 <= i < |r.value| && r.value[i].name == k) <==> RepositoryName(ps, k))
      && (forall i :: 0 <= i < |r.value| ==> Some(r.value[i]) == LastValue(NamePairs(TranslateAll(ps, roles).value), r.value[i].name)))
    ensures r.Ok? && includeBlocks && FaithfulFetch(fetch) ==> (TranslateAll(ps, roles).Ok?
      && (forall k :: RepositoryName(ps, k) ==> exists i :: 0 <= i < |r.value| && r.value[i].name == k)
      && (forall i :: 0 <= i < |r.value| && RepositoryName(ps, r.value[i].name) ==>
            Some(r.value[i]) == LastValue(NamePairs(TranslateAll(ps, roles).value), r.value[i].name)))
  {
    var d :- Collect(ps, roles, includeBlocks, fetch);
    SyncDistinct(ps, roles, includeBlocks, fetch);
    if includeBlocks then
      SyncWithBlocks(ps, roles, fetch);
      Ok(Playbooks(d))
    else
      SyncWithoutBlocks(ps, roles, fetch);
      Ok(Playbooks(d))
  }

  /** The playbooks of a collection, in collection order. */
  function Playbooks(d: Dict<string, Playbook>): (r: seq<Playbook>)
    ensures |r| == |d| && forall i :: 0 <= i < |d| ==> r[i] == d[i].1
  {
    seq(|d|, i requires 0 <= i < |d| => d[i].1)
  }

  /** Some repository playbook is named `k`. */
  ghost predicate RepositoryName(ps: seq<Playbook>, k: string) {
    exists i :: 0 <= i < |ps| && ps[i].name == k
  }

  /** Every repository playbook translated, in order. */
  function TranslateAll(ps: seq<Playbook>, roles: seq<SocRole>): (r: Result<seq<Playbook>, Error>)
    ensures r.Ok? ==> |r.value| == |ps|
    ensures r.Ok? ==> forall i :: 0 <= i < |ps| ==> r.value[i].name == ps[i].name
    decreases |ps|
  {
    if |ps| == 0 then Ok([])
    else
      var n := |ps| - 1;
      var qs :- TranslateAll(ps[..n], roles);
      var p :- TranslatePlaybook(ps[n], roles, NamesToIds);
      Ok(qs + [p])
  }

  /** Each playbook keyed by its name. */
  function NamePairs(ps: seq<Playbook>): (r: seq<(string, Playbook)>)
    ensures |r| == |ps|
    ensures forall i :: 0 <= i < |ps| ==> r[i] == (ps[i].name, ps[i])
  {
    seq(|ps|, i requires 0 <= i < |ps| => (ps[i].name, ps[i]))
  }

  /** Translating all playbooks extends the translation of all but the
      last. */
  lemma TranslateAllSnoc(ps: seq<Playbook>, roles: seq<SocRole>)
    requires |ps| > 0 && TranslateAll(ps, roles).Ok?
    ensures TranslateAll(ps[..|ps| - 1], roles).Ok?
    ensures TranslateAll(ps[..|ps| - 1], roles).value == TranslateAll(ps, roles).value[..|ps| - 1]
    ensures TranslatePlaybook(ps[|ps| - 1], roles, NamesToIds) == Ok(TranslateAll(ps, roles).value[|ps| - 1])
  {
  }

  /** The last playbook named `k` is the last one if it has that name, and
      otherwise the last among the others. */
  lemma LastValueSnoc(qs: seq<Playbook>, k: string)
    requires |qs| > 0
    ensures LastValue(NamePairs(qs), k) ==
      if qs[|qs| - 1].name == k then Some(qs[|qs| - 1]) else LastValue(NamePairs(qs[..|qs| - 1]), k)
  {
    assert NamePairs(qs)[..|qs| - 1] == NamePairs(qs[..|qs| - 1]);
  }

  /** The last step of the collection loop. */
  lemma CollectSnoc(ps: seq<Playbook>, roles: seq<SocRole>, includeBlocks: bool, fetch: Json -> Option<Playbook>)
    requires |ps| > 0 && Collect(ps, roles, includeBlocks, fetch).Ok?
    ensures Collect(ps[..|ps| - 1], roles, includeBlocks, fetch).Ok?
    ensures TranslatePlaybook(ps[|ps| - 1], roles, NamesToIds).Ok?
    ensures var d := Collect(ps[..|ps| - 1], roles, includeBlocks, fetch).value;
            var p := TranslatePlaybook(ps[|ps| - 1], roles, NamesToIds).value;
            Collect(ps, roles, includeBlocks, fetch) ==
              if includeBlocks then AddBlocks(Put(d, p.name, p), p.blocks, fetch) else Ok(Put(d, p.name, p))
  {
  }

  /** A collection that succeeds translated every playbook. */
  lemma {:induction false} CollectTranslates(ps: seq<Playbook>, roles: seq<SocRole>, includeBlocks: bool, fetch: Json -> Option<Playbook>)
    requires Collect(ps, roles, includeBlocks, fetch).Ok?
    ensures TranslateAll(ps, roles).Ok?
    decreases |ps|
  {
    if |ps| > 0 {
      CollectSnoc(ps, roles, includeBlocks, fetch);
      CollectTranslates(ps[..|ps| - 1], roles, includeBlocks, fetch);
    }
  }

  /** Without blocks, the collection is the dict comprehension over the
      translated playbooks: it fails exactly when a translation fails. */
  lemma {:induction false} CollectWithoutBlocks(ps: seq<Playbook>, roles: seq<SocRole>, fetch: Json -> Option<Playbook>)
    ensures Collect(ps, roles, false, fetch).Ok? <==> TranslateAll(ps, roles).Ok?
    ensures Collect(ps, roles, false, fetch).Ok? ==>
      Collect(ps, roles, false, fetch).value == FromPairs(NamePairs(TranslateAll(ps, roles).value))
    decreases |ps|
  {
    if |ps| > 0 {
      var n := |ps| - 1;
      CollectWithoutBlocks(ps[..n], roles, fetch);
      CollectUnfold(ps, roles, fetch);
      TranslateAllUnfold(ps, roles);
      var all := TranslateAll(ps, roles);
      if all.Ok? {
        var qs := all.value;
        assert qs[..n] == TranslateAll(ps[..n], roles).value;
        FromNamePairsSnoc(qs);
      }
    }
  }

  /** One step of the collection loop without blocks. */
  lemma CollectUnfold(ps: seq<Playbook>, roles: seq<SocRole>, fetch: Json -> Option<Playbook>)
    requires |ps| > 0
    ensures var n := |ps| - 1; var p := TranslatePlaybook(ps[n], roles, NamesToIds);
      (Collect(ps, roles, false, fetch).Ok? <==> Collect(ps[..n], roles, false, fetch).Ok? && p.Ok?) &&
      (Collect(ps, roles, false, fetch).Ok? ==>
        Collect(ps, roles, false, fetch).value == Put(Collect(ps[..n], roles, false, fetch).value, p.value.name, p.value))
  {
  }

  /** One step of translating every playbook. */
  lemma TranslateAllUnfold(ps: seq<Playbook>, roles: seq<SocRole>)
    requires |ps| > 0
    ensures var n := |ps| - 1; var p := TranslatePlaybook(ps[n], roles, NamesToIds);
      (TranslateAll(ps, roles).Ok? <==> TranslateAll(ps[..n], roles).Ok? && p.Ok?) &&
      (TranslateAll(ps, roles).Ok? ==> TranslateAll(ps, roles).value == TranslateAll(ps[..n], roles).value + [p.value])
  {
  }

  /** The dict of playbooks by name, built one playbook at a time. */
  lemma FromNamePairsSnoc(qs: seq<Playbook>)
    requires |qs| > 0
    ensures FromPairs(NamePairs(qs)) == Put(FromPairs(NamePairs(qs[..|qs| - 1])), qs[|qs| - 1].name, qs[|qs| - 1])
  {
    assert NamePairs(qs)[..|qs| - 1] == NamePairs(qs[..|qs| - 1]);
  }

  /** Without blocks, a later playbook with the same name replaces an
      earlier one: each name holds the last playbook given that name, and
      the names are exactly the repository's. */
  lemma LaterPlaybookWins(ps: seq<Playbook>, roles: seq<SocRole>, fetch: Json -> Option<Playbook>, k: string)
    requires Collect(ps, roles, false, fetch).Ok?
    ensures TranslateAll(ps, roles).Ok?
    ensures Lookup(Collect(ps, roles, false, fetch).value, k) == LastValue(NamePairs(TranslateAll(ps, roles).value), k)
    ensures KeySet(Collect(ps, roles, false, fetch).value) == set i | 0 <= i < |ps| :: ps[i].name
  {
    CollectWithoutBlocks(ps, roles, fetch);
    var qs := TranslateAll(ps, roles).value;
    LookupFromPairs(NamePairs(qs), k);
    assert (set i | 0 <= i < |qs| :: NamePairs(qs)[i].0) == set i | 0 <= i < |ps| :: ps[i].name;
  }

  /** The repository's `get_playbook` returns a playbook only under the
      name it was asked for. */
  ghost predicate FaithfulFetch(fetch: Json -> Option<Playbook>) {
    forall n :: fetch(n).Some? ==> n == JStr(fetch(n).value.name)
  }

  /** With a faithful repository, adding blocks never replaces anything
      already collected. */
  lemma {:induction false} AddBlocksKeeps(d: Dict<string, Playbook>, bs: seq<Json>, fetch: Json -> Option<Playbook>, k: string)
    requires FaithfulFetch(fetch)
    requires AddBlocks(d, bs, fetch).Ok?
    requires k in KeySet(d)
    ensures k in KeySet(AddBlocks(d, bs, fetch).value)
    ensures Lookup(AddBlocks(d, bs, fetch).value, k) == Lookup(d, k)
    decreases |bs|
  {
    if |bs| > 0 {
      var d' := AddBlock(d, bs[0], fetch).value;
      if d' != d {
        var b := fetch(BlockName(bs[0])).value;
        assert BlockName(bs[0]) == JStr(b.name);
        LookupPut(d, b.name, b, k);
      }
      AddBlocksKeeps(d', bs[1..], fetch, k);
    }
  }

  /** A collected block came from the repository's answer for the name of
      one of the involved blocks. */
  ghost predicate BlockFetched(bs: seq<Json>, fetch: Json -> Option<Playbook>, k: string) {
    exists j :: 0 <= j < |bs| && fetch(BlockName(bs[j])).Some? && fetch(BlockName(bs[j])).value.name == k
  }

  lemma {:induction false} AddBlocksKeys(d: Dict<string, Playbook>, bs: seq<Json>, fetch: Json -> Option<Playbook>, k: string)
    requires AddBlocks(d, bs, fetch).Ok?
    requires k in KeySet(AddBlocks(d, bs, fetch).value)
    ensures k in KeySet(d) || BlockFetched(bs, fetch, k)
    decreases |bs|
  {
    if |bs| > 0 {
      var d' := AddBlock(d, bs[0], fetch).value;
      AddBlocksKeys(d', bs[1..], fetch, k);
      if BlockFetched(bs[1..], fetch, k) {
        var j :| 0 <= j < |bs[1..]| && fetch(BlockName(bs[1..][j])).Some? && fetch(BlockName(bs[1..][j])).value.name == k;
        assert bs[j + 1] == bs[1..][j];
      }
    }
  }

  /** Some repository playbook involves a block the repository answered
      with a playbook named `k`. */
  ghost predicate InvolvedBlock(ps: seq<Playbook>, fetch: Json -> Option<Playbook>, k: string) {
    exists i :: 0 <= i < |ps| && BlockFetched(ps[i].blocks, fetch, k)
  }

  /** Every collected name is a repository playbook's or, only when blocks
      are included, that of a block one of them involves. */
  lemma {:induction false} CollectedNames(ps: seq<Playbook>, roles: seq<SocRole>, includeBlocks: bool, fetch: Json -> Option<Playbook>, k: string)
    requires Collect(ps, roles, includeBlocks, fetch).Ok?
    requires k in KeySet(Collect(ps, roles, includeBlocks, fetch).value)
    ensures (exists i :: 0 <= i < |ps| && ps[i].name == k) || (includeBlocks && InvolvedBlock(ps, fetch, k))
    decreases |ps|
  {
    var n := |ps| - 1;
    var d := Collect(ps[..n], roles, includeBlocks, fetch).value;
    var p := TranslatePlaybook(ps[n], roles, NamesToIds).value;
    var d' := Put(d, p.name, p);
    if includeBlocks {
      AddBlocksKeys(d', p.blocks, fetch, k);
    }
    if k == p.name {
      assert ps[n].name == k;
    } else if k in KeySet(d') {
      assert k in KeySet(d);
      CollectedNames(ps[..n], roles, includeBlocks, fetch, k);
      if exists i :: 0 <= i < n && ps[..n][i].name == k {
        var i :| 0 <= i < n && ps[..n][i].name == k;
        assert ps[i].name == k;
      }
      if includeBlocks && InvolvedBlock(ps[..n], fetch, k) {
        var i :| 0 <= i < n && BlockFetched(ps[..n][i].blocks, fetch, k);
        assert ps[i] == ps[..n][i];
      }
    } else {
      assert BlockFetched(ps[n].blocks, fetch, k);
    }
  }

  /** With blocks included and a faithful repository, every repository
      name still holds the last playbook given that name: a block is only
      added under a name not collected yet, and a later playbook replaces
      it. */
  lemma {:induction false} BlocksNeverDisplace(ps: seq<Playbook>, roles: seq<SocRole>, fetch: Json -> Option<Playbook>, k: string)
    requires FaithfulFetch(fetch)
    requires Collect(ps, roles, true, fetch).Ok?
    requires exists i :: 0 <= i < |ps| && ps[i].name == k
    ensures TranslateAll(ps, roles).Ok?
    ensures k in KeySet(Collect(ps, roles, true, fetch).value)
    ensures Lookup(Collect(ps, roles, true, fetch).value, k) == LastValue(NamePairs(TranslateAll(ps, roles).value), k)
    decreases |ps|
  {
    var n := |ps| - 1;
    CollectSnoc(ps, roles, true, fetch);
    CollectTranslates(ps, roles, true, fetch);
    TranslateAllSnoc(ps, roles);
    var qs := TranslateAll(ps, roles).value;
    var d := Collect(ps[..n], roles, true, fetch).value;
    var p := qs[n];
    var d' := Put(d, p.name, p);
    LookupPut(d, p.name, p, k);
    if p.name != k {
      var i :| 0 <= i < |ps| && ps[i].name == k;
      assert ps[..n][i].name == k;
      BlocksNeverDisplace(ps[..n], roles, fetch, k);
    }
    AddBlocksKeeps(d', p.blocks, fetch, k);
    LastValueSnoc(qs, k);
  }

  /** A collection stores each playbook under its own name, once. */
  lemma {:induction false} CollectNamed(ps: seq<Playbook>, roles: seq<SocRole>, includeBlocks: bool, fetch: Json -> Option<Playbook>)
    requires Collect(ps, roles, includeBlocks, fetch).Ok?
    ensures Distinct(Collect(ps, roles, includeBlocks, fetch).value) && NamedByKey(Collect(ps, roles, includeBlocks, fetch).value)
    decreases |ps|
  {
    if |ps| > 0 {
      var n := |ps| - 1;
      CollectSnoc(ps, roles, includeBlocks, fetch);
      CollectNamed(ps[..n], roles, includeBlocks, fetch);
      PutNamed(Collect(ps[..n], roles, includeBlocks, fetch).value, TranslatePlaybook(ps[n], roles, NamesToIds).value);
    }
  }

  /** `sync_playbooks` hands the installer one playbook per name, each
      the collection's playbook for that name. */
  lemma SyncDistinct(ps: seq<Playbook>, roles: seq<SocRole>, includeBlocks: bool, fetch: Json -> Option<Playbook>)
    requires Collect(ps, roles, includeBlocks, fetch).Ok?
    ensures var d := Collect(ps, roles, includeBlocks, fetch).value; var r := Playbooks(d);
      (forall i, j :: 0 <= i < j < |r| ==> r[i].name != r[j].name)
      && (forall i :: 0 <= i < |r| ==> Lookup(d, r[i].name) == Some(r[i]))
      && (forall k :: k in KeySet(d) <==> exists i :: 0 <= i < |r| && r[i].name == k)
  {
    var d := Collect(ps, roles, includeBlocks, fetch).value;
    var r := Playbooks(d);
    CollectNamed(ps, roles, includeBlocks, fetch);
    forall i | 0 <= i < |r| ensures Lookup(d, r[i].name) == Some(r[i]) {
      LookupAt(d, i);
    }
    forall k | k in KeySet(d) ensures exists i :: 0 <= i < |r| && r[i].name == k {
      var i :| 0 <= i < |d| && d[i].0 == k;
      assert r[i].name == k;
    }
  }

  /** Without blocks, the installer gets exactly the repository's names,
      each holding its last translated playbook. */
  lemma SyncWithoutBlocks(ps: seq<Playbook>, roles: seq<SocRole>, fetch: Json -> Option<Playbook>)
    requires Collect(ps, roles, false, fetch).Ok?
    ensures TranslateAll(ps, roles).Ok?
    ensures var r := Playbooks(Collect(ps, roles, false, fetch).value);
      (forall k :: (exists i :: 0 <= i < |r| && r[i].name == k) <==> RepositoryName(ps, k))
      && (forall i :: 0 <= i < |r| ==> Some(r[i]) == LastValue(NamePairs(TranslateAll(ps, roles).value), r[i].name))
  {
    var d := Collect(ps, roles, false, fetch).value;
    var r := Playbooks(d);
    CollectTranslates(ps, roles, false, fetch);
    SyncDistinct(ps, roles, false, fetch);
    forall k ensures (exists i :: 0 <= i < |r| && r[i].name == k) <==> RepositoryName(ps, k) {
      LaterPlaybookWins(ps, roles, fetch, k);
    }
    forall i | 0 <= i < |r| ensures Some(r[i]) == LastValue(NamePairs(TranslateAll(ps, roles).value), r[i].name) {
      LaterPlaybookWins(ps, roles, fetch, r[i].name);
    }
  }

  /** With blocks and a faithful repository, every repository name reaches
      the installer holding its last translated playbook. */
  lemma SyncWithBlocks(ps: seq<Playbook>, roles: seq<SocRole>, fetch: Json -> Option<Playbook>)
    requires Collect(ps, roles, true, fetch).Ok?
    ensures TranslateAll(ps, roles).Ok?
    ensures FaithfulFetch(fetch) ==> var r := Playbooks(Collect(ps, roles, true, fetch).value);
      (forall k :: RepositoryName(ps, k) ==> exists i :: 0 <= i < |r| && r[i].name == k)
      && (forall i :: 0 <= i < |r| && RepositoryName(ps, r[i].name) ==>
            Some(r[i]) == LastValue(NamePairs(TranslateAll(ps, roles).value), r[i].name))
  {
    var r := Playbooks(Collect(ps, roles, true, fetch).value);
    CollectTranslates(ps, roles, true, fetch);
    SyncDistinct(ps, roles, true, fetch);
    if FaithfulFetch(fetch) {
      forall k | RepositoryName(ps, k) ensures exists i :: 0 <= i < |r| && r[i].name == k {
        BlocksNeverDisplace(ps, roles, fetch, k);
      }
      forall i | 0 <= i < |r| && RepositoryName(ps, r[i].name)
        ensures Some(r[i]) == LastValue(NamePairs(TranslateAll(ps, roles).value), r[i].name)
      {
        BlocksNeverDisplace(ps, roles, fetch, r[i].name);
      }
    }
  }

  // ---------------------------------------------------------------------
  // pull-playbooks
  // ---------------------------------------------------------------------

  /** One `push_playbook` call: the identifier the playbook was fetched by,
      what was pushed, and whether it was pushed as an involved block. */
  datatype Pushed = Pushed(identifier: Json, playbook: Playbook, isBlock: bool)

  /** `next((x for x in installed if x.get("name") == name), None)`: an
      entry that is not a dict raises when the scan reaches it. */
  function FindInstalled(installed: seq<Json>, name: Json): (r: Result<Option<Json>, Error>)
    ensures r.Ok? && r.value.Some? ==> r.value.value in installed && r.value.value.JObj? && Get(r.value.value.fields, "name") == name
    ensures r == Ok(None) ==> forall x :: x in installed ==> x.JObj? && Get(x.fields, "name") != name
    ensures r.Ok? && r.value.Some? ==> exists i :: 0 <= i < |installed| && installed[i] == r.value.value && NoneNamedBefore(installed, name, i)
    decreases |installed|
  {
    if |installed| == 0 then Ok(None)
    else if !installed[0].JObj? then Err(AttributeError)
    else if Get(installed[0].fields, "name") == name then
      assert NoneNamedBefore(installed, name, 0);
      Ok(Some(installed[0]))
    else
      var r :- FindInstalled(installed[1..], name);
      assert forall x :: x in installed[1..] ==> x in installed;
      if r.Some? then
        FirstAfterHead(installed, name, r.value);
        Ok(r)
      else Ok(r)
  }

  /** An entry first of its name after an entry of another name is still
      first of its name. */
  lemma FirstAfterHead(installed: seq<Json>, name: Json, x: Json)
    requires |installed| > 0 && installed[0].JObj? && Get(installed[0].fields, "name") != name
    requires exists i :: 0 <= i < |installed[1..]| && installed[1..][i] == x && NoneNamedBefore(installed[1..], name, i)
    ensures exists i :: 0 <= i < |installed| && installed[i] == x && NoneNamedBefore(installed, name, i)
  {
    var i :| 0 <= i < |installed[1..]| && installed[1..][i] == x && NoneNamedBefore(installed[1..], name, i);
    assert installed[i + 1] == x;
    assert forall j :: 1 <= j < i + 1 ==> installed[j] == installed[1..][j - 1];
    assert NoneNamedBefore(installed, name, i + 1);
  }

  /** Every installed entry before position `i` is a dict of another name. */
  ghost predicate NoneNamedBefore(installed: seq<Json>, name: Json, i: nat)
    requires i <= |installed|
  {
    forall j :: 0 <= j < i ==> installed[j].JObj? && Get(installed[j].fields, "name") != name
  }

  /** The block was found among the installed playbooks and fetched by the
      identifier listed there. */
  ghost predicate InstalledBlock(installed: seq<Json>, get: Json -> Option<Playbook>, p: Pushed) {
    p.isBlock && get(p.identifier) == Some(p.playbook) &&
    exists x :: x in installed && x.JObj? && Truthy(x) && Get(x.fields, "identifier") == p.identifier
  }

  /** One involved block of a pulled playbook: a block missing from the
      installed listing is skipped; otherwise the installed block is fetched
      and pushed as it is, with no role translation. */
  function PushBlock(installed: seq<Json>, block: Json, get: Json -> Option<Playbook>): (r: Result<seq<Pushed>, Error>)
    ensures r.Ok? ==> |r.value| <= 1 && forall p :: p in r.value ==> InstalledBlock(installed, get, p)
    ensures block.JObj? && FindInstalled(installed, Get(block.fields, "name")) == Ok(None) ==> r == Ok([])
    ensures block.JObj? && FindInstalled(installed, Get(block.fields, "name")).Ok? ==>
      var found := FindInstalled(installed, Get(block.fields, "name")).value;
      found.Some? && Truthy(found.value) ==>
        var id := Get(found.value.fields, "identifier");
        (get(id).Some? ==> r == Ok([Pushed(id, get(id).value, true)])) && (get(id).None? ==> r == Err(ApiError))
  {
    if !block.JObj? then Err(AttributeError)
    else
      var found :- FindInstalled(installed, Get(block.fields, "name"));
      if found.None? || !Truthy(found.value) then Ok([])
      else
        var x := found.value;
        var id := Get(x.fields, "identifier");
        match get(id)
        case None => Err(ApiError)
        case Some(b) => Ok([Pushed(id, b, true)])
  }

  function PushBlocks(installed: seq<Json>, bs: seq<Json>, get: Json -> Option<Playbook>): (r: Result<seq<Pushed>, Error>)
    ensures r.Ok? ==> forall p :: p in r.value ==> InstalledBlock(installed, get, p)
    decreases |bs|
  {
    if |bs| == 0 then Ok([])
    else
      var first :- PushBlock(installed, bs[0], get);
      var rest :- PushBlocks(installed, bs[1..], get);
      Ok(first + rest)
  }

  /** The installed playbook is a dict whose category does not contain the
      excluded folder's name. */
  predicate Included(x: Json, folder: string) {
    x.JObj? && PyIn(folder, Get(x.fields, "categoryName")) == Some(false)
  }

  /** `p` is the installed playbook `x`, fetched by its identifier, with its
      role ids turned into names. */
  ghost predicate PulledFrom(x: Json, roles: seq<SocRole>, get: Json -> Option<Playbook>, p: Pushed) {
    x.JObj? && !p.isBlock && p.identifier == Get(x.fields, "identifier") &&
    get(p.identifier).Some? && TranslatePlaybook(get(p.identifier).value, roles, IdsToNames) == Ok(p.playbook)
  }

  /** One installed playbook: skipped when its category contains the
      excluded folder's name (a category that is `None` or a number makes
      `in` raise); otherwise fetched, translated and pushed, followed by its
      installed blocks when blocks are included. */
  function PullOne(installed: seq<Json>, x: Json, folder: string, roles: seq<SocRole>, includeBlocks: bool, get: Json -> Option<Playbook>): (r: Result<seq<Pushed>, Error>)
    ensures x.JObj? && PyIn(folder, Get(x.fields, "categoryName")).None? ==> r == Err(TypeError)
    ensures x.JObj? && PyIn(folder, Get(x.fields, "categoryName")) == Some(true) ==> r == Ok([])
    ensures r.Ok? && Included(x, folder) ==> |r.value| > 0 && PulledFrom(x, roles, get, r.value[0])
    ensures r.Ok? ==> forall p :: p in r.value && !p.isBlock ==> Included(x, folder) && PulledFrom(x, roles, get, p)
    ensures r.Ok? ==> forall p :: p in r.value && p.isBlock ==> includeBlocks && InstalledBlock(installed, get, p)
  {
    if !x.JObj? then Err(AttributeError)
    else
      match PyIn(folder, Get(x.fields, "categoryName"))
      case None => Err(TypeError)
      case Some(excluded) =>
        if excluded then Ok([])
        else if "name" !in x.fields then Err(KeyError("name"))
        else
          var id := Get(x.fields, "identifier");
          match get(id)
          case None => Err(ApiError)
          case Some(fetched) =>
            var q :- TranslatePlaybook(fetched, roles, IdsToNames);
            var bs :- if includeBlocks then PushBlocks(installed, q.blocks, get) else Ok([]);
            Ok([Pushed(id, q, false)] + bs)
  }

  /** The loop of `pull_playbooks` over the installed playbooks `xs`, with
      the whole listing `installed` to find blocks in. */
  function PullEntries(installed: seq<Json>, xs: seq<Json>, folder: string, roles: seq<SocRole>, includeBlocks: bool, get: Json -> Option<Playbook>): (r: Result<seq<Pushed>, Error>)
    ensures r.Ok? ==> forall p :: p in r.value && !p.isBlock ==>
      exists i :: 0 <= i < |xs| && Included(xs[i], folder) && PulledFrom(xs[i], roles, get, p)
    ensures r.Ok? ==> forall i :: 0 <= i < |xs| && Included(xs[i], folder) ==>
      exists p :: p in r.value && PulledFrom(xs[i], roles, get, p)
    ensures r.Ok? ==> forall p :: p in r.value && p.isBlock ==> includeBlocks && InstalledBlock(installed, get, p)
    ensures r.Ok? ==> forall i :: 0 <= i < |xs| ==> xs[i].JObj? && PyIn(folder, Get(xs[i].fields, "categoryName")).Some?
    decreases |xs|
  {
    if |xs| == 0 then Ok([])
    else
      var first :- PullOne(installed, xs[0], folder, roles, includeBlocks, get);
      var rest :- PullEntries(installed, xs[1..], folder, roles, includeBlocks, get);
      PullEntriesCons(installed, xs, folder, roles, includeBlocks, get, first, rest);
      Ok(first + rest)
  }

  /** The combining step of `PullEntries`, over the head's pushes and the
      tail's. */
  lemma PullEntriesCons(installed: seq<Json>, xs: seq<Json>, folder: string, roles: seq<SocRole>, includeBlocks: bool, get: Json -> Option<Playbook>,
                        first: seq<Pushed>, rest: seq<Pushed>)
    requires |xs| > 0
    requires PullOne(installed, xs[0], folder, roles, includeBlocks, get) == Ok(first)
    requires forall p :: p in rest && !p.isBlock ==>
      exists i :: 0 <= i < |xs[1..]| && Included(xs[1..][i], folder) && PulledFrom(xs[1..][i], roles, get, p)
    requires forall i :: 0 <= i < |xs[1..]| && Included(xs[1..][i], folder) ==>
      exists p :: p in rest && PulledFrom(xs[1..][i], roles, get, p)
    requires forall i :: 0 <= i < |xs[1..]| ==> xs[1..][i].JObj? && PyIn(folder, Get(xs[1..][i].fields, "categoryName")).Some?
    ensures forall p :: p in first + rest && !p.isBlock ==>
      exists i :: 0 <= i < |xs| && Included(xs[i], folder) && PulledFrom(xs[i], roles, get, p)
    ensures forall i :: 0 <= i < |xs| && Included(xs[i], folder) ==>
      exists p :: p in first + rest && PulledFrom(xs[i], roles, get, p)
    ensures forall i :: 0 <= i < |xs| ==> xs[i].JObj? && PyIn(folder, Get(xs[i].fields, "categoryName")).Some?
  {
    forall p | p in first + rest && !p.isBlock
      ensures exists i :: 0 <= i < |xs| && Included(xs[i], folder) && PulledFrom(xs[i], roles, get, p)
    {
      if p !in first {
        var i :| 0 <= i < |xs[1..]| && Included(xs[1..][i], folder) && PulledFrom(xs[1..][i], roles, get, p);
        assert xs[i + 1] == xs[1..][i];
      }
    }
    forall i | 0 <= i < |xs| && Included(xs[i], folder)
      ensures exists p :: p in first + rest && PulledFrom(xs[i], roles, get, p)
    {
      if i == 0 {
        assert first[0] in first + rest;
      } else {
        assert xs[1..][i - 1] == xs[i];
        var p :| p in rest && PulledFrom(xs[1..][i - 1], roles, get, p);
        assert p in first + rest;
      }
    }
    forall i | 0 <= i < |xs|
      ensures xs[i].JObj? && PyIn(folder, Get(xs[i].fields, "categoryName")).Some?
    {
      if i > 0 {
        assert xs[1..][i - 1] == xs[i];
      }
    }
  }

  /** `pull_playbooks`: every pushed playbook is an installed playbook
      outside the excluded folder, translated back to role names; every
      such installed playbook is pushed; every pushed block is an installed
      block, and blocks are pushed only when included. */
  function PullPlaybooks(installed: seq<Json>, folder: string, roles: seq<SocRole>, includeBlocks: bool, get: Json -> Option<Playbook>): (r: Result<seq<Pushed>, Error>)
    ensures r.Ok? ==> forall p :: p in r.value && !p.isBlock ==>
      exists i :: 0 <= i < |installed| && Included(installed[i], folder) && PulledFrom(installed[i], roles, get, p)
    ensures r.Ok? ==> forall i :: 0 <= i < |installed| && Included(installed[i], folder) ==>
      exists p :: p in r.value && PulledFrom(installed[i], roles, get, p)
    ensures r.Ok? ==> forall p :: p in r.value && p.isBlock ==> includeBlocks && InstalledBlock(installed, get, p)
  {
    PullEntries(installed, installed, folder, roles, includeBlocks, get)
  }
}

=== FILE: search.dfy ===
/** Searching and filtering sequences: Python's "first element such that",
    the list comprehension with an `if`, and the ordering of `sorted` on
    strings. */
module Search {
  import opened Wrappers
  import Strs
  import Sorting

  /** The position of the first element satisfying `p`, the way a `for`
      loop with an early `return` or `break` finds it. */
  function FirstWhere<T>(xs: seq<T>, p: T -> bool): (r: Option<nat>)
    ensures r.Some? ==> r.value < |xs| && p(xs[r.value]) && forall j :: 0 <= j < r.value ==> !p(xs[j])
    ensures r.None? <==> forall j :: 0 <= j < |xs| ==> !p(xs[j])
    decreases |xs|
  {
    if |xs| == 0 then None
    else if p(xs[0]) then Some(0)
    else
      var r := FirstWhere(xs[1..], p);
      if r.None? then None else Some(r.value + 1)
  }

  /** `i` is the first position satisfying `p`. */
  ghost predicate IsFirst<T>(xs: seq<T>, p: T -> bool, i: int) {
    0 <= i < |xs| && p(xs[i]) && forall j :: 0 <= j < i ==> !p(xs[j])
  }

  /** The search finds the first position, and only it. */
  lemma FirstWhereIsFirst<T>(xs: seq<T>, p: T -> bool)
    ensures forall i :: FirstWhere(xs, p) == Some(i) <==> IsFirst(xs, p, i)
  {
  }

  /** `[x for x in xs if p(x)]`. */
  function Filter<T>(xs: seq<T>, p: T -> bool): (r: seq<T>)
    ensures |r| <= |xs|
    ensures forall k :: 0 <= k < |r| ==> p(r[k])
    decreases |xs|
  {
    if |xs| == 0 then []
    else (if p(xs[0]) then [xs[0]] else []) + Filter(xs[1..], p)
  }

  /** An element is kept exactly when it is in the input and satisfies `p`. */
  lemma {:induction false} FilterMembers<T>(xs: seq<T>, p: T -> bool, x: T)
    ensures x in Filter(xs, p) <==> x in xs && p(x)
    decreases |xs|
  {
    if |xs| > 0 {
      FilterMembers(xs[1..], p, x);
      assert xs == [xs[0]] + xs[1..];
    }
  }

  /** Filtering keeps an ordered sequence ordered. */
  lemma {:induction false} FilterSorted<T>(xs: seq<T>, p: T -> bool, le: (T, T) -> bool)
    requires Sorting.Sorted(xs, le)
    ensures Sorting.Sorted(Filter(xs, p), le)
    decreases |xs|
  {
    if |xs| > 0 {
      var rest := Filter(xs[1..], p);
      FilterSorted(xs[1..], p, le);
      if p(xs[0]) {
        forall k | 0 <= k < |rest| ensures le(xs[0], rest[k]) {
          FilterMembers(xs[1..], p, rest[k]);
          var j :| 0 <= j < |xs[1..]| && xs[1..][j] == rest[k];
          assert xs[j + 1] == rest[k];
        }
        assert Filter(xs, p) == [xs[0]] + rest;
      }
    }
  }

  /** Python's `<=` on strings. */
  predicate StrLe(a: string, b: string) {
    Strs.Le(a, b)
  }

  lemma StrLeTotalPreorder()
    ensures Sorting.TotalPreorder(StrLe)
  {
    forall a, b ensures StrLe(a, b) || StrLe(b, a) {
      Strs.LeTotal(a, b);
    }
    forall a, b, c | StrLe(a, b) && StrLe(b, c) ensures StrLe(a, c) {
      Strs.LeTransitive(a, b, c);
    }
  }

  /** Concatenation is associative. */
  lemma ConcatAssoc<T>(x: seq<T>, y: seq<T>, z: seq<T>)
    ensures x + (y + z) == (x + y) + z
  {
  }
}

=== FILE: soar_cache.dfy ===
/** The modification-time cache of the SOAR workflow installer
    (pipelines/response-as-code/soar/cache.py): a mapping from workflow name to
    modification time, kept as persisted rows plus an overflow `new_cache`,
    pushed to an external row store with rows bounded by their serialized
    length.

    Python dicts keep insertion order and `popitem` removes the newest entry,
    so a dict is modelled as an association list in insertion order. */
module SoarCache {
  import opened Wrappers
  import Sorting

  type Entry = (string, int)

  /** A Python dict from names to integers, in insertion order. */
  type Record = seq<Entry>

  function KeysOf(d: Record): set<string> {
    if |d| == 0 then {} else {d[0].0} + KeysOf(d[1..])
  }

  lemma {:induction false} KeysOfAppend(a: Record, b: Record)
    ensures KeysOf(a + b) == KeysOf(a) + KeysOf(b)
    decreases |a|
  {
    if |a| > 0 {
      KeysOfAppend(a[1..], b);
      assert (a + b)[1..] == a[1..] + b;
    } else {
      assert a + b == b;
    }
  }

  lemma {:induction false} KeysOfIndex(d: Record, i: int)
    requires 0 <= i < |d|
    ensures d[i].0 in KeysOf(d)
  {
    if i > 0 {
      KeysOfIndex(d[1..], i - 1);
    }
  }

  ghost predicate DistinctKeys(d: Record) {
    forall i, j :: 0 <= i < j < |d| ==> d[i].0 != d[j].0
  }

  lemma DistinctCons(d: Record)
    requires |d| > 0
    ensures DistinctKeys(d) <==> DistinctKeys(d[1..]) && d[0].0 !in KeysOf(d[1..])
  {
    if d[0].0 in KeysOf(d[1..]) {
      var j := FindIndex(d[1..], d[0].0);
      assert d[j + 1].0 == d[0].0;
    }
    if DistinctKeys(d[1..]) && d[0].0 !in KeysOf(d[1..]) {
      forall i, j | 0 <= i < j < |d| ensures d[i].0 != d[j].0 {
        if i == 0 {
          KeysOfIndex(d[1..], j - 1);
        } else {
          assert d[i] == d[1..][i - 1] && d[j] == d[1..][j - 1];
        }
      }
    }
  }

  function FindIndex(d: Record, k: string): (i: nat)
    requires k in KeysOf(d)
    ensures i < |d| && d[i].0 == k
  {
    if d[0].0 == k then 0 else 1 + FindIndex(d[1..], k)
  }

  /** `d.get(k)`. */
  function Lookup(d: Record, k: string): (r: Option<int>)
    ensures r.Some? <==> k in KeysOf(d)
  {
    if |d| == 0 then None
    else if d[0].0 == k then Some(d[0].1)
    else Lookup(d[1..], k)
  }

  /** `d[k] = v`: an existing key keeps its place, a new key goes last. */
  function Put(d: Record, k: string, v: int): (r: Record)
    ensures KeysOf(r) == KeysOf(d) + {k}
    ensures |r| == if k in KeysOf(d) then |d| else |d| + 1
    ensures Lookup(r, k) == Some(v)
    ensures forall k' :: k' != k ==> Lookup(r, k') == Lookup(d, k')
    ensures DistinctKeys(d) ==> DistinctKeys(r)
    ensures k !in KeysOf(d) ==> r == d + [(k, v)]
  {
    if |d| == 0 then
      assert KeysOf([(k, v)]) == {k} + KeysOf([]);
      [(k, v)]
    else if d[0].0 == k then
      PutHead(d, k, v);
      [(k, v)] + d[1..]
    else
      var rest := Put(d[1..], k, v);
      PutCons(d, k, v, rest);
      [d[0]] + rest
  }

  /** What `Put` promises of `r`, as one predicate for its proof steps. */
  ghost predicate PutSpec(d: Record, k: string, v: int, r: Record) {
    KeysOf(r) == KeysOf(d) + {k}
    && |r| == (if k in KeysOf(d) then |d| else |d| + 1)
    && Lookup(r, k) == Some(v)
    && (forall k' :: k' != k ==> Lookup(r, k') == Lookup(d, k'))
    && (DistinctKeys(d) ==> DistinctKeys(r))
    && (k !in KeysOf(d) ==> r == d + [(k, v)])
  }

  /** Putting the first key replaces its value in place. */
  lemma PutHead(d: Record, k: string, v: int)
    requires |d| > 0 && d[0].0 == k
    ensures PutSpec(d, k, v, [(k, v)] + d[1..])
  {
    var r := [(k, v)] + d[1..];
    assert r[1..] == d[1..];
    DistinctCons(d);
    DistinctCons(r);
  }

  /** Putting a key other than the first one puts it in the rest. */
  lemma PutCons(d: Record, k: string, v: int, rest: Record)
    requires |d| > 0 && d[0].0 != k
    requires PutSpec(d[1..], k, v, rest)
    ensures PutSpec(d, k, v, [d[0]] + rest)
  {
    var r := [d[0]] + rest;
    assert r[1..] == rest;
    DistinctCons(d);
    DistinctCons(r);
    assert d == [d[0]] + d[1..];
    if k !in KeysOf(d) {
      assert r == [d[0]] + (d[1..] + [(k, v)]) == d + [(k, v)];
    }
  }

  /** `del d[k]`. */
  function Remove(d: Record, k: string): (r: Record)
    ensures KeysOf(r) <= KeysOf(d)
    ensures forall k' :: k' != k ==> Lookup(r, k') == Lookup(d, k')
    ensures DistinctKeys(d) ==> Lookup(r, k) == None && DistinctKeys(r)
  {
    if |d| == 0 then d
    else if d[0].0 == k then
      DistinctCons(d);
      d[1..]
    else
      var rest := Remove(d[1..], k);
      var r := [d[0]] + rest;
      assert r[1..] == rest;
      DistinctCons(d);
      DistinctCons(r);
      r
  }

  /** `{k: v for k, v in d.items() if k in keys}`. */
  function Restrict(d: Record, keys: set<string>): (r: Record)
    ensures KeysOf(r) == KeysOf(d) * keys
    ensures forall k :: Lookup(r, k) == if k in keys then Lookup(d, k) else None
    ensures DistinctKeys(d) ==> DistinctKeys(r)
  {
    if |d| == 0 then d
    else
      var rest := Restrict(d[1..], keys);
      DistinctCons(d);
      if d[0].0 in keys then
        var r := [d[0]] + rest;
        assert r[1..] == rest;
        DistinctCons(r);
        r
      else rest
  }

  /** `_move_item(from_=src, to=dst)`: `dst.update([src.popitem()])`. The
      entry leaves `src` and lands in `dst`, overwriting `dst`'s entry when the
      key is already there, so the combined count drops only in that case. */
  function MoveItem(src: Record, dst: Record): (r: (Record, Record))
    requires |src| > 0
    ensures r.0 == src[..|src| - 1]
    ensures r.1 == Put(dst, src[|src| - 1].0, src[|src| - 1].1)
    ensures |r.0| + |r.1| == |src| + |dst| - (if src[|src| - 1].0 in KeysOf(dst) then 1 else 0)
    ensures KeysOf(r.0) + KeysOf(r.1) == KeysOf(src) + KeysOf(dst)
  {
    var e := src[|src| - 1];
    var rest := src[..|src| - 1];
    assert src == rest + [e];
    KeysOfAppend(rest, [e]);
    assert KeysOf([e]) == {e.0} + KeysOf([]);
    (rest, Put(dst, e.0, e.1))
  }

  // ---- Serialized length (`json.dumps(row, separators=(",", ":"))`) ----

  /** Characters `json.dumps` writes for one character of a string (it
      escapes everything outside printable ASCII). */
  function EscapedLen(c: char): nat {
    if c == '"' || c == '\\' || c == '\n' || c == '\r' || c == '\t' || c == '\U{0008}' || c == '\U{000C}' then 2
    else if ' ' <= c <= '~' then 1
    else if c as int >= 0x10000 then 12
    else 6
  }

  function StringLen(s: string): nat {
    if |s| == 0 then 2 else EscapedLen(s[0]) + StringLen(s[1..])
  }

  function DigitCount(n: nat): nat {
    if n < 10 then 1 else 1 + DigitCount(n / 10)
  }

  function IntLen(v: int): nat {
    if v < 0 then 1 + DigitCount(-v) else DigitCount(v)
  }

  function EntriesLen(d: Record): nat {
    if |d| == 0 then 0
    else StringLen(d[0].0) + 1 + IntLen(d[0].1) + (if |d| > 1 then 1 else 0) + EntriesLen(d[1..])
  }

  /** `len(_dump_property_value(row))`: braces, `"key":value` pairs and commas. */
  function DumpLen(d: Record): (n: nat)
    ensures n >= 2
    ensures |d| == 0 ==> n == 2
  {
    2 + EntriesLen(d)
  }

  /** Appending an entry lengthens the dump by the entry's `"key":value`
      text, plus a separating comma when the row was not empty. */
  lemma {:induction false} DumpLenAppend(d: Record, k: string, v: int)
    ensures DumpLen(d + [(k, v)]) == DumpLen(d) + StringLen(k) + 1 + IntLen(v) + (if |d| > 0 then 1 else 0)
    decreases |d|
  {
    if |d| > 0 {
      DumpLenAppend(d[1..], k, v);
      var e := d + [(k, v)];
      assert e[0] == d[0] && e[1..] == d[1..] + [(k, v)];
      assert EntriesLen(e) == StringLen(d[0].0) + 1 + IntLen(d[0].1) + 1 + EntriesLen(e[1..]);
    } else {
      assert d + [(k, v)] == [(k, v)] && [(k, v)][1..] == [];
    }
  }

  const ROW_PADDING_LENGTH: int := 40
  const ROW_LIMIT: int := 3000000

  /** `_row_is_too_long`. */
  predicate TooLong(d: Record) {
    DumpLen(d) >= ROW_LIMIT - ROW_PADDING_LENGTH
  }

  lemma TooLongNotEmpty(d: Record)
    requires TooLong(d)
    ensures |d| > 0
  {
  }

  // ---- The cache ----

  /** `rows` is `self._cache`, `keyToRow` is `self._key_to_row_index`,
      `newCache` is `self._new_cache`, `largest` is `self._largest_row_index`
      and `store` is the external row store, by row index. */
  datatype Cache = Cache(
    rows: seq<Record>,
    keyToRow: map<string, nat>,
    newCache: Record,
    largest: int,
    store: map<int, Record>)

  /** What every operation keeps true: indexes point at rows, keys are
      distinct within each dict, and `new_cache` holds no indexed key
      (only `__setitem__` puts entries there, and only unindexed ones). */
  ghost predicate Valid(c: Cache) {
    (forall k :: k in c.keyToRow ==> c.keyToRow[k] < |c.rows|)
    && (forall i :: 0 <= i < |c.rows| ==> DistinctKeys(c.rows[i]))
    && DistinctKeys(c.newCache)
    && (forall k :: k in KeysOf(c.newCache) ==> k !in c.keyToRow)
    && c.largest >= |c.rows| - 1
  }

  /** `_init_key_to_row_map`: each key points at the last row holding it. */
  function IndexRows(rows: seq<Record>): (m: map<string, nat>)
    ensures forall k :: k in m ==> m[k] < |rows| && k in KeysOf(rows[m[k]])
    ensures forall i, k :: 0 <= i < |rows| && k in KeysOf(rows[i]) ==> k in m && m[k] >= i
  {
    if |rows| == 0 then map[]
    else
      var last := |rows| - 1;
      var pre := rows[..last];
      var m := IndexRows(pre);
      var add := map k | k in KeysOf(rows[last]) :: last;
      var r := m + add;
      assert forall i :: 0 <= i < last ==> pre[i] == rows[i];
      assert forall k :: k in r ==> r[k] == if k in add then last else m[k];
      r
  }

  /** `Cache()`: `saved` is the run of consecutive rows found in the store
      from index 0 on. With none, the cache is a single empty row with
      largest index 0. */
  function Init(saved: seq<Record>): (c: Cache)
    requires forall i :: 0 <= i < |saved| ==> DistinctKeys(saved[i])
    ensures Valid(c)
    ensures |saved| == 0 ==> c.rows == [[]] && c.largest == 0 && c.keyToRow == map[]
    ensures |saved| > 0 ==> c.rows == saved && c.largest == |saved| - 1
    ensures c.newCache == []
  {
    if |saved| == 0 then Cache([[]], map[], [], 0, map[])
    else Cache(saved, IndexRows(saved), [], |saved| - 1, map i | 0 <= i < |saved| :: saved[i])
  }

  function SumLens(rows: seq<Record>): nat {
    if |rows| == 0 then 0 else |rows[0]| + SumLens(rows[1..])
  }

  function RowKeys(rows: seq<Record>): set<string> {
    if |rows| == 0 then {} else KeysOf(rows[0]) + RowKeys(rows[1..])
  }

  /** `__len__`: counts every stored entry, so a key present both in
      `new_cache` and in a row is counted twice. */
  function Len(c: Cache): nat {
    |c.newCache| + SumLens(c.rows)
  }

  /** `__iter__` as a set: the keys of `new_cache` and of every row. */
  function Keys(c: Cache): set<string> {
    KeysOf(c.newCache) + RowKeys(c.rows)
  }

  lemma {:induction false} KeysOfBound(d: Record)
    ensures |KeysOf(d)| <= |d|
  {
    if |d| > 0 {
      KeysOfBound(d[1..]);
      assert KeysOf(d) == {d[0].0} + KeysOf(d[1..]) by {
        assert forall i :: 0 < i < |d| ==> d[i] == d[1..][i - 1];
      }
    }
  }

  lemma {:induction false} RowKeysBound(rows: seq<Record>)
    ensures |RowKeys(rows)| <= SumLens(rows)
  {
    if |rows| > 0 {
      RowKeysBound(rows[1..]);
      KeysOfBound(rows[0]);
    }
  }

  /** The length never undercounts the keys iteration yields. */
  lemma LenCoversKeys(c: Cache)
    ensures |Keys(c)| <= Len(c)
  {
    KeysOfBound(c.newCache);
    RowKeysBound(c.rows);
  }

  /** `__getitem__`, with `None` for the KeyError that makes `get` fall back
      to its default: `new_cache` first, then the indexed row. */
  function Get(c: Cache, k: string): (r: Option<int>)
    requires Valid(c)
    ensures k in KeysOf(c.newCache) ==> r == Lookup(c.newCache, k)
    ensures k !in KeysOf(c.newCache) && k !in c.keyToRow ==> r == None
    ensures r.Some? ==> k in Keys(c)
  {
    if k in KeysOf(c.newCache) then Lookup(c.newCache, k)
    else if k in c.keyToRow then
      RowInRowKeys(c.rows, c.keyToRow[k], k);
      Lookup(c.rows[c.keyToRow[k]], k)
    else None
  }

  lemma {:induction false} RowInRowKeys(rows: seq<Record>, i: nat, k: string)
    requires i < |rows|
    ensures k in KeysOf(rows[i]) ==> k in RowKeys(rows)
  {
    if i > 0 {
      RowInRowKeys(rows[1..], i - 1, k);
    }
  }

  /** `__setitem__`: an unindexed key goes to `new_cache`, an indexed key to
      its row; afterwards the key reads back as the value set and every other
      key reads as before. */
  function Set(c: Cache, k: string, v: int): (r: Cache)
    requires Valid(c)
    ensures Valid(r)
    ensures k !in c.keyToRow ==> r.newCache == Put(c.newCache, k, v) && r.rows == c.rows
    ensures k in c.keyToRow ==> (r.newCache == c.newCache
      && r.rows == c.rows[c.keyToRow[k] := Put(c.rows[c.keyToRow[k]], k, v)])
    ensures r.keyToRow == c.keyToRow && r.largest == c.largest && r.store == c.store
    ensures Get(r, k) == Some(v)
    ensures forall k' :: k' != k ==> Get(r, k') == Get(c, k')
  {
    if k !in c.keyToRow then c.(newCache := Put(c.newCache, k, v))
    else
      var i := c.keyToRow[k];
      c.(rows := c.rows[i := Put(c.rows[i], k, v)])
  }

  datatype CacheError = KeyError(key: string)

  /** `__delitem__`: from `new_cache` if the key is there, otherwise from its
      indexed row; a key readable nowhere raises KeyError. The index is not
      updated. */
  function Del(c: Cache, k: string): (r: Result<Cache, CacheError>)
    requires Valid(c)
    ensures r.Err? <==> Get(c, k) == None
    ensures r.Ok? ==> (Valid(r.value) && Get(r.value, k) == None
      && r.value.keyToRow == c.keyToRow
      && (forall k' :: k' != k ==> Get(r.value, k') == Get(c, k')))
  {
    if k in KeysOf(c.newCache) then Ok(c.(newCache := Remove(c.newCache, k)))
    else if k !in c.keyToRow then Err(KeyError(k))
    else
      var i := c.keyToRow[k];
      if k !in KeysOf(c.rows[i]) then Err(KeyError(k))
      else Ok(c.(rows := c.rows[i := Remove(c.rows[i], k)]))
  }

  /** `filter_items(keys)`: every row keeps only the entries whose key is in
      `keys`; `new_cache` and the index are untouched. */
  function FilterItems(c: Cache, keys: set<string>): (r: Cache)
    requires Valid(c)
    ensures Valid(r)
    ensures |r.rows| == |c.rows|
    ensures forall i :: 0 <= i < |r.rows| ==> KeysOf(r.rows[i]) == KeysOf(c.rows[i]) * keys
    ensures forall i, k :: 0 <= i < |r.rows| && k in keys ==> Lookup(r.rows[i], k) == Lookup(c.rows[i], k)
    ensures r.newCache == c.newCache && r.keyToRow == c.keyToRow && r.largest == c.largest
    ensures forall k :: k in keys ==> Get(r, k) == Get(c, k)
  {
    c.(rows := seq(|c.rows|, i requires 0 <= i < |c.rows| => Restrict(c.rows[i], keys)))
  }

  // ---- Push ----

  /** The `while` loop of `_fill_row_with_new_items`: moves the newest
      entry of `new_cache` into the row while there is one and the row is not
      too long. */
  function FillLoop(row: Record, nc: Record): (r: (Record, Record))
    ensures r.1 == [] || TooLong(r.0)
    ensures |r.1| <= |nc| && r.1 == nc[..|r.1|]
    ensures KeysOf(r.0) + KeysOf(r.1) == KeysOf(row) + KeysOf(nc)
    ensures !TooLong(row) && |nc| > 0 ==> |r.1| < |nc|
    ensures DistinctKeys(row) && DistinctKeys(nc) ==> DistinctKeys(r.0) && DistinctKeys(r.1)
    decreases |nc|
  {
    if |nc| > 0 && !TooLong(row) then
      var m := MoveItem(nc, row);
      var r := FillLoop(m.1, m.0);
      assert nc[..|nc| - 1][..|r.1|] == nc[..|r.1|];
      r
    else (row, nc)
  }

  /** `_fill_row_with_new_items`: after the loop, a row left too long gives
      its newest entry back to `new_cache`. */
  function FillRow(row: Record, nc: Record): (r: (Record, Record))
    ensures KeysOf(r.0) + KeysOf(r.1) == KeysOf(row) + KeysOf(nc)
    ensures DistinctKeys(row) && DistinctKeys(nc) ==> DistinctKeys(r.0) && DistinctKeys(r.1)
  {
    var l := FillLoop(row, nc);
    if TooLong(l.0) then
      TooLongNotEmpty(l.0);
      MoveItem(l.0, l.1)
    else l
  }

  function Range(n: nat): (r: seq<nat>)
    ensures |r| == n && forall i :: 0 <= i < n ==> r[i] == i
  {
    if n == 0 then [] else Range(n - 1) + [n - 1]
  }

  /** The serialized length of row `i`; 0 past the end. */
  function RowLen(rows: seq<Record>, i: nat): nat {
    if i < |rows| then DumpLen(rows[i]) else 0
  }

  /** Row positions compared by the serialized length of their rows. */
  function ByLength(rows: seq<Record>): (nat, nat) -> bool {
    (i: nat, j: nat) => RowLen(rows, i) <= RowLen(rows, j)
  }

  /** `_get_indexes_sorted_by_content_length`: row indexes ordered by the
      serialized length of their rows, computed once before filling. Each
      index appears once; shorter rows come first, and rows of equal length
      keep their order, since Python's sort is stable. */
  function IndexesByLength(rows: seq<Record>): (r: seq<nat>)
    ensures multiset(r) == multiset(Range(|rows|))
    ensures forall j :: 0 <= j < |r| ==> r[j] < |rows|
    ensures forall i, j :: 0 <= i < j < |r| ==> DumpLen(rows[r[i]]) <= DumpLen(rows[r[j]])
    ensures forall i, j :: 0 <= i < j < |r| && DumpLen(rows[r[i]]) == DumpLen(rows[r[j]]) ==> r[i] < r[j]
  {
    ByLengthOrdered(rows);
    ByLengthTies(rows);
    ByLengthOrder(rows)
  }

  /** Positions of `rows`, stably sorted by the length of their dumps. */
  function ByLengthOrder(rows: seq<Record>): seq<nat>
  {
    Sorting.SortBy<nat>(Range(|rows|), ByLength(rows))
  }

  /** The sorted positions are positions of rows. */
  lemma ByLengthInRange(rows: seq<Record>)
    ensures multiset(ByLengthOrder(rows)) == multiset(Range(|rows|))
    ensures forall j :: 0 <= j < |ByLengthOrder(rows)| ==> ByLengthOrder(rows)[j] < |rows|
  {
    var r := ByLengthOrder(rows);
    forall j | 0 <= j < |r| ensures r[j] < |rows| {
      assert r[j] in multiset(Range(|rows|));
    }
  }

  /** Shorter rows come first. */
  lemma ByLengthOrdered(rows: seq<Record>)
    ensures multiset(ByLengthOrder(rows)) == multiset(Range(|rows|))
    ensures forall j :: 0 <= j < |ByLengthOrder(rows)| ==> ByLengthOrder(rows)[j] < |rows|
    ensures forall i, j :: 0 <= i < j < |ByLengthOrder(rows)| ==>
      DumpLen(rows[ByLengthOrder(rows)[i]]) <= DumpLen(rows[ByLengthOrder(rows)[j]])
  {
    ByLengthInRange(rows);
    Sorting.SortSorted(Range(|rows|), ByLength(rows));
  }

  /** Rows of equal length keep their order. */
  lemma ByLengthTies(rows: seq<Record>)
    ensures forall j :: 0 <= j < |ByLengthOrder(rows)| ==> ByLengthOrder(rows)[j] < |rows|
    ensures forall i, j ::
      (0 <= i < j < |ByLengthOrder(rows)| &&
       DumpLen(rows[ByLengthOrder(rows)[i]]) == DumpLen(rows[ByLengthOrder(rows)[j]])) ==>
      ByLengthOrder(rows)[i] < ByLengthOrder(rows)[j]
  {
    ByLengthInRange(rows);
    Sorting.SortTiesAscend(Range(|rows|), ByLength(rows));
  }

  /** `_distribute_new_items_to_unfilled_existing_rows`: fills the rows in
      the given order. */
  function FillRows(rows: seq<Record>, nc: Record, order: seq<nat>): (r: (seq<Record>, Record))
    requires forall j :: 0 <= j < |order| ==> order[j] < |rows|
    ensures |r.0| == |rows|
    ensures RowKeys(r.0) + KeysOf(r.1) == RowKeys(rows) + KeysOf(nc)
    ensures (forall i :: 0 <= i < |rows| ==> DistinctKeys(rows[i])) && DistinctKeys(nc) ==>
      (forall i :: 0 <= i < |r.0| ==> DistinctKeys(r.0[i])) && DistinctKeys(r.1)
    decreases |order|
  {
    if |order| == 0 then (rows, nc)
    else
      var i := order[0];
      var f := FillRow(rows[i], nc);
      var u := rows[i := f.0];
      RowKeysUpdate(rows, i, f.0);
      assert RowKeys(u) + KeysOf(f.1) == RowKeys(rows) + KeysOf(nc);
      assert (forall i :: 0 <= i < |rows| ==> DistinctKeys(rows[i])) && DistinctKeys(nc) ==>
        (forall i :: 0 <= i < |u| ==> DistinctKeys(u[i])) && DistinctKeys(f.1);
      FillRows(u, f.1, order[1..])
  }

  /** The keys of every row but row `i`. */
  function RowKeysExcept(rows: seq<Record>, i: nat): set<string>
    requires i < |rows|
  {
    RowKeys(rows[..i]) + RowKeys(rows[i + 1..])
  }

  lemma {:induction false} RowKeysAppend(a: seq<Record>, b: seq<Record>)
    ensures RowKeys(a + b) == RowKeys(a) + RowKeys(b)
    decreases |a|
  {
    if |a| > 0 {
      RowKeysAppend(a[1..], b);
      assert (a + b)[1..] == a[1..] + b;
    } else {
      assert a + b == b;
    }
  }

  lemma RowKeysUpdate(rows: seq<Record>, i: nat, d: Record)
    requires i < |rows|
    ensures RowKeys(rows[i := d]) == RowKeysExcept(rows, i) + KeysOf(d)
    ensures RowKeys(rows) == RowKeysExcept(rows, i) + KeysOf(rows[i])
  {
    var u := rows[i := d];
    assert u == rows[..i] + [d] + rows[i + 1..];
    assert rows == rows[..i] + [rows[i]] + rows[i + 1..];
    RowKeysAppend(rows[..i] + [d], rows[i + 1..]);
    RowKeysAppend(rows[..i], [d]);
    RowKeysAppend(rows[..i] + [rows[i]], rows[i + 1..]);
    RowKeysAppend(rows[..i], [rows[i]]);
    assert RowKeys([d]) == KeysOf(d) + RowKeys([]);
    assert RowKeys([rows[i]]) == KeysOf(rows[i]) + RowKeys([]);
  }

  /** `_distribute_new_cache_to_fill_existing_cache_and_push` before the
      writes: the filled rows and what remains of `new_cache`. */
  function Fill(c: Cache): (f: (seq<Record>, Record))
    ensures |f.0| == |c.rows|
    ensures RowKeys(f.0) + KeysOf(f.1) == RowKeys(c.rows) + KeysOf(c.newCache)
    ensures Valid(c) ==> forall i :: 0 <= i < |f.0| ==> DistinctKeys(f.0[i])
  {
    FillRows(c.rows, c.newCache, IndexesByLength(c.rows))
  }

  /** `push_local_to_external`, with every row write succeeding (the row
      store of the source never raises): fill the existing rows shortest
      first, write every row, then write what is left of `new_cache` as one
      new row under the next index. That new row is not added to the rows
      held in memory, and no moved key is re-indexed. No key is lost: each
      one is in a row or in the new row. */
  function Push(c: Cache): (r: Cache)
    requires Valid(c)
    ensures Valid(r)
    ensures r.newCache == []
    ensures r.rows == Fill(c).0 && r.keyToRow == c.keyToRow
    ensures forall i :: 0 <= i < |r.rows| ==> i in r.store && r.store[i] == r.rows[i]
    ensures r.largest == c.largest + (if |Fill(c).1| > 0 then 1 else 0)
    ensures |Fill(c).1| > 0 ==> r.largest in r.store && r.store[r.largest] == Fill(c).1
  {
    var f := Fill(c);
    var store := WriteRows(c.store, f.0);
    var largest := c.largest + (if |f.1| > 0 then 1 else 0);
    var st := if |f.1| > 0 then store[largest := f.1] else store;
    assert forall i :: 0 <= i < |f.0| ==> i in st && st[i] == f.0[i] by {
      if |f.1| > 0 {
        WrittenKept(store, f.0, largest, f.1);
      }
    }
    PushedValid(c, f.0, largest, st);
    Cache(f.0, c.keyToRow, [], largest, st)
  }

  /** Writing past the rows leaves every written row in place. */
  lemma WrittenKept(store: map<int, Record>, rows: seq<Record>, k: int, row: Record)
    requires forall i :: 0 <= i < |rows| ==> i in store && store[i] == rows[i]
    requires k >= |rows|
    ensures forall i :: 0 <= i < |rows| ==> i in store[k := row] && store[k := row][i] == rows[i]
  {
  }

  /** The cache after a push is well formed: the rows are the filled ones,
      the index is unchanged and `new_cache` is empty. */
  lemma PushedValid(c: Cache, rows: seq<Record>, largest: int, store: map<int, Record>)
    requires Valid(c) && |rows| == |c.rows| && largest >= c.largest
    requires forall i :: 0 <= i < |rows| ==> DistinctKeys(rows[i])
    ensures Valid(Cache(rows, c.keyToRow, [], largest, store))
  {
    assert KeysOf([]) == {};
  }

  /** `_push_regular_cache`: row `i` is written under index `i`. */
  function WriteRows(store: map<int, Record>, rows: seq<Record>): (r: map<int, Record>)
    ensures forall i :: 0 <= i < |rows| ==> i in r && r[i] == rows[i]
    ensures forall i :: i in store && !(0 <= i < |rows|) ==> i in r && r[i] == store[i]
  {
    store + map i | 0 <= i < |rows| :: rows[i]
  }

  // ---- Keys through the operations the installer uses ----

  /** Setting a key adds exactly that key to the iterated keys. */
  lemma SetKeys(c: Cache, k: string, v: int)
    requires Valid(c)
    ensures Keys(Set(c, k, v)) == Keys(c) + {k}
  {
    if k in c.keyToRow {
      RowKeysUpdate(c.rows, c.keyToRow[k], Put(c.rows[c.keyToRow[k]], k, v));
    }
  }

  lemma {:induction false} RowKeysRestricted(rows: seq<Record>, f: seq<Record>, keys: set<string>)
    requires |f| == |rows|
    requires forall i :: 0 <= i < |rows| ==> f[i] == Restrict(rows[i], keys)
    ensures RowKeys(f) == RowKeys(rows) * keys
  {
    if |rows| > 0 {
      RowKeysRestricted(rows[1..], f[1..], keys);
    }
  }

  /** Pruning keeps, of the row keys, those in `keys`, and all of
      `new_cache`. */
  lemma FilterKeys(c: Cache, keys: set<string>)
    requires Valid(c)
    ensures Keys(FilterItems(c, keys)) == RowKeys(c.rows) * keys + KeysOf(c.newCache)
    ensures RowKeys(FilterItems(c, keys).rows) == RowKeys(c.rows) * keys
  {
    RowKeysRestricted(c.rows, FilterItems(c, keys).rows, keys);
  }

  /** A push never adds a key; the keys of the new row leave memory. */
  lemma PushKeys(c: Cache)
    requires Valid(c)
    ensures Keys(Push(c)) + KeysOf(Fill(c).1) == Keys(c)
  {
    assert KeysOf([]) == {};
  }

  // ---- Where a pending entry ends up ----

  /** Dropping a last entry with another key changes nothing for `k`. */
  lemma {:induction false} LookupDropLast(d: Record, k: string)
    requires |d| > 0 && d[|d| - 1].0 != k
    ensures Lookup(d[..|d| - 1], k) == Lookup(d, k)
    ensures k in KeysOf(d[..|d| - 1]) <==> k in KeysOf(d)
    decreases |d|
  {
    if |d| > 1 {
      LookupDropLast(d[1..], k);
      assert d[1..][..|d| - 2] == d[..|d| - 1][1..];
    }
  }

  /** In a dict with distinct keys, the last entry is what its key reads,
      and the rest lacks it. */
  lemma {:induction false} LookupLast(d: Record)
    requires |d| > 0 && DistinctKeys(d)
    ensures Lookup(d, d[|d| - 1].0) == Some(d[|d| - 1].1)
    ensures d[|d| - 1].0 !in KeysOf(d[..|d| - 1])
    decreases |d|
  {
    DistinctCons(d);
    if |d| > 1 {
      LookupLast(d[1..]);
      assert d[1..][..|d| - 2] == d[..|d| - 1][1..];
      assert d[..|d| - 1] == [d[0]] + d[..|d| - 1][1..];
    }
  }

  /** `k` is read as `v` in exactly one of the two dicts. */
  ghost predicate OneOf(a: Record, b: Record, k: string, v: int) {
    (Lookup(a, k) == Some(v) && k !in KeysOf(b)) || (Lookup(b, k) == Some(v) && k !in KeysOf(a))
  }

  /** Moving an entry between two dicts keeps an entry held by only one of
      them held by only one of them, with its value. */
  lemma MoveKeepsOne(src: Record, dst: Record, k: string, v: int)
    requires |src| > 0 && DistinctKeys(src) && OneOf(src, dst, k, v)
    ensures OneOf(MoveItem(src, dst).0, MoveItem(src, dst).1, k, v)
  {
    var e := src[|src| - 1];
    if e.0 == k {
      KeysOfIndex(src, |src| - 1);
      LookupLast(src);
    } else {
      LookupDropLast(src, k);
    }
  }

  lemma {:induction false} FillLoopKeepsOne(row: Record, nc: Record, k: string, v: int)
    requires DistinctKeys(row) && DistinctKeys(nc) && OneOf(row, nc, k, v)
    ensures OneOf(FillLoop(row, nc).0, FillLoop(row, nc).1, k, v)
    decreases |nc|
  {
    if |nc| > 0 && !TooLong(row) {
      MoveKeepsOne(nc, row, k, v);
      var m := MoveItem(nc, row);
      assert DistinctKeys(m.0) by {
        forall i, j | 0 <= i < j < |m.0| ensures m.0[i].0 != m.0[j].0 {
          assert m.0[i] == nc[i] && m.0[j] == nc[j];
        }
      }
      FillLoopKeepsOne(m.1, m.0, k, v);
    }
  }

  lemma FillRowKeepsOne(row: Record, nc: Record, k: string, v: int)
    requires DistinctKeys(row) && DistinctKeys(nc) && OneOf(row, nc, k, v)
    ensures OneOf(FillRow(row, nc).0, FillRow(row, nc).1, k, v)
  {
    FillLoopKeepsOne(row, nc, k, v);
    var l := FillLoop(row, nc);
    if TooLong(l.0) {
      TooLongNotEmpty(l.0);
      MoveKeepsOne(l.0, l.1, k, v);
    }
  }

  /** No row but row `i` holds `k` (every row, when `i` is past the end). */
  ghost predicate OnlyIn(rows: seq<Record>, i: nat, k: string) {
    forall m :: 0 <= m < |rows| && m != i ==> k !in KeysOf(rows[m])
  }

  /** `k` is read as `v` in exactly one place: `nc` or a single row. */
  ghost predicate Placed(rows: seq<Record>, nc: Record, k: string, v: int) {
    (Lookup(nc, k) == Some(v) && OnlyIn(rows, |rows|, k))
    || exists i :: 0 <= i < |rows| && Lookup(rows[i], k) == Some(v) && k !in KeysOf(nc) && OnlyIn(rows, i, k)
  }

  /** The fill step on row `i`, when `k` is in `nc` or in row `i`. */
  lemma FillStepHere(rows: seq<Record>, nc: Record, i: nat, k: string, v: int)
    requires i < |rows| && DistinctKeys(rows[i]) && DistinctKeys(nc)
    requires OneOf(rows[i], nc, k, v) && OnlyIn(rows, i, k)
    ensures Placed(rows[i := FillRow(rows[i], nc).0], FillRow(rows[i], nc).1, k, v)
  {
    var f := FillRow(rows[i], nc);
    var u := rows[i := f.0];
    FillRowKeepsOne(rows[i], nc, k, v);
    if Lookup(f.0, k) == Some(v) && k !in KeysOf(f.1) {
      assert Lookup(u[i], k) == Some(v) && OnlyIn(u, i, k);
    } else {
      assert OnlyIn(u, |u|, k);
    }
  }

  /** The fill step on row `i` keeps `k` placed. */
  lemma FillStepKeepsPlaced(rows: seq<Record>, nc: Record, i: nat, k: string, v: int)
    requires i < |rows| && DistinctKeys(rows[i]) && DistinctKeys(nc) && Placed(rows, nc, k, v)
    ensures Placed(rows[i := FillRow(rows[i], nc).0], FillRow(rows[i], nc).1, k, v)
  {
    if Lookup(nc, k) == Some(v) && OnlyIn(rows, |rows|, k) {
      FillStepHere(rows, nc, i, k, v);
    } else {
      var j :| 0 <= j < |rows| && Lookup(rows[j], k) == Some(v) && k !in KeysOf(nc) && OnlyIn(rows, j, k);
      if j == i {
        FillStepHere(rows, nc, i, k, v);
      } else {
        var f := FillRow(rows[i], nc);
        var u := rows[i := f.0];
        assert k !in KeysOf(rows[i]);
        assert k !in KeysOf(f.0) && k !in KeysOf(f.1);
        assert u[j] == rows[j] && OnlyIn(u, j, k);
      }
    }
  }

  lemma {:induction false} FillRowsKeepsPlaced(rows: seq<Record>, nc: Record, order: seq<nat>, k: string, v: int)
    requires forall j :: 0 <= j < |order| ==> order[j] < |rows|
    requires (forall i :: 0 <= i < |rows| ==> DistinctKeys(rows[i])) && DistinctKeys(nc)
    requires Placed(rows, nc, k, v)
    ensures Placed(FillRows(rows, nc, order).0, FillRows(rows, nc, order).1, k, v)
    decreases |order|
  {
    if |order| > 0 {
      var i := order[0];
      var f := FillRow(rows[i], nc);
      FillStepKeepsPlaced(rows, nc, i, k, v);
      var u := rows[i := f.0];
      assert forall j :: 0 <= j < |u| ==> DistinctKeys(u[j]);
      FillRowsKeepsPlaced(u, f.1, order[1..], k, v);
    }
  }

  /** A pending entry whose key no row holds is written to the row store
      with its value: into the row it fills, or into the new row. */
  lemma PushStoresPending(c: Cache, k: string, v: int)
    requires Valid(c) && Lookup(c.newCache, k) == Some(v) && k !in RowKeys(c.rows)
    ensures exists j :: j in Push(c).store && Lookup(Push(c).store[j], k) == Some(v)
  {
    forall m | 0 <= m < |c.rows| ensures k !in KeysOf(c.rows[m]) {
      RowInRowKeys(c.rows, m, k);
    }
    FillRowsKeepsPlaced(c.rows, c.newCache, IndexesByLength(c.rows), k, v);
    var f := Fill(c);
    var r := Push(c);
    if Lookup(f.1, k) == Some(v) && OnlyIn(f.0, |f.0|, k) {
      assert |f.1| > 0;
      assert r.largest in r.store && r.store[r.largest] == f.1;
    } else {
      var i :| 0 <= i < |f.0| && Lookup(f.0[i], k) == Some(v) && k !in KeysOf(f.1) && OnlyIn(f.0, i, k);
      assert i in r.store && r.store[i] == f.0[i];
    }
  }

  /** With nothing indexed (a cache started without saved rows stays that
      way, since no operation re-indexes), a pushed cache answers no key:
      `get(name, -1)` falls back to its default for every name. */
  lemma PushedUnindexedForgets(c: Cache, k: string)
    requires Valid(c)
    ensures c.keyToRow == map[] ==> Get(Push(c), k) == None
  {
    assert KeysOf(Push(c).newCache) == {};
  }

  /** The quirk in two steps: a value just set is read back, and after the
      push it is gone. */
  lemma SetThenPushForgets(k: string, v: int)
    ensures Get(Set(Init([]), k, v), k) == Some(v)
    ensures Get(Push(Set(Init([]), k, v)), k) == None
  {
    var c := Set(Init([]), k, v);
    assert c.newCache == [(k, v)] && c.rows == [[]];
    PushedUnindexedForgets(c, k);
  }
}

=== FILE: soar_steps.dfy ===
/** Step reconciliation of the SOAR workflow installer
    (pipelines/response-as-code/soar/git_sync_manager.py, `_process_steps`
    and the helpers it calls): steps are flattened, matched to the installed
    workflow's steps by `instanceName`, given identifiers, integration
    instances and block links, and step relations are rewritten through the
    identifiers that changed.

    Steps are JSON objects and are rebuilt rather than mutated in place.
    Python iterates over whatever the payload holds; a payload of the wrong
    shape raises an AttributeError or TypeError, which here is a `Malformed`
    failure. */
module SoarSteps {
  import opened Wrappers
  import opened JsonValue
  import Strs
  import Sorting
  import Search

  type Obj = map<string, Json>

  /** Why an installation stopped: a payload of the wrong shape, or (before
      anything is installed) a workflow naming an unknown environment. */
  datatype Failure = Malformed(what: Malformation) | UnknownEnvironment(workflow: string)

  /** The exceptions a malformed payload raises, by what was malformed. */
  datatype Malformation =
    | NotIterable
    | StepNotDict
    | InstalledStepNotDict
    | ParameterNotDict
    | DebugDataNotContainer
    | DebugDataNotDict
    | UnhashableBlockName
    | UnhashableIdentifier
    | UnhashableRelationEnd
    | TriggerNotDict

  /** An entry of the installed-playbook listing (`get_playbooks`), reduced
      to the fields the installer reads. `modTime` is `None` when the entry
      has no `modificationTimeUnixTimeInMs`. */
  datatype Listed = Listed(name: Json, identifier: Json, modTime: Option<int>, playbookType: Json)

  /** An entry of `get_integrations_instances(environment)`; `instanceName`
      is `""` when the entry has none. */
  datatype Instance = Instance(integrationIdentifier: Json, isConfigured: Json, instanceName: string, identifier: Json)

  // ---- Iteration and flattening ----

  /** One element met while iterating a JSON value: a dict is a step;
      anything else is not, and `.get` on it raises. */
  datatype Item = Step(obj: Obj) | NotAStep

  /** `for x in v`: a list yields its elements, a string its characters and
      a dict its keys (none of them a dict); `None`, booleans and numbers
      cannot be iterated. */
  function Iterate(v: Json): (r: Result<seq<Item>, Failure>)
    ensures r.Err? <==> v.JNull? || v.JBool? || v.JInt?
    ensures v.JList? ==> (r.Ok? && |r.value| == |v.items|
      && forall i :: 0 <= i < |v.items| ==> r.value[i] == (if v.items[i].JObj? then Step(v.items[i].fields) else NotAStep))
    ensures (v.JStr? || v.JObj?) ==> r.Ok? && forall i :: 0 <= i < |r.value| ==> r.value[i].NotAStep?
    ensures r.Ok? ==> (|r.value| == 0 <==> !Truthy(v))
  {
    match v
    case JList(xs) => Ok(seq(|xs|, i requires 0 <= i < |xs| => if xs[i].JObj? then Step(xs[i].fields) else NotAStep))
    case JStr(s) => Ok(seq(|s|, _ => NotAStep))
    case JObj(m) => Ok(seq(|m|, _ => NotAStep))
    case _ => Err(Malformed(NotIterable))
  }

  /** The steps of a list every element of which is a dict, or the error
      `.get` raises on the first element that is not. */
  function AllSteps(items: seq<Item>): (r: Result<seq<Obj>, Failure>)
    ensures r.Ok? <==> forall i :: 0 <= i < |items| ==> items[i].Step?
    ensures r.Ok? ==> |r.value| == |items| && forall i :: 0 <= i < |items| ==> items[i] == Step(r.value[i])
  {
    if |items| == 0 then Ok([])
    else if items[0].NotAStep? then Err(Malformed(StepNotDict))
    else
      var rest :- AllSteps(items[1..]);
      Ok([items[0].obj] + rest)
  }

  /** `raw.get("steps", [])` as `_flatten_playbook_steps` walks it: a falsy
      value has no steps; otherwise it must be a list of dicts. */
  function StepList(v: Json): (r: Result<seq<Obj>, Failure>)
    ensures r.Ok? && Truthy(v) ==> (v.JList? && |r.value| == |v.items|
      && forall i :: 0 <= i < |v.items| ==> v.items[i] == JObj(r.value[i]))
    ensures r.Ok? && !Truthy(v) ==> r.value == []
    ensures v.JList? && (forall i :: 0 <= i < |v.items| ==> v.items[i].JObj?) ==> r.Ok?
  {
    if !Truthy(v) then Ok([])
    else
      var items :- Iterate(v);
      AllSteps(items)
  }

  predicate IsContainer(step: Obj) {
    Get(step, "actionProvider") == JStr("ParallelActionsContainer")
  }

  /** `step.get("parallelActions", [])`, iterated. */
  function Children(step: Obj): Result<seq<Item>, Failure> {
    Iterate(GetOr(step, "parallelActions", JList([])))
  }

  /** `_flatten_playbook_steps`: each container's parallel actions, then the
      step itself, in order. The elements of a container are not checked
      here; `.get` raises only when the search reaches one that is not a
      dict. */
  function Flatten(steps: seq<Obj>): (r: Result<seq<Item>, Failure>)
    ensures r.Ok? <==> forall i :: 0 <= i < |steps| && IsContainer(steps[i]) ==> Children(steps[i]).Ok?
    ensures r.Ok? ==> |r.value| >= |steps|
    ensures (forall i :: 0 <= i < |steps| ==> !IsContainer(steps[i])) ==>
      (r.Ok? && |r.value| == |steps| && forall i :: 0 <= i < |steps| ==> r.value[i] == Step(steps[i]))
  {
    if |steps| == 0 then Ok([])
    else
      var first :- Expand(steps[0]);
      var rest :- Flatten(steps[1..]);
      assert forall i :: 0 < i < |steps| ==> steps[i] == steps[1..][i - 1];
      Ok(first + rest)
  }

  /** One step of the flattening: a container's parallel actions and then
      the container, or the step alone. */
  function Expand(step: Obj): (r: Result<seq<Item>, Failure>)
    ensures r.Ok? <==> !IsContainer(step) || Children(step).Ok?
    ensures r.Ok? ==> |r.value| >= 1 && r.value[|r.value| - 1] == Step(step)
    ensures !IsContainer(step) ==> r == Ok([Step(step)])
  {
    if IsContainer(step) then
      var kids :- Children(step);
      Ok(kids + [Step(step)])
    else Ok([Step(step)])
  }

  /** Flattening a list splits over concatenation: it succeeds exactly
      when both parts do, and then gives both results in order. */
  lemma FlattenAppend(a: seq<Obj>, b: seq<Obj>)
    ensures Flatten(a + b).Ok? <==> Flatten(a).Ok? && Flatten(b).Ok?
    ensures Flatten(a + b).Ok? ==> Flatten(a + b).value == Flatten(a).value + Flatten(b).value
  {
    assert forall i :: 0 <= i < |a| ==> (a + b)[i] == a[i];
    assert forall i :: 0 <= i < |b| ==> (a + b)[|a| + i] == b[i];
    if Flatten(a).Ok? && Flatten(b).Ok? {
      FlattenAppendValue(a, b);
    }
  }

  lemma {:induction false} FlattenAppendValue(a: seq<Obj>, b: seq<Obj>)
    requires Flatten(a).Ok? && Flatten(b).Ok?
    ensures Flatten(a + b) == Ok(Flatten(a).value + Flatten(b).value)
  {
    if |a| == 0 {
      assert a + b == b;
      assert Flatten(a).value == [];
      assert Flatten(a).value + Flatten(b).value == Flatten(b).value;
    } else {
      var ab := a + b;
      assert ab[0] == a[0] && ab[1..] == a[1..] + b;
      FlattenCons(a);
      FlattenAppendValue(a[1..], b);
      FlattenCons(ab);
      Search.ConcatAssoc(Expand(a[0]).value, Flatten(a[1..]).value, Flatten(b).value);
    }
  }

  /** The first step of a non-empty list, expanded, then the rest. */
  lemma FlattenCons(s: seq<Obj>)
    requires |s| > 0
    ensures Flatten(s).Ok? <==> Expand(s[0]).Ok? && Flatten(s[1..]).Ok?
    ensures Flatten(s).Ok? ==> Flatten(s).value == Expand(s[0]).value + Flatten(s[1..]).value
  {
  }

  // ---- Matching installed steps ----

  predicate HasInstanceName(item: Item, name: Json) {
    item.Step? && Get(item.obj, "instanceName") == name
  }

  /** `next((s for s in prior if s.get("instanceName") == name), None)`: the
      index of the first installed step with that `instanceName`; the
      search raises on a non-dict it reaches first. */
  function FindMatch(prior: seq<Item>, name: Json, from: nat): (r: Result<Option<nat>, Failure>)
    requires from <= |prior|
    ensures r.Ok? && r.value.Some? ==> (from <= r.value.value < |prior| && HasInstanceName(prior[r.value.value], name)
      && forall j :: from <= j < r.value.value ==> prior[j].Step? && !HasInstanceName(prior[j], name))
    ensures r.Ok? && r.value.None? ==> forall j :: from <= j < |prior| ==> prior[j].Step? && !HasInstanceName(prior[j], name)
    ensures r.Err? ==> exists j :: from <= j < |prior| && prior[j].NotAStep?
    decreases |prior| - from
  {
    if from == |prior| then Ok(None)
    else if prior[from].NotAStep? then Err(Malformed(InstalledStepNotDict))
    else if HasInstanceName(prior[from], name) then Ok(Some(from))
    else FindMatch(prior, name, from + 1)
  }

  // ---- Step parameters ----

  predicate IsParam(p: Json, name: string) {
    p.JObj? && Get(p.fields, "name") == JStr(name)
  }

  /** The generator in `_get_step_parameter_by_name`: the index of the
      first parameter named `name` at or after `from`. */
  function ScanParams(ps: seq<Json>, name: string, from: nat): (r: Result<Option<nat>, Failure>)
    requires from <= |ps|
    ensures r.Ok? && r.value.Some? ==> (from <= r.value.value < |ps| && IsParam(ps[r.value.value], name)
      && forall j :: from <= j < r.value.value ==> ps[j].JObj? && !IsParam(ps[j], name))
    ensures r.Ok? && r.value.None? ==> forall j :: from <= j < |ps| ==> ps[j].JObj? && !IsParam(ps[j], name)
    ensures (forall j :: from <= j < |ps| ==> ps[j].JObj?) ==> r.Ok?
    decreases |ps| - from
  {
    if from == |ps| then Ok(None)
    else if !ps[from].JObj? then Err(Malformed(ParameterNotDict))
    else if IsParam(ps[from], name) then Ok(Some(from))
    else ScanParams(ps, name, from + 1)
  }

  /** The parameters `_get_step_parameter_by_name` searches: none unless
      `parameters` is a list. */
  function Params(step: Obj): seq<Json> {
    if "parameters" in step && step["parameters"].JList? then step["parameters"].items else []
  }

  function ParamIndex(step: Obj, name: string): Result<Option<nat>, Failure> {
    ScanParams(Params(step), name, 0)
  }

  /** `_get_step_parameter_by_name(step, name)`. */
  function GetParam(step: Obj, name: string): (r: Result<Option<Obj>, Failure>)
    ensures r.Ok? && r.value.Some? ==> JObj(r.value.value) in Params(step) && Get(r.value.value, "name") == JStr(name)
    ensures r.Ok? && r.value.None? ==> forall j :: 0 <= j < |Params(step)| ==> !IsParam(Params(step)[j], name)
  {
    var i :- ParamIndex(step, name);
    if i.Some? then Ok(Some(Params(step)[i.value].fields)) else Ok(None)
  }

  /** `_set_step_parameter_by_name(step, name, value)`: the parameter's
      `value` becomes `value`; a step without the parameter is unchanged. */
  function SetParam(step: Obj, name: string, value: Json): (r: Result<Obj, Failure>)
    ensures r.Ok? <==> GetParam(step, name).Ok?
    ensures r.Ok? ==> (r.value.Keys == step.Keys
      && forall k :: k in step && k != "parameters" ==> r.value[k] == step[k])
    ensures r.Ok? && GetParam(step, name).value.None? ==> r.value == step
    ensures r.Ok? && GetParam(step, name).value.Some? ==>
      GetParam(r.value, name) == Ok(Some(GetParam(step, name).value.value["value" := value]))
  {
    var i :- ParamIndex(step, name);
    if i.None? then Ok(step)
    else
      var ps := Params(step);
      var p := JObj(ps[i.value].fields["value" := value]);
      var r := step["parameters" := JList(ps[i.value := p])];
      assert Params(r) == ps[i.value := p];
      ScanUpdated(ps, name, 0, i.value, p);
      Ok(r)
  }

  lemma {:induction false} ScanUpdated(ps: seq<Json>, name: string, from: nat, i: nat, p: Json)
    requires from <= |ps| && ScanParams(ps, name, from) == Ok(Some(i))
    requires IsParam(p, name)
    ensures ScanParams(ps[i := p], name, from) == Ok(Some(i))
    decreases |ps| - from
  {
    if from < i {
      ScanUpdated(ps, name, from + 1, i, p);
    }
  }

  lemma {:induction false} ScanOther(ps: seq<Json>, name: string, other: string, from: nat, i: nat, p: Json)
    requires from <= |ps| && i < |ps| && IsParam(ps[i], name) && IsParam(p, name) && other != name
    ensures ScanParams(ps[i := p], other, from) == ScanParams(ps, other, from)
    decreases |ps| - from
  {
    if from < |ps| {
      ScanOther(ps, name, other, from + 1, i, p);
    }
  }

  /** Setting one parameter leaves what every other name finds unchanged. */
  lemma SetParamKeepsOthers(step: Obj, name: string, value: Json, other: string)
    requires SetParam(step, name, value).Ok? && other != name
    ensures GetParam(SetParam(step, name, value).value, other) == GetParam(step, other)
  {
    var i := ParamIndex(step, name).value;
    if i.Some? {
      var ps := Params(step);
      var p := JObj(ps[i.value].fields["value" := value]);
      assert Params(SetParam(step, name, value).value) == ps[i.value := p];
      ScanOther(ps, name, other, 0, i.value, p);
    }
  }

  // ---- Integration instances ----

  predicate ByName(a: Instance, b: Instance) {
    Strs.Le(a.instanceName, b.instanceName)
  }

  lemma ByNameTotalPreorder()
    ensures Sorting.TotalPreorder(ByName)
  {
    forall a: Instance, b: Instance
      ensures ByName(a, b) || ByName(b, a)
    {
      Strs.LeTotal(a.instanceName, b.instanceName);
    }
    forall a: Instance, b: Instance, c: Instance | ByName(a, b) && ByName(b, c)
      ensures ByName(a, c)
    {
      Strs.LeTransitive(a.instanceName, b.instanceName, c.instanceName);
    }
  }

  /** The configured instances of one integration, in listing order. */
  function Matching(all: seq<Instance>, integration: Json): (r: seq<Instance>)
    ensures forall x :: x in r <==> x in all && x.integrationIdentifier == integration && Truthy(x.isConfigured)
  {
    if |all| == 0 then []
    else
      var rest := Matching(all[1..], integration);
      assert forall x :: x in all <==> x == all[0] || x in all[1..];
      if all[0].integrationIdentifier == integration && Truthy(all[0].isConfigured) then [all[0]] + rest else rest
  }

  /** `_find_integration_instances_for_step`: no instances without an
      integration name; otherwise the environment's listing, fetched on
      first use and cached, filtered to configured instances of that
      integration and sorted by `instanceName`. */
  function FindInstances(instancesOf: string -> seq<Instance>, cache: map<string, seq<Instance>>,
                         integration: Json, env: string): (r: (seq<Instance>, map<string, seq<Instance>>))
    ensures !Truthy(integration) ==> r == ([], cache)
    ensures Truthy(integration) ==> (env in r.1 && r.1[env] == (if env in cache then cache[env] else instancesOf(env))
      && r.1 == cache[env := r.1[env]]
      && multiset(r.0) == multiset(Matching(r.1[env], integration))
      && Sorting.Sorted(r.0, ByName))
  {
    if !Truthy(integration) then ([], cache)
    else
      var all := if env in cache then cache[env] else instancesOf(env);
      var r := Sorting.SortBy(Matching(all, integration), ByName);
      ByNameTotalPreorder();
      Sorting.SortSorted(Matching(all, integration), ByName);
      (r, cache[env := all])
  }

  /** The instance the installer picks, `instances[0]`, is the first of the
      matching configured instances with the least `instanceName`. */
  lemma FirstInstance(instancesOf: string -> seq<Instance>, cache: map<string, seq<Instance>>,
                      integration: Json, env: string) returns (i: nat)
    requires |FindInstances(instancesOf, cache, integration, env).0| > 0
    ensures var r := FindInstances(instancesOf, cache, integration, env);
      Sorting.FirstMinimal(Matching(r.1[env], integration), i, ByName)
      && r.0[0] == Matching(r.1[env], integration)[i]
  {
    var r := FindInstances(instancesOf, cache, integration, env);
    ByNameTotalPreorder();
    i := Sorting.SortHeadIsFirstMinimal(Matching(r.1[env], integration), ByName);
  }

  // ---- Processing one step ----

  /** What `_process_steps` needs besides the step: the workflow's
      environments and identifier, the installed workflow (`None` for a new
      one) and its flattened steps, the installed-playbook listing by name,
      the instance listing per environment, a supply of fresh identifiers
      standing in for `uuid4`, and two constants of the platform
      definitions: the all-environments identifier and the block type. */
  datatype Ctx = Ctx(
    environments: seq<string>,
    allEnvironments: string,
    blockType: Json,
    listing: map<string, Listed>,
    instancesOf: string -> seq<Instance>,
    uuid: nat -> string,
    workflowId: Json,
    installed: Option<Obj>,
    oldSteps: seq<Item>)

  /** What processing threads from step to step: the prior-to-new identifier
      map, the instance listings fetched so far, and the next fresh id. */
  datatype StepState = StepState(mappings: map<Json, Json>, instances: map<string, seq<Instance>>, nextId: nat)

  /** Every recorded identifier change is from a non-empty identifier to a
      different non-empty one. */
  ghost predicate Renaming(m: map<Json, Json>) {
    forall k :: k in m ==> Truthy(k) && Truthy(m[k]) && k != m[k]
  }

  /** The installed step a step is matched with: the first one with the same
      `instanceName`, if it is a non-empty dict (an empty one is falsy and
      counts as no match). */
  function Existing(ctx: Ctx, step: Obj): (r: Result<Option<Obj>, Failure>)
    ensures r.Ok? && r.value.Some? ==> (|r.value.value| > 0 && Step(r.value.value) in ctx.oldSteps
      && Get(r.value.value, "instanceName") == Get(step, "instanceName"))
  {
    var i :- FindMatch(ctx.oldSteps, Get(step, "instanceName"), 0);
    if i.Some? && |ctx.oldSteps[i.value].obj| > 0 then Ok(Some(ctx.oldSteps[i.value].obj)) else Ok(None)
  }

  /** `key in d` on the value of `debugData`. */
  function HasKey(d: Json, key: string): (r: Result<bool, Failure>)
    ensures d.JObj? ==> r == Ok(key in d.fields)
  {
    match d
    case JObj(m) => Ok(key in m)
    case JStr(s) => Ok(Strs.Contains(s, key))
    case JList(xs) => Ok(JStr(key) in xs)
    case _ => Err(Malformed(DebugDataNotContainer))
  }

  /** `d[key] = value`, which only a dict supports. */
  function SetKey(d: Json, key: string, value: Json): (r: Result<Json, Failure>)
    ensures r.Ok? <==> d.JObj?
    ensures r.Ok? ==> r.value == JObj(d.fields[key := value])
  {
    if d.JObj? then Ok(JObj(d.fields[key := value])) else Err(Malformed(DebugDataNotDict))
  }

  /** The `debugData` update of a matched step: its original step
      identifier, and (when there is an installed workflow) its original
      workflow identifier, are taken over where present. */
  function PatchDebugData(step: Obj, origStep: Json, installed: Option<Obj>): (r: Result<Obj, Failure>)
    ensures r.Ok? ==> r.value.Keys == step.Keys && forall k :: k in step && k != "debugData" ==> r.value[k] == step[k]
    ensures r.Ok? && Get(step, "debugData").JObj? && Truthy(Get(step, "debugData")) ==>
      "debugData" in r.value && r.value["debugData"].JObj?
    ensures r.Ok? && Get(step, "debugData").JObj? && Truthy(Get(step, "debugData")) ==>
      var d := Get(step, "debugData").fields;
      var e := r.value["debugData"].fields;
      e.Keys == d.Keys
      && ("originalStepIdentifier" in d ==> e["originalStepIdentifier"] == origStep)
      && ("originalWorkflowIdentifier" in d ==>
            e["originalWorkflowIdentifier"] == if installed.Some? then Get(installed.value, "originalPlaybookIdentifier") else d["originalWorkflowIdentifier"])
      && (forall k :: k in d && k != "originalStepIdentifier" && k != "originalWorkflowIdentifier" ==> e[k] == d[k])
    ensures !Truthy(Get(step, "debugData")) ==> r == Ok(step)
  {
    var d := Get(step, "debugData");
    if !Truthy(d) then Ok(step)
    else
      var has1 :- HasKey(d, "originalStepIdentifier");
      var d1 :- if has1 then SetKey(d, "originalStepIdentifier", origStep) else Ok(d);
      var has2 :- HasKey(d1, "originalWorkflowIdentifier");
      var d2 :- if has2 && installed.Some? then SetKey(d1, "originalWorkflowIdentifier", Get(installed.value, "originalPlaybookIdentifier")) else Ok(d1);
      Ok(step["debugData" := d2])
  }

  /** The identifier part of `_process_steps` for one step. A matched step
      takes the installed step's `identifier` and `originalStepIdentifier`,
      and a change between two non-empty identifiers is recorded. An
      unmatched step gets a fresh identifier when it has none or the
      workflow is new, and keeps its own otherwise. */
  function Identify(ctx: Ctx, st: StepState, step: Obj, existing: Option<Obj>): (r: Result<(Obj, StepState), Failure>)
    ensures r.Ok? ==> r.value.1.instances == st.instances
    ensures Renaming(st.mappings) && r.Ok? ==> Renaming(r.value.1.mappings)
    ensures r.Ok? ==> KeptBesides(step, r.value.0, IdentityKeys())
    ensures r.Ok? && existing.Some? ==> (
      var e := existing.value;
      var before := Get(step, "identifier");
      var after := Get(e, "identifier");
      r.value.0.Keys == step.Keys + {"identifier", "originalStepIdentifier"}
      && r.value.0["identifier"] == after
      && r.value.0["originalStepIdentifier"] == Get(e, "originalStepIdentifier")
      && (forall k :: k in step && k !in {"identifier", "originalStepIdentifier", "debugData"} ==> r.value.0[k] == step[k])
      && r.value.1.nextId == st.nextId
      && r.value.1.mappings == if Truthy(before) && Truthy(after) && before != after
                               then st.mappings[before := after] else st.mappings)
    ensures existing.Some? && Renamed(step, existing.value) && !Hashable(Get(step, "identifier")) ==>
      r == Err(Malformed(UnhashableIdentifier))
    ensures existing.None? ==> r.Ok? && r.value.1.mappings == st.mappings
    ensures existing.None? && (!Truthy(Get(step, "identifier")) || ctx.installed.None?) ==>
      r.Ok? && r.value == (step["identifier" := JStr(ctx.uuid(st.nextId))], st.(nextId := st.nextId + 1))
    ensures existing.None? && Truthy(Get(step, "identifier")) && ctx.installed.Some? ==> r == Ok((step, st))
  {
    match existing
    case Some(e) => Adopt(ctx, st, step, e)
    case None =>
      if !Truthy(Get(step, "identifier")) || ctx.installed.None? then
        Ok((step["identifier" := JStr(ctx.uuid(st.nextId))], st.(nextId := st.nextId + 1)))
      else Ok((step, st))
  }

  /** A matched step whose own identifier and the installed one are both
      non-empty and differ: the change is recorded, keyed by the step's own. */
  predicate Renamed(step: Obj, e: Obj) {
    Truthy(Get(step, "identifier")) && Truthy(Get(e, "identifier")) && Get(step, "identifier") != Get(e, "identifier")
  }

  /** The matched branch of `Identify`: the step takes the installed step
      `e`'s identifiers, and a change between two non-empty identifiers is
      recorded; recording raises TypeError when the step's identifier is a
      list or a dict. */
  function Adopt(ctx: Ctx, st: StepState, step: Obj, e: Obj): (r: Result<(Obj, StepState), Failure>)
    ensures r.Ok? ==> r.value.1.instances == st.instances
    ensures Renaming(st.mappings) && r.Ok? ==> Renaming(r.value.1.mappings)
    ensures r.Ok? ==> KeptBesides(step, r.value.0, IdentityKeys())
    ensures r.Ok? ==> (
      var before := Get(step, "identifier");
      var after := Get(e, "identifier");
      r.value.0.Keys == step.Keys + {"identifier", "originalStepIdentifier"}
      && r.value.0["identifier"] == after
      && r.value.0["originalStepIdentifier"] == Get(e, "originalStepIdentifier")
      && (forall k :: k in step && k !in {"identifier", "originalStepIdentifier", "debugData"} ==> r.value.0[k] == step[k])
      && r.value.1.nextId == st.nextId
      && r.value.1.mappings == if Truthy(before) && Truthy(after) && before != after
                               then st.mappings[before := after] else st.mappings)
    ensures Renamed(step, e) && !Hashable(Get(step, "identifier")) ==> r == Err(Malformed(UnhashableIdentifier))
  {
    var before := Get(step, "identifier");
    var after := Get(e, "identifier");
    if Renamed(step, e) && !Hashable(before) then Err(Malformed(UnhashableIdentifier))
    else
      var m := if Renamed(step, e) then st.mappings[before := after] else st.mappings;
      var origStep := Get(e, "originalStepIdentifier");
      var s1 := step["identifier" := after]["originalStepIdentifier" := origStep];
      assert s1.Keys == step.Keys + {"identifier", "originalStepIdentifier"};
      assert forall k :: k in step && k !in IdentityKeys() ==> s1[k] == step[k];
      assert Renaming(st.mappings) ==> Renaming(m);
      var s2 :- PatchDebugData(s1, origStep, ctx.installed);
      Ok((s2, st.(mappings := m)))
  }

  /** Copies a parameter's `value` from the matched installed step when the
      installed parameter has one. */
  function Preserve(step: Obj, existing: Obj, name: string): (r: Result<Obj, Failure>)
    ensures r.Ok? ==> (r.value.Keys == step.Keys
      && forall k :: k in step && k != "parameters" ==> r.value[k] == step[k])
    ensures r.Ok? ==> GetParam(existing, name).Ok?
    ensures r.Ok? && GetParam(existing, name).value.Some? && "value" in GetParam(existing, name).value.value ==>
      r == SetParam(step, name, GetParam(existing, name).value.value["value"])
    ensures r.Ok? && !(GetParam(existing, name).value.Some? && "value" in GetParam(existing, name).value.value) ==>
      r.value == step
  {
    var p :- GetParam(existing, name);
    if p.Some? && "value" in p.value then SetParam(step, name, p.value["value"]) else Ok(step)
  }

  /** The first instance's `identifier`, or `None` when there is none. */
  function FirstIdentifier(instances: seq<Instance>): Json {
    if |instances| > 0 then instances[0].identifier else JNull
  }

  /** `_assign_integration_instance_to_step`. A matched step keeps the
      installed `IntegrationInstance` and `FallbackIntegrationInstance`.
      Otherwise a single specific environment gets the first configured
      instance of the step's integration in that environment, with no
      fallback; any other environment list gets "AutomaticEnvironment" with
      the first shared instance as fallback. */
  function AssignInstance(ctx: Ctx, st: StepState, step: Obj, existing: Option<Obj>): (r: Result<(Obj, StepState), Failure>)
    ensures r.Ok? ==> (r.value.0.Keys == step.Keys
      && (forall k :: k in step && k != "parameters" ==> r.value.0[k] == step[k])
      && r.value.1.mappings == st.mappings && r.value.1.nextId == st.nextId)
    ensures r.Ok? && existing.Some? ==> (r.value.1 == st
      && exists s1 :: Preserve(step, existing.value, "IntegrationInstance") == Ok(s1)
           && Preserve(s1, existing.value, "FallbackIntegrationInstance") == Ok(r.value.0))
    ensures r.Ok? && existing.None? && |ctx.environments| == 1 && ctx.environments[0] != ctx.allEnvironments ==> (
      var found := FindInstances(ctx.instancesOf, st.instances, Get(step, "integration"), ctx.environments[0]);
      r.value.1.instances == found.1
      && exists s1 :: SetParam(step, "IntegrationInstance", FirstIdentifier(found.0)) == Ok(s1)
           && SetParam(s1, "FallbackIntegrationInstance", JNull) == Ok(r.value.0))
    ensures r.Ok? && existing.None? && !(|ctx.environments| == 1 && ctx.environments[0] != ctx.allEnvironments) ==> (
      var shared := FindInstances(ctx.instancesOf, st.instances, Get(step, "integration"), ctx.allEnvironments);
      r.value.1.instances == shared.1
      && exists s1 :: SetParam(step, "IntegrationInstance", JStr("AutomaticEnvironment")) == Ok(s1)
           && SetParam(s1, "FallbackIntegrationInstance", FirstIdentifier(shared.0)) == Ok(r.value.0))
  {
    if existing.Some? then
      var s1 :- Preserve(step, existing.value, "IntegrationInstance");
      var s2 :- Preserve(s1, existing.value, "FallbackIntegrationInstance");
      Ok((s2, st))
    else if |ctx.environments| == 1 && ctx.environments[0] != ctx.allEnvironments then
      var found := FindInstances(ctx.instancesOf, st.instances, Get(step, "integration"), ctx.environments[0]);
      var s1 :- SetParam(step, "IntegrationInstance", FirstIdentifier(found.0));
      var s2 :- SetParam(s1, "FallbackIntegrationInstance", JNull);
      Ok((s2, st.(instances := found.1)))
    else
      var shared := FindInstances(ctx.instancesOf, st.instances, Get(step, "integration"), ctx.allEnvironments);
      var s1 :- SetParam(step, "IntegrationInstance", JStr("AutomaticEnvironment"));
      var s2 :- SetParam(s1, "FallbackIntegrationInstance", FirstIdentifier(shared.0));
      Ok((s2, st.(instances := shared.1)))
  }

  /** `_link_nested_block_step`: a nested-workflow step named after an
      installed block points its `NestedWorkflowIdentifier` parameter at
      that block. A name that is a list or dict cannot be looked up. */
  function LinkBlock(ctx: Ctx, step: Obj): (r: Result<Obj, Failure>)
    ensures r.Ok? ==> (r.value.Keys == step.Keys
      && forall k :: k in step && k != "parameters" ==> r.value[k] == step[k])
    ensures (match Get(step, "name")
             case JStr(n) => n in ctx.listing && ctx.listing[n].playbookType == ctx.blockType
             case _ => false) ==>
      r == SetParam(step, "NestedWorkflowIdentifier", ctx.listing[Get(step, "name").s].identifier)
    ensures !(match Get(step, "name")
              case JStr(n) => n in ctx.listing && ctx.listing[n].playbookType == ctx.blockType
              case _ => false) ==>
      r == (if Get(step, "name").JList? || Get(step, "name").JObj? then Err(Malformed(UnhashableBlockName)) else Ok(step))
  {
    match Get(step, "name")
    case JStr(n) =>
      if n in ctx.listing && ctx.listing[n].playbookType == ctx.blockType then
        SetParam(step, "NestedWorkflowIdentifier", ctx.listing[n].identifier)
      else Ok(step)
    case JList(_) => Err(Malformed(UnhashableBlockName))
    case JObj(_) => Err(Malformed(UnhashableBlockName))
    case _ => Ok(step)
  }

  /** The keys processing may write: everything else in a step is kept. */
  function Touched(): set<string> {
    {"workflowIdentifier", "identifier", "originalStepIdentifier", "debugData", "parameters"}
  }

  ghost predicate Stamped(step: Obj, workflowId: Json) {
    "workflowIdentifier" in step && step["workflowIdentifier"] == workflowId
  }

  /** `after` is `before` processed: stamped, and unchanged outside the
      keys processing writes. */
  ghost predicate Processed(before: Obj, after: Obj, workflowId: Json) {
    Stamped(after, workflowId)
    && after.Keys <= before.Keys + Touched()
    && forall k :: k in before && k !in Touched() ==> k in after && after[k] == before[k]
  }

  /** One iteration of the loop in `_process_steps`: the step is stamped
      with the workflow's identifier, matched, identified, and then given
      integration instances (an action step, type 0 from "Scripts") or a
      block link (a nested workflow, type 5). */
  function ProcessStep(ctx: Ctx, st: StepState, step: Obj): (r: Result<(Obj, StepState), Failure>)
    ensures r.Ok? ==> Processed(step, r.value.0, ctx.workflowId)
    ensures r.Ok? ==> r.value.1.nextId >= st.nextId
    ensures Renaming(st.mappings) && r.Ok? ==> Renaming(r.value.1.mappings)
  {
    var s1 := step["workflowIdentifier" := ctx.workflowId];
    assert Get(s1, "instanceName") == Get(step, "instanceName");
    var existing :- Existing(ctx, s1);
    var id :- Identify(ctx, st, s1, existing);
    var out :- Decorate(ctx, id.1, id.0, existing, Get(step, "type"), Get(step, "actionProvider"));
    StampThenKeep(step, ctx.workflowId, id.0, out.0);
    Ok(out)
  }

  /** The keys `Identify` may write. */
  function IdentityKeys(): set<string> {
    {"identifier", "originalStepIdentifier", "debugData"}
  }

  /** `after` has at most `keys` more than `before`, and agrees with it
      outside `keys`. */
  ghost predicate KeptBesides(before: Obj, after: Obj, keys: set<string>) {
    after.Keys <= before.Keys + keys
    && forall k :: k in before && k !in keys ==> k in after && after[k] == before[k]
  }

  /** Stamping, identifying and then decorating a step processes it. */
  lemma StampThenKeep(step: Obj, workflowId: Json, identified: Obj, out: Obj)
    requires KeptBesides(step["workflowIdentifier" := workflowId], identified, IdentityKeys())
    requires KeptBesides(identified, out, {"parameters"})
    ensures Processed(step, out, workflowId)
  {
    StampNotOverwritten();
    assert Touched() == {"workflowIdentifier"} + IdentityKeys() + {"parameters"};
  }

  lemma StampNotOverwritten()
    ensures "workflowIdentifier" !in IdentityKeys() && "workflowIdentifier" != "parameters"
  {
    assert "workflowIdentifier"[0] != "identifier"[0] && "workflowIdentifier"[0] != "originalStepIdentifier"[0];
    assert "workflowIdentifier"[0] != "debugData"[0] && "workflowIdentifier"[0] != "parameters"[0];
  }

  /** The last part of a loop iteration: an action step (type 0 from
      "Scripts") gets integration instances, a nested workflow (type 5) its
      block link; only parameters change. */
  function Decorate(ctx: Ctx, st: StepState, step: Obj, existing: Option<Obj>, kind: Json, provider: Json): (r: Result<(Obj, StepState), Failure>)
    ensures r.Ok? ==> (r.value.1.mappings == st.mappings && r.value.1.nextId == st.nextId
      && r.value.0.Keys == step.Keys
      && forall k :: k in step && k != "parameters" ==> r.value.0[k] == step[k])
    ensures r.Ok? ==> KeptBesides(step, r.value.0, {"parameters"})
    ensures !(EqInt(kind, 0) && provider == JStr("Scripts")) && !EqInt(kind, 5) ==> r == Ok((step, st))
  {
    if EqInt(kind, 0) && provider == JStr("Scripts") then AssignInstance(ctx, st, step, existing)
    else if EqInt(kind, 5) then
      var s3 :- LinkBlock(ctx, step);
      Ok((s3, st))
    else Ok((step, st))
  }

  /** Each step of `after` is the step of `before` at the same place,
      processed. */
  ghost predicate AllProcessed(before: seq<Obj>, after: seq<Obj>, workflowId: Json) {
    |after| == |before| && forall i :: 0 <= i < |before| ==> Processed(before[i], after[i], workflowId)
  }

  lemma AllProcessedCons(steps: seq<Obj>, a: Obj, done: seq<Obj>, workflowId: Json)
    requires |steps| > 0 && Processed(steps[0], a, workflowId) && AllProcessed(steps[1..], done, workflowId)
    ensures AllProcessed(steps, [a] + done, workflowId)
  {
    assert forall i :: 0 < i < |steps| ==> steps[i] == steps[1..][i - 1] && ([a] + done)[i] == done[i - 1];
  }

  /** The loop of `_process_steps` over a list of steps, in order. */
  function ProcessFlat(ctx: Ctx, st: StepState, steps: seq<Obj>): (r: Result<(seq<Obj>, StepState), Failure>)
    decreases |steps|
    ensures r.Ok? ==> AllProcessed(steps, r.value.0, ctx.workflowId)
    ensures r.Ok? ==> r.value.1.nextId >= st.nextId
    ensures Renaming(st.mappings) && r.Ok? ==> Renaming(r.value.1.mappings)
  {
    if |steps| == 0 then Ok(([], st))
    else
      var first :- ProcessStep(ctx, st, steps[0]);
      var rest :- ProcessFlat(ctx, first.1, steps[1..]);
      AllProcessedCons(steps, first.0, rest.0, ctx.workflowId);
      Ok(([first.0] + rest.0, rest.1))
  }

  function Objects(steps: seq<Obj>): (r: seq<Json>)
    ensures |r| == |steps| && forall i :: 0 <= i < |steps| ==> r[i] == JObj(steps[i])
  {
    seq(|steps|, i requires 0 <= i < |steps| => JObj(steps[i]))
  }

  /** A processed top-level step: it is stamped, and so is every parallel
      action of a container. */
  ghost predicate StampedTree(step: Obj, workflowId: Json) {
    Stamped(step, workflowId)
    && (IsContainer(step) && "parallelActions" in step && step["parallelActions"].JList? ==>
          forall j :: 0 <= j < |step["parallelActions"].items| ==>
            step["parallelActions"].items[j].JObj? && Stamped(step["parallelActions"].items[j].fields, workflowId))
  }

  /** `after` is the top-level step `before` processed: stamped with its
      parallel actions, and unchanged outside the keys processing writes
      (a container's parallel actions are rewritten as well). */
  ghost predicate TopProcessed(before: Obj, after: Obj, workflowId: Json) {
    StampedTree(after, workflowId)
    && forall k :: k in before && k !in Touched() && k != "parallelActions" ==> k in after && after[k] == before[k]
  }

  /** A top-level step in flattening order: a container's parallel actions
      first (all of them must be dicts), then the container itself. */
  function ProcessTop(ctx: Ctx, st: StepState, t: Obj): (r: Result<(Obj, StepState), Failure>)
    ensures r.Ok? ==> TopProcessed(t, r.value.0, ctx.workflowId)
    ensures r.Ok? ==> r.value.1.nextId >= st.nextId
    ensures Renaming(st.mappings) && r.Ok? ==> Renaming(r.value.1.mappings)
  {
    if IsContainer(t) then
      var items :- Children(t);
      var kids :- AllSteps(items);
      var k :- ProcessFlat(ctx, st, kids);
      var t1 := if "parallelActions" in t && t["parallelActions"].JList? then t["parallelActions" := JList(Objects(k.0))] else t;
      var r :- ProcessStep(ctx, k.1, t1);
      ContainerProcessed(t, t1, kids, k.0, r.0, ctx.workflowId);
      Ok(r)
    else
      var r :- ProcessStep(ctx, st, t);
      PlainProcessed(t, r.0, ctx.workflowId);
      Ok(r)
  }

  lemma PlainProcessed(t: Obj, after: Obj, workflowId: Json)
    requires !IsContainer(t) && Processed(t, after, workflowId)
    ensures TopProcessed(t, after, workflowId)
  {
    assert Get(after, "actionProvider") == Get(t, "actionProvider");
  }

  lemma ContainerProcessed(t: Obj, t1: Obj, kids: seq<Obj>, done: seq<Obj>, after: Obj, workflowId: Json)
    requires IsContainer(t) && |done| == |kids|
    requires t1 == if "parallelActions" in t && t["parallelActions"].JList? then t["parallelActions" := JList(Objects(done))] else t
    requires AllProcessed(kids, done, workflowId)
    requires Processed(t1, after, workflowId)
    ensures TopProcessed(t, after, workflowId)
  {
    assert Get(after, "actionProvider") == Get(t, "actionProvider");
    if "parallelActions" in after && after["parallelActions"].JList? {
      assert "parallelActions" in t1 && after["parallelActions"] == t1["parallelActions"];
      if "parallelActions" in t && t["parallelActions"].JList? {
        var items := after["parallelActions"].items;
        assert items == Objects(done);
        forall j | 0 <= j < |items|
          ensures items[j].JObj? && Stamped(items[j].fields, workflowId)
        {
          assert items[j] == JObj(done[j]);
        }
      } else {
        assert false;
      }
    }
  }

  /** Each step of `after` is the top-level step of `before` at the same
      place, processed. */
  ghost predicate AllTopProcessed(before: seq<Obj>, after: seq<Obj>, workflowId: Json) {
    |after| == |before| && forall i :: 0 <= i < |before| ==> TopProcessed(before[i], after[i], workflowId)
  }

  lemma AllTopProcessedCons(steps: seq<Obj>, a: Obj, done: seq<Obj>, workflowId: Json)
    requires |steps| > 0 && TopProcessed(steps[0], a, workflowId) && AllTopProcessed(steps[1..], done, workflowId)
    ensures AllTopProcessed(steps, [a] + done, workflowId)
  {
    assert forall i :: 0 < i < |steps| ==> steps[i] == steps[1..][i - 1] && ([a] + done)[i] == done[i - 1];
  }

  /** The top-level steps in order. */
  function ProcessTops(ctx: Ctx, st: StepState, steps: seq<Obj>): (r: Result<(seq<Obj>, StepState), Failure>)
    decreases |steps|
    ensures r.Ok? ==> AllTopProcessed(steps, r.value.0, ctx.workflowId)
    ensures r.Ok? ==> r.value.1.nextId >= st.nextId
    ensures Renaming(st.mappings) && r.Ok? ==> Renaming(r.value.1.mappings)
  {
    if |steps| == 0 then Ok(([], st))
    else
      var first :- ProcessTop(ctx, st, steps[0]);
      var rest :- ProcessTops(ctx, first.1, steps[1..]);
      AllTopProcessedCons(steps, first.0, rest.0, ctx.workflowId);
      Ok(([first.0] + rest.0, rest.1))
  }

  /** The relation patch at the end of `_process_steps`: `fromStep` and
      `toStep` are each replaced by their new identifier when they name a
      changed one, once, without following chains. */
  function RenameEnds(rel: Obj, m: map<Json, Json>): (r: Obj)
    requires Renaming(m)
    ensures r.Keys == rel.Keys
    ensures forall k :: k in rel && k != "fromStep" && k != "toStep" ==> r[k] == rel[k]
    ensures "fromStep" in rel ==> r["fromStep"] == if rel["fromStep"] in m then m[rel["fromStep"]] else rel["fromStep"]
    ensures "toStep" in rel ==> r["toStep"] == if rel["toStep"] in m then m[rel["toStep"]] else rel["toStep"]
  {
    var from := Get(rel, "fromStep");
    var r1 := if from in m then rel["fromStep" := m[from]] else rel;
    var to := Get(r1, "toStep");
    if to in m then r1["toStep" := m[to]] else r1
  }

  /** Both ends can be looked up in the identifier map. */
  predicate EndsHashable(rel: Obj) {
    Hashable(Get(rel, "fromStep")) && Hashable(Get(rel, "toStep"))
  }

  /** One relation of the patch: looking an end up in the identifier map
      raises TypeError when the end is a list or a dict, even when nothing
      was renamed. */
  function RewriteRelation(rel: Obj, m: map<Json, Json>): (r: Result<Obj, Failure>)
    requires Renaming(m)
    ensures r.Ok? <==> EndsHashable(rel)
    ensures r.Err? ==> r == Err(Malformed(UnhashableRelationEnd))
    ensures r.Ok? ==> r.value == RenameEnds(rel, m)
  {
    if !Hashable(Get(rel, "fromStep")) then Err(Malformed(UnhashableRelationEnd))
    else
      var from := Get(rel, "fromStep");
      var r1 := if from in m then rel["fromStep" := m[from]] else rel;
      if !Hashable(Get(r1, "toStep")) then Err(Malformed(UnhashableRelationEnd))
      else Ok(RenameEnds(rel, m))
  }

  /** An element the patch can rewrite: a dict with hashable ends. */
  predicate Rewritable(item: Item) {
    item.Step? && EndsHashable(item.obj)
  }

  /** The patch loop over the relations, in order: the first element that is
      not a dict, or has an unhashable end, stops it with the error that
      element raises. */
  function RewriteAll(items: seq<Item>, m: map<Json, Json>): (r: Result<seq<Json>, Failure>)
    requires Renaming(m)
    ensures r.Ok? <==> forall i :: 0 <= i < |items| ==> Rewritable(items[i])
    ensures r.Ok? ==> |r.value| == |items| && forall i :: 0 <= i < |items| ==> r.value[i] == JObj(RenameEnds(items[i].obj, m))
    ensures r.Err? ==> exists i :: (0 <= i < |items| && !Rewritable(items[i])
      && (forall j :: 0 <= j < i ==> Rewritable(items[j]))
      && r.error == Malformed(if items[i].NotAStep? then StepNotDict else UnhashableRelationEnd))
  {
    if |items| == 0 then Ok([])
    else if items[0].NotAStep? then Err(Malformed(StepNotDict))
    else
      match RewriteRelation(items[0].obj, m)
      case Err(e) => Err(e)
      case Ok(rel) =>
        var rest := RewriteAll(items[1..], m);
        assert forall i :: 1 <= i < |items| ==> items[i] == items[1..][i - 1];
        if rest.Err? then
          RewriteAllShift(items, rest.error);
          Err(rest.error)
        else Ok([JObj(rel)] + rest.value)
  }

  /** A relation none of whose ends names a changed identifier is left as
      it is. */
  lemma RewriteUnmapped(rel: Obj, m: map<Json, Json>)
    requires Renaming(m) && Get(rel, "fromStep") !in m && Get(rel, "toStep") !in m
    ensures RenameEnds(rel, m) == rel
  {
  }

  /** Under a renaming, an end changes exactly when it names a changed
      identifier, and it never becomes empty. */
  lemma RewriteChangesMappedEnds(rel: Obj, m: map<Json, Json>, end: string)
    requires Renaming(m) && (end == "fromStep" || end == "toStep") && end in rel
    ensures RenameEnds(rel, m)[end] != rel[end] <==> rel[end] in m
    ensures Truthy(rel[end]) ==> Truthy(RenameEnds(rel, m)[end])
  {
  }

  /** The first failing element of the tail is the first failing one of
      the whole list when the head does not fail. */
  lemma RewriteAllShift(items: seq<Item>, e: Failure)
    requires |items| > 0 && Rewritable(items[0])
    requires exists i :: (0 <= i < |items[1..]| && !Rewritable(items[1..][i])
      && (forall j :: 0 <= j < i ==> Rewritable(items[1..][j]))
      && e == Malformed(if items[1..][i].NotAStep? then StepNotDict else UnhashableRelationEnd))
    ensures exists i :: (0 <= i < |items| && !Rewritable(items[i])
      && (forall j :: 0 <= j < i ==> Rewritable(items[j]))
      && e == Malformed(if items[i].NotAStep? then StepNotDict else UnhashableRelationEnd))
  {
    var i :| 0 <= i < |items[1..]| && !Rewritable(items[1..][i])
      && (forall j :: 0 <= j < i ==> Rewritable(items[1..][j]))
      && e == Malformed(if items[1..][i].NotAStep? then StepNotDict else UnhashableRelationEnd);
    assert items[i + 1] == items[1..][i];
    assert forall j :: 1 <= j < i + 1 ==> items[j] == items[1..][j - 1];
  }

  /** `_process_steps` on a workflow payload: its steps are processed in
      flattening order and written back, then its relations are rewritten
      through the identifier changes recorded on the way. */
  function ProcessSteps(ctx: Ctx, st: StepState, raw: Obj): (r: Result<(Obj, StepState), Failure>)
    requires Renaming(st.mappings)
    ensures r.Ok? ==> Renaming(r.value.1.mappings) && r.value.1.nextId >= st.nextId
    ensures r.Ok? ==> (r.value.0.Keys == raw.Keys
      && forall k :: k in raw && k != "steps" && k != "stepsRelations" ==> r.value.0[k] == raw[k])
    ensures r.Ok? && "steps" in raw && Truthy(raw["steps"]) ==> StepsProcessed(raw["steps"], r.value.0["steps"], ctx.workflowId)
    ensures r.Ok? && "steps" in raw && !Truthy(raw["steps"]) ==> r.value.0["steps"] == raw["steps"]
    ensures r.Ok? && "stepsRelations" in raw ==> RelationsRewritten(raw["stepsRelations"], r.value.0["stepsRelations"], r.value.1.mappings)
  {
    var p :- RewriteSteps(ctx, st, raw);
    RelationsKeyDiffers();
    var raw2 :- RewriteRelations(p.0, p.1.mappings);
    Ok((raw2, p.1))
  }

  /** What the processing promises of the `steps` list: a list of dicts of
      the same length, each one processed. */
  ghost predicate StepsProcessed(before: Json, after: Json, workflowId: Json) {
    before.JList? && after.JList? && |after.items| == |before.items|
    && forall i :: 0 <= i < |after.items| ==> (after.items[i].JObj? && before.items[i].JObj?
         && TopProcessed(before.items[i].fields, after.items[i].fields, workflowId))
  }

  /** What the processing promises of `stepsRelations`: a list of dicts
      has every relation's endpoints renamed; anything else is left alone. */
  ghost predicate RelationsRewritten(before: Json, after: Json, mappings: map<Json, Json>)
    requires Renaming(mappings)
  {
    if before.JList? then
      after.JList? && |after.items| == |before.items|
      && forall i :: 0 <= i < |after.items| ==> (before.items[i].JObj?
           && after.items[i] == JObj(RenameEnds(before.items[i].fields, mappings)))
    else after == before
  }

  lemma RelationsKeyDiffers()
    ensures "steps" != "stepsRelations"
  {
    assert |"steps"| != |"stepsRelations"|;
  }

  /** The first half of `_process_steps`: every top-level step processed
      in order, the list replaced only when it is truthy. */
  function RewriteSteps(ctx: Ctx, st: StepState, raw: Obj): (r: Result<(Obj, StepState), Failure>)
    requires Renaming(st.mappings)
    ensures r.Ok? ==> Renaming(r.value.1.mappings) && r.value.1.nextId >= st.nextId
    ensures r.Ok? ==> (r.value.0.Keys == raw.Keys
      && forall k :: k in raw && k != "steps" ==> r.value.0[k] == raw[k])
    ensures r.Ok? && "steps" in raw && Truthy(raw["steps"]) ==> StepsProcessed(raw["steps"], r.value.0["steps"], ctx.workflowId)
    ensures r.Ok? && "steps" in raw && !Truthy(raw["steps"]) ==> r.value.0["steps"] == raw["steps"]
  {
    var stepsVal := GetOr(raw, "steps", JList([]));
    var top :- StepList(stepsVal);
    var p :- ProcessTops(ctx, st, top);
    var raw1 := if Truthy(stepsVal) then raw["steps" := JList(Objects(p.0))] else raw;
    Ok((raw1, p.1))
  }

  /** The second half: every relation rewritten with the identifier
      renaming the steps produced. */
  function RewriteRelations(raw: Obj, mappings: map<Json, Json>): (r: Result<Obj, Failure>)
    requires Renaming(mappings)
    ensures r.Ok? ==> (r.value.Keys == raw.Keys
      && forall k :: k in raw && k != "stepsRelations" ==> r.value[k] == raw[k])
    ensures r.Ok? && "stepsRelations" in raw ==> RelationsRewritten(raw["stepsRelations"], r.value["stepsRelations"], mappings)
    ensures "stepsRelations" !in raw ==> r == Ok(raw)
    ensures "stepsRelations" in raw && raw["stepsRelations"].JList? ==>
      var rels := raw["stepsRelations"].items;
      (r.Ok? <==> forall i :: 0 <= i < |rels| ==> rels[i].JObj? && EndsHashable(rels[i].fields))
  {
    var relsVal := GetOr(raw, "stepsRelations", JList([]));
    var items :- Iterate(relsVal);
    var rewritten :- RewriteAll(items, mappings);
    Ok(if "stepsRelations" in raw && relsVal.JList? then raw["stepsRelations" := JList(rewritten)] else raw)
  }

}

=== FILE: sorting.dfy ===
/** Insertion sort with a caller-supplied ordering, standing in for Python's
    `sorted(xs, key=...)`. Like Python's sort it is stable: an element is
    placed before the elements it ties with that came after it. */
module Sorting {

  /** Places `x` before the first element of `ys` it is not after. */
  function Insert<T(==)>(x: T, ys: seq<T>, le: (T, T) -> bool): (r: seq<T>)
    ensures |r| == |ys| + 1
    ensures multiset(r) == multiset(ys) + multiset{x}
  {
    if |ys| == 0 || le(x, ys[0]) then [x] + ys
    else
      assert ys == [ys[0]] + ys[1..];
      [ys[0]] + Insert(x, ys[1..], le)
  }

  function SortBy<T(==)>(xs: seq<T>, le: (T, T) -> bool): (r: seq<T>)
    ensures |r| == |xs|
    ensures multiset(r) == multiset(xs)
  {
    if |xs| == 0 then []
    else
      assert xs == [xs[0]] + xs[1..];
      Insert(xs[0], SortBy(xs[1..], le), le)
  }

  ghost predicate Sorted<T>(xs: seq<T>, le: (T, T) -> bool) {
    forall i, j :: 0 <= i < j < |xs| ==> le(xs[i], xs[j])
  }

  ghost predicate TotalPreorder<T(!new)>(le: (T, T) -> bool) {
    (forall a, b :: le(a, b) || le(b, a))
    && (forall a, b, c :: le(a, b) && le(b, c) ==> le(a, c))
  }

  lemma {:induction false} InsertSorted<T(!new)>(x: T, ys: seq<T>, le: (T, T) -> bool)
    requires TotalPreorder(le) && Sorted(ys, le)
    ensures Sorted(Insert(x, ys, le), le)
    decreases |ys|
  {
    if |ys| > 0 && !le(x, ys[0]) {
      var tail := ys[1..];
      assert Sorted(tail, le);
      InsertSorted(x, tail, le);
      var it := Insert(x, tail, le);
      var r := [ys[0]] + it;
      forall j | 0 < j < |r|
        ensures le(ys[0], r[j])
      {
        assert r[j] in multiset(it);
        assert r[j] == x || r[j] in tail;
      }
      forall i, j | 0 <= i < j < |r|
        ensures le(r[i], r[j])
      {
        if i > 0 {
          assert r[i] == it[i - 1] && r[j] == it[j - 1];
        }
      }
    }
  }

  lemma {:induction false} SortSorted<T(!new)>(xs: seq<T>, le: (T, T) -> bool)
    requires TotalPreorder(le)
    ensures Sorted(SortBy(xs, le), le)
  {
    if |xs| > 0 {
      SortSorted(xs[1..], le);
      InsertSorted(xs[0], SortBy(xs[1..], le), le);
    }
  }

  /** A list already in order is left as it is, so `xs == sorted(xs)`
      holds exactly for the lists already in order. */
  lemma {:induction false} SortFixesSorted<T>(xs: seq<T>, le: (T, T) -> bool)
    requires Sorted(xs, le)
    ensures SortBy(xs, le) == xs
  {
    if |xs| > 0 {
      var tail := xs[1..];
      assert Sorted(tail, le);
      SortFixesSorted(tail, le);
      assert |tail| == 0 || le(xs[0], tail[0]);
      assert [xs[0]] + tail == xs;
    }
  }

  lemma SortedIffFixed<T(!new)>(xs: seq<T>, le: (T, T) -> bool)
    requires TotalPreorder(le)
    ensures SortBy(xs, le) == xs <==> Sorted(xs, le)
  {
    if Sorted(xs, le) {
      SortFixesSorted(xs, le);
    }
    SortSorted(xs, le);
  }

  /** `xs[i]` is the earliest of the least elements of `xs`. */
  ghost predicate FirstMinimal<T>(xs: seq<T>, i: int, le: (T, T) -> bool) {
    0 <= i < |xs|
    && (forall j :: 0 <= j < |xs| ==> le(xs[i], xs[j]))
    && (forall j :: 0 <= j < i ==> !le(xs[j], xs[i]))
  }

  /** Stability at the head: `sorted(xs, key=...)[0]` is the earliest of the
      least elements, not just some least element. */
  lemma {:induction false} SortHeadIsFirstMinimal<T(!new)>(xs: seq<T>, le: (T, T) -> bool) returns (i: nat)
    requires TotalPreorder(le) && |xs| > 0
    ensures FirstMinimal(xs, i, le) && SortBy(xs, le)[0] == xs[i]
  {
    var rest := SortBy(xs[1..], le);
    if |xs| == 1 {
      i := 0;
    } else {
      var j := SortHeadIsFirstMinimal(xs[1..], le);
      assert rest[0] == xs[j + 1];
      if le(xs[0], rest[0]) {
        i := 0;
        forall k | 0 < k < |xs|
          ensures le(xs[0], xs[k])
        {
          assert le(rest[0], xs[1..][k - 1]);
        }
      } else {
        i := j + 1;
        assert le(rest[0], xs[0]);
        forall k | 0 < k < i
          ensures !le(xs[k], xs[i])
        {
          assert xs[k] == xs[1..][k - 1];
        }
        forall k | 0 < k < |xs|
          ensures le(xs[i], xs[k])
        {
          assert xs[k] == xs[1..][k - 1];
        }
      }
    }
  }

  /** Of two tied positions, the earlier one holds the smaller position
      number: on a list of positions, the sort kept ties in input order. */
  ghost predicate TiesAscend(xs: seq<nat>, le: (nat, nat) -> bool) {
    forall i, j :: 0 <= i < j < |xs| && le(xs[j], xs[i]) ==> xs[i] < xs[j]
  }

  lemma {:induction false} InsertTiesAscend(x: nat, ys: seq<nat>, le: (nat, nat) -> bool)
    requires TiesAscend(ys, le) && forall y :: y in ys ==> x < y
    ensures TiesAscend(Insert(x, ys, le), le)
    decreases |ys|
  {
    if |ys| == 0 || le(x, ys[0]) {
      PrependTiesAscend(x, ys, le);
    } else {
      assert forall y :: y in ys[1..] ==> y in ys;
      InsertTiesAscend(x, ys[1..], le);
      InsertPastHead(x, ys, Insert(x, ys[1..], le), le);
    }
  }

  /** `x` placed first, before larger positions, keeps ties ascending. */
  lemma PrependTiesAscend(x: nat, ys: seq<nat>, le: (nat, nat) -> bool)
    requires TiesAscend(ys, le) && forall y :: y in ys ==> x < y
    ensures TiesAscend([x] + ys, le)
  {
    var r := [x] + ys;
    forall i, j | 0 <= i < j < |r| && le(r[j], r[i]) ensures r[i] < r[j] {
      assert r[j] == ys[j - 1] && ys[j - 1] in ys;
      if i > 0 {
        assert r[i] == ys[i - 1];
      }
    }
  }

  /** `x` inserted past a head it is not before keeps ties ascending. */
  lemma InsertPastHead(x: nat, ys: seq<nat>, rest: seq<nat>, le: (nat, nat) -> bool)
    requires |ys| > 0 && !le(x, ys[0]) && TiesAscend(ys, le)
    requires TiesAscend(rest, le) && multiset(rest) == multiset(ys[1..]) + multiset{x}
    ensures TiesAscend([ys[0]] + rest, le)
  {
    var r := [ys[0]] + rest;
    forall i, j | 0 <= i < j < |r| && le(r[j], r[i]) ensures r[i] < r[j] {
      if i > 0 {
        assert r[i] == rest[i - 1] && r[j] == rest[j - 1];
      } else {
        var e := rest[j - 1];
        assert r[0] == ys[0] && r[j] == e;
        assert e in multiset(rest);
        if e != x {
          assert e in ys[1..];
          var k :| 0 <= k < |ys[1..]| && ys[1..][k] == e;
          assert ys[k + 1] == e;
        }
      }
    }
  }

  /** The sort is stable: sorting a strictly increasing list of positions
      leaves tied positions in increasing order. */
  lemma {:induction false} SortTiesAscend(xs: seq<nat>, le: (nat, nat) -> bool)
    requires forall i, j :: 0 <= i < j < |xs| ==> xs[i] < xs[j]
    ensures TiesAscend(SortBy(xs, le), le)
  {
    if |xs| > 0 {
      var rest := SortBy(xs[1..], le);
      SortTiesAscend(xs[1..], le);
      forall y | y in rest ensures xs[0] < y {
        assert y in multiset(xs[1..]);
        var k :| 0 <= k < |xs[1..]| && xs[1..][k] == y;
        assert xs[k + 1] == y;
      }
      InsertTiesAscend(xs[0], rest, le);
    }
  }
}

=== FILE: strs.dfy ===
/** The handful of Python string operations the pipelines rely on, with
    Python's semantics: `str.strip`, `str.split`, `str.join`, `startswith`,
    `endswith`, `in`, `str.replace` and the code-point ordering of `sorted`. */
module Strs {

  /** Python's `str.isspace` on one character (the characters `str.strip()`
      removes and the regular-expression class `\s` matches). */
  predicate IsSpace(c: char) {
    ('\t' <= c <= '\r') || ('\U{001C}' <= c <= ' ') || c == '\U{0085}' || c == '\U{00A0}'
    || c == '\U{1680}' || ('\U{2000}' <= c <= '\U{200A}') || c == '\U{2028}' || c == '\U{2029}'
    || c == '\U{202F}' || c == '\U{205F}' || c == '\U{3000}'
  }

  /** `s.lstrip()`: drops the leading white space. */
  function LStrip(s: string): (r: string)
    ensures |r| <= |s| && r == s[|s| - |r|..]
    ensures forall k :: 0 <= k < |s| - |r| ==> IsSpace(s[k])
    ensures |r| > 0 ==> !IsSpace(r[0])
  {
    if |s| > 0 && IsSpace(s[0]) then LStrip(s[1..]) else s
  }

  /** `s.rstrip()`: drops the trailing white space. */
  function RStrip(s: string): (r: string)
    ensures |r| <= |s| && r == s[..|r|]
    ensures forall k :: |r| <= k < |s| ==> IsSpace(s[k])
    ensures |r| > 0 ==> !IsSpace(r[|r| - 1])
  {
    if |s| > 0 && IsSpace(s[|s| - 1]) then RStrip(s[..|s| - 1]) else s
  }

  /** `s.strip()`. */
  function Strip(s: string): string {
    RStrip(LStrip(s))
  }

  /** `r` is the slice of `s` starting at `i`, with only white space
      before and after it. */
  ghost predicate TrimmedAt(s: string, i: int, r: string) {
    0 <= i && i + |r| <= |s| && r == s[i..i + |r|]
    && (forall k :: 0 <= k < i ==> IsSpace(s[k]))
    && (forall k :: i + |r| <= k < |s| ==> IsSpace(s[k]))
  }

  /** What `strip` promises: the result is the slice of `s` between its
      leading and its trailing white space. */
  lemma StripIsTrimmedSlice(s: string)
    ensures TrimmedAt(s, |s| - |LStrip(s)|, Strip(s))
  {
    var l := LStrip(s);
    TrimmedSlice(s, |s| - |l|, l, RStrip(l));
  }

  /** The result of `strip` neither starts nor ends with white space. */
  lemma StripHasNoOuterSpace(s: string)
    ensures var r := Strip(s); |r| > 0 ==> !IsSpace(r[0]) && !IsSpace(r[|r| - 1])
  {
    var l := LStrip(s);
    var r := RStrip(l);
    if |r| > 0 {
      assert r[0] == l[0];
    }
  }

  /** The slicing behind `StripIsTrimmedSlice`, stated over plain
      sequences: a prefix of a suffix is an inner slice, and what follows
      the prefix inside the suffix follows the slice inside the whole. */
  lemma TrimmedSlice(s: string, i: nat, l: string, r: string)
    requires i <= |s| && l == s[i..]
    requires forall k :: 0 <= k < i ==> IsSpace(s[k])
    requires |r| <= |l| && r == l[..|r|]
    requires forall k :: |r| <= k < |l| ==> IsSpace(l[k])
    ensures TrimmedAt(s, i, r)
  {
    forall k | i + |r| <= k < |s|
      ensures IsSpace(s[k])
    {
      assert s[k] == l[k - i];
    }
  }

  /** Stripping twice is stripping once. */
  lemma StripIdempotent(s: string)
    ensures Strip(Strip(s)) == Strip(s)
  {
    var r := Strip(s);
    if |r| > 0 {
      assert !IsSpace(r[0]) && !IsSpace(r[|r| - 1]) by { StripHasNoOuterSpace(s); }
    }
  }

  predicate AllSpace(s: string) {
    forall k :: 0 <= k < |s| ==> IsSpace(s[k])
  }

  lemma {:induction false} LStripSpaces(pad: string, s: string)
    requires AllSpace(pad)
    ensures LStrip(pad + s) == LStrip(s)
    decreases |pad|
  {
    if |pad| > 0 {
      assert (pad + s)[1..] == pad[1..] + s;
      LStripSpaces(pad[1..], s);
    } else {
      assert pad + s == s;
    }
  }

  lemma {:induction false} RStripSpaces(s: string, pad: string)
    requires AllSpace(pad)
    ensures RStrip(s + pad) == RStrip(s)
    decreases |pad|
  {
    if |pad| > 0 {
      var p := pad[..|pad| - 1];
      assert (s + pad)[..|s + pad| - 1] == s + p;
      RStripSpaces(s, p);
    } else {
      assert s + pad == s;
    }
  }

  lemma {:induction false} LStripAppend(s: string, t: string)
    ensures |LStrip(s)| > 0 ==> LStrip(s + t) == LStrip(s) + t
    ensures |LStrip(s)| == 0 ==> LStrip(s + t) == LStrip(t)
    decreases |s|
  {
    if |s| == 0 {
      assert s + t == t;
    } else if IsSpace(s[0]) {
      assert (s + t)[1..] == s[1..] + t;
      LStripAppend(s[1..], t);
    }
  }

  /** White space around a text does not change what `strip` keeps. */
  lemma StripPadded(s: string, pad1: string, pad2: string)
    requires AllSpace(pad1) && AllSpace(pad2)
    ensures Strip(pad1 + s + pad2) == Strip(s)
  {
    assert pad1 + s + pad2 == pad1 + (s + pad2);
    LStripSpaces(pad1, s + pad2);
    LStripAppend(s, pad2);
    if |LStrip(s)| > 0 {
      RStripSpaces(LStrip(s), pad2);
    } else {
      LStripSpaces(pad2, []);
      assert pad2 + [] == pad2;
    }
  }

  /** `s.startswith(p)`. */
  predicate StartsWith(s: string, p: string) {
    |p| <= |s| && s[..|p|] == p
  }

  /** `s.endswith(p)`. */
  predicate EndsWith(s: string, p: string) {
    |p| <= |s| && s[|s| - |p|..] == p
  }

  /** `sub in s`, computed by scanning. */
  predicate Contains(s: string, sub: string)
    decreases |s|
  {
    StartsWith(s, sub) || (|s| > 0 && Contains(s[1..], sub))
  }

  /** `sub in s`, by definition: some slice of `s` is `sub`. */
  ghost predicate OccursAt(s: string, sub: string, i: int) {
    0 <= i && i + |sub| <= |s| && s[i..i + |sub|] == sub
  }

  /** The scan finds an occurrence exactly when there is one. */
  lemma {:induction false} ContainsIffOccurs(s: string, sub: string)
    ensures Contains(s, sub) <==> exists i :: OccursAt(s, sub, i)
    decreases |s|
  {
    if StartsWith(s, sub) {
      assert OccursAt(s, sub, 0);
    } else if |s| > 0 {
      ContainsIffOccurs(s[1..], sub);
      if Contains(s[1..], sub) {
        var i :| OccursAt(s[1..], sub, i);
        assert s[1..][i..i + |sub|] == s[i + 1..i + 1 + |sub|];
        assert OccursAt(s, sub, i + 1);
      }
      if i :| OccursAt(s, sub, i) {
        assert i != 0;
        assert s[1..][i - 1..i - 1 + |sub|] == s[i..i + |sub|];
        assert OccursAt(s[1..], sub, i - 1);
      }
    }
  }

  /** `"".join`-style concatenation with one separator character:
      `sep.join(parts)`. */
  function Join(parts: seq<string>, sep: char): string
    requires |parts| >= 1
  {
    if |parts| == 1 then parts[0] else parts[0] + [sep] + Join(parts[1..], sep)
  }

  /** `s.split(sep)` with a one-character separator: never empty, no piece
      contains the separator, and joining the pieces gives `s` back. */
  function Split(s: string, sep: char): (r: seq<string>)
    ensures |r| >= 1
    ensures forall k :: 0 <= k < |r| ==> sep !in r[k]
    ensures Join(r, sep) == s
    ensures sep !in s ==> r == [s]
    decreases |s|
  {
    if |s| == 0 then [""]
    else if s[0] == sep then
      var rest := Split(s[1..], sep);
      assert s == [] + [sep] + s[1..];
      [""] + rest
    else
      var rest := Split(s[1..], sep);
      JoinConsFirst(rest, sep, s[0]);
      assert s == [s[0]] + s[1..];
      [[s[0]] + rest[0]] + rest[1..]
  }

  lemma JoinConsFirst(parts: seq<string>, sep: char, c: char)
    requires |parts| >= 1
    ensures Join([[c] + parts[0]] + parts[1..], sep) == [c] + Join(parts, sep)
  {
    var q := [[c] + parts[0]] + parts[1..];
    assert q[1..] == parts[1..];
  }

  /** Splitting undoes joining when no piece contains the separator. */
  lemma {:induction false} SplitJoin(parts: seq<string>, sep: char)
    requires |parts| >= 1
    requires forall k :: 0 <= k < |parts| ==> sep !in parts[k]
    ensures Split(Join(parts, sep), sep) == parts
    decreases |parts|, |parts[0]|
  {
    var p := parts[0];
    if |p| == 0 {
      if |parts| > 1 {
        var s := Join(parts, sep);
        assert s == [sep] + Join(parts[1..], sep);
        assert s[1..] == Join(parts[1..], sep);
        SplitJoin(parts[1..], sep);
        assert [""] + parts[1..] == parts;
      }
    } else {
      var tail := [p[1..]] + parts[1..];
      TailSeparatorFree(parts, sep);
      SplitJoin(tail, sep);
      JoinConsFirst(tail, sep, p[0]);
      SplitCharFirst(Join(parts, sep), sep);
      assert [p[0]] + p[1..] == p;
      assert [[p[0]] + tail[0]] + tail[1..] == parts;
    }
  }

  /** Dropping the first character of the first piece keeps every piece
      free of the separator. */
  lemma TailSeparatorFree(parts: seq<string>, sep: char)
    requires |parts| >= 1 && |parts[0]| > 0
    requires forall k :: 0 <= k < |parts| ==> sep !in parts[k]
    ensures var tail := [parts[0][1..]] + parts[1..];
      forall k :: 0 <= k < |tail| ==> sep !in tail[k]
  {
    var tail := [parts[0][1..]] + parts[1..];
    forall k | 0 <= k < |tail| ensures sep !in tail[k] {
      if k == 0 {
        assert forall c :: c in parts[0][1..] ==> c in parts[0];
      } else {
        assert tail[k] == parts[k];
      }
    }
  }

  /** A first character other than the separator starts the first piece. */
  lemma SplitCharFirst(s: string, sep: char)
    requires |s| > 0 && s[0] != sep
    ensures var rest := Split(s[1..], sep);
      Split(s, sep) == [[s[0]] + rest[0]] + rest[1..]
  {
  }

  /** `s.split(sep)[-1]`: the text after the last separator. */
  function LastSegment(s: string, sep: char): (r: string)
    ensures sep !in r
    ensures sep !in s ==> r == s
  {
    var parts := Split(s, sep);
    parts[|parts| - 1]
  }

  /** The piece after the last separator is the longest separator-free
      suffix: a suffix of `s`, preceded in `s` by a separator unless it is
      all of `s`. */
  lemma {:induction false} LastSegmentIsSuffix(s: string, sep: char)
    ensures var r := LastSegment(s, sep);
      |r| <= |s| && r == s[|s| - |r|..]
      && (|r| < |s| ==> s[|s| - |r| - 1] == sep)
    decreases |s|
  {
    if |s| > 0 {
      var t := s[1..];
      LastSegmentIsSuffix(t, sep);
      if s[0] == sep || sep in t {
        LastSegmentSkipsFirst(s, sep);
        SuffixOfTail(s, LastSegment(t, sep), sep);
      } else {
        assert sep !in s by {
          assert forall c :: c in s ==> c == s[0] || c in t;
        }
      }
    }
  }

  /** A separator-free suffix of `s[1..]` that follows a separator, or is
      all of it when `s` itself starts with one, is such a suffix of `s`. */
  lemma SuffixOfTail(s: string, r: string, sep: char)
    requires |s| > 0 && (s[0] == sep || sep in s[1..]) && sep !in r
    requires |r| <= |s| - 1 && r == s[1..][|s| - 1 - |r|..]
    requires |r| < |s| - 1 ==> s[1..][|s| - 1 - |r| - 1] == sep
    ensures r == s[|s| - |r|..] && (|r| < |s| ==> s[|s| - |r| - 1] == sep)
  {
    assert s[|s| - |r|..] == s[1..][|s| - 1 - |r|..];
    if |r| == |s| - 1 {
      assert r == s[1..];
    }
  }

  /** When the first character is a separator, or a separator follows, the
      last piece does not involve the first character. */
  lemma LastSegmentSkipsFirst(s: string, sep: char)
    requires |s| > 0 && (s[0] == sep || sep in s[1..])
    ensures LastSegment(s, sep) == LastSegment(s[1..], sep)
  {
    var rest := Split(s[1..], sep);
    if s[0] != sep {
      assert |rest| > 1;
    }
  }

  /** `s.replace(pat, rep)`: every non-overlapping occurrence of `pat`,
      scanning left to right, becomes `rep`. */
  function ReplaceAll(s: string, pat: string, rep: string): (r: string)
    requires |pat| > 0
    ensures !Contains(s, pat) ==> r == s
    decreases |s|
  {
    if |s| == 0 then s
    else if StartsWith(s, pat) then rep + ReplaceAll(s[|pat|..], pat, rep)
    else [s[0]] + ReplaceAll(s[1..], pat, rep)
  }

  /** Python's ordering of strings: lexicographic by code point, a proper
      prefix first. */
  predicate Le(a: string, b: string)
    decreases |a|
  {
    if |a| == 0 then true
    else if |b| == 0 then false
    else if a[0] != b[0] then a[0] < b[0]
    else Le(a[1..], b[1..])
  }

  lemma {:induction false} LeTotal(a: string, b: string)
    ensures Le(a, b) || Le(b, a)
    decreases |a|
  {
    if |a| > 0 && |b| > 0 && a[0] == b[0] {
      LeTotal(a[1..], b[1..]);
    }
  }

  lemma {:induction false} LeTransitive(a: string, b: string, c: string)
    requires Le(a, b) && Le(b, c)
    ensures Le(a, c)
    decreases |a|
  {
    if |a| > 0 && |b| > 0 && |c| > 0 && a[0] == b[0] && b[0] == c[0] {
      LeTransitive(a[1..], b[1..], c[1..]);
    }
  }

  lemma {:induction false} LeAntisymmetric(a: string, b: string)
    requires Le(a, b) && Le(b, a)
    ensures a == b
    decreases |a|
  {
    if |a| > 0 && |b| > 0 {
      LeAntisymmetric(a[1..], b[1..]);
      assert a == [a[0]] + a[1..] && b == [b[0]] + b[1..];
    }
  }

  /** ASCII letters folded to lower case; other characters unchanged. */
  function LowerChar(c: char): char {
    if 'A' <= c <= 'Z' then (c as int + 32) as char else c
  }

  /** `s.casefold()` restricted to ASCII letters. */
  function CaseFold(s: string): (r: string)
    ensures |r| == |s|
    ensures forall k :: 0 <= k < |s| ==> r[k] == LowerChar(s[k])
  {
    seq(|s|, k requires 0 <= k < |s| => LowerChar(s[k]))
  }
}

=== FILE: workflow_installer.dfy ===
/** The SOAR workflow installer (pipelines/response-as-code/soar/git_sync_manager.py,
    `GitSyncManager.install_workflows` and `WorkflowInstaller`): blocks are
    installed before playbooks; each workflow is skipped, updated or
    installed as new according to the installed-playbook listing and the
    modification-time cache; an update takes over the installed workflow's
    identifiers, a new workflow gets fresh ones and its category.

    The platform is a set of oracles. The remote state is summarised by
    `version`, the number of writes made so far (saves and category
    creations): a read returns what the platform holds after that many
    writes. The installer's listing of installed playbooks is read when
    first needed after each refresh; since every refresh is followed by a
    read before any write, the model reads it at the refresh itself. */
module WorkflowInstaller {
  import opened Wrappers
  import opened JsonValue
  import SoarCache
  import opened SoarSteps
  import Search

  /** A workflow from the repository: `raw` is its `raw_data`. */
  datatype Workflow = Workflow(
    name: string,
    isBlock: bool,
    environments: seq<string>,
    modificationTime: int,
    category: string,
    raw: Obj)

  /** An entry of the playbook-category listing, or a created category. */
  datatype Category = Category(id: Json, name: Json)

  /** The platform: its environments, its listings (after a given number
      of writes), `get_playbook`, `create_playbook_category` (`None` when it
      raises), a supply of fresh identifiers for `uuid4`, and the two
      constants of the platform definitions the installer uses. */
  datatype Platform = Platform(
    environmentNames: seq<string>,
    playbooks: nat -> seq<Listed>,
    getPlaybook: (nat, Json) -> Obj,
    categories: nat -> seq<Category>,
    createCategory: (nat, string) -> Option<Category>,
    instances: (nat, string) -> seq<Instance>,
    uuid: nat -> string,
    allEnvironments: string,
    blockType: Json)

  /** One `save_playbook` call: the workflow, the payload sent, and whether
      a merge conflict was reported first. */
  datatype Saved = Saved(name: string, isBlock: bool, payload: Obj, conflict: bool)

  /** The installer between two workflows: the write count, the listing by
      name, the category listing if read since its last refresh, the
      instance listings read so far, the modification-time cache, every save
      and category creation made, and the next fresh identifier. */
  datatype State = State(
    version: nat,
    listing: map<string, Listed>,
    categories: Option<map<string, Category>>,
    instances: map<string, seq<Instance>>,
    modCache: SoarCache.Cache,
    saved: seq<Saved>,
    categoryRequests: seq<string>,
    nextId: nat)

  /** Where a run ended: the state reached, and the failure that stopped
      it, if any. */
  datatype Outcome = Outcome(state: State, failure: Option<Failure>)

  // ---- Listings ----

  predicate Named(name: Json) {
    name.JStr? && name.s != ""
  }

  /** `{x.get("name"): x for x in listing if x.get("name")}`: a later entry
      with the same name replaces an earlier one. */
  function IndexByName<T(==)>(l: seq<T>, nameOf: T -> Json): (m: map<string, T>)
    ensures forall k :: k in m ==> k != "" && m[k] in l && nameOf(m[k]) == JStr(k)
    ensures forall i :: 0 <= i < |l| && Named(nameOf(l[i])) ==> nameOf(l[i]).s in m
    ensures forall i :: 0 <= i < |l| && Named(nameOf(l[i])) && (forall j :: i < j < |l| ==> nameOf(l[j]) != nameOf(l[i])) ==>
      m[nameOf(l[i]).s] == l[i]
  {
    if |l| == 0 then map[]
    else
      var init := l[..|l| - 1];
      var m := IndexByName(init, nameOf);
      var x := l[|l| - 1];
      assert forall i :: 0 <= i < |l| - 1 ==> l[i] == init[i];
      if Named(nameOf(x)) then m[nameOf(x).s := x] else m
  }

  function ListedName(x: Listed): Json {
    x.name
  }

  function CategoryName(x: Category): Json {
    x.name
  }

  /** The installed playbooks and blocks after the writes made so far. */
  function Refresh(p: Platform, s: State): (r: State)
    ensures r == s.(listing := r.listing)
    ensures forall k :: k in r.listing ==> r.listing[k] in p.playbooks(s.version) && r.listing[k].name == JStr(k)
    ensures forall x :: x in p.playbooks(s.version) && Named(x.name) ==> x.name.s in r.listing
  {
    s.(listing := IndexByName(p.playbooks(s.version), ListedName))
  }

  // ---- Skip, update or new ----

  /** `self._mod_time_cache.get(name, -1)`. */
  function CachedTime(c: SoarCache.Cache, name: string): int
    requires SoarCache.Valid(c)
  {
    SoarCache.Get(c, name).GetOr(-1)
  }

  /** `_get_local_workflow_mod_time(name, -1)`. */
  function LocalModTime(listing: map<string, Listed>, name: string): int {
    if name in listing then listing[name].modTime.GetOr(-1) else -1
  }

  function Min(a: int, b: int): int {
    if a <= b then a else b
  }

  /** `_workflow_was_modified`: the stored workflow is newer than the cache
      says. */
  predicate WasModified(s: State, w: Workflow)
    requires SoarCache.Valid(s.modCache)
  {
    w.modificationTime > CachedTime(s.modCache, w.name)
  }

  /** `_has_merge_conflicts`: both the platform copy and the stored
      workflow changed since the cached time. */
  predicate HasConflict(s: State, w: Workflow)
    requires SoarCache.Valid(s.modCache)
  {
    Min(LocalModTime(s.listing, w.name), w.modificationTime) > CachedTime(s.modCache, w.name)
  }

  /** A conflict is only ever reported on the update path. */
  lemma ConflictImpliesModified(s: State, w: Workflow)
    requires SoarCache.Valid(s.modCache) && HasConflict(s, w)
    ensures WasModified(s, w)
  {
  }

  datatype Plan = Skip | Update | New

  /** `install_workflow` and `_update_workflow_if_needed`: a workflow the
      listing holds is updated unless the cache shows it unchanged; any
      other is installed as new. */
  function Decide(s: State, w: Workflow): (p: Plan)
    requires SoarCache.Valid(s.modCache)
    ensures p == New <==> w.name !in s.listing
    ensures p == Skip <==> w.name in s.listing && w.modificationTime <= CachedTime(s.modCache, w.name)
  {
    if w.name !in s.listing then New
    else if !WasModified(s, w) then Skip
    else Update
  }

  /** A cache that indexes nothing and holds nothing pending. */
  ghost predicate FreshCache(s: State) {
    SoarCache.Valid(s.modCache) && s.modCache.keyToRow == map[] && s.modCache.newCache == []
  }

  /** Nothing is skipped while the cache holds no indexed key and nothing
      pending: every lookup falls back to -1, so any workflow with a
      non-negative modification time counts as modified. */
  lemma UnindexedCacheNeverSkips(s: State, w: Workflow)
    requires SoarCache.Valid(s.modCache)
    ensures FreshCache(s) && w.modificationTime >= 0 ==> Decide(s, w) != Skip
  {
    assert SoarCache.KeysOf([]) == {};
  }

  // ---- Identifiers ----

  function CopiedKeys(): set<string> {
    {"id", "identifier", "originalPlaybookIdentifier", "trigger", "categoryName", "categoryId"}
  }

  /** `_copy_ids_from_existing_workflow`: the identifiers, the trigger's
      `id` and `identifier`, and the category are taken from the installed
      workflow; both triggers must be dicts (a missing one counts as
      empty). */
  function CopyIds(raw: Obj, other: Obj): (r: Result<Obj, Failure>)
    ensures r.Ok? <==> GetOr(raw, "trigger", JObj(map[])).JObj? && GetOr(other, "trigger", JObj(map[])).JObj?
    ensures r.Ok? ==> (
      var t := GetOr(raw, "trigger", JObj(map[])).fields;
      var ot := GetOr(other, "trigger", JObj(map[])).fields;
      r.value.Keys == raw.Keys + CopiedKeys()
      && r.value["id"] == Get(other, "id")
      && r.value["identifier"] == Get(other, "identifier")
      && r.value["originalPlaybookIdentifier"] == Get(other, "originalPlaybookIdentifier")
      && r.value["trigger"] == JObj(t["id" := Get(ot, "id")]["identifier" := Get(ot, "identifier")])
      && r.value["categoryName"] == Get(other, "categoryName")
      && r.value["categoryId"] == Get(other, "categoryId")
      && forall k :: k in raw && k !in CopiedKeys() ==> r.value[k] == raw[k])
  {
    var trigger := GetOr(raw, "trigger", JObj(map[]));
    var otherTrigger := GetOr(other, "trigger", JObj(map[]));
    if !trigger.JObj? || !otherTrigger.JObj? then Err(Malformed(TriggerNotDict))
    else
      var t := trigger.fields["id" := Get(otherTrigger.fields, "id")]["identifier" := Get(otherTrigger.fields, "identifier")];
      Ok(raw["id" := Get(other, "id")]
            ["identifier" := Get(other, "identifier")]
            ["originalPlaybookIdentifier" := Get(other, "originalPlaybookIdentifier")]
            ["trigger" := JObj(t)]
            ["categoryName" := Get(other, "categoryName")]
            ["categoryId" := Get(other, "categoryId")])
  }

  /** Copying the identifiers twice is copying them once. */
  lemma CopyIdsIdempotent(raw: Obj, other: Obj)
    requires CopyIds(raw, other).Ok?
    ensures CopyIds(CopyIds(raw, other).value, other) == CopyIds(raw, other)
  {
    var once := CopyIds(raw, other).value;
    CopyTriggerTwice(raw, other);
    var twice := CopyIds(once, other).value;
    forall k | k in once
      ensures k in twice && twice[k] == once[k]
    {
      CopyTwiceAt(raw, other, k);
    }
    assert twice == once;
  }

  /** The trigger of a copy is still a dict, and copying its identifiers
      again leaves it as it is. */
  lemma CopyTriggerTwice(raw: Obj, other: Obj)
    requires CopyIds(raw, other).Ok?
    ensures CopyIds(CopyIds(raw, other).value, other).Ok?
    ensures var once := CopyIds(raw, other).value;
      var ot := GetOr(other, "trigger", JObj(map[])).fields;
      GetOr(once, "trigger", JObj(map[])).JObj?
      && once["trigger"].fields["id" := Get(ot, "id")]["identifier" := Get(ot, "identifier")] == once["trigger"].fields
  {
    var once := CopyIds(raw, other).value;
    var ot := GetOr(other, "trigger", JObj(map[])).fields;
    assert "trigger" in once && GetOr(once, "trigger", JObj(map[])) == once["trigger"];
    var t1 := once["trigger"].fields;
    assert t1["id"] == Get(ot, "id") && t1["identifier"] == Get(ot, "identifier");
    assert t1["id" := Get(ot, "id")]["identifier" := Get(ot, "identifier")] == t1;
  }

  /** A second copy agrees with the first at each key of the first. */
  lemma CopyTwiceAt(raw: Obj, other: Obj, k: string)
    requires CopyIds(raw, other).Ok? && k in CopyIds(raw, other).value
    ensures CopyIds(CopyIds(raw, other).value, other).Ok?
    ensures k in CopyIds(CopyIds(raw, other).value, other).value
    ensures CopyIds(CopyIds(raw, other).value, other).value[k] == CopyIds(raw, other).value[k]
  {
    CopyTriggerTwice(raw, other);
    if k != "trigger" && k !in CopiedKeys() {
      assert k in raw;
    }
  }

  // ---- New workflows ----

  /** The category listing: the cached one, or a fresh read. */
  function KnownCategories(p: Platform, s: State): map<string, Category> {
    if s.categories.Some? then s.categories.value else IndexByName(p.categories(s.version), CategoryName)
  }

  /** `create_playbook_category`: a write whether or not it succeeds; the
      category listing is dropped only after a success, and a failure falls
      back to a category with no id and the requested name. */
  function CreateCategory(p: Platform, s: State, name: string): (r: (Category, State))
    ensures r.1.version == s.version + 1 && r.1.categoryRequests == s.categoryRequests + [name]
    ensures p.createCategory(s.version, name).Some? ==> r.0 == p.createCategory(s.version, name).value && r.1.categories.None?
    ensures p.createCategory(s.version, name).None? ==> r.0 == Category(JNull, JStr(name)) && r.1.categories == s.categories
    ensures r.1.saved == s.saved && r.1.listing == s.listing && r.1.modCache == s.modCache
    ensures r.1.instances == s.instances && r.1.nextId == s.nextId
  {
    var s1 := s.(version := s.version + 1, categoryRequests := s.categoryRequests + [name]);
    match p.createCategory(s.version, name)
    case Some(c) => (c, s1.(categories := None))
    case None => (Category(JNull, JStr(name)), s1)
  }

  function NewKeys(): set<string> {
    {"identifier", "originalPlaybookIdentifier", "trigger", "categoryId", "categoryName"}
  }

  /** `_define_workflow_as_new`: a fresh identifier (also the original
      identifier), a trigger with id 0 and a fresh identifier, and the
      workflow's category, created when the listing lacks it. A trigger
      that is not a dict (a missing one counts as empty) is an error. */
  function DefineAsNew(p: Platform, s: State, w: Workflow): (r: Result<(Obj, State), Failure>)
    ensures r.Err? <==> !GetOr(w.raw, "trigger", JObj(map[])).JObj?
    ensures r.Ok? ==> (
      var (raw, s1) := r.value;
      var id := JStr(p.uuid(s.nextId));
      raw.Keys == w.raw.Keys + NewKeys()
      && raw["identifier"] == id && raw["originalPlaybookIdentifier"] == id
      && raw["trigger"] == JObj(GetOr(w.raw, "trigger", JObj(map[])).fields["id" := JInt(0)]["identifier" := JStr(p.uuid(s.nextId + 1))])
      && (forall k :: k in w.raw && k !in NewKeys() ==> raw[k] == w.raw[k])
      && s1.nextId == s.nextId + 2
      && s1.saved == s.saved && s1.listing == s.listing && s1.modCache == s.modCache && s1.instances == s.instances)
    ensures r.Ok? && w.category in KnownCategories(p, s) ==> (
      var (raw, s1) := r.value;
      var c := KnownCategories(p, s)[w.category];
      raw["categoryId"] == c.id && raw["categoryName"] == c.name
      && s1.version == s.version && s1.categoryRequests == s.categoryRequests
      && s1.categories == Some(KnownCategories(p, s)))
    ensures r.Ok? && w.category !in KnownCategories(p, s) ==> (
      var (raw, s1) := r.value;
      var c := CreateCategory(p, s, w.category).0;
      raw["categoryId"] == c.id && raw["categoryName"] == c.name
      && s1.version == s.version + 1 && s1.categoryRequests == s.categoryRequests + [w.category])
  {
    var trigger := GetOr(w.raw, "trigger", JObj(map[]));
    if !trigger.JObj? then Err(Malformed(TriggerNotDict))
    else
      var id := JStr(p.uuid(s.nextId));
      var t := trigger.fields["id" := JInt(0)]["identifier" := JStr(p.uuid(s.nextId + 1))];
      var cats := KnownCategories(p, s);
      var s1 := s.(categories := Some(cats), nextId := s.nextId + 2);
      var found := if w.category in cats then (cats[w.category], s1) else CreateCategory(p, s1, w.category);
      var raw := w.raw["identifier" := id]["originalPlaybookIdentifier" := id]["trigger" := JObj(t)]
                      ["categoryId" := found.0.id]["categoryName" := found.0.name];
      Ok((raw, found.1))
  }

  // ---- Steps ----

  /** `a` and `b` hold the same values at `keys`. */
  predicate SameAt(a: Obj, b: Obj, keys: set<string>) {
    keys <= a.Keys && keys <= b.Keys && forall k :: k in keys ==> a[k] == b[k]
  }

  /** `s1` differs from `s` at most by instance listings read and fresh
      identifiers drawn. */
  predicate OnlyReads(s: State, s1: State) {
    s1 == s.(instances := s1.instances, nextId := s1.nextId) && s1.nextId >= s.nextId
  }

  /** The step context of one workflow: its environments, the current
      listing, the instance listings as read now, and the workflow's
      identifier after its identifiers were set. */
  function StepCtx(p: Platform, s: State, w: Workflow, raw: Obj, installed: Option<Obj>, oldSteps: seq<Item>): Ctx {
    Ctx(w.environments, p.allEnvironments, p.blockType, s.listing,
        env => p.instances(s.version, env), p.uuid, Get(raw, "identifier"), installed, oldSteps)
  }

  /** `_process_steps` with a fresh identifier map; the instance listings
      read and the identifiers drawn carry over to the installer. */
  function RunSteps(p: Platform, s: State, w: Workflow, raw: Obj, installed: Option<Obj>, oldSteps: seq<Item>): (r: Result<(Obj, State), Failure>)
    ensures r.Ok? ==> (
      var (out, s1) := r.value;
      out.Keys == raw.Keys
      && (forall k :: k in raw && k != "steps" && k != "stepsRelations" ==> out[k] == raw[k])
      && OnlyReads(s, s1))
  {
    var q :- ProcessSteps(StepCtx(p, s, w, raw, installed, oldSteps), StepState(map[], s.instances, s.nextId), raw);
    Ok((q.0, s.(instances := q.1.instances, nextId := q.1.nextId)))
  }

  // ---- Updates ----

  /** The installed workflow's steps, flattened, for matching. */
  function InstalledSteps(local: Obj): Result<seq<Item>, Failure> {
    if "steps" in local then
      var top :- StepList(local["steps"]);
      Flatten(top)
    else Ok([])
  }

  /** The steps of `raw`, whose identifiers were copied from the installed
      workflow `local`, are matched against the steps of `local`. */
  function Adopt(p: Platform, s: State, w: Workflow, raw: Obj, local: Obj): (r: Result<(Obj, State), Failure>)
    requires CopiedKeys() <= raw.Keys
    ensures r.Ok? ==> OnlyReads(s, r.value.1)
    ensures r.Ok? ==> r.value.0.Keys == raw.Keys && SameAt(r.value.0, raw, CopiedKeys())
  {
    var prior :- InstalledSteps(local);
    var q := RunSteps(p, s, w, raw, Some(local), prior);
    StepKeysNotCopied();
    q
  }

  lemma StepKeysNotCopied()
    ensures "steps" !in CopiedKeys() && "stepsRelations" !in CopiedKeys()
  {
    assert "steps"[1] != "id"[1];
    assert "steps"[0] != "identifier"[0] && "steps"[0] != "originalPlaybookIdentifier"[0];
    assert "steps"[0] != "trigger"[0] && "steps"[0] != "categoryName"[0] && "steps"[0] != "categoryId"[0];
    assert "stepsRelations"[1] != "id"[1];
    assert "stepsRelations"[0] != "identifier"[0] && "stepsRelations"[0] != "originalPlaybookIdentifier"[0];
    assert "stepsRelations"[0] != "trigger"[0] && "stepsRelations"[0] != "categoryName"[0] && "stepsRelations"[0] != "categoryId"[0];
  }

  /** `_adjust_workflow_ids`: when the listing gives an identifier and the
      platform returns the installed workflow, its identifiers are copied
      and it is adopted; otherwise the workflow is left as it is. */
  function AdjustIds(p: Platform, s: State, w: Workflow): (r: Result<(Obj, State), Failure>)
    requires w.name in s.listing
    ensures !Truthy(s.listing[w.name].identifier) ==> r == Ok((w.raw, s))
    ensures Truthy(s.listing[w.name].identifier) ==> (
      var local := p.getPlaybook(s.version, s.listing[w.name].identifier);
      var copied := CopyIds(w.raw, local);
      if |local| == 0 then r == Ok((w.raw, s))
      else if copied.Err? then r.Err?
      else r == Adopt(p, s, w, copied.value, local))
  {
    var id := s.listing[w.name].identifier;
    if !Truthy(id) then Ok((w.raw, s))
    else
      var local := p.getPlaybook(s.version, id);
      if |local| == 0 then Ok((w.raw, s))
      else
        var raw :- CopyIds(w.raw, local);
        Adopt(p, s, w, raw, local)
  }

  // ---- The modification-time cache ----

  /** `_filter_and_save_context`: the cache keeps only installed names and
      is pushed to the store. */
  function FilterAndPush(c: SoarCache.Cache, listing: map<string, Listed>): (r: SoarCache.Cache)
    requires SoarCache.Valid(c)
    ensures SoarCache.Valid(r) && r.newCache == [] && r.keyToRow == c.keyToRow
    ensures SoarCache.Keys(r) <= (SoarCache.RowKeys(c.rows) * listing.Keys) + SoarCache.KeysOf(c.newCache)
  {
    var f := SoarCache.FilterItems(c, listing.Keys);
    SoarCache.FilterKeys(c, listing.Keys);
    SoarCache.PushKeys(f);
    SoarCache.Push(f)
  }

  /** `_save_workflow_mod_time_to_context`: after a save the listing is
      read again and the platform's modification time of the workflow is
      cached before filtering and pushing. */
  function SaveModTime(p: Platform, s: State, name: string): (r: State)
    requires SoarCache.Valid(s.modCache)
    ensures r.listing == IndexByName(p.playbooks(s.version), ListedName)
    ensures SoarCache.Valid(r.modCache) && r.modCache.newCache == [] && r.modCache.keyToRow == s.modCache.keyToRow
    ensures SoarCache.Keys(r.modCache) <= r.listing.Keys + {name} + SoarCache.KeysOf(s.modCache.newCache)
    ensures r == s.(listing := r.listing, modCache := r.modCache)
    ensures name !in SoarCache.RowKeys(s.modCache.rows) && name !in s.modCache.keyToRow ==>
      StoredTime(r.modCache, name, LocalModTime(r.listing, name))
    ensures s.modCache.keyToRow == map[] ==> CachedTime(r.modCache, name) == -1
  {
    var s1 := Refresh(p, s);
    var t := LocalModTime(s1.listing, name);
    var c := SoarCache.Set(s1.modCache, name, t);
    assert SoarCache.KeysOf(c.newCache) <= SoarCache.KeysOf(s.modCache.newCache) + {name};
    var f := SoarCache.FilterItems(c, s1.listing.Keys);
    SoarCache.FilterKeys(c, s1.listing.Keys);
    var r := s1.(modCache := FilterAndPush(c, s1.listing));
    SoarCache.PushedUnindexedForgets(f, name);
    if name !in SoarCache.RowKeys(s.modCache.rows) && name !in s.modCache.keyToRow then
      SoarCache.PushStoresPending(f, name, t);
      r
    else r
  }

  /** The row store holds a row that reads `name` as `t`. */
  ghost predicate StoredTime(c: SoarCache.Cache, name: string, t: int) {
    exists j :: j in c.store && SoarCache.Lookup(c.store[j], name) == Some(t)
  }

  /** `save_playbook` followed by caching the modification time. */
  function Save(p: Platform, s: State, w: Workflow, payload: Obj, conflict: bool): (r: State)
    requires SoarCache.Valid(s.modCache)
    ensures r.saved == s.saved + [Saved(w.name, w.isBlock, payload, conflict)]
    ensures r.version == s.version + 1
    ensures r.listing == IndexByName(p.playbooks(r.version), ListedName)
    ensures SoarCache.Valid(r.modCache) && r.modCache.newCache == [] && r.modCache.keyToRow == s.modCache.keyToRow
    ensures SoarCache.Keys(r.modCache) <= r.listing.Keys + {w.name} + SoarCache.KeysOf(s.modCache.newCache)
    ensures r.instances == s.instances && r.nextId == s.nextId && r.categoryRequests == s.categoryRequests
    ensures w.name !in SoarCache.RowKeys(s.modCache.rows) && w.name !in s.modCache.keyToRow ==>
      StoredTime(r.modCache, w.name, LocalModTime(r.listing, w.name))
    ensures s.modCache.keyToRow == map[] ==> CachedTime(r.modCache, w.name) == -1
  {
    SaveModTime(p, s.(version := s.version + 1, saved := s.saved + [Saved(w.name, w.isBlock, payload, conflict)]), w.name)
  }

  /** What a save leaves for the next decision on the same workflow: its
      time is written to the row store, but with nothing indexed (the
      installer's cache is never indexed) it is not read back, so a saved
      workflow still listed with an unchanged, non-negative time is updated
      again rather than skipped. */
  lemma SaveThenDecide(p: Platform, s: State, w: Workflow, payload: Obj, conflict: bool)
    requires SoarCache.Valid(s.modCache)
    ensures var r := Save(p, s, w, payload, conflict);
      s.modCache.keyToRow == map[] && w.modificationTime >= 0 && w.name in r.listing ==> Decide(r, w) == Update
  {
  }

  // ---- One workflow ----

  /** The cache stays well formed, indexes nothing new, and holds nothing
      pending if it held nothing pending before. */
  ghost predicate CacheKept(s: State, o: State) {
    SoarCache.Valid(o.modCache) && o.modCache.keyToRow == s.modCache.keyToRow
    && (s.modCache.newCache == [] ==> o.modCache.newCache == [])
  }

  /** The cache remembers only installed workflows and `name`. */
  ghost predicate Pruned(o: State, name: string)
    requires SoarCache.Valid(o.modCache)
  {
    SoarCache.Keys(o.modCache) <= o.listing.Keys + {name}
  }

  /** `install_new_workflow`: fresh identifiers and category, steps
      processed with nothing installed to match, then saved. */
  function InstallNew(p: Platform, s: State, w: Workflow): (o: Outcome)
    requires SoarCache.Valid(s.modCache)
    ensures o.failure.Some? ==> o.state.saved == s.saved && o.state.modCache == s.modCache
    ensures CacheKept(s, o.state)
    ensures o.failure.None? ==> o.state.listing == IndexByName(p.playbooks(o.state.version), ListedName)
    ensures o.failure.None? && s.modCache.newCache == [] ==> Pruned(o.state, w.name)
    ensures |o.state.saved| > |s.saved| ==> o.state.saved[|s.saved|].name == w.name && o.state.saved[|s.saved|].isBlock == w.isBlock
    ensures o.failure.None? ==> |o.state.saved| == |s.saved| + 1 && !o.state.saved[|s.saved|].conflict
    ensures s.saved <= o.state.saved
  {
    match DefineAsNew(p, s, w)
    case Err(f) => Outcome(s, Some(f))
    case Ok((raw, s1)) => SaveNew(p, s1, w, raw)
  }

  /** The rest of `install_new_workflow` once the workflow is defined as
      new: its steps processed with nothing installed to match, then saved. */
  function SaveNew(p: Platform, s: State, w: Workflow, raw: Obj): (o: Outcome)
    requires SoarCache.Valid(s.modCache)
    ensures o.failure.Some? ==> o.state.saved == s.saved && o.state.modCache == s.modCache
    ensures CacheKept(s, o.state)
    ensures o.failure.None? ==> o.state.listing == IndexByName(p.playbooks(o.state.version), ListedName)
    ensures o.failure.None? && s.modCache.newCache == [] ==> Pruned(o.state, w.name)
    ensures |o.state.saved| > |s.saved| ==> o.state.saved[|s.saved|].name == w.name && o.state.saved[|s.saved|].isBlock == w.isBlock
    ensures o.failure.None? ==> |o.state.saved| == |s.saved| + 1 && !o.state.saved[|s.saved|].conflict
    ensures s.saved <= o.state.saved
  {
    match RunSteps(p, s, w, raw, None, [])
    case Err(f) => Outcome(s, Some(f))
    case Ok((payload, s2)) =>
      SaveKeeps(p, s, s2, w, payload, false);
      Outcome(Save(p, s2, w, payload, false), None)
  }

  /** A save after steps that only read keeps the cache's rows, adds the
      workflow's record and leaves the cache pruned to the listing. */
  lemma SaveKeeps(p: Platform, s: State, s2: State, w: Workflow, payload: Obj, conflict: bool)
    requires SoarCache.Valid(s.modCache) && s2.modCache == s.modCache && s2.saved == s.saved
    ensures var r := Save(p, s2, w, payload, conflict);
      CacheKept(s, r) && r.listing == IndexByName(p.playbooks(r.version), ListedName)
      && (s.modCache.newCache == [] ==> Pruned(r, w.name))
      && |r.saved| == |s.saved| + 1 && r.saved[|s.saved|] == Saved(w.name, w.isBlock, payload, conflict)
      && s.saved <= r.saved
  {
  }

  /** `update_local_workflow`, after the conflict check: identifiers
      adjusted, then saved. */
  function UpdateLocal(p: Platform, s: State, w: Workflow, conflict: bool): (o: Outcome)
    requires SoarCache.Valid(s.modCache) && w.name in s.listing
    ensures o.failure.Some? ==> o.state == s
    ensures o.failure.None? ==> (AdjustIds(p, s, w).Ok?
      && |o.state.saved| == |s.saved| + 1
      && o.state.saved[|s.saved|] == Saved(w.name, w.isBlock, AdjustIds(p, s, w).value.0, conflict)
      && o.state.version == s.version + 1)
    ensures CacheKept(s, o.state)
    ensures o.failure.None? ==> o.state.listing == IndexByName(p.playbooks(o.state.version), ListedName)
    ensures o.failure.None? && s.modCache.newCache == [] ==> Pruned(o.state, w.name)
    ensures o.state.saved[..|s.saved|] == s.saved
  {
    var a := AdjustIds(p, s, w);
    if a.Err? then Outcome(s, Some(a.error))
    else Outcome(Save(p, a.value.1, w, a.value.0, conflict), None)
  }

  /** `install_workflow`: skip, update or install as new. */
  function InstallWorkflow(p: Platform, s: State, w: Workflow): (o: Outcome)
    requires SoarCache.Valid(s.modCache)
    ensures CacheKept(s, o.state)
    ensures s.modCache.newCache == [] && o.failure.None? ==> Pruned(o.state, w.name)
    ensures s.saved <= o.state.saved && |o.state.saved| <= |s.saved| + 1
    ensures |o.state.saved| > |s.saved| ==> o.state.saved[|s.saved|].name == w.name && o.state.saved[|s.saved|].isBlock == w.isBlock
    ensures Decide(s, w) == Skip ==> o.failure.None? && o.state.saved == s.saved && o.state.version == s.version
    ensures Decide(s, w) != Skip && o.failure.None? ==> (
      |o.state.saved| == |s.saved| + 1
      && o.state.listing == IndexByName(p.playbooks(o.state.version), ListedName))
    ensures Decide(s, w) == Update && o.failure.None? ==> o.state.saved[|s.saved|].conflict == HasConflict(s, w)
    ensures Decide(s, w) == New && o.failure.None? ==> !o.state.saved[|s.saved|].conflict
    ensures o.failure.Some? ==> o.state.saved == s.saved
    ensures FreshCache(s) && w.modificationTime >= 0 && o.failure.None? ==> |o.state.saved| == |s.saved| + 1
  {
    UnindexedCacheNeverSkips(s, w);
    if w.name !in s.listing then InstallNew(p, s, w)
    else if !WasModified(s, w) then
      var c := FilterAndPush(s.modCache, s.listing);
      assert s.modCache.newCache == [] ==> SoarCache.KeysOf(s.modCache.newCache) == {};
      Outcome(s.(modCache := c), None)
    else UpdateLocal(p, s, w, HasConflict(s, w))
  }

  // ---- A run ----

  /** What `install_workflow` promises about one workflow, whatever the
      platform answers: the cache stays well formed, earlier saves are
      kept, at most one save is added and it is of this workflow, a failure
      saves nothing, and from a fresh cache a workflow with a non-negative
      modification time is saved unless the run fails. */
  ghost predicate StepOk(s: State, w: Workflow, o: Outcome) {
    CacheKept(s, o.state)
    && s.saved <= o.state.saved && |o.state.saved| <= |s.saved| + 1
    && (|o.state.saved| > |s.saved| ==> o.state.saved[|s.saved|].name == w.name && o.state.saved[|s.saved|].isBlock == w.isBlock)
    && (o.failure.Some? ==> o.state.saved == s.saved)
    && (FreshCache(s) && w.modificationTime >= 0 && o.failure.None? ==> |o.state.saved| == |s.saved| + 1)
  }

  /** An installation step that keeps `StepOk` on every state with a well
      formed cache. */
  ghost predicate WellBehaved(step: (State, Workflow) --> Outcome) {
    forall s: State, w: Workflow :: SoarCache.Valid(s.modCache) ==> step.requires(s, w) && StepOk(s, w, step(s, w))
  }

  /** `install_workflow` of this platform, as a step. */
  function Installer(p: Platform): (State, Workflow) --> Outcome {
    (s: State, w: Workflow) requires SoarCache.Valid(s.modCache) => InstallWorkflow(p, s, w)
  }

  lemma InstallerWellBehaved(p: Platform)
    ensures WellBehaved(Installer(p))
  {
    forall s: State, w: Workflow | SoarCache.Valid(s.modCache)
      ensures Installer(p).requires(s, w) && StepOk(s, w, Installer(p)(s, w))
    {
      var o := InstallWorkflow(p, s, w);
      assert StepOk(s, w, o);
    }
  }

  /** The workflows in order, each through `step`; the first failure ends
      the run. Earlier saves are kept and each workflow adds at most one. */
  function Run(step: (State, Workflow) --> Outcome, s: State, ws: seq<Workflow>): (o: Outcome)
    requires WellBehaved(step) && SoarCache.Valid(s.modCache)
    ensures CacheKept(s, o.state)
    ensures s.saved <= o.state.saved && |o.state.saved| <= |s.saved| + |ws|
    decreases |ws|
  {
    if |ws| == 0 then Outcome(s, None)
    else
      var o1 := step(s, ws[0]);
      if o1.failure.Some? then o1 else Run(step, o1.state, ws[1..])
  }

  /** What one step saves, by name and kind. */
  function SavedTags(saved: seq<Saved>): (r: seq<(string, bool)>)
    ensures |r| == |saved| && forall i :: 0 <= i < |saved| ==> r[i] == (saved[i].name, saved[i].isBlock)
  {
    seq(|saved|, i requires 0 <= i < |saved| => (saved[i].name, saved[i].isBlock))
  }

  function WorkflowTags(ws: seq<Workflow>): (r: seq<(string, bool)>)
    ensures |r| == |ws| && forall i :: 0 <= i < |ws| ==> r[i] == (ws[i].name, ws[i].isBlock)
  {
    seq(|ws|, i requires 0 <= i < |ws| => (ws[i].name, ws[i].isBlock))
  }

  ghost predicate AllOfKind(ws: seq<Workflow>, block: bool) {
    forall i :: 0 <= i < |ws| ==> ws[i].isBlock == block
  }

  ghost predicate SavedOfKind(saved: seq<Saved>, block: bool) {
    forall i :: 0 <= i < |saved| ==> saved[i].isBlock == block
  }

  /** Every workflow carries a modification time of zero or more. */
  ghost predicate Timed(ws: seq<Workflow>) {
    forall i :: 0 <= i < |ws| ==> ws[i].modificationTime >= 0
  }

  /** A run over workflows of one kind saves only workflows of that kind. */
  lemma {:induction false} RunSavesOfKind(step: (State, Workflow) --> Outcome, s: State, ws: seq<Workflow>, block: bool)
    requires WellBehaved(step) && SoarCache.Valid(s.modCache) && AllOfKind(ws, block)
    ensures SavedOfKind(Run(step, s, ws).state.saved[|s.saved|..], block)
    decreases |ws|
  {
    if |ws| > 0 {
      var o1 := step(s, ws[0]);
      assert StepOk(s, ws[0], o1);
      if o1.failure.None? {
        assert AllOfKind(ws[1..], block);
        RunSavesOfKind(step, o1.state, ws[1..], block);
        var a := Run(step, o1.state, ws[1..]).state.saved;
        var m, n1 := |s.saved|, |o1.state.saved|;
        forall i | 0 <= i < |a| - m ensures a[m..][i].isBlock == block {
          if m + i < n1 {
            assert a[m + i] == o1.state.saved[m + i];
          } else {
            assert a[m..][i] == a[n1..][m + i - n1];
          }
        }
      }
    }
  }

  /** From a fresh cache with non-negative modification times, a run
      without failure saves every workflow exactly once, in order. */
  lemma {:induction false} FreshRunSavesEach(step: (State, Workflow) --> Outcome, s: State, ws: seq<Workflow>)
    requires WellBehaved(step) && FreshCache(s) && Timed(ws) && Run(step, s, ws).failure.None?
    ensures SavedTags(Run(step, s, ws).state.saved) == SavedTags(s.saved) + WorkflowTags(ws)
    decreases |ws|
  {
    if |ws| == 0 {
      assert WorkflowTags(ws) == [];
    } else {
      var o1 := step(s, ws[0]);
      FreshStepSavesOne(step, s, ws[0]);
      assert Timed(ws[1..]);
      FreshRunSavesEach(step, o1.state, ws[1..]);
      WorkflowTagsCons(ws);
      Search.ConcatAssoc(SavedTags(s.saved), [(ws[0].name, ws[0].isBlock)], WorkflowTags(ws[1..]));
    }
  }

  /** One step from a fresh cache, without failure, saves its workflow. */
  lemma FreshStepSavesOne(step: (State, Workflow) --> Outcome, s: State, w: Workflow)
    requires WellBehaved(step) && FreshCache(s) && w.modificationTime >= 0
    requires step(s, w).failure.None?
    ensures FreshCache(step(s, w).state)
    ensures SavedTags(step(s, w).state.saved) == SavedTags(s.saved) + [(w.name, w.isBlock)]
  {
    var o := step(s, w);
    assert StepOk(s, w, o);
    assert o.state.saved == s.saved + [o.state.saved[|s.saved|]];
  }

  lemma WorkflowTagsCons(ws: seq<Workflow>)
    requires |ws| > 0
    ensures WorkflowTags(ws) == [(ws[0].name, ws[0].isBlock)] + WorkflowTags(ws[1..])
  {
  }

  /** The first workflow assigned to an environment the platform lacks. */
  function FirstUnknown(ws: seq<Workflow>, envs: seq<string>): (r: Option<Workflow>)
    ensures r.None? <==> forall i, e :: 0 <= i < |ws| && e in ws[i].environments ==> e in envs
    ensures r.Some? ==> r.value in ws && exists e :: e in r.value.environments && e !in envs
  {
    if |ws| == 0 then None
    else if forall e :: e in ws[0].environments ==> e in envs then
      var r := FirstUnknown(ws[1..], envs);
      assert forall i :: 1 <= i < |ws| ==> ws[i] == ws[1..][i - 1];
      r
    else Some(ws[0])
  }

  /** The blocks, or the playbooks, of `ws` in their order. */
  function OfKind(ws: seq<Workflow>, block: bool): (r: seq<Workflow>)
    ensures AllOfKind(r, block) && |r| <= |ws|
    ensures Timed(ws) ==> Timed(r)
    ensures forall w :: w in r ==> w in ws
    ensures forall i :: 0 <= i < |ws| && ws[i].isBlock == block ==> ws[i] in r
  {
    if |ws| == 0 then []
    else
      var rest := OfKind(ws[1..], block);
      assert forall i :: 1 <= i < |ws| ==> ws[i] == ws[1..][i - 1];
      (if ws[0].isBlock == block then [ws[0]] else []) + rest
  }

  /** Every workflow is a block or a playbook: together the two kinds are
      as many as the workflows. */
  lemma {:induction false} OfKindPartition(ws: seq<Workflow>)
    ensures |OfKind(ws, true)| + |OfKind(ws, false)| == |ws|
  {
    if |ws| > 0 {
      OfKindPartition(ws[1..]);
    }
  }

  /** The installer before the first workflow: no writes, the listing as
      it is, and an empty modification-time cache (the saved context is
      never found). */
  function Initial(p: Platform): (s: State)
    ensures FreshCache(s) && s.saved == [] && s.version == 0
  {
    State(0, IndexByName(p.playbooks(0), ListedName), None, map[], SoarCache.Init([]), [], [], 0)
  }

  /** Each block is saved before any playbook. */
  ghost predicate BlocksFirst(saved: seq<Saved>) {
    forall i, j :: 0 <= i < j < |saved| && saved[j].isBlock ==> saved[i].isBlock
  }

  /** The blocks pass, a fresh read of the listing, and the playbooks
      pass, each workflow through `step`. */
  function Passes(step: (State, Workflow) --> Outcome, p: Platform, ws: seq<Workflow>): (o: Outcome)
    requires WellBehaved(step)
    ensures BlocksFirst(o.state.saved)
    ensures |o.state.saved| <= |ws|
    ensures FreshCache(o.state)
  {
    var s0 := Initial(p);
    var blocks := OfKind(ws, true);
    var playbooks := OfKind(ws, false);
    OfKindPartition(ws);
    var o1 := Run(step, s0, blocks);
    RunSavesOfKind(step, s0, blocks, true);
    assert SavedOfKind(o1.state.saved, true) by { assert o1.state.saved == o1.state.saved[0..]; }
    if o1.failure.Some? then o1
    else
      var s1 := Refresh(p, o1.state);
      var o := Run(step, s1, playbooks);
      RunSavesOfKind(step, s1, playbooks, false);
      assert forall i :: 0 <= i < |o1.state.saved| ==> o.state.saved[i] == o1.state.saved[i];
      assert forall i :: |o1.state.saved| <= i < |o.state.saved| ==> o.state.saved[i] == o.state.saved[|o1.state.saved|..][i - |o1.state.saved|];
      o
  }

  /** With non-negative modification times, passes without failure save
      every block and then every playbook, each once, in their order. */
  lemma PassesSaveEach(step: (State, Workflow) --> Outcome, p: Platform, ws: seq<Workflow>)
    requires WellBehaved(step) && Timed(ws) && Passes(step, p, ws).failure.None?
    ensures SavedTags(Passes(step, p, ws).state.saved) == WorkflowTags(OfKind(ws, true) + OfKind(ws, false))
  {
    var blocks := OfKind(ws, true);
    var playbooks := OfKind(ws, false);
    var s0 := Initial(p);
    var o1 := Run(step, s0, blocks);
    assert o1.failure.None?;
    FreshRunSavesEach(step, s0, blocks);
    var s1 := Refresh(p, o1.state);
    assert FreshCache(s1);
    FreshRunSavesEach(step, s1, playbooks);
    var o := Run(step, s1, playbooks);
    assert Passes(step, p, ws) == o;
    assert SavedTags(s0.saved) == [];
    assert SavedTags(o1.state.saved) == WorkflowTags(blocks);
    WorkflowTagsAppend(blocks, playbooks);
  }

  lemma WorkflowTagsAppend(a: seq<Workflow>, b: seq<Workflow>)
    ensures WorkflowTags(a + b) == WorkflowTags(a) + WorkflowTags(b)
  {
  }

  /** `GitSyncManager.install_workflows`: every environment a workflow names
      must exist (or be the all-environments identifier) before anything is
      written; then the blocks are installed, the listing is read again,
      and the playbooks are installed. */
  function InstallWorkflows(p: Platform, ws: seq<Workflow>): (o: Outcome)
    ensures var bad := FirstUnknown(ws, p.environmentNames + [p.allEnvironments]);
      bad.Some? ==> o == Outcome(Initial(p), Some(UnknownEnvironment(bad.value.name)))
    ensures var bad := FirstUnknown(ws, p.environmentNames + [p.allEnvironments]);
      bad.None? ==> o == Passes(Installer(p), p, ws)
    ensures BlocksFirst(o.state.saved) && |o.state.saved| <= |ws|
  {
    var bad := FirstUnknown(ws, p.environmentNames + [p.allEnvironments]);
    if bad.Some? then Outcome(Initial(p), Some(UnknownEnvironment(bad.value.name)))
    else InstallerWellBehaved(p); Passes(Installer(p), p, ws)
  }

  /** With non-negative modification times, a run without failure saves
      every block and then every playbook, each once, in their order:
      nothing is skipped as unchanged within a run. */
  lemma RunSavesEach(p: Platform, ws: seq<Workflow>)
    requires Timed(ws) && InstallWorkflows(p, ws).failure.None?
    ensures SavedTags(InstallWorkflows(p, ws).state.saved) == WorkflowTags(OfKind(ws, true) + OfKind(ws, false))
  {
    InstallerWellBehaved(p);
    PassesSaveEach(Installer(p), p, ws);
  }
}

=== FILE: wrappers.dfy ===
/** Failure-compatible Option and Result datatypes shared by every module. */
module Wrappers {

  /** An optional value; Python's `None` becomes `None`. */
  datatype Option<+T> = None | Some(value: T) {

    predicate IsFailure() {
      None?
    }

    function PropagateFailure<U>(): Option<U>
      requires None?
    {
      None
    }

    function Extract(): T
      requires Some?
    {
      value
    }

    /** Python's `d.get(k, default)` once the lookup has been made. */
    function GetOr(default: T): T {
      match this
      case Some(v) => v
      case None => default
    }
  }

  /** A value or the error that ended the computation (a raised exception). */
  datatype Result<+T, +E> = Ok(value: T) | Err(error: E) {

    predicate IsFailure() {
      Err?
    }

    function PropagateFailure<U>(): Result<U, E>
      requires Err?
    {
      Err(error)
    }

    function Extract(): T
      requires Ok?
    {
      value
    }
  }

  /** Which program a command built on a defective step models: the code
      as it is written, or the code with that step corrected. */
  datatype Reading = AsWritten | Corrected
}
